=== FILE: README.md ===
# A verified model of the Roblox tutorial scrape pipeline

This project models the core of a set of Python scrapers that collect
Roblox tutorial material: YouTube videos with their transcripts, and
DevForum topics. The models cover:

- the single-machine bulk YouTube scraper, with its resumable ledger
  (`scraped_ids`, `queries_completed`, counters, a checkpoint every 100
  videos) and per-worker request spacing;
- the Azure job producer, which expands its queries and enqueues one
  message per qualifying video;
- the Azure queue worker, which receives, processes, uploads and deletes
  messages while counting successes and errors until it is told to stop;
- the DevForum HTTP client, with its retry and rate-limit policy;
- the resumable DevForum scraper, with its `scraped_topics` ledger;
- the pain-point analyzer: question-type rules, keyword extraction, HTML
  cleanup and engagement ranking;
- the simple YouTube scraper, with its search filter, cross-query dedup
  and export aggregates.

Every external service is a parameter of the model:

| service | modelled as |
|---|---|
| yt-dlp | its output lines, or a failure |
| the transcript API | a `TranscriptFetch` value |
| HTTP | one `Attempt` per try |
| the Azure queue and blob store | maps inside the worker |
| the clock | integer milliseconds |
| `html.unescape` | an uninterpreted function |

Module layout, one file each:

| module | models |
|---|---|
| `Common` | JSON fields as `dict.get` sees them, Python's slice, substring search, decimal numbers, the blob key |
| `Text` | the regular-expression filters and the transcript cleanup |
| `Sorting` | `sorted(..., reverse=True)`, list filters, `Counter` and `most_common` |
| `YouTube` | `youtube_scraper.py`, plus the search-output and transcript vocabulary shared with the other YouTube code |
| `BulkScraper` | `youtube_bulk_scraper.py` |
| `Worker` | `azure/worker.py` |
| `QueueJobs` | `azure/queue_jobs.py` |
| `Client` | `scraper/client.py` |
| `ForumScraper` | `scraper/scraper.py` |
| `Analyzer` | `analyzer.py` |

Where the code and its documentation disagree, the model follows the code:

- `failed_ids` is created in the bulk ledger but never appended to.
- `get` makes `max_retries` attempts, not `max_retries + 1`.
- A 200 response whose body is not JSON raises `requests.JSONDecodeError`. That is a `RequestException`, so it is retried with backoff.
- The `resume` flag of the forum `scrape` is ignored.

## Model

| member | source | states |
|---|---|---|
| Common.Prefix | azure/worker.py:109 | Python's `s[:n]`: a prefix of `s`, of length `min(n, len(s))` for `n >= 0` and `len(s) + n` (at least 0) for negative `n` |
| Common.Lower | analyzer.py:39 | `str.lower()` on ASCII: same length, each character lower-cased |
| Common.LowerIdempotent | analyzer.py:39 | lower-casing twice gives the same as once |
| Common.ContainsAt | analyzer.py:41 | Python's `p in s` holds exactly when `p` occurs at some index of `s` |
| Common.IntRoundTrip | azure/worker.py:35 | `int(str(i)) == i` for every integer |
| Common.IntRoundTripPadded | scraper/client.py:44 | `int()` reads back what `str` wrote when ignored whitespace surrounds it |
| Common.StripPadded | azure/worker.py:35 | the whitespace `int()` ignores is removed from both ends and nothing else is |
| Common.UnderscoreBetweenDigits | azure/worker.py:35 | one underscore between two digit groups is accepted and does not change the value |
| Common.ParseIntRejectsUnderscores | azure/worker.py:35 | an underscore at either end of the digits, or two in a row, makes `int()` fail |
| Common.ParseIntRejectsBlanks | azure/worker.py:35 | a space between sign and digits, an empty text and a blank text make `int()` fail |
| Common.NextStart | scraper/client.py:26-29 | a request may start no earlier than now and no earlier than `interval` after the previous one; it starts now or exactly when the interval ends |
| Common.WatchUrl | azure/worker.py:110 | the watch url is the fixed prefix followed by the video id, so the id can be read back from it |
| Common.VideoKeyInjective | azure/worker.py:124 | two different video ids never share the key `videos/<id[:2]>/<id>.json` |
| Text.TrimStart | azure/worker.py:67 | the left half of `.strip()`: a suffix of the input that does not start with whitespace |
| Text.TrimEnd | azure/worker.py:67 | the right half of `.strip()`: a prefix of the input that does not end with whitespace |
| Text.SquashSingleSpaced | azure/worker.py:67 | after `re.sub(r"\s+", " ", s)` the only whitespace is single blanks, never two in a row |
| Text.SquashKeepsText | azure/worker.py:67 | the substitution keeps every non-whitespace character, in order |
| Text.CollapseSpec | azure/worker.py:67 | `re.sub(r"\s+", " ", s).strip()` has no leading or trailing whitespace and no two whitespace characters in a row, and keeps every non-whitespace character in order; it is the words of `s` (`s.split()`) joined by single blanks, and splitting it again gives exactly those words, so none is merged with its neighbour or cut in two |
| Text.CollapseWords | azure/worker.py:67 | collapsing whitespace and stripping equals `" ".join(s.split())` |
| Text.CollapseFixes | azure/worker.py:67 | text already in that form is left unchanged |
| Text.CollapseIdempotent | azure/worker.py:67 | collapsing whitespace twice gives the same as once (this step alone, not the whole transcript cleanup) |
| Text.FindClose | azure/worker.py:66 | the lazy `.*?\]` stops at a "]" with no newline before it |
| Text.RemoveBracketedComplete | azure/worker.py:66 | after `re.sub(r"\[.*?\]", "", s)` no "[" is followed by a "]" on the same line |
| Text.RemoveBracketedNoOpen | azure/worker.py:66 | text without "[" is left unchanged |
| Text.FindGt | analyzer.py:31 | the tag's end is the first ">", or there is none |
| Text.StripTags | analyzer.py:31 | after `re.sub(r"<[^>]+>", " ", s)` every character is a blank or a character of the input |
| Text.StripTagsComplete | analyzer.py:31 | no `<...>` tag is left |
| Text.StripTagsNoOpen | analyzer.py:31 | text without "<" is left unchanged |
| Text.CleanTranscript | youtube_scraper.py:95-99 | the cleaned transcript has no leading, trailing or doubled whitespace, and its non-whitespace characters are those of the blank-joined segments with bracketed notes removed; it is the words of that text joined by single blanks, and has exactly those words |
| Sorting.SelectSpec | analyzer.py:156 | a list-comprehension filter keeps exactly the elements that pass, each as often as in the input |
| Sorting.SortDescSpec | analyzer.py:155-159 | `sorted(key, reverse=True)` is ordered by descending key, is a permutation of its input, and is stable (equal keys keep their order) |
| Sorting.TallySpec | analyzer.py:146 | `Counter(xs)`: distinct keys, exactly the elements of `xs`, each with its number of occurrences; the counts sum to `len(xs)` |
| Sorting.TallyEntries | analyzer.py:151 | every counter entry is an element of the input with its multiplicity, which is positive |
| Sorting.MostCommonSpec | analyzer.py:146 | `most_common(n)`: `min(n, len)` entries (none for `n <= 0`), taken from the counter, by descending count, no key twice, and no entry left out counts more than any entry kept |
| Sorting.MostCommonOfSeq | analyzer.py:146 | the same for `Counter(xs).most_common(n)`, in terms of the multiplicities in `xs` |
| Sorting.SortedPrefixSpec | youtube_scraper.py:75-76 | sorting by descending key and cutting to `m` gives an ordered selection of the input, at most `m` long, all of it when it fits, and nothing left out has a larger key than anything kept |
| YouTube.SearchTargetCount | youtube_scraper.py:53 | the search target asks for `2 * max_results` candidates for the query |
| YouTube.KeptSpec | youtube_scraper.py:65-72 | the kept entries are exactly the JSON objects of the output with `view_count >= min_views`, a missing count read as 0 |
| YouTube.KeptStep | youtube_scraper.py:62-72 | one more output line extends the kept list by that line's entry exactly when it is an object with enough views, and the loop aborts there exactly when it aborted before or that line aborts it |
| YouTube.SearchResultSpec | youtube_scraper.py:60-83 | a timeout or failure gives []; otherwise at most `max_results` entries, all kept ones when they fit, sorted by descending views, and none left out has more views than one returned |
| YouTube.SearchVideos | youtube_scraper.py:42-83 | the search method's line loop computes exactly the search result above |
| YouTube.TranscriptOf | youtube_scraper.py:85-107 | a fetched transcript gives its segments and the cleaned text; any failure gives "" and no segments |
| YouTube.TranscriptAndErrorSpec | azure/worker.py:60-72 | success gives the cleaned text and no error; a disabled or missing transcript gives ("", "no_transcript"); another failure gives "" and the message's first `errorLength` characters (all of it when shorter) |
| YouTube.ScrapeVideoSpec | youtube_scraper.py:109-133 | no video for an empty id, an error for a null title, otherwise a record with that id, its watch url, a description that is the first 500 characters of the description (all of it when shorter), the view count, the uploader as the fallback channel, and the cleaned transcript |
| YouTube.RunIdsDistinct | youtube_scraper.py:152-163 | across all queries no video id is returned twice, and none that was seen before |
| YouTube.RunDistinct | youtube_scraper.py:159-163 | each id is processed at most once, and is marked seen even when the video has no transcript |
| YouTube.RunSound | youtube_scraper.py:165-168 | every returned video has a transcript and is the record of the first candidate with its id |
| YouTube.RunComplete | youtube_scraper.py:154-172 | a run that did not raise marked every unseen id as seen and returned every first candidate that has a transcript |
| YouTube.RunCrash | youtube_scraper.py:115 | the run raises exactly when the first candidate of some unseen id has a null title |
| YouTube.SavePathInjective | youtube_scraper.py:137-139 | different video ids are saved under different paths |
| YouTube.SaveAllSpec | youtube_scraper.py:135-142 | after saving distinct videos, each path holds its video and every other file is unchanged |
| YouTube.ScrapeSaved | youtube_scraper.py:165-168 | every video a scrape returns is saved under its own path |
| YouTube.YouTubeScraper.constructor | youtube_scraper.py:38-40 | the scraper starts over the files already in its directory |
| YouTube.YouTubeScraper.SaveVideo | youtube_scraper.py:135-142 | the video's file is written at `<id>.json` and nothing else changes |
| YouTube.YouTubeScraper.ScrapeOne | youtube_scraper.py:159-168 | one result: a seen id is skipped; otherwise it is marked seen, a null title raises, and a video with a transcript is saved and kept; the run from here on is unchanged |
| YouTube.YouTubeScraper.ScrapeResults | youtube_scraper.py:157-168 | the loop over one query's results reaches the same run, stopping when a null title raises |
| YouTube.YouTubeScraper.Scrape | youtube_scraper.py:144-173 | returns the run's videos, or nothing when it raised, and saves exactly those videos |
| YouTube.YouTubeScraper.ExportAnalysis | youtube_scraper.py:175-227 | the video count and the total views, the top 30 keywords, and the rows sorted by descending views, whose views add up to the total |
| YouTube.CountOccContains | youtube_scraper.py:203-204 | `text.count(term)` is positive exactly when the term occurs |
| YouTube.CountOccFits | youtube_scraper.py:203 | non-overlapping occurrences fit in the text: count times length is at most the text's length |
| YouTube.OccurrencesSpec | youtube_scraper.py:200-205 | a term has occurrences exactly when it occurs in some lower-cased transcript |
| YouTube.CountTermsSpec | youtube_scraper.py:202-205 | the counter loop for one transcript adds each term's occurrence count, once per listing of the term |
| YouTube.KeywordCountsSpec | youtube_scraper.py:199-205 | the keyword counter holds each term with its total occurrence count, only terms that occur, none twice |
| YouTube.KeywordCountsEntries | youtube_scraper.py:202-205 | every counter entry is a listed term that occurs, and every listed term that occurs has an entry |
| YouTube.TopKeywordsSpec | youtube_scraper.py:210 | at most `n` keywords, by descending count, none twice, each with its count, and no term left out counts more than one kept |
| YouTube.TopKeywordsDominate | youtube_scraper.py:202-210 | a listed term left out of the top keywords never has more occurrences (times its listings) than a keyword kept |
| YouTube.RowOfSpec | youtube_scraper.py:212-218 | the transcript preview is the first 500 characters of the transcript, all of it when shorter |
| YouTube.SumViewsSorted | youtube_scraper.py:209 | sorting the videos does not change the sum of their views |
| YouTube.ExportRowsSpec | youtube_scraper.py:211-220 | one row per video, by descending views, exactly the rows of the videos, with the same total views |
| YouTube.RowsSorted | youtube_scraper.py:211-220 | rows of videos ordered by descending views are themselves ordered by descending views |
| YouTube.RowsOfPermutation | youtube_scraper.py:211-220 | reordering the videos neither adds nor loses a row: every video has its row and every row comes from a video |
| BulkScraper.Tagged | youtube_bulk_scraper.py:180 | each search result carries the query that found it |
| BulkScraper.SearchSpec | youtube_bulk_scraper.py:160-187 | a failed search gives []; otherwise exactly the objects with enough views, each tagged with the query |
| BulkScraper.SearchTagged | youtube_bulk_scraper.py:180 | whatever the search returns, every result carries its own query |
| BulkScraper.RecordSpec | youtube_bulk_scraper.py:224-235 | the record has the video id, its watch url, the query and the time; the transcript and error are `TranscriptAndError` of the fetch: the cleaned transcript and no error, "no_transcript" without a transcript, or the first 100 characters of a failure's message (all of it when shorter); a non-empty transcript means no error; missing views read as 0 |
| BulkScraper.WorkerKeyInjective | youtube_bulk_scraper.py:213 | different worker numbers have different rate-limit keys |
| BulkScraper.RecordAsWrittenVsCorrected | youtube_bulk_scraper.py:240-248 | recording a video as written and with the corrected flush give the same ledger; as written the worker blocks exactly when the total reaches a multiple of 100 and the state file is left as it was, while the corrected one writes the new ledger there |
| BulkScraper.ProcessAsWrittenBlocks | youtube_bulk_scraper.py:240-248 | as written, a run with at least as many videos as the total is short of the next multiple of 100 blocks at that multiple, with the state file as before the run |
| BulkScraper.FreshRunNeverSaves | youtube_bulk_scraper.py:142-156 | as written, a run from a fresh ledger with no state file and 100 videos or more blocks at the 100th video and never writes the state file |
| BulkScraper.Records | youtube_bulk_scraper.py:319-325 | one record per collected video, in order |
| BulkScraper.ProcessCorrectedNext | youtube_bulk_scraper.py:319-325 | one more video of a run is one more corrected recording |
| BulkScraper.ProcessCorrectedLedger | youtube_bulk_scraper.py:240-246 | with the corrected flush no worker blocks, `total_scraped` rises by the number of videos, and the ledger gains their ids in order |
| BulkScraper.LastCheckpointNext | youtube_bulk_scraper.py:247 | one more video moves the last checkpoint to the new total exactly when it is a multiple of 100 |
| BulkScraper.ProcessCorrectedFile | youtube_bulk_scraper.py:247-248 | with the corrected flush a run that passes no multiple of 100 leaves the state file alone; otherwise the state file holds the ledger as it was when the total reached the last multiple of 100 passed |
| BulkScraper.FreshSpec | youtube_bulk_scraper.py:274-278 | the videos kept from one search have a non-empty, unseen id, no id twice, and every such id is kept |
| BulkScraper.KeepFresh | youtube_bulk_scraper.py:274-278 | the loop appends exactly those videos and adds their ids to the seen set |
| BulkScraper.CollectStep | youtube_bulk_scraper.py:268-280 | one more searched query keeps the collection sound (only new, distinct, ledger-free ids from searched queries) and complete |
| BulkScraper.SoundPrefix | youtube_bulk_scraper.py:289 | cutting the collection to the target keeps it sound |
| BulkScraper.Collect | youtube_bulk_scraper.py:261-289 | at most the target count, sound; skips completed queries and records each searched query once; short of the target, every query was searched and the collection is complete |
| BulkScraper.ExpandQueries | youtube_bulk_scraper.py:293-305 | the default queries when none are given; past `len(queries) * 50` each query is followed by its " 2024", " 2025", " beginner" and " advanced" variants, otherwise the list is unchanged |
| BulkScraper.BulkYouTubeScraper.constructor | youtube_bulk_scraper.py:142-153 | a saved state is loaded as is; without one the ledger lists are empty and the counters zero |
| BulkScraper.BulkYouTubeScraper.CollectVideoUrls | youtube_bulk_scraper.py:261-289 | as Collect, recording the searched queries in the ledger and changing nothing else |
| BulkScraper.BulkYouTubeScraper.Scrape | youtube_bulk_scraper.py:291-341 | with the checkpoint flush corrected (see Findings): the query list searched is the expansion of the queries (`ExpandedFrom`); the queries searched are distinct, taken from that list and not completed before, and are added to the completed ones; the collection is sound, and short of the target every query of the list is completed and the collection complete; the ledger gains exactly the collected ids; success and transcript counts match the counters; no ledger id twice; every ledger id has a saved file; the video files are the old ones with each collected video's record saved at its path (`SavedFiles`); every worker has taken its turn for its videos (`Turns`); the state is flushed when anything was processed |
| BulkScraper.BulkYouTubeScraper.ExpandAndCollect | youtube_bulk_scraper.py:293-308 | the query list is the expansion of the queries; the collection from it is sound, at most the target, and short of the target complete with every query of the list completed; only the completed queries of the ledger change |
| BulkScraper.BulkYouTubeScraper.ProcessCollected | youtube_bulk_scraper.py:310-341 | nothing changes when nothing was collected; otherwise every collected video is processed as `ProcessAll` states and the state file is then written |
| BulkScraper.BulkYouTubeScraper.ProcessAll | youtube_bulk_scraper.py:319-339 | processing the collected videos one by one records every one of them in order; the ledger and the state file end as the corrected recording of their records leaves them (`ProcessCorrected`); the video files end as their records saved in order over the old files (`SavedFiles`); the request times end as the turns of video `i` on worker `i % max_workers` (`Turns`) |
| BulkScraper.BulkYouTubeScraper.ProcessNext | youtube_bulk_scraper.py:319-339 | one turn of the processing loop moves the account of the run (`RunAccount`: ledger, counters, kept invariants, state file, video files and request times) on by one video |
| BulkScraper.BulkYouTubeScraper.ProcessOne | youtube_bulk_scraper.py:203-250 | one collected video not yet in the ledger enters it; `total_scraped` rises by one and `total_with_transcript` by one exactly when a transcript was found; the searched queries are unchanged; every ledger id keeps a saved file and no id appears twice; ledger and state file move on as `RecordCorrected` of its record; its record is written at its path and nothing else among the files changes; its worker's request time moves on as `Turn` gives and no other worker's changes |
| BulkScraper.SavedFilesSpec | youtube_bulk_scraper.py:237-238 | saving records in order adds exactly their paths to the files, leaves every other path's contents alone, and leaves at a record's path that record unless a later one has the same id |
| BulkScraper.TurnStep | youtube_bulk_scraper.py:212-218 | a worker's turn records its key, leaves every other worker's time alone, and never moves its time back nor before the clock |
| BulkScraper.TurnsSpec | youtube_bulk_scraper.py:212-218 | over a run, exactly the workers used gain a request time, other keys keep theirs, and each video's worker ends with a time no earlier than that video's clock reading |
| BulkScraper.RunAccountNext | youtube_bulk_scraper.py:319-339 | processing one more video as `ProcessOne` does keeps the run's account, now counting that video |
| BulkScraper.BulkYouTubeScraper.ProcessVideo | youtube_bulk_scraper.py:203-250 | a ledger id is skipped with nothing changed; a null id raises with nothing saved (a missing one reads as "" and is processed); otherwise the record is saved, then the ledger gains the id, `total_scraped` rises by one and `total_with_transcript` by one exactly when the transcript is non-empty, with a flush exactly at multiples of 100 (the corrected flush, see Findings) |
| BulkScraper.BulkYouTubeScraper.WaitForTurn | youtube_bulk_scraper.py:212-219 | the worker's request time is the first moment at least 0.5 s after its previous one, and never before now |
| BulkScraper.BulkYouTubeScraper.SaveVideo | youtube_bulk_scraper.py:237-248 | the file is written at `videos/<id[:2]>/<id>.json` before the id enters the ledger; the counters rise; ledger and state file move on as `RecordCorrected`: a flush at multiples of 100, done without taking the lock again (see Findings) |
| Worker.ConfigureSpec | azure/worker.py:26-35 | refused exactly when `STORAGE_CONNECTION` is missing or empty; started exactly when it is set and `BATCH_SIZE` (if set) is a number; every other setting is its variable or its default |
| Worker.ConfigureBatchSize | azure/worker.py:35 | a `BATCH_SIZE` written as a number gives exactly that batch size |
| Worker.ProcessJobSpec | azure/worker.py:91-119 | the result has the job's id and query, the watch url, `transcript_length == len(transcript)`, the transcript and error of `TranscriptAndError` with the error cut to its first 200 characters (all of it when shorter), a description that is the reported one's first 500 characters (all of it when shorter), and "" fields and 0 views without metadata |
| Worker.HandleSpec | azure/worker.py:150-170 | each message adds exactly one to `processed` or to `errors`; it is deleted exactly when it counted as processed, and only after its result was stored under its key |
| Worker.HandleSound | azure/worker.py:152-158 | a handled message is deleted only when its stored result is in place |
| Worker.HandleAsWrittenDiffers | azure/worker.py:160-169 | the code as written differs from the intended handling exactly for a deleted message with a transcript but no view count |
| Worker.LogLineDoubleCounts | azure/worker.py:163-169 | a job whose metadata has a null view count and whose transcript is non-empty is counted both as processed and as an error |
| Worker.LogLineDoubleCountsSample | azure/worker.py:163-169 | the same for one concrete transcript |
| Worker.PickVisible | azure/worker.py:140-143 | a receive returns distinct visible messages, at most the page size, and all visible ones when the page is not full |
| Worker.StoredKept | azure/worker.py:124-130 | overwriting a key keeps every other job's stored result |
| Worker.ProgressedApply | azure/worker.py:146-173 | handling one message keeps the loop invariant: the queue only shrinks, every deleted job's result is stored, `processed` counts the deletions and `processed + errors` the messages handled |
| Worker.QueueWorker.constructor | azure/worker.py:26-54 | the worker starts running with zero counters and its configured id and batch size |
| Worker.QueueWorker.Shutdown | azure/worker.py:56-58 | the signal handler clears `running` and changes nothing else |
| Worker.QueueWorker.NoteSignal | azure/worker.py:147-148 | `running` is cleared once the signal time is reached |
| Worker.QueueWorker.Receive | azure/worker.py:139-143 | a successful receive leases up to `batch_size` visible messages for 300 s; a failed one changes nothing |
| Worker.QueueWorker.UploadResult | azure/worker.py:121-130 | the result replaces whatever was stored under its key and nothing else changes |
| Worker.QueueWorker.HandleMessage | azure/worker.py:150-170 | the state changes as the intended handling says; a message that was not deleted stays in the queue |
| Worker.QueueWorker.NextPage | azure/worker.py:140-143 | a fetched page is duplicate-free and all its messages are still queued; the loop invariant holds on; no job is counted |
| Worker.QueueWorker.NextMessage | azure/worker.py:140-146 | the iteration moves to the page's next message, fetching a new page when this one is used up; a failed or empty fetch leaves the position unchanged; no job is counted |
| Worker.QueueWorker.Advance | azure/worker.py:146-173 | one iteration: a failed or empty fetch, or the signal, ends the pass without handling a message or taking time; otherwise one message is handled while running and before the signal, and the clock advances by the pause; `processed` rises by one exactly when the message succeeded |
| Worker.QueueWorker.Step | azure/worker.py:146-173 | one message plus the 0.5 s pause keeps the loop invariant; the message leaves the queue, and `processed` rises by one, exactly when it succeeded |
| Worker.QueueWorker.Drain | azure/worker.py:140-173 | one batch keeps the loop invariant; `batch_count` is exactly how far `processed` rose; time advances when anything was completed |
| Worker.QueueWorker.Pass | azure/worker.py:139-182 | after draining a batch the worker sleeps 5 s after a queue error, otherwise 10 s when no job was completed and not at all when one was |
| Worker.QueueWorker.Run | azure/worker.py:132-184 | the loop ends only once the signal came; `processed + errors` counts the messages handled; only deleted messages leave the queue, each with its result stored; `processed` counts them |
| QueueJobs.VariantsSpec | azure/queue_jobs.py:158-161 | each query's " beginner", " advanced" and " full guide" variants follow each other, in query order |
| QueueJobs.ExpandQueries | azure/queue_jobs.py:156-161 | the loop builds exactly the expanded query list |
| QueueJobs.ExpandedSpec | azure/queue_jobs.py:156-161 | the original queries are always a prefix; the variants of the first 20 queries are added exactly when `count > len(QUERIES) * per_query` |
| QueueJobs.DefaultExpansion | azure/queue_jobs.py:19-88 | with the default arguments the 55 queries become 115 searches |
| QueueJobs.SearchYouTube | azure/queue_jobs.py:91-121 | the line loop computes exactly the search's hits |
| QueueJobs.HitsSpec | azure/queue_jobs.py:106-117 | the hits are exactly the records of the object lines, each carrying its query |
| QueueJobs.SearchSpec | azure/queue_jobs.py:103-121 | a failed run, or a JSON line that is not an object, gives []; otherwise every object line gives one hit with the query |
| QueueJobs.ConfigSettingSpec | azure/queue_jobs.py:139-142 | the config setting is found exactly when some line starts with `STORAGE_CONNECTION=`, and it is the rest of the first such line |
| QueueJobs.FindConnection | azure/queue_jobs.py:134-147 | the lookup loop computes exactly the resolved connection string |
| QueueJobs.ResolveConnectionSpec | azure/queue_jobs.py:134-147 | a resolved connection is never empty; a non-empty argument wins, then the environment variable, then the config file |
| QueueJobs.PickBound | azure/queue_jobs.py:167-186 | never more than `count` messages |
| QueueJobs.PickFresh | azure/queue_jobs.py:179-185 | no video id is queued twice, nor one seen before |
| QueueJobs.PickSound | azure/queue_jobs.py:176-184 | every message comes from a hit with a non-empty id and enough views, with that hit's query |
| QueueJobs.PickComplete | azure/queue_jobs.py:172-186 | short of the count, every qualifying hit's id was queued |
| QueueJobs.FoundSpec | azure/queue_jobs.py:166-170 | the hits searched are exactly those of the queries' searches |
| QueueJobs.QueueHits | azure/queue_jobs.py:172-186 | the inner loop sends exactly what the greedy selection sends for one search's videos |
| QueueJobs.Enqueue | azure/queue_jobs.py:163-188 | the nested loop sends exactly the greedy selection over all searches |
| QueueJobs.EnqueueSpec | azure/queue_jobs.py:163-186 | at most `count` messages, no id twice, each with a non-empty id, views of at least `min_views` (None read as 0) and the query that found it; short of the count, every qualifying video was sent |
| QueueJobs.QueueJobs | azure/queue_jobs.py:124-188 | without a connection string nothing is sent; otherwise the expanded queries' videos are selected as above |
| Client.LStripSpec | scraper/client.py:32 | `lstrip('/')` removes exactly the leading slashes |
| Client.RStripSpec | scraper/client.py:15 | `rstrip('/')` removes exactly the trailing slashes |
| Client.LStripIdempotent | scraper/client.py:32 | stripping leading slashes twice strips nothing more |
| Client.RStripIdempotent | scraper/client.py:15 | stripping trailing slashes twice strips nothing more |
| Client.UrlSpec | scraper/client.py:15-32 | the url is the base without trailing slashes, one "/", then the endpoint without leading slashes |
| Client.UrlLeadingSlash | scraper/client.py:32 | a leading "/" on the endpoint makes no difference |
| Client.ReadRetryAfterSpec | scraper/client.py:44 | a numeric `Retry-After` is read as its value; a missing one is the default |
| Client.BackoffDoubles | scraper/client.py:55-56 | the backoff after an exception is 1 s, then doubles, and is 0 after the last attempt |
| Client.PauseSpec | scraper/client.py:34-56 | on the requests made: after a 429 the next request starts at least Retry-After seconds (60 without the header) after the reply; after an exception at least `2 ** attempt` seconds after it; after any other status as soon as the spacing allows; an unreadable or negative Retry-After raises after one request; an exception on the final attempt returns `None` without sleeping |
| Client.TraceAttempts | scraper/client.py:34-58 | at most `max_retries` attempts |
| Client.TraceFirst | scraper/client.py:26-36 | the first attempt starts no earlier than now and at least `rate_limit` after the previous request |
| Client.TraceSpacing | scraper/client.py:26-36 | consecutive attempts start at least `rate_limit` apart |
| Client.TraceLast | scraper/client.py:36 | the last request time is the start of the last attempt |
| Client.ImmediateReturn | scraper/client.py:41-49 | a 200 returns its body and a 404 returns None, each after one attempt |
| Client.NextAttempt | scraper/client.py:34-56 | after a retryable reply the next attempt starts after the reply, the pause and the spacing |
| Client.TraceOutcome | scraper/client.py:41-58 | a body comes from a final 200; None from a final 404 or from running out of attempts; an error only from a 429 whose `Retry-After` is unreadable or negative |
| Client.DiscourseClient.constructor | scraper/client.py:8-24 | the base url loses its trailing slashes; no request was made yet |
| Client.DiscourseClient.RateLimitWait | scraper/client.py:26-29 | the wait ends no earlier than `rate_limit` after the last request |
| Client.DiscourseClient.Settle | scraper/client.py:41-56 | a reply either ends the call with its outcome or pauses as the policy says |
| Client.DiscourseClient.Request | scraper/client.py:35-56 | one attempt: wait, record the start, then settle the reply |
| Client.DiscourseClient.Get | scraper/client.py:31-58 | the retry loop gives exactly the outcome and times of the attempt trace |
| ForumScraper.UnscrapedSpec | scraper/scraper.py:82-85 | a page yields exactly its ids not in `scraped_topics`: an id outside the ledger keeps its multiplicity on the page, an id in the ledger is dropped, and the kept ids are picked from the page in increasing positions (page order) |
| ForumScraper.CategoryIdsSpec | scraper/scraper.py:70-85 | every id yielded is unscraped and comes from one of the first `max_pages` pages |
| ForumScraper.CategoryIdsStop | scraper/scraper.py:75-80 | paging stops at the first page with no data or no topics |
| ForumScraper.CategoryDir | scraper/scraper.py:122 | the directory is the category name lower-cased with blanks as "_" |
| ForumScraper.TopicPathSpec | scraper/scraper.py:122-124 | within a category, two topics share a path exactly when they share an id |
| ForumScraper.StoreSpec | scraper/scraper.py:121-126 | saving topics in order leaves the old files plus one file per topic path; a path no topic has keeps its contents; a topic no later topic shares its path with is what its file holds |
| ForumScraper.StoreConcat | scraper/scraper.py:150-153 | saving one list of topics and then another is saving the two lists joined |
| ForumScraper.TopicsOfSpec | scraper/scraper.py:87-119 | one topic per id the forum returns one for, with the id and title it returned and the category name passed in |
| ForumScraper.TopicsOfFetched | scraper/scraper.py:150-153 | the topics of a batch are those of its fetched ids |
| Common.LastCheckpoint | scraper/scraper.py:155-156 | for a ledger saved every `every` items (10 topics here, 100 videos in youtube_bulk_scraper.py:247), the last checkpoint count is a multiple of `every`, at most the count and fewer than `every` below it |
| ForumScraper.CheckpointSnoc | scraper/scraper.py:152-156 | counting one more topic writes the state exactly when the count reaches a multiple of 10, and otherwise leaves the state file as it was |
| ForumScraper.CountOne | scraper/scraper.py:152-156 | after one more id the ledger and the state file are those of the longer run |
| ForumScraper.CheckpointConcat | scraper/scraper.py:146-156 | checkpointing one batch after another gives the state file of the two batches joined |
| ForumScraper.CheckpointSpec | scraper/scraper.py:155-156 | counting from 0, below 10 topics the state file is untouched; from 10 on it holds the ledger with the appended ids up to a multiple of 10, fewer than 10 behind |
| ForumScraper.FetchedSpec | scraper/scraper.py:150-155 | the topics saved are exactly those that could be fetched |
| ForumScraper.CategoryBatchSpec | scraper/scraper.py:144-155 | a category's batch holds only fetched ids and, with a limit, at most what is left of it |
| ForumScraper.BatchesOfSpec | scraper/scraper.py:140-155 | every batch is unscraped and within the limit |
| ForumScraper.AppendedBound | scraper/scraper.py:144-148 | with a truthy limit, the total never exceeds it |
| ForumScraper.AppendedSpec | scraper/scraper.py:150-155 | every id appended was unscraped and fetched |
| ForumScraper.SavedSpec | scraper/scraper.py:150-153 | the topics saved follow the ids appended one for one, each with the id and title the forum returned for it |
| ForumScraper.CategoryStep | scraper/scraper.py:140-158 | one more category moves the ledger, the saved topics, the files and the state file on by its batch |
| ForumScraper.ScrapedIds | scraper/scraper.py:129-161 | all the appended ids are new and fetched, and with a limit there are at most that many |
| ForumScraper.ScrapedFiles | scraper/scraper.py:129-161 | every id a scrape appends has a saved topic built from what the forum returned for it, and a file at that topic's path; no earlier file disappears |
| ForumScraper.SelectedSpec | scraper/scraper.py:169-171 | without a filter all categories; with one, exactly those whose slug or name is listed |
| ForumScraper.DevForumScraper.constructor | scraper/scraper.py:14-25 | a saved state is loaded as is; without one it is `{scraped_topics: [], last_category: None, last_page: 0}` |
| ForumScraper.DevForumScraper.CategoryTopicIds | scraper/scraper.py:70-85 | the paging loop yields exactly the category's unscraped ids |
| ForumScraper.DevForumScraper.FreshOnPage | scraper/scraper.py:82-85 | the page loop keeps exactly the unscraped ids |
| ForumScraper.DevForumScraper.SaveTopic | scraper/scraper.py:121-158 | the topic is saved at its path before its id enters the ledger; the state is flushed at multiples of 10 |
| ForumScraper.DevForumScraper.ScrapeBatch | scraper/scraper.py:150-158 | the ledger gains exactly the fetched ids and the total counts them; the files become the old ones with each fetched topic written at its path in turn (`Store` of `TopicsOf` the batch); the state file holds the ledger as of the last multiple of 10 the count passed in the batch, or is untouched when it passed none (`Checkpoint`) |
| ForumScraper.DevForumScraper.ScrapeOne | scraper/scraper.py:150-158 | one id of a batch: when the forum returns a topic it is saved, counted, appended and checkpointed; otherwise nothing changes |
| ForumScraper.DevForumScraper.ScrapeCategory | scraper/scraper.py:140-158 | an exhausted limit stops with nothing changed; otherwise the category's batch is appended and counted, its topics are written to their files, and the state file is checkpointed as in `ScrapeBatch` |
| ForumScraper.DevForumScraper.ScrapeEach | scraper/scraper.py:140-158 | the ledger gains exactly the ids `Appended` gives for the category loop and the return value is their number; the files gain exactly the topics `Saved` gives, in order; the state file holds the ledger as of the last multiple of 10 reached, or is untouched below 10 |
| ForumScraper.DevForumScraper.ScrapeNext | scraper/scraper.py:140-158 | one turn of the category loop: a used-up limit stops with nothing changed, otherwise the loop's account of ledger, files and state file moves on by one category |
| ForumScraper.DevForumScraper.ScrapeCategories | scraper/scraper.py:129-161 | an empty list returns 0 and changes nothing; otherwise the ledger gains the selected ids, their number is returned, the files gain the `Saved` topics, and the state file is rewritten with the final ledger |
| ForumScraper.DevForumScraper.Scrape | scraper/scraper.py:163-173 | the selected categories are scraped as above: ledger, count, topic files, and a state file rewritten unless no category is selected |
| Analyzer.CleanHtml | analyzer.py:29-34 | the cleaned text has no leading, trailing or doubled whitespace, and its non-whitespace characters are those of the unescaped, tag-stripped text |
| Analyzer.CleanHtmlWords | analyzer.py:29-34 | the cleaned text is the words of the unescaped, tag-stripped text joined by single blanks, and has exactly those words, so no two are merged and none is split |
| Analyzer.FirstRuleSpec | analyzer.py:41-56 | scanning the rule table from any rule gives a rule's type exactly when it is the first matching rule, and "general" exactly when none matches |
| Analyzer.ClassifyByRules | analyzer.py:37-56 | the classifier is the scan of the rule table, in priority order, over the lower-cased title |
| Analyzer.ClassifyFirstMatch | analyzer.py:37-56 | a title gets a rule's type exactly when that rule matches its lower-cased form and no earlier rule does; "general" exactly when none matches |
| Analyzer.ClassifyIgnoresCase | analyzer.py:39 | classification ignores ASCII case |
| Analyzer.HowToBeatsError | analyzer.py:41-46 | a title with both "how to" and "error" is a how-to question |
| Analyzer.TermsInSpec | analyzer.py:89-92 | the terms found are in list order, each occurs in the text, and every listed term that occurs is found |
| Analyzer.FoundTermsSpec | analyzer.py:89-94 | for any term list and cut `m`: at most `m` terms, each listed and occurring, in list order, none twice when the list has none; they are the first `m` found, since an occurring term listed before a kept one is kept too; fewer than `m` only when every occurring term was taken |
| Analyzer.KeywordsSpec | analyzer.py:59-94 | at most ten keywords, each a listed term occurring in the lower-cased title and content, in list order, none twice; they are the first ten found, since an occurring term listed before a kept one is kept too; fewer than ten only when all occurring terms were taken |
| Analyzer.TermIndicesComplete | analyzer.py:89-92 | every listed term that occurs in the text is found by the scan |
| Analyzer.ExtractKeywords | analyzer.py:89-94 | the keyword loop computes exactly those keywords |
| Analyzer.ToPainPoints | analyzer.py:119-137 | for topics none of which raises: one pain point per topic, in order, from its first post's cleaned content |
| Analyzer.FirstRaise | analyzer.py:119-137 | the position of the first topic whose pain point raises (a null title, or a null `content_raw` behind a falsy `content_html`), every topic before it not raising; the number of topics exactly when none raises |
| Analyzer.PainPointAnalyzer.constructor | analyzer.py:98-100 | no pain points yet |
| Analyzer.PainPointAnalyzer.Analyze | analyzer.py:115-139 | the pain points of the topics before the first raising one are appended; the call raises exactly when some topic raises (`clean_html(None)` at line 31, or `None.lower()` at line 39 for a null title), and otherwise returns the whole list |
| Analyzer.PainPointAnalyzer.TopKeywords | analyzer.py:141-146 | at most `n` keywords, by descending count, each with its count over all pain points, none twice, and none left out counts more |
| Analyzer.PainPointAnalyzer.QuestionTypeDistribution | analyzer.py:148-151 | each question type that occurs, once, with its count, in order of first occurrence; the counts sum to the number of pain points |
| Sorting.TallyOrder | analyzer.py:151 | `Counter(xs)` lists its keys in order of first occurrence in `xs`, the order `dict(...)` keeps |
| Analyzer.PainPointAnalyzer.HighEngagement | analyzer.py:153-159 | raises (the `TypeError` of `None >= min_views`) exactly when some pain point has a null view count; otherwise exactly the pain points with at least `min_views` views, by descending views, with ties kept in their original order |
| Analyzer.RankedSpec | analyzer.py:153-159 | the ranked list holds exactly the pain points with at least `min_views` views, each as often as in the input, by descending views, ties in input order |
| Analyzer.EngagedKeepsKey | analyzer.py:156 | the filter keeps, for every view count at or above the threshold, the pain points with that count in order |

## Left out

- External programs and services: yt-dlp, the transcript API, HTTP, the Azure queue and blob SDKs. They are inputs of the model, not models of their own.
- JSON parsing, printing and progress bars are left out. The decoded shape of a JSON line or a message is an input.
- Floating-point time and `time.sleep` are left out. Time is an integer number of milliseconds, and a sleep advances it exactly.
- `html.unescape` is an uninterpreted function. The regular expressions are written out as string functions. Only `.lower()` on ASCII letters is modelled.
- Concurrency is left out: the bulk scraper's thread pool, and the worker's signal delivery. Videos are processed one after another in the order submitted. The bulk scraper's lock is modelled only where it blocks a worker for good (see Findings); otherwise the methods model the corrected flush. Worker numbers are `i % max_workers` and are not tied to threads, so spacing between concurrent requests is not claimed.
- File writes are map updates. A checkpoint flush is a snapshot of the state, and it is not claimed to be crash-atomic.
- Loading a saved state or topic file is an input (`Option`). A state file that cannot be read is not modelled.
- `export_analysis` of youtube_bulk_scraper.py (lines 349-427) is not part of this model.
- The transcript cleanup as a whole is not claimed idempotent. Only the whitespace collapse is.
- Worker.QueueWorker.Run: the worker loop runs forever in the code. The model runs it until the termination signal arrives at a given time, and processing a message takes no time besides the 0.5 s pause.
- Worker.QueueWorker.Receive: a batch size outside Azure's 1..32 page range makes the receive fail (a queue error), rather than reproducing the SDK's own validation.
- Worker.Handle: a message whose `video_id` is not a string is treated like a message without one.
- QueueJobs.Search: a `video_id` that is not a string is not modelled. Its truthiness and identity would depend on its JSON type.
- The 0.3 s pause between searches in azure/queue_jobs.py and the 0.5 s pause in collect_video_urls are left out. They do not affect what is enqueued or collected.
- The call into `get_categories` and the config file's pain-point category list are inputs of the forum scraper.
- Worker.ConfigureSpec: `int()` also reads non-ASCII decimal digits (Arabic-Indic, full-width and the other Unicode `Nd` digits). The model reads ASCII digits only, so such a `BATCH_SIZE` is refused here although Python accepts it. Whitespace and single underscores between digits are modelled.
- Client.ReadRetryAfterSpec: the same ASCII-only digit rule applies to the Retry-After header. HTTP header values reach `int()` decoded as ISO-8859-1, which has no decimal digits outside ASCII, so no real header is read differently.
- Analyzer.KeywordsSpec: "none twice" is proved for every term list without duplicates, and the 82-entry Roblox term list is taken to be one. That list's own distinctness (3,321 pairs of string literals) is not proved.
- Analyzer.PainPointAnalyzer.Analyze: a null `category_name`, `url` or `reply_count` is copied into the pain point as `None` in the code; the model reads it as "" or 0. No modelled operation looks at these fields. A `posts`, `title` or content of another JSON type than the one the scraper writes is not modelled.
- `load_topics` (reading the topic files) and `export_for_seo` (writing the JSON report) of analyzer.py are not part of this model. The loaded topics are an input of `Analyze`.
- ForumScraper.DevForumScraper.Scrape: fetching a topic never raises in the model, because the forum's reply is an `Option` input. In the code, a `ValueError` from the client (an unreadable or negative Retry-After) or a `KeyError` on an entry of a category's topic listing, a post or a topic without `"id"` (scraper/scraper.py lines 83, 95 and 105) escapes `_scrape_categories`. The final `_save_state` is then skipped, and the state file keeps its last checkpoint (the value `Checkpoint` gives for the topics saved so far).

## Findings

| source | as written | input that shows it | evidently intended | confidence | as-written member | corrected member |
|---|---|---|---|---|---|---|
| azure/worker.py:160-169 | after `processed += 1`, the log line formats `result['views']` with `:,`, which raises `TypeError` when the metadata's `view_count` is null; the `except` then adds 1 to `errors` for a message that was already uploaded, deleted and counted | a job `{"video_id": "abc"}` whose metadata has `"view_count": null` and whose transcript is non-empty | every message adds exactly 1 to either `processed` or `errors` | not executed | Worker.HandleAsWritten, Worker.LogLineDoubleCounts | Worker.Handle, Worker.HandleSpec |
| youtube_bulk_scraper.py:241-248 | `process_video` holds `self.lock` (a plain, non-reentrant `threading.Lock`, line 139) while it updates the ledger, and at a multiple of `checkpoint_every` (100) calls `_save_state`, which enters `with self.lock` again (line 156); the worker waits on itself for good, its future never completes, and `scrape` never reaches its final `_save_state` (line 341) | a fresh run with 100 or more videos to process: the 100th video blocks, and the state file is never written | the checkpoint writes the state file and processing goes on (the flush done while holding the lock once, or with an `RLock`) | not executed | BulkScraper.RecordAsWritten, BulkScraper.ProcessAsWrittenBlocks, BulkScraper.FreshRunNeverSaves | BulkScraper.RecordCorrected, BulkScraper.ProcessCorrectedFile, BulkScraper.BulkYouTubeScraper.SaveVideo |

=== FILE: analyzer.dfy ===
/** The DevForum pain-point analyzer: HTML cleanup of a post, classification
    of a title into a question type, extraction of Roblox keywords, and the
    aggregates over the analysed topics (keyword counts, question-type
    distribution, high-engagement topics). */
module Analyzer {
  import opened Common
  import opened Text
  import opened Sorting

  /** `clean_html`: every tag becomes a blank, entities are decoded by
      `unescape` (Python's `html.unescape`, not modelled), whitespace is
      collapsed. The result is trimmed and single-spaced, and keeps every
      non-whitespace character of the decoded text. */
  function CleanHtml(text: string, unescape: string -> string): (r: string)
    ensures Canonical(r)
    ensures NonSpace(r) == NonSpace(unescape(StripTags(text)))
  {
    CollapseSpec(unescape(StripTags(text)));
    Collapse(unescape(StripTags(text)))
  }

  /** The cleaned text is the words of the decoded, tag-stripped text
      joined by single blanks, and has exactly those words: cleaning never
      merges two words nor splits one. */
  lemma CleanHtmlWords(text: string, unescape: string -> string)
    ensures CleanHtml(text, unescape) == JoinSpace(Words(unescape(StripTags(text))))
    ensures Words(CleanHtml(text, unescape)) == Words(unescape(StripTags(text)))
  {
    CollapseSpec(unescape(StripTags(text)));
  }

  // ---- question types ----

  datatype QuestionType = HowTo | Why | Error | NotWorking | HelpRequest | WhatIs | Possibility | General

  /** The label stored in a pain point. */
  function Label(q: QuestionType): string
  {
    match q
    case HowTo => "how-to"
    case Why => "why"
    case Error => "error"
    case NotWorking => "not-working"
    case HelpRequest => "help-request"
    case WhatIs => "what-is"
    case Possibility => "possibility"
    case General => "general"
  }

  /** `any(p in text for p in phrases)`. */
  predicate AnyIn(text: string, phrases: seq<string>)
  {
    exists i :: 0 <= i < |phrases| && Contains(text, phrases[i])
  }

  // The phrases of each rule, in the order the rules are tried.
  const HOW_TO_PHRASES: seq<string> := ["how do i", "how to", "how can"]
  const WHY_PHRASES: seq<string> := ["why does", "why is", "why won't", "why can't"]
  const ERROR_PHRASES: seq<string> := ["error", "bug", "crash", "broken"]
  const NOT_WORKING_PHRASES: seq<string> := ["not working", "doesn't work", "won't work"]
  const HELP_PHRASES: seq<string> := ["help", "need help", "please help"]
  const POSSIBILITY_PHRASES: seq<string> := ["can i", "is it possible", "can you"]

  /** The "what-is" rule: the title starts with "what " or mentions
      "what is". */
  predicate AsksWhat(t: string)
  {
    StartsWith(t, "what ") || Contains(t, "what is")
  }

  /** Classifies a title by the first rule that matches its lower-cased
      form; "general" when none does. */
  function ClassifyTitle(title: string): QuestionType
  {
    var t := Lower(title);
    if AnyIn(t, HOW_TO_PHRASES) then HowTo
    else if AnyIn(t, WHY_PHRASES) then Why
    else if AnyIn(t, ERROR_PHRASES) then Error
    else if AnyIn(t, NOT_WORKING_PHRASES) then NotWorking
    else if AnyIn(t, HELP_PHRASES) then HelpRequest
    else if AsksWhat(t) then WhatIs
    else if AnyIn(t, POSSIBILITY_PHRASES) then Possibility
    else General
  }

  /** The classification rules as a table, in priority order: rule `k`
      yields `RuleType(k)` when `RuleMatches(k, t)`. */
  function RuleType(k: nat): QuestionType
    requires k < 7
  {
    [HowTo, Why, Error, NotWorking, HelpRequest, WhatIs, Possibility][k]
  }

  predicate RuleMatches(k: nat, t: string)
    requires k < 7
  {
    if k == 0 then AnyIn(t, HOW_TO_PHRASES)
    else if k == 1 then AnyIn(t, WHY_PHRASES)
    else if k == 2 then AnyIn(t, ERROR_PHRASES)
    else if k == 3 then AnyIn(t, NOT_WORKING_PHRASES)
    else if k == 4 then AnyIn(t, HELP_PHRASES)
    else if k == 5 then AsksWhat(t)
    else AnyIn(t, POSSIBILITY_PHRASES)
  }

  /** The rule table scanned from rule `k` on: the first matching rule's
      type, or "general" past the last rule. */
  function FirstRule(t: string, k: nat): QuestionType
    requires k <= 7
    decreases 7 - k
  {
    if k == 7 then General
    else if RuleMatches(k, t) then RuleType(k)
    else FirstRule(t, k + 1)
  }

  /** The scan from rule `k` yields rule `m`'s type exactly when rule `m`
      is the first of rules `k`.. that matches, and "general" exactly when
      none of them does. */
  lemma {:induction false} FirstRuleSpec(t: string, k: nat)
    requires k <= 7
    ensures forall m :: k <= m < 7 ==>
      (FirstRule(t, k) == RuleType(m) <==> RuleMatches(m, t) && forall j :: k <= j < m ==> !RuleMatches(j, t))
    ensures FirstRule(t, k) == General <==> forall j :: k <= j < 7 ==> !RuleMatches(j, t)
    decreases 7 - k
  {
    if k < 7 {
      FirstRuleSpec(t, k + 1);
      assert forall m :: 0 <= m < 7 && m != k ==> RuleType(m) != RuleType(k);
    }
  }

  /** `ClassifyTitle` is the scan of the rule table over the lower-cased
      title. */
  lemma ClassifyByRules(title: string)
    ensures ClassifyTitle(title) == FirstRule(Lower(title), 0)
  {
    var t := Lower(title);
    assert FirstRule(t, 5) == if AsksWhat(t) then WhatIs else FirstRule(t, 6);
  }

  /** A title gets rule `k`'s type exactly when rule `k` matches its
      lower-cased form and no earlier rule does, and "general" exactly when
      no rule matches. */
  lemma ClassifyFirstMatch(title: string)
    ensures forall k :: 0 <= k < 7 ==>
      (ClassifyTitle(title) == RuleType(k) <==>
        RuleMatches(k, Lower(title)) && forall j :: 0 <= j < k ==> !RuleMatches(j, Lower(title)))
    ensures ClassifyTitle(title) == General <==> forall j :: 0 <= j < 7 ==> !RuleMatches(j, Lower(title))
  {
    ClassifyByRules(title);
    FirstRuleSpec(Lower(title), 0);
  }

  /** Classification ignores ASCII case. */
  lemma ClassifyIgnoresCase(title: string)
    ensures ClassifyTitle(Lower(title)) == ClassifyTitle(title)
  {
    LowerIdempotent(title);
  }

  /** A title mentioning both "how to" and "error" is a how-to question. */
  lemma HowToBeatsError(title: string)
    requires Contains(Lower(title), "how to") && Contains(Lower(title), "error")
    ensures ClassifyTitle(title) == HowTo
  {
    assert Contains(Lower(title), HOW_TO_PHRASES[1]);
  }

  // ---- keywords ----

  const ROBLOX_TERMS: seq<string> := [
    "script", "localscript", "modulescript", "serverscript",
    "remotevent", "remotefunction", "bindableevent",
    "datastore", "datastoreservice", "savedata",
    "tween", "tweenservice", "animation",
    "gui", "screengui", "surfacegui", "billboardgui",
    "part", "meshpart", "union", "model",
    "player", "character", "humanoid", "tool",
    "workspace", "replicatedstorage", "serverstorage",
    "lighting", "soundservice", "debris",
    "raycast", "collision", "physics",
    "touched", "click", "input", "userinputservice",
    "filtering", "sanity check", "exploiter", "anticheat",
    "lag", "performance", "optimize", "memory",
    "studio", "plugin", "command bar",
    "roblox api", "http", "httpservice", "webhook",
    "pcall", "coroutine", "async", "wait", "task.wait",
    "loop", "while", "for", "function", "return",
    "table", "array", "dictionary", "metatables",
    "oop", "class", "module", "require",
    "pathfinding", "navmesh", "ai", "npc",
    "chat", "textchatservice", "filter",
    "marketplace", "gamepass", "devproduct", "robux"
  ]

  const MAX_KEYWORDS: nat := 10

  /** The terms of `terms` that occur in `text`, in list order. */
  function TermsIn(text: string, terms: seq<string>): seq<string>
  {
    if terms == [] then []
    else TermsIn(text, terms[..|terms| - 1])
         + (if Contains(text, terms[|terms| - 1]) then [terms[|terms| - 1]] else [])
  }

  /** The positions in `terms` of the terms `TermsIn` keeps. */
  function TermIndices(text: string, terms: seq<string>): seq<nat>
  {
    if terms == [] then []
    else TermIndices(text, terms[..|terms| - 1])
         + (if Contains(text, terms[|terms| - 1]) then [|terms| - 1] else [])
  }

  /** `idx` lists strictly increasing positions of `terms` holding `r`: `r`
      is `terms` with some entries left out, order kept. */
  predicate Embeds(idx: seq<nat>, r: seq<string>, terms: seq<string>)
  {
    && |idx| == |r|
    && (forall i :: 0 <= i < |idx| ==> idx[i] < |terms| && terms[idx[i]] == r[i])
    && (forall i, j :: 0 <= i < j < |idx| ==> idx[i] < idx[j])
  }

  lemma {:induction false} TermsInSpec(text: string, terms: seq<string>)
    ensures Embeds(TermIndices(text, terms), TermsIn(text, terms), terms)
    ensures forall i :: 0 <= i < |TermsIn(text, terms)| ==> Contains(text, TermsIn(text, terms)[i])
    ensures forall t :: t in terms && Contains(text, t) ==> t in TermsIn(text, terms)
  {
    if terms != [] {
      var init := terms[..|terms| - 1];
      TermsInSpec(text, init);
      assert terms == init + [terms[|terms| - 1]];
      var idx := TermIndices(text, init);
      forall i | 0 <= i < |idx| ensures idx[i] < |init| && terms[idx[i]] == init[idx[i]] {
      }
    }
  }

  /** Every position holding a term that occurs in the text is among the
      positions `TermsIn` keeps. */
  lemma {:induction false} TermIndicesComplete(text: string, terms: seq<string>)
    ensures forall j :: 0 <= j < |terms| && Contains(text, terms[j]) ==> j in TermIndices(text, terms)
  {
    if terms != [] {
      var init := terms[..|terms| - 1];
      TermIndicesComplete(text, init);
      forall j | 0 <= j < |terms| && Contains(text, terms[j])
        ensures j in TermIndices(text, terms)
      {
        if j < |init| {
          assert terms[j] == init[j];
        }
      }
    }
  }

  /** The kept positions `idx` are the first found: a position before a
      kept one whose term occurs in the text is kept too. */
  predicate EarlierFoundKept(idx: seq<nat>, text: string, terms: seq<string>)
  {
    forall k, j :: 0 <= k < |idx| && 0 <= j < idx[k] && j < |terms| && Contains(text, terms[j]) ==> j in idx
  }

  /** Strictly increasing positions into a list without duplicates pick
      distinct entries; so a term list without duplicates yields keywords
      without duplicates. */
  lemma EmbedsNoDup(idx: seq<nat>, r: seq<string>, terms: seq<string>)
    requires Embeds(idx, r, terms) && NoDup(terms)
    ensures NoDup(r)
  {
    forall i, j | 0 <= i < j < |r| ensures r[i] != r[j] {
      assert terms[idx[i]] != terms[idx[j]];
    }
  }

  /** `extract_keywords`: the Roblox terms found in the lower-cased
      `title + " " + content`, in list order, at most ten. */
  function Keywords(title: string, content: string): seq<string>
  {
    Prefix(TermsIn(Lower(title + " " + content), ROBLOX_TERMS), MAX_KEYWORDS)
  }

  /** The first `m` terms of `terms` found in `text`: at most `m`, each a
      listed term occurring in the text, in list order, none twice when the
      list has no duplicates; they are the first found, an occurring term
      listed before a kept one being kept too; fewer than `m` only when
      every term that occurs was taken. */
  lemma FoundTermsSpec(text: string, terms: seq<string>, m: nat)
    ensures |Prefix(TermsIn(text, terms), m)| <= m
    ensures forall i :: 0 <= i < |Prefix(TermsIn(text, terms), m)| ==>
      Prefix(TermsIn(text, terms), m)[i] in terms && Contains(text, Prefix(TermsIn(text, terms), m)[i])
    ensures exists idx :: Embeds(idx, Prefix(TermsIn(text, terms), m), terms)
    ensures exists idx :: Embeds(idx, Prefix(TermsIn(text, terms), m), terms) && EarlierFoundKept(idx, text, terms)
    ensures NoDup(terms) ==> NoDup(Prefix(TermsIn(text, terms), m))
    ensures |Prefix(TermsIn(text, terms), m)| < m ==>
      forall t :: t in terms && Contains(text, t) ==> t in Prefix(TermsIn(text, terms), m)
  {
    TermsInSpec(text, terms);
    var all, idx := TermsIn(text, terms), TermIndices(text, terms);
    var r := Prefix(all, m);
    assert r == all[..|r|];
    var kept := idx[..|r|];
    assert Embeds(kept, r, terms);
    FirstFound(text, terms, |r|);
    if NoDup(terms) {
      EmbedsNoDup(kept, r, terms);
    }
  }

  /** Any leading run of the positions `TermsIn` keeps is closed under
      earlier occurring terms. */
  lemma FirstFound(text: string, terms: seq<string>, n: nat)
    requires n <= |TermIndices(text, terms)|
    ensures EarlierFoundKept(TermIndices(text, terms)[..n], text, terms)
  {
    var idx := TermIndices(text, terms);
    var kept := idx[..n];
    TermsInSpec(text, terms);
    TermIndicesComplete(text, terms);
    forall k, j | 0 <= k < |kept| && 0 <= j < kept[k] && j < |terms| && Contains(text, terms[j])
      ensures j in kept
    {
      var p :| 0 <= p < |idx| && idx[p] == j;
      IncreasingBefore(idx, p, k);
      assert kept[p] == j;
    }
  }

  /** In a strictly increasing list, a smaller entry sits at an earlier
      place. */
  lemma IncreasingBefore(idx: seq<nat>, p: nat, k: nat)
    requires forall i, j :: 0 <= i < j < |idx| ==> idx[i] < idx[j]
    requires p < |idx| && k < |idx| && idx[p] < idx[k]
    ensures p < k
  {
  }

  /** At most ten keywords, each a Roblox term occurring in the lower-cased
      text, in list order, none twice; the first ten found, an occurring
      term listed before a kept one being kept too; fewer than ten only
      when every term that occurs was taken. */
  lemma KeywordsSpec(title: string, content: string)
    ensures |Keywords(title, content)| <= MAX_KEYWORDS
    ensures forall i :: 0 <= i < |Keywords(title, content)| ==>
      Keywords(title, content)[i] in ROBLOX_TERMS
      && Contains(Lower(title + " " + content), Keywords(title, content)[i])
    ensures exists idx :: Embeds(idx, Keywords(title, content), ROBLOX_TERMS)
    ensures exists idx ::
      Embeds(idx, Keywords(title, content), ROBLOX_TERMS) && EarlierFoundKept(idx, Lower(title + " " + content), ROBLOX_TERMS)
    ensures NoDup(ROBLOX_TERMS) ==> NoDup(Keywords(title, content))
    ensures |Keywords(title, content)| < MAX_KEYWORDS ==>
      forall t :: t in ROBLOX_TERMS && Contains(Lower(title + " " + content), t) ==> t in Keywords(title, content)
  {
    FoundTermsSpec(Lower(title + " " + content), ROBLOX_TERMS, MAX_KEYWORDS);
  }

  /** The keyword loop: each term, in order, is kept when it occurs in the
      text; the list is then cut to ten. */
  method ExtractKeywords(title: string, content: string) returns (r: seq<string>)
    ensures r == Keywords(title, content)
  {
    var text := Lower(title + " " + content);
    var found: seq<string> := [];
    for i := 0 to |ROBLOX_TERMS|
      invariant found == TermsIn(text, ROBLOX_TERMS[..i])
    {
      assert ROBLOX_TERMS[..i + 1][..i] == ROBLOX_TERMS[..i];
      if Contains(text, ROBLOX_TERMS[i]) {
        found := found + [ROBLOX_TERMS[i]];
      }
    }
    assert ROBLOX_TERMS[..|ROBLOX_TERMS|] == ROBLOX_TERMS;
    r := Prefix(found, MAX_KEYWORDS);
  }

  // ---- pain points ----

  /** A post of a scraped topic. A missing or null `content_html` reads as
      "": `or` treats all three alike. `content_raw` keeps its null. */
  datatype Post = Post(contentHtml: string, contentRaw: Field<string>)

  /** A scraped topic file. `title` and `views` keep a null; a missing or
      null category, url or reply count reads as "" or 0 (analyze only
      copies them into the pain point). */
  datatype Topic = Topic(title: Field<string>, categoryName: string, url: string,
                         views: Field<int>, replyCount: int, posts: seq<Post>)

  /** `views` is `None` when the topic file held `null`. */
  datatype PainPoint = PainPoint(title: string, category: string, url: string,
                                 views: Option<int>, replies: int, keywords: seq<string>,
                                 questionType: QuestionType)

  /** The view count as a sort key; it is used only on pain points whose
      count is known. */
  function Views(p: PainPoint): int
  {
    if p.views.Some? then p.views.value else 0
  }

  /** The first post's content is `None` (and `clean_html` raises a
      `TypeError` in `re.sub`): its HTML is falsy and its raw text null. */
  predicate ContentRaises(topic: Topic)
  {
    topic.posts != [] && topic.posts[0].contentHtml == "" && topic.posts[0].contentRaw.Null?
  }

  /** Building the topic's pain point raises: a null raw content behind an
      empty HTML, or a null title, whose `.lower()` in
      `extract_question_type` raises an `AttributeError`. */
  predicate Raises(topic: Topic)
  {
    topic.title.Null? || ContentRaises(topic)
  }

  /** The cleaned first post of a topic ("" for a topic without posts); its
      HTML when that is non-empty, otherwise its raw text ("" when missing). */
  function FirstPostContent(topic: Topic, unescape: string -> string): string
    requires !ContentRaises(topic)
  {
    if topic.posts == [] then ""
    else
      var first := topic.posts[0];
      CleanHtml(if first.contentHtml != "" then first.contentHtml else GetOr(first.contentRaw, "").value, unescape)
  }

  function ToPainPoint(topic: Topic, unescape: string -> string): PainPoint
    requires !Raises(topic)
  {
    var title := GetOr(topic.title, "").value;
    PainPoint(title, topic.categoryName, topic.url, GetOr(topic.views, 0), topic.replyCount,
              Keywords(title, FirstPostContent(topic, unescape)),
              ClassifyTitle(title))
  }

  function ToPainPoints(topics: seq<Topic>, unescape: string -> string): (r: seq<PainPoint>)
    requires forall i :: 0 <= i < |topics| ==> !Raises(topics[i])
    ensures |r| == |topics|
    ensures forall i :: 0 <= i < |topics| ==> r[i] == ToPainPoint(topics[i], unescape)
  {
    Map(topics, (t: Topic) requires !Raises(t) => ToPainPoint(t, unescape))
  }

  /** The position of the first topic whose pain point raises, or the
      number of topics when none does. */
  function FirstRaise(topics: seq<Topic>): (k: nat)
    ensures k <= |topics|
    ensures forall i :: 0 <= i < k ==> !Raises(topics[i])
    ensures k < |topics| ==> Raises(topics[k])
    ensures k == |topics| <==> forall i :: 0 <= i < |topics| ==> !Raises(topics[i])
  {
    if topics == [] then 0
    else if Raises(topics[0]) then 0
    else 1 + FirstRaise(topics[1..])
  }

  /** A topic that raises, preceded only by topics that do not, is the
      first that raises. */
  lemma FirstRaiseAt(topics: seq<Topic>, k: nat)
    requires k < |topics| && Raises(topics[k])
    requires forall i :: 0 <= i < k ==> !Raises(topics[i])
    ensures FirstRaise(topics) == k
  {
  }

  /** All keywords of the pain points, concatenated in order. */
  function AllKeywords(pps: seq<PainPoint>): seq<string>
  {
    if pps == [] then [] else AllKeywords(pps[..|pps| - 1]) + pps[|pps| - 1].keywords
  }

  function Types(pps: seq<PainPoint>): (r: seq<QuestionType>)
    ensures |r| == |pps| && forall i :: 0 <= i < |pps| ==> r[i] == pps[i].questionType
  {
    seq(|pps|, i requires 0 <= i < |pps| => pps[i].questionType)
  }

  /** The elements of `s` that reach `minViews`. */
  function Engaged(s: seq<PainPoint>, minViews: int): seq<PainPoint>
  {
    Select(s, (p: PainPoint) => Views(p) >= minViews)
  }

  /** Every pain point has a view count (none was `null`). */
  predicate KnownViews(pps: seq<PainPoint>)
  {
    forall i :: 0 <= i < |pps| ==> pps[i].views.Some?
  }

  class PainPointAnalyzer {
    var painPoints: seq<PainPoint>

    constructor ()
      ensures painPoints == []
    {
      painPoints := [];
    }

    /** `analyze`: one pain point per loaded topic, appended in order. The
        topic files are read by the caller. A topic whose pain point raises
        ends the call with the exception (`None`); the pain points of the
        topics before it stay appended. */
    method Analyze(topics: seq<Topic>, unescape: string -> string) returns (r: Option<seq<PainPoint>>)
      modifies this
      ensures painPoints == old(painPoints) + ToPainPoints(topics[..FirstRaise(topics)], unescape)
      ensures r.None? <==> exists i :: 0 <= i < |topics| && Raises(topics[i])
      ensures r.Some? ==> r.value == painPoints
    {
      var i := 0;
      while i < |topics|
        invariant 0 <= i <= |topics|
        invariant forall j :: 0 <= j < i ==> !Raises(topics[j])
        invariant painPoints == old(painPoints) + ToPainPoints(topics[..i], unescape)
      {
        var topic := topics[i];
        if ContentRaises(topic) {
          FirstRaiseAt(topics, i);
          return None;
        }
        var content := FirstPostContent(topic, unescape);
        if topic.title.Null? {
          FirstRaiseAt(topics, i);
          return None;
        }
        var title := GetOr(topic.title, "").value;
        var keywords := ExtractKeywords(title, content);
        var pp := PainPoint(title, topic.categoryName, topic.url, GetOr(topic.views, 0),
                            topic.replyCount, keywords, ClassifyTitle(title));
        MapSnoc(topics, i, (t: Topic) requires !Raises(t) => ToPainPoint(t, unescape));
        painPoints := painPoints + [pp];
        i := i + 1;
      }
      assert topics[..i] == topics;
      r := Some(painPoints);
    }

    /** `get_top_keywords(n)`: the `n` most common keywords over all pain
        points, with their counts. */
    method TopKeywords(n: int) returns (r: seq<(string, nat)>)
      ensures r == MostCommon(Tally(AllKeywords(painPoints)), n)
      ensures |r| <= if n <= 0 then 0 else n
      ensures SortedDesc(r, CountOf)
      ensures forall e :: e in r ==> e.1 == multiset(AllKeywords(painPoints))[e.0] && e.1 > 0
      ensures NoDup(Keys(r))
      ensures forall k, i :: k in AllKeywords(painPoints) && k !in Keys(r) && 0 <= i < |r| ==>
                multiset(AllKeywords(painPoints))[k] <= r[i].1
    {
      var all: seq<string> := [];
      for i := 0 to |painPoints|
        invariant all == AllKeywords(painPoints[..i])
      {
        assert painPoints[..i + 1][..i] == painPoints[..i];
        all := all + painPoints[i].keywords;
      }
      assert painPoints[..|painPoints|] == painPoints;
      r := MostCommon(Tally(all), n);
      MostCommonOfSeq(all, n);
    }

    /** `dict(Counter(types))`: each question type present, with the number
        of pain points of that type, in order of first occurrence; the counts
        add up to the number of pain points. */
    function QuestionTypeDistribution(): (r: seq<(QuestionType, nat)>)
      reads this
      ensures NoDup(Keys(r))
      ensures forall e :: e in r ==> e.1 == multiset(Types(painPoints))[e.0]
      ensures forall q :: q in Keys(r) <==> q in Types(painPoints)
      ensures Total(r) == |painPoints|
      ensures FirstSeenOrder(Keys(r), Types(painPoints))
    {
      TallySpec(Types(painPoints));
      TallyOrder(Types(painPoints));
      TallyEntries(Types(painPoints));
      Tally(Types(painPoints))
    }

    /** `get_high_engagement_topics(min_views)`: exactly the pain points
        with at least `minViews` views, by descending views; pain points with
        equal views keep their order. A pain point with a null view count
        makes the comparison raise a `TypeError` (`None`). */
    function HighEngagement(minViews: int): (r: Option<seq<PainPoint>>)
      reads this
      ensures r.None? <==> !KnownViews(painPoints)
      ensures r.Some? ==> forall p :: p in r.value ==> p.views.Some? && p.views.value >= minViews
      ensures r.Some? ==> forall p :: multiset(r.value)[p] == if Views(p) >= minViews then multiset(painPoints)[p] else 0
      ensures r.Some? ==> SortedDesc(r.value, Views)
      ensures r.Some? ==> forall k :: k >= minViews ==> WithKey(r.value, Views, k) == WithKey(painPoints, Views, k)
    {
      if !KnownViews(painPoints) then None
      else
        RankedSpec(painPoints, minViews);
        Some(SortDesc(Engaged(painPoints, minViews), Views))
    }
  }

  /** The engaged pain points by descending views are exactly those that
      reach `minViews`, ordered, with ties in their original order. */
  lemma RankedSpec(s: seq<PainPoint>, minViews: int)
    ensures forall p :: multiset(SortDesc(Engaged(s, minViews), Views))[p]
                        == if Views(p) >= minViews then multiset(s)[p] else 0
    ensures SortedDesc(SortDesc(Engaged(s, minViews), Views), Views)
    ensures forall k :: k >= minViews ==> WithKey(SortDesc(Engaged(s, minViews), Views), Views, k) == WithKey(s, Views, k)
  {
    var e := Engaged(s, minViews);
    SortDescSpec(e, Views);
    SelectSpec(s, (p: PainPoint) => Views(p) >= minViews);
    EngagedKeepsKey(s, minViews);
  }

  /** Filtering by views keeps, for every view count it admits, all pain
      points with that count, in order. */
  lemma {:induction false} EngagedKeepsKey(s: seq<PainPoint>, minViews: int)
    ensures forall k :: k >= minViews ==> WithKey(Engaged(s, minViews), Views, k) == WithKey(s, Views, k)
  {
    if s != [] {
      EngagedKeepsKey(s[1..], minViews);
      forall k | k >= minViews
        ensures WithKey(Engaged(s, minViews), Views, k) == WithKey(s, Views, k)
      {
        var head := if Views(s[0]) >= minViews then [s[0]] else [];
        assert Engaged(s, minViews) == head + Engaged(s[1..], minViews);
        WithKeyConcat(head, Engaged(s[1..], minViews), Views, k);
      }
    }
  }
}

=== FILE: bulk.dfy ===
/** The bulk YouTube scraper: a resumable ledger of scraped video ids and
    completed queries with a checkpoint every 100 videos, per-worker spacing
    of transcript requests, the collection of fresh video ids from many
    searches up to a target, and the expansion of the query list for large
    targets. yt-dlp, the transcript service, the clock and the worker pool
    are inputs; the state file and the video files are fields. */
module BulkScraper {
  import opened Common
  import opened Text
  import opened YouTube

  const RATE_LIMIT_MS: int := 500
  const VIDEOS_PER_QUERY: int := 50
  const CHECKPOINT_EVERY: int := 100
  const ERROR_LENGTH: nat := 100

  const ROBLOX_QUERIES: seq<string> := [
    "roblox scripting tutorial", "roblox lua tutorial beginner", "how to script roblox",
    "roblox studio scripting", "learn roblox scripting", "roblox coding tutorial",
    "roblox datastore tutorial", "roblox remote event tutorial", "roblox module script tutorial",
    "roblox oop tutorial", "roblox tween service tutorial", "roblox gui scripting",
    "roblox animation script", "roblox pathfinding tutorial", "roblox raycast tutorial",
    "roblox physics tutorial", "roblox collision tutorial", "roblox touched event",
    "roblox player data save", "roblox inventory system", "roblox combat system tutorial",
    "roblox round system tutorial", "roblox leaderboard tutorial", "roblox shop system tutorial",
    "roblox building tutorial", "roblox studio tutorial beginner", "roblox terrain tutorial",
    "roblox lighting tutorial", "roblox blender to roblox", "roblox mesh tutorial",
    "roblox union tutorial", "roblox particle effects", "roblox ui design tutorial",
    "how to make roblox obby", "how to make roblox simulator", "how to make roblox tycoon",
    "roblox fps game tutorial", "roblox rpg tutorial", "roblox horror game tutorial",
    "roblox racing game tutorial", "roblox fighting game tutorial", "roblox gamepass tutorial",
    "roblox dev product tutorial", "how to make robux from games", "roblox game monetization",
    "roblox optimization tutorial", "roblox anti cheat tutorial", "roblox server script tutorial",
    "roblox filtering enabled", "roblox replication tutorial", "roblox script not working",
    "roblox datastore not saving", "roblox remote event not working",
    "roblox animation not playing", "roblox gui not showing", "roblox lag fix",
    "roblox studio crash fix"
  ]

  // ---- search ----

  /** A search result with the query that found it (`data["query"] = query`). */
  datatype Candidate = Candidate(entry: VideoEntry, query: string)

  /** `f"ytsearch{max_results}:{query}"` with `videos_per_query` results. */
  function QueryTarget(query: string): string
  {
    "ytsearch" + IntToString(VIDEOS_PER_QUERY) + ":" + query
  }

  function Tagged(entries: seq<VideoEntry>, query: string): (r: seq<Candidate>)
    ensures |r| == |entries| && forall i :: 0 <= i < |r| ==> r[i] == Candidate(entries[i], query)
  {
    seq(|entries|, i requires 0 <= i < |entries| => Candidate(entries[i], query))
  }

  /** `search_videos`: the objects with at least `minViews` views in output
      order, each tagged with the query; nothing when yt-dlp fails or times
      out, or when a line raises outside the `JSONDecodeError` handler (a
      JSON value that is not an object, a null view count). */
  function Search(outcome: SearchOutcome, query: string, minViews: int): seq<Candidate>
  {
    if !outcome.Output? || AbortsIn(outcome.lines) then [] else Tagged(Kept(outcome.lines, minViews), query)
  }

  lemma SearchSpec(outcome: SearchOutcome, query: string, minViews: int)
    ensures !outcome.Output? || AbortsIn(outcome.lines) ==> Search(outcome, query, minViews) == []
    ensures forall c :: c in Search(outcome, query, minViews) <==>
                          outcome.Output? && !AbortsIn(outcome.lines) && c.query == query
                          && Object(c.entry) in outcome.lines && ViewsOf(c.entry) >= minViews
  {
    if outcome.Output? && !AbortsIn(outcome.lines) {
      var kept := Kept(outcome.lines, minViews);
      KeptSpec(outcome.lines, minViews);
      forall c: Candidate | c in Search(outcome, query, minViews)
        ensures c.query == query && c.entry in kept
      {
        var i :| 0 <= i < |kept| && Tagged(kept, query)[i] == c;
      }
      forall c: Candidate | c.query == query && c.entry in kept
        ensures c in Search(outcome, query, minViews)
      {
        var i :| 0 <= i < |kept| && kept[i] == c.entry;
        assert Tagged(kept, query)[i] == c;
      }
    }
  }

  /** The id a candidate is processed under ("" stands for a missing one,
      which a collected candidate never has). */
  function IdOf(c: Candidate): string
  {
    if c.entry.id.Present? then c.entry.id.value else ""
  }

  /** The ids of `cands`, in order. */
  function IdsOf(cands: seq<Candidate>): (r: seq<string>)
    ensures |r| == |cands|
    ensures forall k :: 0 <= k < |cands| ==> r[k] == IdOf(cands[k])
  {
    if cands == [] then [] else IdsOf(cands[..|cands| - 1]) + [IdOf(cands[|cands| - 1])]
  }

  lemma IdsOfSnoc(cands: seq<Candidate>, c: Candidate)
    ensures IdsOf(cands + [c]) == IdsOf(cands) + [IdOf(c)]
  {
    assert (cands + [c])[..|cands|] == cands;
  }

  /** When the collected videos are processed in order, the `i`-th is still
      fresh: it is not in the ledger as it stood, nor among the ones
      processed before it, whose ids all differ from its own. */
  lemma FreshInTurn(ledger: seq<string>, cands: seq<Candidate>, i: nat)
    requires i < |cands|
    requires forall k :: 0 <= k < |cands| ==> HasId(cands[k]) && cands[k].entry.id.value !in ledger
    requires DistinctIds(cands)
    ensures IdKey(cands[i].entry) == Some(IdOf(cands[i]))
    ensures IdOf(cands[i]) !in ledger + IdsOf(cands[..i])
    ensures IdsOf(cands[..i + 1]) == IdsOf(cands[..i]) + [IdOf(cands[i])]
  {
    var done := IdsOf(cands[..i]);
    forall k | 0 <= k < i
      ensures done[k] != IdOf(cands[i])
    {
      assert cands[k].entry.id != cands[i].entry.id;
    }
    assert cands[..i + 1] == cands[..i] + [cands[i]];
    IdsOfSnoc(cands[..i], cands[i]);
  }

  /** Every result of a search carries the query searched. */
  lemma SearchTagged(search: string -> SearchOutcome, minViews: int)
    ensures forall q, c :: c in Search(search(QueryTarget(q)), q, minViews) ==> c.query == q
  {
    forall q, c | c in Search(search(QueryTarget(q)), q, minViews)
      ensures c.query == q
    {
      SearchSpec(search(QueryTarget(q)), q, minViews);
    }
  }

  // ---- the ledger and one video ----

  /** The ledger kept in the state file. */
  datatype Ledger = Ledger(scrapedIds: seq<string>, failedIds: seq<string>, queriesCompleted: seq<string>,
                           totalScraped: int, totalWithTranscript: int, startedAt: string)

  /** The record saved for one video; a null title, channel, view count or
      duration in yt-dlp's output is kept as `None`. */
  datatype VideoData = VideoData(id: string, title: Option<string>, channel: Option<string>,
                                 views: Option<int>, duration: Option<string>, url: string,
                                 query: string, transcript: string, scrapedAt: string, error: string)

  /** The ledger after video `v` is recorded: its id appended to the
      scraped ids, one more scraped video, and one more with a transcript
      when its transcript is non-empty. */
  function Logged(l: Ledger, v: VideoData): Ledger
  {
    l.(scrapedIds := l.scrapedIds + [v.id], totalScraped := l.totalScraped + 1,
       totalWithTranscript := l.totalWithTranscript + if v.transcript != "" then 1 else 0)
  }

  /** The record `process_video` builds for candidate `c` whose id is `id`. */
  function Record(c: Candidate, id: string, fetch: TranscriptFetch, scrapedAt: string): VideoData
  {
    var (transcript, error) := TranscriptAndError(fetch, ERROR_LENGTH);
    VideoData(id, GetOr(c.entry.title, ""), ChannelOf(c.entry), GetOr(c.entry.viewCount, 0),
              GetOr(c.entry.durationString, ""), WatchUrl(id), c.query, transcript, scrapedAt, error)
  }

  /** The record carries the id, the query and the time it was given; its
      url is the watch url of the id; its transcript is cleaned, and a
      non-empty one comes from a fetched transcript with no error; its error
      is "no_transcript" without a transcript, and otherwise the first 100
      characters of the failure's message; its channel falls back to the uploader; a
      missing view count is 0. */
  lemma RecordSpec(c: Candidate, id: string, fetch: TranscriptFetch, scrapedAt: string)
    ensures var v := Record(c, id, fetch, scrapedAt);
            v.id == id && v.query == c.query && v.scrapedAt == scrapedAt
            && StartsWith(v.url, WATCH_URL_PREFIX) && v.url[|WATCH_URL_PREFIX|..] == id
            && (v.transcript, v.error) == TranscriptAndError(fetch, ERROR_LENGTH)
            && Canonical(v.transcript) && |v.error| <= ERROR_LENGTH
            && (fetch.Fetched? ==> v.transcript == TranscriptOf(fetch).0 && v.error == "")
            && ((fetch.TranscriptsDisabled? || fetch.NoTranscriptFound?) ==> v.transcript == "" && v.error == "no_transcript")
            && (fetch.FetchError? ==>
                  v.transcript == "" && StartsWith(fetch.message, v.error)
                  && |v.error| == (if |fetch.message| <= ERROR_LENGTH then |fetch.message| else ERROR_LENGTH))
            && (v.transcript != "" ==> v.error == "" && fetch.Fetched?)
            && v.channel == ChannelOf(c.entry)
            && (c.entry.viewCount.Absent? ==> v.views == Some(0))
            && (c.entry.viewCount.Present? ==> v.views == Some(c.entry.viewCount.value))
  {
    TranscriptAndErrorSpec(fetch, ERROR_LENGTH);
  }

  /** `f"worker_{worker_id}"`, the key of a worker's last request time. */
  function WorkerKey(workerId: int): string
  {
    "worker_" + IntToString(workerId)
  }

  /** Two workers never share a key, so each is spaced on its own. */
  lemma WorkerKeyInjective(a: int, b: int)
    requires WorkerKey(a) == WorkerKey(b)
    ensures a == b
  {
    assert WorkerKey(a)[7..] == IntToString(a);
    assert WorkerKey(b)[7..] == IntToString(b);
    IntRoundTrip(a);
    IntRoundTrip(b);
  }

  /** A truthy id: a non-empty string. */
  predicate HasId(c: Candidate)
  {
    c.entry.id.Present? && c.entry.id.value != ""
  }

  /** The ids of candidates. */
  function CollectedIds(cands: seq<Candidate>): set<string>
  {
    set c | c in cands && c.entry.id.Present? :: c.entry.id.value
  }

  lemma CollectedIdsSnoc(cands: seq<Candidate>, c: Candidate)
    requires c.entry.id.Present?
    ensures CollectedIds(cands + [c]) == CollectedIds(cands) + {c.entry.id.value}
  {
    assert forall x :: x in cands + [c] <==> x in cands || x == c;
  }

  /** No two candidates share an id. */
  predicate DistinctIds(cands: seq<Candidate>)
  {
    forall a, b :: 0 <= a < b < |cands| ==> cands[a].entry.id != cands[b].entry.id
  }

  lemma DistinctSnoc(cands: seq<Candidate>, c: Candidate)
    requires DistinctIds(cands) && c.entry.id.Present? && c.entry.id.value !in CollectedIds(cands)
    ensures DistinctIds(cands + [c])
  {
    forall k | 0 <= k < |cands|
      ensures cands[k].entry.id != c.entry.id
    {
      assert cands[k] in cands;
    }
  }

  /** The results among `found` that the inner loop of
      `collect_video_urls` keeps, in order: those whose id is a non-empty
      string outside `seen` and not kept before. */
  function Fresh(found: seq<Candidate>, seen: set<string>): seq<Candidate>
  {
    if found == [] then []
    else
      var kept := Fresh(found[..|found| - 1], seen);
      var c := found[|found| - 1];
      if HasId(c) && c.entry.id.value !in seen + CollectedIds(kept) then kept + [c] else kept
  }

  /** What is kept comes from `found`, has a non-empty id outside `seen`,
      and no id twice; and every non-empty id of `found` outside `seen` is
      kept. */
  lemma {:induction false} FreshSpec(found: seq<Candidate>, seen: set<string>)
    ensures forall c :: c in Fresh(found, seen) ==> c in found && HasId(c) && c.entry.id.value !in seen
    ensures DistinctIds(Fresh(found, seen))
    ensures forall c :: c in found && HasId(c) && c.entry.id.value !in seen
                        ==> c.entry.id.value in CollectedIds(Fresh(found, seen))
  {
    if found != [] {
      var init := found[..|found| - 1];
      var kept := Fresh(init, seen);
      var c := found[|found| - 1];
      FreshSpec(init, seen);
      assert found == init + [c];
      if HasId(c) && c.entry.id.value !in seen + CollectedIds(kept) {
        DistinctSnoc(kept, c);
        CollectedIdsSnoc(kept, c);
      }
    }
  }

  /** The inner loop of `collect_video_urls` over one query's results
      `found`: each result whose id is a non-empty string not in `seen` is
      appended to `all` and its id added to `seen`. */
  method KeepFresh(found: seq<Candidate>, all: seq<Candidate>, seen: set<string>)
    returns (all': seq<Candidate>, seen': set<string>)
    ensures all' == all + Fresh(found, seen)
    ensures seen' == seen + CollectedIds(Fresh(found, seen))
  {
    all', seen' := all, seen;
    for j := 0 to |found|
      invariant all' == all + Fresh(found[..j], seen)
      invariant seen' == seen + CollectedIds(Fresh(found[..j], seen))
    {
      var v := found[j];
      var vid := IdKey(v.entry);
      assert found[..j + 1][..j] == found[..j];
      if vid.Some? && vid.value != "" && vid.value !in seen' {
        CollectedIdsSnoc(Fresh(found[..j], seen), v);
        all' := all' + [v];
        seen' := seen' + {vid.value};
      }
    }
    assert found[..|found|] == found;
  }

  /** Every collected candidate has a non-empty id outside the ledger and
      was found by the query it carries, which was searched; no id is
      collected twice. */
  predicate Sound(all: seq<Candidate>, ledger: seq<string>, searched: seq<string>,
                  results: string -> seq<Candidate>)
  {
    (forall k :: 0 <= k < |all| ==> HasId(all[k]) && all[k].entry.id.value !in ledger)
    && (DistinctIds(all))
    && (forall c :: c in all ==> c.query in searched && c in results(c.query))
  }

  /** Every non-empty id outside the ledger that a searched query found was
      collected. */
  predicate Complete(all: seq<Candidate>, ledger: seq<string>, searched: seq<string>,
                     results: string -> seq<Candidate>)
  {
    forall q, c :: q in searched && c in results(q) && HasId(c) && c.entry.id.value !in ledger
                   ==> c.entry.id.value in CollectedIds(all)
  }

  lemma CollectedIdsConcat(a: seq<Candidate>, b: seq<Candidate>)
    ensures CollectedIds(a + b) == CollectedIds(a) + CollectedIds(b)
  {
    assert forall x :: x in a + b <==> x in a || x in b;
  }

  /** One query of `collect_video_urls`: appending what `KeepFresh` keeps
      from `query`'s results keeps the collection sound and complete for
      the queries searched so far and `query`. */
  lemma CollectStep(all: seq<Candidate>, ledger: seq<string>, searched: seq<string>, query: string,
                    results: string -> seq<Candidate>)
    requires Sound(all, ledger, searched, results) && Complete(all, ledger, searched, results)
    requires forall q, c :: c in results(q) ==> c.query == q
    ensures var all' := all + Fresh(results(query), (set x | x in ledger) + CollectedIds(all));
            Sound(all', ledger, searched + [query], results)
            && Complete(all', ledger, searched + [query], results)
  {
    var seen := (set x | x in ledger) + CollectedIds(all);
    var added := Fresh(results(query), seen);
    var all' := all + added;
    FreshSpec(results(query), seen);
    CollectedIdsConcat(all, added);
    forall k | 0 <= k < |all'|
      ensures HasId(all'[k]) && all'[k].entry.id.value !in ledger
    {
      if k >= |all| { assert all'[k] in added; }
    }
    forall a, b | 0 <= a < b < |all'|
      ensures all'[a].entry.id != all'[b].entry.id
    {
      if b >= |all| {
        assert all'[b] in added;
        if a < |all| {
          assert all'[a] in all;
        } else {
          assert added[a - |all|] == all'[a] && added[b - |all|] == all'[b];
        }
      }
    }
    forall c | c in all'
      ensures c.query in searched + [query] && c in results(c.query)
    {
      if c !in all { assert c in added; }
    }
  }

  /** The first `n` of a sound collection are sound. */
  lemma SoundPrefix(all: seq<Candidate>, n: int, ledger: seq<string>, searched: seq<string>,
                    results: string -> seq<Candidate>)
    requires Sound(all, ledger, searched, results)
    ensures Sound(Prefix(all, n), ledger, searched, results)
  {
    var p := Prefix(all, n);
    assert forall k :: 0 <= k < |p| ==> p[k] == all[k];
  }

  /** The loop of `collect_video_urls`: search every query not yet in
      `completed`, in order, keep each result whose id is a non-empty string
      seen neither in the ledger nor earlier in the collection, record the
      query as completed, and stop after the query that brings the
      collection to the target; return the first `targetCount` collected
      (`all_videos[:target_count]`). `results(q)` is what `search_videos`
      returns for query `q`, each result tagged with `q`; `searched` lists
      the queries searched, in order. */
  method Collect(queries: seq<string>, targetCount: int, completed: seq<string>, ledger: seq<string>,
                 results: string -> seq<Candidate>)
    returns (r: seq<Candidate>, completed': seq<string>, ghost searched: seq<string>)
    requires forall q, c :: c in results(q) ==> c.query == q
    ensures completed' == completed + searched
    ensures NoDup(searched)
    ensures forall q :: q in searched ==> q in queries && q !in completed
    ensures 0 <= targetCount ==> |r| <= targetCount
    ensures Sound(r, ledger, searched, results)
    ensures |r| < targetCount ==> forall q :: q in queries ==> q in completed'
    ensures |r| < targetCount ==> Complete(r, ledger, searched, results)
  {
    var all: seq<Candidate> := [];
    var seen: set<string> := set x | x in ledger;
    completed' := completed;
    searched := [];
    var i := 0;
    while i < |queries|
      invariant 0 <= i <= |queries|
      invariant completed' == completed + searched
      invariant NoDup(searched)
      invariant forall q :: q in searched ==> q in queries && q !in completed
      invariant forall k :: 0 <= k < i ==> queries[k] in completed'
      invariant seen == (set x | x in ledger) + CollectedIds(all)
      invariant Sound(all, ledger, searched, results) && Complete(all, ledger, searched, results)
    {
      var query := queries[i];
      if query in completed' {
        i := i + 1;
        continue;
      }
      CollectStep(all, ledger, searched, query, results);
      CollectedIdsConcat(all, Fresh(results(query), seen));
      all, seen := KeepFresh(results(query), all, seen);
      NoDupSnoc(searched, query);
      assert completed + (searched + [query]) == (completed + searched) + [query];
      completed' := completed' + [query];
      searched := searched + [query];
      if |all| >= targetCount {
        break;
      }
      i := i + 1;
    }
    r := Prefix(all, targetCount);
    SoundPrefix(all, targetCount, ledger, searched, results);
  }

  /** What `process_video` did: skipped an id already in the ledger, raised
      (a null id fails when its path is built), or saved a video. */
  datatype ProcessOutcome = Skipped | Raised | Done(video: VideoData)

  // ---- the checkpoint under the lock ----

  /** The ledger and the state file after recording videos, and whether
      the worker recording the last one blocked for good. */
  datatype Recording = Recording(ledger: Ledger, stateFile: Option<Ledger>, blocked: bool)

  /** Recording one video as written: `process_video` updates the ledger
      while holding `self.lock`, a non-reentrant lock, and when the total
      reaches a multiple of 100 it calls `_save_state`, which takes the
      same lock again. The worker then waits on itself: the ledger is
      updated in memory and the state file is not written. */
  function RecordAsWritten(l: Ledger, file: Option<Ledger>, v: VideoData): (r: Recording)
  {
    var l' := Logged(l, v);
    Recording(l', file, l'.totalScraped % CHECKPOINT_EVERY == 0)
  }

  /** Recording one video with the flush done without taking the lock a
      second time: the state file is written when the total reaches a
      multiple of 100, and the worker goes on. */
  function RecordCorrected(l: Ledger, file: Option<Ledger>, v: VideoData): (r: Recording)
  {
    var l' := Logged(l, v);
    Recording(l', if l'.totalScraped % CHECKPOINT_EVERY == 0 then Some(l') else file, false)
  }

  /** The two agree on the ledger; they part exactly at a multiple of 100,
      where the corrected one writes the state file and the one as written
      blocks without writing it. */
  lemma RecordAsWrittenVsCorrected(l: Ledger, file: Option<Ledger>, v: VideoData)
    ensures RecordAsWritten(l, file, v).ledger == RecordCorrected(l, file, v).ledger == Logged(l, v)
    ensures !RecordCorrected(l, file, v).blocked
    ensures RecordAsWritten(l, file, v).blocked <==> (l.totalScraped + 1) % CHECKPOINT_EVERY == 0
    ensures RecordAsWritten(l, file, v).stateFile == file
    ensures RecordCorrected(l, file, v).stateFile
            == if (l.totalScraped + 1) % CHECKPOINT_EVERY == 0 then Some(Logged(l, v)) else file
  {
  }

  /** The videos of a run recorded in turn with the corrected flush. */
  function ProcessCorrected(l: Ledger, file: Option<Ledger>, videos: seq<VideoData>): Recording
    decreases |videos|
  {
    if videos == [] then Recording(l, file, false)
    else
      var r := ProcessCorrected(l, file, videos[..|videos| - 1]);
      RecordCorrected(r.ledger, r.stateFile, videos[|videos| - 1])
  }

  /** The records `process_video` builds for the collected videos, video
      `i` stamped `stamps(i)`. */
  function Records(toProcess: seq<Candidate>, fetch: string -> TranscriptFetch, stamps: nat -> string): (r: seq<VideoData>)
    ensures |r| == |toProcess|
  {
    seq(|toProcess|, i requires 0 <= i < |toProcess| =>
      Record(toProcess[i], IdOf(toProcess[i]), fetch(IdOf(toProcess[i])), stamps(i)))
  }

  /** One more video of a run is one more recording. */
  lemma ProcessCorrectedNext(l: Ledger, file: Option<Ledger>, videos: seq<VideoData>, i: int)
    requires 0 <= i < |videos|
    ensures var r := ProcessCorrected(l, file, videos[..i]);
            ProcessCorrected(l, file, videos[..i + 1]) == RecordCorrected(r.ledger, r.stateFile, videos[i])
  {
    assert videos[..i + 1][..i] == videos[..i];
  }

  /** One more video moves the last checkpoint to the new total exactly
      when it is a multiple of 100. */
  lemma LastCheckpointNext(t: int)
    ensures (t + 1) % CHECKPOINT_EVERY == 0 ==> LastCheckpoint(t + 1, CHECKPOINT_EVERY) == t + 1
    ensures (t + 1) % CHECKPOINT_EVERY != 0 ==> LastCheckpoint(t + 1, CHECKPOINT_EVERY) == LastCheckpoint(t, CHECKPOINT_EVERY)
  {
  }

  /** With the corrected flush no worker blocks and every video is
      recorded in order. */
  lemma ProcessCorrectedLedger(l: Ledger, file: Option<Ledger>, videos: seq<VideoData>)
    ensures var r := ProcessCorrected(l, file, videos);
            && !r.blocked
            && r.ledger.totalScraped == l.totalScraped + |videos|
            && r.ledger.scrapedIds == l.scrapedIds + seq(|videos|, i requires 0 <= i < |videos| => videos[i].id)
  {
    ProcessCorrectedTotal(l, file, videos);
    ProcessCorrectedIds(l, file, videos);
  }

  lemma {:induction false} ProcessCorrectedTotal(l: Ledger, file: Option<Ledger>, videos: seq<VideoData>)
    ensures !ProcessCorrected(l, file, videos).blocked
    ensures ProcessCorrected(l, file, videos).ledger.totalScraped == l.totalScraped + |videos|
    decreases |videos|
  {
    if videos != [] {
      ProcessCorrectedTotal(l, file, videos[..|videos| - 1]);
    }
  }

  lemma {:induction false} ProcessCorrectedIds(l: Ledger, file: Option<Ledger>, videos: seq<VideoData>)
    ensures ProcessCorrected(l, file, videos).ledger.scrapedIds
            == l.scrapedIds + seq(|videos|, i requires 0 <= i < |videos| => videos[i].id)
    decreases |videos|
  {
    if videos != [] {
      var init := videos[..|videos| - 1];
      ProcessCorrectedIds(l, file, init);
      assert seq(|videos|, i requires 0 <= i < |videos| => videos[i].id)
             == seq(|init|, i requires 0 <= i < |init| => init[i].id) + [videos[|videos| - 1].id];
    }
  }

  /** The state file after a run with the corrected flush (see `FileAt`). */
  lemma {:induction false} ProcessCorrectedFile(l: Ledger, file: Option<Ledger>, videos: seq<VideoData>)
    ensures FileAt(l, file, videos)
    decreases |videos|
  {
    if videos != [] {
      ProcessCorrectedFile(l, file, videos[..|videos| - 1]);
      FileAtNext(l, file, videos);
    }
  }

  /** With the corrected flush, a run that passes no multiple of 100 leaves
      the state file alone; one that does leaves in it the ledger as it was
      when the total reached the last multiple of 100 passed. */
  predicate FileAt(l: Ledger, file: Option<Ledger>, videos: seq<VideoData>)
  {
    var c := LastCheckpoint(l.totalScraped + |videos|, CHECKPOINT_EVERY);
    && (c <= l.totalScraped ==> ProcessCorrected(l, file, videos).stateFile == file)
    && (l.totalScraped < c ==>
          ProcessCorrected(l, file, videos).stateFile
          == Some(ProcessCorrected(l, file, videos[..c - l.totalScraped]).ledger))
  }

  /** The state file account carries over one more video. */
  lemma FileAtNext(l: Ledger, file: Option<Ledger>, videos: seq<VideoData>)
    requires videos != [] && FileAt(l, file, videos[..|videos| - 1])
    ensures FileAt(l, file, videos)
  {
    var t := l.totalScraped + |videos| - 1;
    if (t + 1) % CHECKPOINT_EVERY == 0 {
      FileAtFlush(l, file, videos);
    } else {
      FileAtCarry(l, file, videos);
    }
  }

  /** A video that brings the total to a multiple of 100 writes the state
      file with the whole run's ledger. */
  lemma FileAtFlush(l: Ledger, file: Option<Ledger>, videos: seq<VideoData>)
    requires videos != [] && (l.totalScraped + |videos|) % CHECKPOINT_EVERY == 0
    ensures FileAt(l, file, videos)
  {
    var init := videos[..|videos| - 1];
    var r0 := ProcessCorrected(l, file, init);
    ProcessCorrectedTotal(l, file, init);
    var rec := RecordCorrected(r0.ledger, r0.stateFile, videos[|videos| - 1]);
    assert ProcessCorrected(l, file, videos) == rec;
    var c1 := LastCheckpoint(l.totalScraped + |videos|, CHECKPOINT_EVERY);
    assert c1 == l.totalScraped + |videos| && rec.stateFile == Some(rec.ledger);
    assert videos[..c1 - l.totalScraped] == videos;
  }

  /** Any other video leaves the state file and the last checkpoint as they
      were. */
  lemma FileAtCarry(l: Ledger, file: Option<Ledger>, videos: seq<VideoData>)
    requires videos != [] && FileAt(l, file, videos[..|videos| - 1])
    requires (l.totalScraped + |videos|) % CHECKPOINT_EVERY != 0
    ensures FileAt(l, file, videos)
  {
    var init := videos[..|videos| - 1];
    var t := l.totalScraped + |init|;
    RecordKeepsFile(l, file, videos);
    LastCheckpointNext(t);
    var c0 := LastCheckpoint(t, CHECKPOINT_EVERY);
    assert LastCheckpoint(t + 1, CHECKPOINT_EVERY) == c0;
    if l.totalScraped < c0 {
      assert videos[..c0 - l.totalScraped] == init[..c0 - l.totalScraped];
    }
  }

  /** A video that does not bring the total to a multiple of 100 leaves the
      state file as it was. */
  lemma RecordKeepsFile(l: Ledger, file: Option<Ledger>, videos: seq<VideoData>)
    requires videos != [] && (l.totalScraped + |videos|) % CHECKPOINT_EVERY != 0
    ensures ProcessCorrected(l, file, videos).stateFile == ProcessCorrected(l, file, videos[..|videos| - 1]).stateFile
  {
    ProcessCorrectedTotal(l, file, videos[..|videos| - 1]);
  }

  /** The videos of a run recorded in turn as written, up to the first one
      whose worker blocks. A run that blocks never completes its futures,
      so `scrape` never reaches its final `_save_state`. */
  function ProcessAsWritten(l: Ledger, file: Option<Ledger>, videos: seq<VideoData>): Recording
    decreases |videos|
  {
    if videos == [] then Recording(l, file, false)
    else
      var r := RecordAsWritten(l, file, videos[0]);
      if r.blocked then r else ProcessAsWritten(r.ledger, r.stateFile, videos[1..])
  }

  /** As written, a run with at least as many videos as the total is short
      of the next multiple of 100 blocks, at exactly that multiple, with the
      state file as it was before the run. */
  lemma {:induction false} ProcessAsWrittenBlocks(l: Ledger, file: Option<Ledger>, videos: seq<VideoData>)
    requires |videos| >= CHECKPOINT_EVERY - l.totalScraped % CHECKPOINT_EVERY
    ensures ProcessAsWritten(l, file, videos).blocked
    ensures ProcessAsWritten(l, file, videos).stateFile == file
    ensures ProcessAsWritten(l, file, videos).ledger.totalScraped
            == l.totalScraped + (CHECKPOINT_EVERY - l.totalScraped % CHECKPOINT_EVERY)
    decreases |videos|
  {
    var r := RecordAsWritten(l, file, videos[0]);
    if !r.blocked {
      assert (l.totalScraped + 1) % CHECKPOINT_EVERY == l.totalScraped % CHECKPOINT_EVERY + 1;
      ProcessAsWrittenBlocks(r.ledger, r.stateFile, videos[1..]);
    }
  }

  /** The run from a fresh ledger with no state file: with 100 videos or
      more to process, the 100th blocks and no state file is ever written. */
  lemma FreshRunNeverSaves(startedAt: string, videos: seq<VideoData>)
    requires |videos| >= CHECKPOINT_EVERY
    ensures var r := ProcessAsWritten(Ledger([], [], [], 0, 0, startedAt), None, videos);
            r.blocked && r.stateFile == None && r.ledger.totalScraped == CHECKPOINT_EVERY
  {
    ProcessAsWrittenBlocks(Ledger([], [], [], 0, 0, startedAt), None, videos);
  }

  // ---- the saved files and the request times of a run ----

  /** The video files after saving `videos` in order over `files`: each
      record written at its id's path, a later one replacing an earlier one
      there. */
  function SavedFiles(files: map<string, VideoData>, videos: seq<VideoData>): map<string, VideoData>
  {
    if videos == [] then files
    else SavedFiles(files, videos[..|videos| - 1])[VideoKey(videos[|videos| - 1].id) := videos[|videos| - 1]]
  }

  /** One more saved record is one more write. */
  lemma SavedFilesNext(files: map<string, VideoData>, videos: seq<VideoData>, i: int)
    requires 0 <= i < |videos|
    ensures SavedFiles(files, videos[..i + 1]) == SavedFiles(files, videos[..i])[VideoKey(videos[i].id) := videos[i]]
  {
    assert videos[..i + 1][..i] == videos[..i];
  }

  lemma {:induction false} SavedFilesKeys(files: map<string, VideoData>, videos: seq<VideoData>)
    ensures SavedFiles(files, videos).Keys == files.Keys + set v | v in videos :: VideoKey(v.id)
  {
    if videos != [] {
      var init, last := videos[..|videos| - 1], videos[|videos| - 1];
      SavedFilesKeys(files, init);
      assert videos == init + [last];
      assert (set v | v in videos :: VideoKey(v.id)) == (set v | v in init :: VideoKey(v.id)) + {VideoKey(last.id)};
    }
  }

  lemma {:induction false} SavedFilesKeeps(files: map<string, VideoData>, videos: seq<VideoData>)
    ensures forall p :: p in files && (forall v :: v in videos ==> VideoKey(v.id) != p) ==>
              p in SavedFiles(files, videos) && SavedFiles(files, videos)[p] == files[p]
  {
    if videos != [] {
      var init := videos[..|videos| - 1];
      SavedFilesKeeps(files, init);
      assert forall v :: v in init ==> v in videos;
    }
  }

  lemma {:induction false} SavedFilesLast(files: map<string, VideoData>, videos: seq<VideoData>, i: int)
    requires 0 <= i < |videos| && forall j :: i < j < |videos| ==> videos[j].id != videos[i].id
    ensures VideoKey(videos[i].id) in SavedFiles(files, videos)
    ensures SavedFiles(files, videos)[VideoKey(videos[i].id)] == videos[i]
  {
    var init, last := videos[..|videos| - 1], videos[|videos| - 1];
    if i < |init| {
      SavedFilesLast(files, init, i);
      if VideoKey(last.id) == VideoKey(videos[i].id) {
        VideoKeyInjective(last.id, videos[i].id);
      }
    }
  }

  /** The files are the old ones plus one per saved record's path; a path
      no saved record has keeps its old contents, and a record no later
      record shares its id with is what its file holds. */
  lemma SavedFilesSpec(files: map<string, VideoData>, videos: seq<VideoData>)
    ensures SavedFiles(files, videos).Keys == files.Keys + set v | v in videos :: VideoKey(v.id)
    ensures forall p :: p in files && (forall v :: v in videos ==> VideoKey(v.id) != p) ==>
              SavedFiles(files, videos)[p] == files[p]
    ensures forall i :: 0 <= i < |videos| && (forall j :: i < j < |videos| ==> videos[j].id != videos[i].id) ==>
              SavedFiles(files, videos)[VideoKey(videos[i].id)] == videos[i]
  {
    SavedFilesKeys(files, videos);
    SavedFilesKeeps(files, videos);
    forall i | 0 <= i < |videos| && (forall j :: i < j < |videos| ==> videos[j].id != videos[i].id)
      ensures SavedFiles(files, videos)[VideoKey(videos[i].id)] == videos[i]
    {
      SavedFilesLast(files, videos, i);
    }
  }

  /** The request times after worker `workerId` takes its turn at clock
      reading `now`: its time becomes the first moment at least
      `rate_limit` after its previous request, and not before `now`. */
  function Turn(times: map<string, int>, workerId: int, now: int): map<string, int>
  {
    var key := WorkerKey(workerId);
    times[key := if key in times then NextStart(now, times[key], RATE_LIMIT_MS) else now]
  }

  /** The request times after the first `n` videos of a run, video `i` on
      worker `i % maxWorkers` at clock reading `clock(i)`. */
  function Turns(times: map<string, int>, n: nat, maxWorkers: int, clock: nat -> int): map<string, int>
    requires maxWorkers > 0
  {
    if n == 0 then times
    else Turn(Turns(times, n - 1, maxWorkers, clock), (n - 1) % maxWorkers, clock(n - 1))
  }

  /** One turn adds the worker's key, keeps every other key's time, and
      gives the worker a time no earlier than `now` nor than its old one. */
  lemma TurnStep(times: map<string, int>, workerId: int, now: int)
    ensures Turn(times, workerId, now).Keys == times.Keys + {WorkerKey(workerId)}
    ensures forall key :: key in times && key != WorkerKey(workerId) ==> Turn(times, workerId, now)[key] == times[key]
    ensures Turn(times, workerId, now)[WorkerKey(workerId)] >= now
    ensures WorkerKey(workerId) in times ==> Turn(times, workerId, now)[WorkerKey(workerId)] >= times[WorkerKey(workerId)]
  {
  }

  lemma {:induction false} TurnsKeys(times: map<string, int>, n: nat, maxWorkers: int, clock: nat -> int)
    requires maxWorkers > 0
    ensures Turns(times, n, maxWorkers, clock).Keys == times.Keys + set i | 0 <= i < n :: WorkerKey(i % maxWorkers)
  {
    if n > 0 {
      TurnsKeys(times, n - 1, maxWorkers, clock);
      TurnStep(Turns(times, n - 1, maxWorkers, clock), (n - 1) % maxWorkers, clock(n - 1));
      assert (set i | 0 <= i < n :: WorkerKey(i % maxWorkers))
             == (set i | 0 <= i < n - 1 :: WorkerKey(i % maxWorkers)) + {WorkerKey((n - 1) % maxWorkers)};
    }
  }

  lemma {:induction false} TurnsKeeps(times: map<string, int>, n: nat, maxWorkers: int, clock: nat -> int)
    requires maxWorkers > 0
    ensures forall key :: key in times && (forall i :: 0 <= i < n ==> WorkerKey(i % maxWorkers) != key) ==>
              key in Turns(times, n, maxWorkers, clock) && Turns(times, n, maxWorkers, clock)[key] == times[key]
  {
    if n > 0 {
      TurnsKeeps(times, n - 1, maxWorkers, clock);
      TurnStep(Turns(times, n - 1, maxWorkers, clock), (n - 1) % maxWorkers, clock(n - 1));
    }
  }

  lemma {:induction false} TurnsReach(times: map<string, int>, n: nat, maxWorkers: int, clock: nat -> int)
    requires maxWorkers > 0
    ensures forall i :: 0 <= i < n ==>
              WorkerKey(i % maxWorkers) in Turns(times, n, maxWorkers, clock)
              && Turns(times, n, maxWorkers, clock)[WorkerKey(i % maxWorkers)] >= clock(i)
  {
    if n > 0 {
      TurnsReach(times, n - 1, maxWorkers, clock);
      TurnStep(Turns(times, n - 1, maxWorkers, clock), (n - 1) % maxWorkers, clock(n - 1));
    }
  }

  /** The run's workers gain a request time each; any other key keeps its
      time; and every video's worker ends with a time no earlier than the
      clock reading of that video, since a worker's time only grows. */
  lemma TurnsSpec(times: map<string, int>, n: nat, maxWorkers: int, clock: nat -> int)
    requires maxWorkers > 0
    ensures Turns(times, n, maxWorkers, clock).Keys == times.Keys + set i | 0 <= i < n :: WorkerKey(i % maxWorkers)
    ensures forall key :: key in times && (forall i :: 0 <= i < n ==> WorkerKey(i % maxWorkers) != key) ==>
              Turns(times, n, maxWorkers, clock)[key] == times[key]
    ensures forall i :: 0 <= i < n ==> Turns(times, n, maxWorkers, clock)[WorkerKey(i % maxWorkers)] >= clock(i)
  {
    TurnsKeys(times, n, maxWorkers, clock);
    TurnsKeeps(times, n, maxWorkers, clock);
    TurnsReach(times, n, maxWorkers, clock);
  }

  // ---- the query list ----

  /** `scrape`'s query list: the given queries (the built-in list when none
      are given), and, when the target exceeds what they can yield, each of
      them followed by its " 2024", " 2025", " beginner" and " advanced"
      variants. */
  predicate ExpandedFrom(queries: seq<string>, targetCount: int, r: seq<string>)
  {
    var base := if queries == [] then ROBLOX_QUERIES else queries;
    && (targetCount <= |base| * VIDEOS_PER_QUERY ==> r == base)
    && (targetCount > |base| * VIDEOS_PER_QUERY ==>
          |r| == 5 * |base|
          && forall i :: 0 <= i < |base| ==>
               r[5 * i] == base[i] && r[5 * i + 1] == base[i] + " 2024"
               && r[5 * i + 2] == base[i] + " 2025" && r[5 * i + 3] == base[i] + " beginner"
               && r[5 * i + 4] == base[i] + " advanced")
  }

  /** The expansion loop of `scrape`. */
  method ExpandQueries(queries: seq<string>, targetCount: int) returns (r: seq<string>)
    ensures ExpandedFrom(queries, targetCount, r)
  {
    r := if queries == [] then ROBLOX_QUERIES else queries;
    if targetCount > |r| * VIDEOS_PER_QUERY {
      var base := r;
      var expanded: seq<string> := [];
      for i := 0 to |base|
        invariant |expanded| == 5 * i
        invariant forall k :: 0 <= k < i ==>
                    expanded[5 * k] == base[k] && expanded[5 * k + 1] == base[k] + " 2024"
                    && expanded[5 * k + 2] == base[k] + " 2025" && expanded[5 * k + 3] == base[k] + " beginner"
                    && expanded[5 * k + 4] == base[k] + " advanced"
      {
        expanded := expanded + [base[i], base[i] + " 2024", base[i] + " 2025",
                                base[i] + " beginner", base[i] + " advanced"];
      }
      r := expanded;
    }
  }

  // ---- the account of a run ----

  /** The scraper's fields at one moment: the ledger, the state file, the
      saved video files and the workers' last request times. */
  datatype Snapshot = Snapshot(ledger: Ledger, stateFile: Option<Ledger>, files: map<string, VideoData>,
                               times: map<string, int>)

  /** Every id in the ledger has its record saved under its own path. */
  predicate BackedBy(l: Ledger, files: map<string, VideoData>)
  {
    forall id :: id in l.scrapedIds ==> VideoKey(id) in files && files[VideoKey(id)].id == id
  }

  /** The first `i` collected videos are processed, from the fields
      `start` to the fields `now`: the ledger has their ids appended and
      its counters count them, the queries are unchanged, the saved files
      and the distinct ids are kept, the ledger and state file are those of
      the corrected recording of their records, their records are saved
      over the old files, and their workers have taken their turns over
      the old request times. */
  predicate RunAccount(now: Snapshot, start: Snapshot, toProcess: seq<Candidate>, records: seq<VideoData>,
                       maxWorkers: int, clock: nat -> int, i: int, success: int, transcripts: int)
  {
    && 0 <= i <= |toProcess| && |records| == |toProcess| && maxWorkers > 0
    && success == i && transcripts <= success
    && now.ledger.scrapedIds == start.ledger.scrapedIds + IdsOf(toProcess[..i])
    && now.ledger.queriesCompleted == start.ledger.queriesCompleted
    && success == now.ledger.totalScraped - start.ledger.totalScraped
    && transcripts == now.ledger.totalWithTranscript - start.ledger.totalWithTranscript
    && (BackedBy(start.ledger, start.files) ==> BackedBy(now.ledger, now.files))
    && (NoDup(start.ledger.scrapedIds) ==> NoDup(now.ledger.scrapedIds))
    && Recording(now.ledger, now.stateFile, false) == ProcessCorrected(start.ledger, start.stateFile, records[..i])
    && now.files == SavedFiles(start.files, records[..i])
    && now.times == Turns(start.times, i, maxWorkers, clock)
  }

  /** Processing video `i` as `ProcessOne` does moves the account on by
      one video. */
  lemma RunAccountNext(now: Snapshot, next: Snapshot, start: Snapshot, toProcess: seq<Candidate>,
                       v: VideoData, records: seq<VideoData>, maxWorkers: int, clock: nat -> int,
                       i: int, success: int, transcripts: int, withTranscript: bool)
    requires RunAccount(now, start, toProcess, records, maxWorkers, clock, i, success, transcripts)
    requires i < |toProcess| && records[i] == v && v.id == IdOf(toProcess[i])
    requires IdsOf(toProcess[..i + 1]) == IdsOf(toProcess[..i]) + [IdOf(toProcess[i])]
    requires && next.ledger.scrapedIds == now.ledger.scrapedIds + [v.id]
             && next.ledger.queriesCompleted == now.ledger.queriesCompleted
             && next.ledger.totalScraped == now.ledger.totalScraped + 1
             && next.ledger.totalWithTranscript == now.ledger.totalWithTranscript + (if withTranscript then 1 else 0)
             && (BackedBy(now.ledger, now.files) ==> BackedBy(next.ledger, next.files))
             && (NoDup(now.ledger.scrapedIds) ==> NoDup(next.ledger.scrapedIds))
             && Recording(next.ledger, next.stateFile, false) == RecordCorrected(now.ledger, now.stateFile, v)
             && next.files == now.files[VideoKey(v.id) := v]
             && next.times == Turn(now.times, i % maxWorkers, clock(i))
    ensures RunAccount(next, start, toProcess, records, maxWorkers, clock, i + 1, success + 1,
                       if withTranscript then transcripts + 1 else transcripts)
  {
    ProcessCorrectedNext(start.ledger, start.stateFile, records, i);
    SavedFilesNext(start.files, records, i);
    assert next.times == Turns(start.times, i + 1, maxWorkers, clock);
    assert next.ledger.scrapedIds == start.ledger.scrapedIds + IdsOf(toProcess[..i + 1]);
  }

  // ---- the scraper ----

  class BulkYouTubeScraper {
    /** The ledger in memory. */
    var state: Ledger
    /** The last request time of each worker key, in milliseconds. */
    var requestTimes: map<string, int>
    /** The saved video records under the data directory, by relative path. */
    var videoFiles: map<string, VideoData>
    /** What the state file holds, if it exists. */
    var stateFile: Option<Ledger>

    /** Every id in the ledger has its record saved under its own path. */
    predicate Backed()
      reads this
    {
      BackedBy(state, videoFiles)
    }

    ghost function Snap(): Snapshot
      reads this
    {
      Snapshot(state, stateFile, videoFiles, requestTimes)
    }

    /** `__init__` and `_load_state`: the ledger from the state file, or an
        empty one started at `startedAt`. */
    constructor (saved: Option<Ledger>, files: map<string, VideoData>, startedAt: string)
      ensures saved.Some? ==> state == saved.value
      ensures saved.None? ==>
                state.scrapedIds == [] && state.failedIds == [] && state.queriesCompleted == []
                && state.totalScraped == 0 && state.totalWithTranscript == 0 && state.startedAt == startedAt
      ensures requestTimes == map[] && videoFiles == files && stateFile == saved
    {
      state := if saved.Some? then saved.value else Ledger([], [], [], 0, 0, startedAt);
      requestTimes := map[];
      videoFiles := files;
      stateFile := saved;
    }

    /** `collect_video_urls`: the collection loop below, whose queries
        searched are recorded as completed in the ledger. */
    method CollectVideoUrls(queries: seq<string>, targetCount: int, results: string -> seq<Candidate>)
      returns (r: seq<Candidate>, ghost searched: seq<string>)
      requires forall q, c :: c in results(q) ==> c.query == q
      modifies this
      ensures state == old(state).(queriesCompleted := old(state.queriesCompleted) + searched)
      ensures requestTimes == old(requestTimes) && videoFiles == old(videoFiles) && stateFile == old(stateFile)
      ensures NoDup(searched)
      ensures forall q :: q in searched ==> q in queries && q !in old(state.queriesCompleted)
      ensures 0 <= targetCount ==> |r| <= targetCount
      ensures Sound(r, old(state.scrapedIds), searched, results)
      ensures |r| < targetCount ==> forall q :: q in queries ==> q in state.queriesCompleted
      ensures |r| < targetCount ==> Complete(r, old(state.scrapedIds), searched, results)
    {
      var completed;
      r, completed, searched := Collect(queries, targetCount, state.queriesCompleted, state.scrapedIds, results);
      state := state.(queriesCompleted := completed);
    }

    /** `scrape`, run on one thread: expand the queries, collect fresh
        videos from `search_videos` on them, and, when there are any,
        process them all and write the state file. Returns the numbers of
        videos processed and of those with a transcript (the figures the
        run reports); `expanded` is the query list searched, `searched` the
        queries actually searched and `collected` what
        `collect_video_urls` returned. Every collected video is fresh, so
        every one is processed and the ledger grows by exactly their ids. */
    method Scrape(targetCount: int, queries: seq<string>, minViews: int, maxWorkers: int,
                  search: string -> SearchOutcome, fetch: string -> TranscriptFetch,
                  clock: nat -> int, stamps: nat -> string)
      returns (success: nat, transcripts: nat, ghost expanded: seq<string>, ghost collected: seq<Candidate>,
               ghost searched: seq<string>)
      requires maxWorkers > 0
      modifies this
      ensures ExpandedFrom(queries, targetCount, expanded)
      ensures NoDup(searched)
      ensures forall q :: q in searched ==> q in expanded && q !in old(state.queriesCompleted)
      ensures Sound(collected, old(state.scrapedIds), searched, q => Search(search(QueryTarget(q)), q, minViews))
      ensures |collected| < targetCount ==> forall q :: q in expanded ==> q in state.queriesCompleted
      ensures |collected| < targetCount ==>
                Complete(collected, old(state.scrapedIds), searched, q => Search(search(QueryTarget(q)), q, minViews))
      ensures 0 <= targetCount ==> success <= targetCount
      ensures success == |collected|
      ensures state.scrapedIds == old(state.scrapedIds) + IdsOf(collected)
      ensures state.queriesCompleted == old(state.queriesCompleted) + searched
      ensures success == state.totalScraped - old(state.totalScraped)
      ensures transcripts == state.totalWithTranscript - old(state.totalWithTranscript)
      ensures transcripts <= success
      ensures old(NoDup(state.scrapedIds)) ==> NoDup(state.scrapedIds)
      ensures old(Backed()) ==> Backed()
      ensures success > 0 ==> stateFile == Some(state)
      ensures success == 0 ==> stateFile == old(stateFile)
      ensures videoFiles == SavedFiles(old(videoFiles), Records(collected, fetch, stamps))
      ensures requestTimes == Turns(old(requestTimes), |collected|, maxWorkers, clock)
    {
      var toProcess;
      toProcess, expanded, searched := ExpandAndCollect(targetCount, queries, minViews, search);
      collected := toProcess;
      success, transcripts := ProcessCollected(toProcess, maxWorkers, fetch, clock, stamps);
    }

    /** The start of `scrape`: expand the queries and collect fresh videos
        from `search_videos` on them. */
    method ExpandAndCollect(targetCount: int, queries: seq<string>, minViews: int, search: string -> SearchOutcome)
      returns (collected: seq<Candidate>, ghost expanded: seq<string>, ghost searched: seq<string>)
      modifies this
      ensures ExpandedFrom(queries, targetCount, expanded)
      ensures NoDup(searched)
      ensures forall q :: q in searched ==> q in expanded && q !in old(state.queriesCompleted)
      ensures Sound(collected, old(state.scrapedIds), searched, q => Search(search(QueryTarget(q)), q, minViews))
      ensures |collected| < targetCount ==> forall q :: q in expanded ==> q in state.queriesCompleted
      ensures |collected| < targetCount ==>
                Complete(collected, old(state.scrapedIds), searched, q => Search(search(QueryTarget(q)), q, minViews))
      ensures 0 <= targetCount ==> |collected| <= targetCount
      ensures state == old(state).(queriesCompleted := old(state.queriesCompleted) + searched)
      ensures requestTimes == old(requestTimes) && videoFiles == old(videoFiles) && stateFile == old(stateFile)
    {
      var queryList := ExpandQueries(queries, targetCount);
      expanded := queryList;
      var results := q => Search(search(QueryTarget(q)), q, minViews);
      SearchTagged(search, minViews);
      collected, searched := CollectVideoUrls(queryList, targetCount, results);
    }

    /** The end of `scrape`: nothing happens when no video was collected;
        otherwise every collected video is processed and the state file is
        written. */
    method ProcessCollected(toProcess: seq<Candidate>, maxWorkers: int, fetch: string -> TranscriptFetch,
                            clock: nat -> int, stamps: nat -> string)
      returns (success: nat, transcripts: nat)
      requires maxWorkers > 0
      requires forall k :: 0 <= k < |toProcess| ==>
                 HasId(toProcess[k]) && toProcess[k].entry.id.value !in state.scrapedIds
      requires DistinctIds(toProcess)
      modifies this
      ensures success == |toProcess| && transcripts <= success
      ensures state.scrapedIds == old(state.scrapedIds) + IdsOf(toProcess)
      ensures state.queriesCompleted == old(state.queriesCompleted)
      ensures success == state.totalScraped - old(state.totalScraped)
      ensures transcripts == state.totalWithTranscript - old(state.totalWithTranscript)
      ensures old(NoDup(state.scrapedIds)) ==> NoDup(state.scrapedIds)
      ensures old(Backed()) ==> Backed()
      ensures success > 0 ==> stateFile == Some(state)
      ensures success == 0 ==> stateFile == old(stateFile)
      ensures videoFiles == SavedFiles(old(videoFiles), Records(toProcess, fetch, stamps))
      ensures requestTimes == Turns(old(requestTimes), |toProcess|, maxWorkers, clock)
    {
      if toProcess == [] {
        assert Records(toProcess, fetch, stamps) == [];
        return 0, 0;
      }
      success, transcripts := ProcessAll(toProcess, maxWorkers, fetch, clock, stamps);
      stateFile := Some(state);
    }

    /** The work `scrape` hands to its workers: `process_video` on each
        collected video in order, video `i` on worker `i % maxWorkers` with
        the clock reading `clock(i)` and the time stamp `stamps(i)`, counting
        the videos processed and those with a transcript. */
    method ProcessAll(toProcess: seq<Candidate>, maxWorkers: int, fetch: string -> TranscriptFetch,
                      clock: nat -> int, stamps: nat -> string)
      returns (success: nat, transcripts: nat)
      requires maxWorkers > 0
      requires forall k :: 0 <= k < |toProcess| ==>
                 HasId(toProcess[k]) && toProcess[k].entry.id.value !in state.scrapedIds
      requires DistinctIds(toProcess)
      modifies this
      ensures success == |toProcess| && transcripts <= success
      ensures state.scrapedIds == old(state.scrapedIds) + IdsOf(toProcess)
      ensures state.queriesCompleted == old(state.queriesCompleted)
      ensures success == state.totalScraped - old(state.totalScraped)
      ensures transcripts == state.totalWithTranscript - old(state.totalWithTranscript)
      ensures old(NoDup(state.scrapedIds)) ==> NoDup(state.scrapedIds)
      ensures old(Backed()) ==> Backed()
      ensures Recording(state, stateFile, false)
              == ProcessCorrected(old(state), old(stateFile), Records(toProcess, fetch, stamps))
      ensures videoFiles == SavedFiles(old(videoFiles), Records(toProcess, fetch, stamps))
      ensures requestTimes == Turns(old(requestTimes), |toProcess|, maxWorkers, clock)
    {
      ghost var records := Records(toProcess, fetch, stamps);
      success, transcripts := 0, 0;
      for i := 0 to |toProcess|
        invariant RunAccount(Snap(), old(Snap()), toProcess, records, maxWorkers, clock, i, success, transcripts)
      {
        success, transcripts := ProcessNext(toProcess, i, maxWorkers, fetch, clock, stamps, old(Snap()), records,
                                            success, transcripts);
      }
      assert toProcess[..|toProcess|] == toProcess;
      assert records[..|toProcess|] == records;
    }

    /** One turn of the processing loop: video `i` on worker
        `i % maxWorkers`, moving the account of the run from `start` on by
        one video. */
    method ProcessNext(toProcess: seq<Candidate>, i: int, maxWorkers: int, fetch: string -> TranscriptFetch,
                       clock: nat -> int, stamps: nat -> string, ghost start: Snapshot, ghost records: seq<VideoData>,
                       success: nat, transcripts: nat)
      returns (success': nat, transcripts': nat)
      requires maxWorkers > 0 && 0 <= i < |toProcess|
      requires forall k :: 0 <= k < |toProcess| ==>
                 HasId(toProcess[k]) && toProcess[k].entry.id.value !in start.ledger.scrapedIds
      requires DistinctIds(toProcess)
      requires records == Records(toProcess, fetch, stamps)
      requires RunAccount(Snap(), start, toProcess, records, maxWorkers, clock, i, success, transcripts)
      modifies this
      ensures RunAccount(Snap(), start, toProcess, records, maxWorkers, clock, i + 1, success', transcripts')
    {
      var c := toProcess[i];
      assert records[i] == Record(c, IdOf(c), fetch(IdOf(c)), stamps(i));
      FreshInTurn(start.ledger.scrapedIds, toProcess, i);
      ghost var before := Snap();
      var withTranscript := ProcessOne(c, i % maxWorkers, clock(i), fetch, stamps(i));
      RunAccountNext(before, Snap(), start, toProcess, records[i], records, maxWorkers, clock, i, success,
                     transcripts, withTranscript);
      success' := success + 1;
      transcripts' := if withTranscript then transcripts + 1 else transcripts;
    }

    /** One collected video of the processing loop, whose id is not yet in
        the ledger: the worker takes its turn, the record is saved at its
        path, the id enters the ledger, `total_scraped` rises by one and
        `total_with_transcript` by one exactly when a transcript was found. */
    method ProcessOne(c: Candidate, workerId: int, now: int, fetch: string -> TranscriptFetch,
                      scrapedAt: string) returns (withTranscript: bool)
      requires IdKey(c.entry) == Some(IdOf(c)) && IdOf(c) !in state.scrapedIds
      modifies this
      ensures state.scrapedIds == old(state.scrapedIds) + [IdOf(c)]
      ensures state.queriesCompleted == old(state.queriesCompleted)
      ensures state.totalScraped == old(state.totalScraped) + 1
      ensures state.totalWithTranscript == old(state.totalWithTranscript) + if withTranscript then 1 else 0
      ensures old(Backed()) ==> Backed()
      ensures old(NoDup(state.scrapedIds)) ==> NoDup(state.scrapedIds)
      ensures Recording(state, stateFile, false)
              == RecordCorrected(old(state), old(stateFile), Record(c, IdOf(c), fetch(IdOf(c)), scrapedAt))
      ensures videoFiles == old(videoFiles)[VideoKey(IdOf(c)) := Record(c, IdOf(c), fetch(IdOf(c)), scrapedAt)]
      ensures requestTimes == Turn(old(requestTimes), workerId, now)
    {
      var outcome := ProcessVideo(c, workerId, now, fetch, scrapedAt);
      withTranscript := outcome.video.transcript != "";
    }

    /** `process_video` for candidate `c` on worker `workerId`, the clock
        reading `now` and the transcript service `fetch`. An id already in
        the ledger is skipped and nothing changes. Otherwise the worker waits
        until `rate_limit` after its previous request and records the time;
        a null id then raises before anything is saved; any other id has its
        record saved first and then enters the ledger, the counters rise, and
        the state file is written when the total reaches a multiple of 100. */
    method ProcessVideo(c: Candidate, workerId: int, now: int, fetch: string -> TranscriptFetch,
                        scrapedAt: string) returns (r: ProcessOutcome)
      modifies this
      ensures IdKey(c.entry).Some? && IdKey(c.entry).value in old(state.scrapedIds) ==>
                r == Skipped && unchanged(this)
      ensures !(IdKey(c.entry).Some? && IdKey(c.entry).value in old(state.scrapedIds)) ==>
                var key := WorkerKey(workerId);
                requestTimes == old(requestTimes)[key := if key in old(requestTimes)
                                                         then NextStart(now, old(requestTimes)[key], RATE_LIMIT_MS)
                                                         else now]
                && requestTimes[key] >= now
                && (key in old(requestTimes) ==> requestTimes[key] - old(requestTimes)[key] >= RATE_LIMIT_MS)
      ensures IdKey(c.entry).None? ==>
                r == Raised && state == old(state) && videoFiles == old(videoFiles) && stateFile == old(stateFile)
      ensures IdKey(c.entry).Some? && IdKey(c.entry).value !in old(state.scrapedIds) ==>
                var id := IdKey(c.entry).value;
                r == Done(Record(c, id, fetch(id), scrapedAt))
                && videoFiles == old(videoFiles)[VideoKey(id) := r.video]
                && state == Logged(old(state), r.video)
                && stateFile == if state.totalScraped % CHECKPOINT_EVERY == 0 then Some(state) else old(stateFile)
      ensures old(Backed()) ==> Backed()
      ensures old(NoDup(state.scrapedIds)) ==> NoDup(state.scrapedIds)
    {
      var videoId := IdKey(c.entry);
      if videoId.Some? && videoId.value in state.scrapedIds {
        return Skipped;
      }
      WaitForTurn(workerId, now);
      if videoId.None? {
        return Raised;
      }
      var id := videoId.value;
      r := Done(Record(c, id, fetch(id), scrapedAt));
      SaveVideo(r.video);
    }

    /** The per-worker spacing in `process_video`: when the worker's
        previous request was less than `rate_limit` ago, wait until it is
        that long ago; then record the time as the worker's last request. */
    method WaitForTurn(workerId: int, now: int)
      modifies this
      ensures var key := WorkerKey(workerId);
              requestTimes == old(requestTimes)[key := if key in old(requestTimes)
                                                       then NextStart(now, old(requestTimes)[key], RATE_LIMIT_MS)
                                                       else now]
              && requestTimes[key] >= now
              && (key in old(requestTimes) ==> requestTimes[key] - old(requestTimes)[key] >= RATE_LIMIT_MS)
      ensures state == old(state) && videoFiles == old(videoFiles) && stateFile == old(stateFile)
    {
      var key := WorkerKey(workerId);
      var stamp := if key in requestTimes then NextStart(now, requestTimes[key], RATE_LIMIT_MS) else now;
      requestTimes := requestTimes[key := stamp];
    }

    /** The end of `process_video` for a fresh id: the record is saved
        first, then its id enters the ledger, the counters rise, and the
        state file is written when the total reaches a multiple of 100. */
    method SaveVideo(video: VideoData)
      requires video.id !in state.scrapedIds
      modifies this
      ensures videoFiles == old(videoFiles)[VideoKey(video.id) := video]
      ensures state == Logged(old(state), video)
      ensures stateFile == if state.totalScraped % CHECKPOINT_EVERY == 0 then Some(state) else old(stateFile)
      ensures RecordCorrected(old(state), old(stateFile), video) == Recording(state, stateFile, false)
      ensures requestTimes == old(requestTimes)
      ensures old(Backed()) ==> Backed()
      ensures old(NoDup(state.scrapedIds)) ==> NoDup(state.scrapedIds)
    {
      ghost var wasBacked := Backed();
      var id := video.id;
      ghost var before := state.scrapedIds;
      videoFiles := videoFiles[VideoKey(id) := video];
      state := Logged(state, video);
      if state.totalScraped % CHECKPOINT_EVERY == 0 {
        stateFile := Some(state);
      }
      if wasBacked {
        forall x | x in state.scrapedIds
          ensures VideoKey(x) in videoFiles && videoFiles[VideoKey(x)].id == x
        {
          if x != id {
            assert x in before;
            if VideoKey(x) == VideoKey(id) { VideoKeyInjective(x, id); }
          }
        }
      }
      if NoDup(before) {
        assert forall i :: 0 <= i < |before| ==> before[i] != id;
      }
    }
  }
}

=== FILE: client.dfy ===
/** The forum's HTTP client: a base url without trailing slashes, a minimum
    spacing between requests, and a bounded retry loop whose behaviour
    depends on the status of each response. The network is an input: the
    reply to attempt `k` on url `u` is `replies(u, k)`, giving the time the
    request took and the response. Time is an integer number of
    milliseconds on a clock the client advances as it waits. */
module Client {
  import opened Common

  // ---- url joining ----

  /** `s.lstrip(c)`. */
  function LStrip(s: string, c: char): string
  {
    if s != [] && s[0] == c then LStrip(s[1..], c) else s
  }

  /** `s.rstrip(c)`. */
  function RStrip(s: string, c: char): string
  {
    if s != [] && s[|s| - 1] == c then RStrip(s[..|s| - 1], c) else s
  }

  /** `s.lstrip(c)` is `s` without its leading run of `c`: what is removed
      is all `c`, and what is left does not start with `c`. */
  lemma {:induction false} LStripSpec(s: string, c: char)
    ensures var r := LStrip(s, c);
            |r| <= |s| && r == s[|s| - |r|..]
            && (forall i :: 0 <= i < |s| - |r| ==> s[i] == c)
            && (r == [] || r[0] != c)
  {
    if s != [] && s[0] == c {
      LStripSpec(s[1..], c);
      var r := LStrip(s, c);
      forall i | 0 <= i < |s| - |r|
        ensures s[i] == c
      {
        if i > 0 {
          assert s[i] == s[1..][i - 1];
        }
      }
    }
  }

  /** `s.rstrip(c)` is `s` without its trailing run of `c`. */
  lemma {:induction false} RStripSpec(s: string, c: char)
    ensures var r := RStrip(s, c);
            |r| <= |s| && r == s[..|r|]
            && (forall i :: |r| <= i < |s| ==> s[i] == c)
            && (r == [] || r[|r| - 1] != c)
  {
    if s != [] && s[|s| - 1] == c {
      RStripSpec(s[..|s| - 1], c);
      var r := RStrip(s, c);
      forall i | |r| <= i < |s|
        ensures s[i] == c
      {
        if i < |s| - 1 {
          assert s[i] == s[..|s| - 1][i];
        }
      }
    }
  }

  /** Stripping twice strips nothing more. */
  lemma LStripIdempotent(s: string, c: char)
    ensures LStrip(LStrip(s, c), c) == LStrip(s, c)
  {
    LStripSpec(s, c);
  }

  lemma RStripIdempotent(s: string, c: char)
    ensures RStrip(RStrip(s, c), c) == RStrip(s, c)
  {
    RStripSpec(s, c);
  }

  /** `f"{base_url}/{endpoint.lstrip('/')}"`. */
  function Url(baseUrl: string, endpoint: string): string
  {
    baseUrl + "/" + LStrip(endpoint, '/')
  }

  /** Leading slashes of the endpoint make no difference to the url. */
  lemma UrlLeadingSlash(base: string, endpoint: string)
    ensures Url(base, "/" + endpoint) == Url(base, endpoint)
  {
    assert ("/" + endpoint)[1..] == endpoint;
  }

  /** With the base stripped as the constructor stores it, the url has
      exactly one "/" where base and endpoint meet. */
  lemma UrlSpec(base: string, endpoint: string)
    ensures var b := RStrip(base, '/');
            var u := Url(b, endpoint);
            u[..|b|] == b && u[|b|] == '/' && u[|b| + 1..] == LStrip(endpoint, '/')
            && (|b| == 0 || u[|b| - 1] != '/')
            && (|u| == |b| + 1 || u[|b| + 1] != '/')
  {
    RStripSpec(base, '/');
    LStripSpec(endpoint, '/');
  }

  // ---- responses and the retry policy ----

  /** The Retry-After header as `int()` reads it: missing, a whole number
      of seconds, or text `int()` rejects with `ValueError`. */
  datatype RetryAfter = NoHeader | Seconds(seconds: int) | Unreadable

  /** `int(response.headers.get("Retry-After", 60))` before the default is
      applied. */
  function ReadRetryAfter(header: Option<string>): RetryAfter
  {
    if header.None? then NoHeader
    else match ParseInt(header.value)
      case None => Unreadable
      case Some(n) => Seconds(n)
  }

  /** A header written as a decimal number reads back as that number; a
      missing one is told apart from both. */
  lemma ReadRetryAfterSpec(n: int)
    ensures ReadRetryAfter(Some(IntToString(n))) == Seconds(n)
    ensures ReadRetryAfter(Some("")) == Unreadable
    ensures ReadRetryAfter(None) == NoHeader
  {
    IntRoundTrip(n);
  }

  /** What one attempt brought back: an HTTP status with its Retry-After
      header and the decoded JSON body (`None` when the body is not valid
      JSON), or a `requests.RequestException`. */
  datatype Response =
    | Status(code: int, retryAfter: RetryAfter, document: Option<string>)
    | RequestError

  datatype Attempt = Attempt(took: nat, response: Response)

  /** What `get` does: return a document or `None`, or raise (a Retry-After
      header that `int` cannot read, or a negative one that `time.sleep`
      refuses, raises `ValueError`, which the loop does not catch). */
  datatype Outcome = Returned(document: Option<string>) | Raised

  /** `2 ** n`. */
  function Pow2(n: nat): (r: nat)
    ensures r >= 1
  {
    if n == 0 then 1 else 2 * Pow2(n - 1)
  }

  /** `int(response.headers.get("Retry-After", 60))`: `None` is the
      `ValueError`. */
  function RetryAfterSeconds(header: RetryAfter): Option<int>
  {
    match header
    case NoHeader => Some(60)
    case Seconds(n) => Some(n)
    case Unreadable => None
  }

  /** The exception path: a `RequestException` (a body that is not JSON on a
      200 counts as one) is followed by a `2 ** attempt` second sleep, except
      after the final attempt. */
  predicate Fails(response: Response)
  {
    response.RequestError? || (response.code == 200 && response.document.None?)
  }

  function Backoff(attempt: nat, maxRetries: int): nat
  {
    if attempt < maxRetries - 1 then Pow2(attempt) * 1000 else 0
  }

  /** The backoff starts at one second and doubles with each attempt, and
      the final attempt is followed by none. */
  lemma BackoffDoubles(attempt: nat, maxRetries: int)
    ensures 0 < maxRetries - 1 ==> Backoff(0, maxRetries) == 1000
    ensures attempt + 1 < maxRetries - 1 ==> Backoff(attempt + 1, maxRetries) == 2 * Backoff(attempt, maxRetries)
    ensures maxRetries - 1 <= attempt ==> Backoff(attempt, maxRetries) == 0
  {
  }

  /** What an attempt leads to: `get` returns or raises, or goes on to the
      next attempt after sleeping `pause` milliseconds. */
  datatype Step = Stop(outcome: Outcome) | Continue(pause: nat)

  /** The branch `get` takes on the response to attempt `attempt`. */
  function StepOf(response: Response, attempt: nat, maxRetries: int): Step
  {
    if Fails(response) then Continue(Backoff(attempt, maxRetries))
    else if response.code == 200 then Stop(Returned(response.document))
    else if response.code == 429 then
      var wait := RetryAfterSeconds(response.retryAfter);
      if wait.None? || wait.value < 0 then Stop(Raised) else Continue(wait.value * 1000)
    else if response.code == 404 then Stop(Returned(None))
    else Continue(0)
  }

  /** The requests `get` makes from attempt `attempt` on: the outcome, the
      start time of each request, and the final `_last_request_time` and
      clock. */
  datatype Run = Run(outcome: Outcome, starts: seq<int>, last: int, now: int)

  function Remaining(attempt: nat, maxRetries: int): nat
  {
    if attempt < maxRetries then maxRetries - attempt else 0
  }

  /** The reference definition of `get` from attempt `attempt` on, with the
      previous request at `last` and the clock at `now`. */
  function Trace(attempt: nat, maxRetries: int, rateLimit: int, last: int, now: int,
                 url: string, replies: (string, nat) -> Attempt): Run
    decreases Remaining(attempt, maxRetries)
  {
    if maxRetries <= attempt then Run(Returned(None), [], last, now)
    else
      var start := NextStart(now, last, rateLimit);
      var a := replies(url, attempt);
      match StepOf(a.response, attempt, maxRetries)
      case Stop(outcome) => Run(outcome, [start], start, start + a.took)
      case Continue(pause) =>
        var t := Trace(attempt + 1, maxRetries, rateLimit, start, start + a.took + pause, url, replies);
        Run(t.outcome, [start] + t.starts, t.last, t.now)
  }

  /** At most `max_retries` requests are made (none when it is zero or
      less). */
  lemma {:induction false} TraceAttempts(attempt: nat, maxRetries: int, rateLimit: int, last: int, now: int,
                                         url: string, replies: (string, nat) -> Attempt)
    ensures |Trace(attempt, maxRetries, rateLimit, last, now, url, replies).starts| <= Remaining(attempt, maxRetries)
    decreases Remaining(attempt, maxRetries)
  {
    if attempt < maxRetries {
      var start := NextStart(now, last, rateLimit);
      var a := replies(url, attempt);
      if StepOf(a.response, attempt, maxRetries).Continue? {
        var pause := StepOf(a.response, attempt, maxRetries).pause;
        TraceAttempts(attempt + 1, maxRetries, rateLimit, start, start + a.took + pause, url, replies);
      }
    }
  }

  /** The first request starts no earlier than the clock and at least
      `rate_limit` after the previous request. */
  lemma TraceFirst(attempt: nat, maxRetries: int, rateLimit: int, last: int, now: int,
                   url: string, replies: (string, nat) -> Attempt)
    ensures var t := Trace(attempt, maxRetries, rateLimit, last, now, url, replies);
            |t.starts| > 0 ==> t.starts[0] >= now && t.starts[0] - last >= rateLimit
  {
  }

  /** Consecutive requests start at least `rate_limit` apart. */
  lemma {:induction false} TraceSpacing(attempt: nat, maxRetries: int, rateLimit: int, last: int, now: int,
                                        url: string, replies: (string, nat) -> Attempt)
    ensures var t := Trace(attempt, maxRetries, rateLimit, last, now, url, replies);
            forall k :: 0 <= k < |t.starts| - 1 ==> t.starts[k + 1] - t.starts[k] >= rateLimit
    decreases Remaining(attempt, maxRetries)
  {
    if attempt < maxRetries {
      var start := NextStart(now, last, rateLimit);
      var a := replies(url, attempt);
      var step := StepOf(a.response, attempt, maxRetries);
      if step.Continue? {
        var next := start + a.took + step.pause;
        TraceSpacing(attempt + 1, maxRetries, rateLimit, start, next, url, replies);
        TraceFirst(attempt + 1, maxRetries, rateLimit, start, next, url, replies);
        var t := Trace(attempt, maxRetries, rateLimit, last, now, url, replies);
        var t' := Trace(attempt + 1, maxRetries, rateLimit, start, next, url, replies);
        assert t.starts == [start] + t'.starts;
        forall k | 0 <= k < |t.starts| - 1
          ensures t.starts[k + 1] - t.starts[k] >= rateLimit
        {
          if k > 0 {
            assert t.starts[k] == t'.starts[k - 1] && t.starts[k + 1] == t'.starts[k];
          }
        }
      }
    }
  }

  /** `_last_request_time` ends as the start of the last request made, or
      unchanged when none was. */
  lemma {:induction false} TraceLast(attempt: nat, maxRetries: int, rateLimit: int, last: int, now: int,
                                     url: string, replies: (string, nat) -> Attempt)
    ensures var t := Trace(attempt, maxRetries, rateLimit, last, now, url, replies);
            (|t.starts| > 0 ==> t.last == t.starts[|t.starts| - 1])
            && (|t.starts| == 0 ==> t.last == last)
    decreases Remaining(attempt, maxRetries)
  {
    if attempt < maxRetries {
      var start := NextStart(now, last, rateLimit);
      var a := replies(url, attempt);
      var step := StepOf(a.response, attempt, maxRetries);
      if step.Continue? {
        TraceLast(attempt + 1, maxRetries, rateLimit, start, start + a.took + step.pause, url, replies);
      }
    }
  }

  /** A 200 with a JSON body is returned at once; a 404 returns `None` at
      once: either way exactly one request is made. */
  lemma ImmediateReturn(attempt: nat, maxRetries: int, rateLimit: int, last: int, now: int,
                        url: string, replies: (string, nat) -> Attempt)
    requires attempt < maxRetries
    ensures var t := Trace(attempt, maxRetries, rateLimit, last, now, url, replies);
            var r := replies(url, attempt).response;
            (r.Status? && r.code == 200 && r.document.Some? ==>
               t.outcome == Returned(r.document) && |t.starts| == 1)
            && (r.Status? && r.code == 404 ==> t.outcome == Returned(None) && |t.starts| == 1)
  {
  }

  /** The sleep between one request and the next, read off the requests
      made: after a 429 the next request starts at least Retry-After seconds
      (60 without the header) after the reply, after an exception at least
      `2 ** attempt` seconds after it, after any other status as soon as the
      spacing allows; an unreadable or negative Retry-After raises at once,
      and an exception on the final attempt ends `get` without a sleep. */
  lemma PauseSpec(attempt: nat, maxRetries: int, rateLimit: int, last: int, now: int,
                  url: string, replies: (string, nat) -> Attempt)
    requires attempt < maxRetries
    ensures var t := Trace(attempt, maxRetries, rateLimit, last, now, url, replies);
            var a := replies(url, attempt);
            var r := a.response;
            var start := NextStart(now, last, rateLimit);
            |t.starts| >= 1 && t.starts[0] == start
            && (attempt < maxRetries - 1 ==>
                  (r.Status? && r.code == 429 && r.retryAfter.Seconds? && r.retryAfter.seconds >= 0 ==>
                     |t.starts| >= 2 && t.starts[1] >= start + a.took + 1000 * r.retryAfter.seconds)
                  && (r.Status? && r.code == 429 && r.retryAfter == NoHeader ==>
                        |t.starts| >= 2 && t.starts[1] >= start + a.took + 60000)
                  && (Fails(r) ==> |t.starts| >= 2 && t.starts[1] >= start + a.took + 1000 * Pow2(attempt))
                  && (r.Status? && r.code !in {200, 404, 429} ==>
                        |t.starts| >= 2 && t.starts[1] == NextStart(start + a.took, start, rateLimit)))
            && (r.Status? && r.code == 429
                && (r.retryAfter == Unreadable || (r.retryAfter.Seconds? && r.retryAfter.seconds < 0)) ==>
                  t.outcome == Raised && |t.starts| == 1)
            && (attempt == maxRetries - 1 && Fails(r) ==>
                  t.outcome == Returned(None) && t.starts == [start] && t.now == start + a.took)
  {
  }

  /** When an attempt that is not the last allowed continues, the next
      request starts `rate_limit` after it or, if later, once the attempt and
      its sleep are over. */
  lemma NextAttempt(attempt: nat, maxRetries: int, rateLimit: int, last: int, now: int,
                    url: string, replies: (string, nat) -> Attempt)
    requires attempt < maxRetries - 1
    requires StepOf(replies(url, attempt).response, attempt, maxRetries).Continue?
    ensures var t := Trace(attempt, maxRetries, rateLimit, last, now, url, replies);
            var a := replies(url, attempt);
            var start := NextStart(now, last, rateLimit);
            |t.starts| >= 2 && t.starts[0] == start
            && t.starts[1] == NextStart(start + a.took + StepOf(a.response, attempt, maxRetries).pause,
                                        start, rateLimit)
  {
  }

  /** How `get` ended: a returned document came from a 200 on the last
      request; `None` comes from a 404 on the last request or from running
      out of attempts; raising comes from an unreadable or negative
      Retry-After on the last request. */
  lemma {:induction false} TraceOutcome(attempt: nat, maxRetries: int, rateLimit: int, last: int, now: int,
                                        url: string, replies: (string, nat) -> Attempt)
    ensures var t := Trace(attempt, maxRetries, rateLimit, last, now, url, replies);
            var n := |t.starts|;
            var final := replies(url, if n > 0 then attempt + n - 1 else attempt).response;
            (t.outcome.Returned? && t.outcome.document.Some? ==>
               n > 0 && final.Status? && final.code == 200 && final.document == t.outcome.document)
            && (t.outcome == Returned(None) ==>
                  (n > 0 && final.Status? && final.code == 404) || attempt + n >= maxRetries)
            && (t.outcome == Raised ==>
                  n > 0 && final.Status? && final.code == 429
                  && (RetryAfterSeconds(final.retryAfter).None? || RetryAfterSeconds(final.retryAfter).value < 0))
    decreases Remaining(attempt, maxRetries)
  {
    if attempt < maxRetries {
      var start := NextStart(now, last, rateLimit);
      var a := replies(url, attempt);
      if StepOf(a.response, attempt, maxRetries).Continue? {
        var pause := StepOf(a.response, attempt, maxRetries).pause;
        TraceOutcome(attempt + 1, maxRetries, rateLimit, start, start + a.took + pause, url, replies);
        var t' := Trace(attempt + 1, maxRetries, rateLimit, start, start + a.took + pause, url, replies);
        assert attempt + |[start] + t'.starts| - 1 == attempt + 1 + |t'.starts| - 1;
      }
    }
  }

  /** `whole` is what is left of `rest` after the requests `made`. */
  ghost predicate TraceFrom(whole: Run, made: seq<int>, rest: Run)
  {
    whole == Run(rest.outcome, made + rest.starts, rest.last, rest.now)
  }

  /** An attempt that stops `get` ends the trace with its one request. */
  lemma TraceStops(whole: Run, made: seq<int>, attempt: nat, maxRetries: int, rateLimit: int,
                   last: int, now: int, url: string, replies: (string, nat) -> Attempt,
                   a: Attempt, start: int)
    requires TraceFrom(whole, made, Trace(attempt, maxRetries, rateLimit, last, now, url, replies))
    requires attempt < maxRetries && a == replies(url, attempt)
    requires StepOf(a.response, attempt, maxRetries).Stop?
    requires start == NextStart(now, last, rateLimit)
    ensures whole == Run(StepOf(a.response, attempt, maxRetries).outcome, made + [start], start, start + a.took)
  {
  }

  /** An attempt that goes on is followed by the trace from the next
      attempt, with the request made and the clock after its sleep. */
  lemma TraceContinues(whole: Run, made: seq<int>, attempt: nat, maxRetries: int, rateLimit: int,
                       last: int, now: int, url: string, replies: (string, nat) -> Attempt,
                       a: Attempt, start: int, next: int)
    requires TraceFrom(whole, made, Trace(attempt, maxRetries, rateLimit, last, now, url, replies))
    requires attempt < maxRetries && a == replies(url, attempt)
    requires StepOf(a.response, attempt, maxRetries).Continue?
    requires start == NextStart(now, last, rateLimit)
    requires next == start + a.took + StepOf(a.response, attempt, maxRetries).pause
    ensures TraceFrom(whole, made + [start], Trace(attempt + 1, maxRetries, rateLimit, start, next, url, replies))
  {
    var t' := Trace(attempt + 1, maxRetries, rateLimit, start, next, url, replies);
    assert made + [start] + t'.starts == made + ([start] + t'.starts);
  }

  // ---- the client ----

  class DiscourseClient {
    const baseUrl: string
    /** The minimum spacing between requests, in milliseconds. */
    const rateLimit: int
    const maxRetries: int
    /** `_last_request_time`. */
    var lastRequest: int
    /** The clock, in milliseconds. */
    var now: int

    constructor(baseUrl: string, rateLimit: int, maxRetries: int, now: int)
      ensures this.baseUrl == RStrip(baseUrl, '/')
      ensures this.rateLimit == rateLimit && this.maxRetries == maxRetries
      ensures lastRequest == 0 && this.now == now
    {
      this.baseUrl := RStrip(baseUrl, '/');
      this.rateLimit := rateLimit;
      this.maxRetries := maxRetries;
      lastRequest := 0;
      this.now := now;
    }

    /** `_rate_limit_wait`: when the previous request was less than
        `rate_limit` ago, sleep until it is that long ago. */
    method RateLimitWait()
      modifies this
      ensures now == NextStart(old(now), lastRequest, rateLimit)
      ensures now >= old(now) && now - lastRequest >= rateLimit
      ensures lastRequest == old(lastRequest)
    {
      var elapsed := now - lastRequest;
      if elapsed < rateLimit {
        now := now + (rateLimit - elapsed);
      }
    }

    /** The branches of `get` after the response to attempt `attempt`:
        return the document on a 200 that decodes, `None` on a 404; raise on a
        Retry-After that is unreadable or negative; otherwise sleep (the
        Retry-After, the backoff after an exception, or not at all) and go on
        to the next attempt. */
    method Settle(response: Response, attempt: nat) returns (stop: Option<Outcome>)
      modifies this
      ensures StepOf(response, attempt, maxRetries).Stop? ==>
                stop == Some(StepOf(response, attempt, maxRetries).outcome) && now == old(now)
      ensures StepOf(response, attempt, maxRetries).Continue? ==>
                stop == None && now == old(now) + StepOf(response, attempt, maxRetries).pause
      ensures lastRequest == old(lastRequest)
    {
      if Fails(response) {
        if attempt < maxRetries - 1 {
          now := now + Pow2(attempt) * 1000;
        }
        return None;
      } else if response.code == 200 {
        return Some(Returned(response.document));
      } else if response.code == 429 {
        var wait := RetryAfterSeconds(response.retryAfter);
        if wait.None? || wait.value < 0 {
          return Some(Raised);
        }
        now := now + wait.value * 1000;
        return None;
      } else if response.code == 404 {
        return Some(Returned(None));
      }
      return None;
    }

    /** One pass of the retry loop: the rate-limit wait, the request (which
        took `a.took` and brought back `a.response`), and what follows it. */
    method Request(a: Attempt, attempt: nat) returns (stop: Option<Outcome>)
      modifies this
      ensures lastRequest == NextStart(old(now), old(lastRequest), rateLimit)
      ensures StepOf(a.response, attempt, maxRetries).Stop? ==>
                stop == Some(StepOf(a.response, attempt, maxRetries).outcome) && now == lastRequest + a.took
      ensures StepOf(a.response, attempt, maxRetries).Continue? ==>
                stop == None && now == lastRequest + a.took + StepOf(a.response, attempt, maxRetries).pause
    {
      RateLimitWait();
      lastRequest := now;
      now := now + a.took;
      stop := Settle(a.response, attempt);
    }

    /** `get(endpoint)`: up to `max_retries` attempts on the joined url,
        each after the rate-limit wait; the outcome, the requests made and
        the final clock are those of `Trace` from attempt 0. */
    method Get(endpoint: string, replies: (string, nat) -> Attempt) returns (r: Outcome)
      modifies this
      ensures var t := Trace(0, maxRetries, rateLimit, old(lastRequest), old(now),
                             Url(baseUrl, endpoint), replies);
              r == t.outcome && lastRequest == t.last && now == t.now
    {
      var url := Url(baseUrl, endpoint);
      ghost var t0 := Trace(0, maxRetries, rateLimit, lastRequest, now, url, replies);
      ghost var made: seq<int> := [];
      var attempt: nat := 0;
      while attempt < maxRetries
        invariant TraceFrom(t0, made, Trace(attempt, maxRetries, rateLimit, lastRequest, now, url, replies))
        decreases Remaining(attempt, maxRetries)
      {
        var a := replies(url, attempt);
        ghost var before, last0, now0 := made, lastRequest, now;
        var stop := Request(a, attempt);
        made := made + [lastRequest];
        if stop.Some? {
          TraceStops(t0, before, attempt, maxRetries, rateLimit, last0, now0, url, replies, a, lastRequest);
          return stop.value;
        }
        TraceContinues(t0, before, attempt, maxRetries, rateLimit, last0, now0, url, replies, a, lastRequest, now);
        attempt := attempt + 1;
      }
      r := Returned(None);
    }
  }
}

=== FILE: common.dfy ===
/** Small vocabulary shared by every part of the scrape pipeline: optional
    values, JSON object fields as Python's `dict.get` sees them, Python's
    prefix slice, substring search, ASCII lower-casing, decimal numbers and
    the blob key under which a video's result is stored. */
module Common {

  datatype Option<+T> = None | Some(value: T)

  /** A key of a decoded JSON object: missing, present with `null`, or present
      with a value. */
  datatype Field<+T> = Absent | Null | Present(value: T)

  /** `d.get(key, default)`: the default when the key is missing, Python's
      `None` when the key holds `null`. */
  function GetOr<T>(f: Field<T>, default: T): Option<T>
  {
    match f
    case Absent => Some(default)
    case Null => None
    case Present(v) => Some(v)
  }

  /** `d.get(key, default) or default` for a string field: every falsy value
      (missing, `null`, "") becomes the default. */
  function StrOr(f: Field<string>, default: string): string
  {
    if f.Present? && f.value != "" then f.value else default
  }

  /** Python's `s[:n]` for an integer `n`: a negative `n` drops `-n` elements
      from the end. */
  function Prefix<T>(s: seq<T>, n: int): (r: seq<T>)
    ensures |r| <= |s|
    ensures 0 <= n ==> |r| == if n <= |s| then n else |s|
    ensures n < 0 ==> |r| == if -n <= |s| then |s| + n else 0
    ensures r == s[..|r|]
  {
    if 0 <= n then (if n <= |s| then s[..n] else s)
    else if -n <= |s| then s[..|s| + n] else []
  }

  /** No element occurs twice. */
  predicate NoDup<T(==)>(s: seq<T>)
  {
    forall i, j :: 0 <= i < j < |s| ==> s[i] != s[j]
  }

  /** Appending an element that does not occur keeps a sequence free of
      repeats. */
  lemma NoDupSnoc<T>(s: seq<T>, x: T)
    requires NoDup(s) && x !in s
    ensures NoDup(s + [x])
  {
    assert forall i :: 0 <= i < |s| ==> (s + [x])[i] == s[i];
  }

  /** `[f(x) for x in s]`, for an `f` defined on every element. */
  function Map<A, B>(s: seq<A>, f: A --> B): (r: seq<B>)
    requires forall i :: 0 <= i < |s| ==> f.requires(s[i])
    ensures |r| == |s| && forall i :: 0 <= i < |s| ==> r[i] == f(s[i])
  {
    seq(|s|, i requires 0 <= i < |s| => f(s[i]))
  }

  /** Mapping one element further along `s` appends its image. */
  lemma MapSnoc<A, B>(s: seq<A>, i: nat, f: A --> B)
    requires i < |s| && forall j :: 0 <= j <= i ==> f.requires(s[j])
    ensures Map(s[..i + 1], f) == Map(s[..i], f) + [f(s[i])]
  {
    var a, b := Map(s[..i + 1], f), Map(s[..i], f) + [f(s[i])];
    forall j | 0 <= j <= i ensures a[j] == b[j] {
      assert s[..i + 1][j] == s[j];
    }
  }

  predicate StartsWith(s: string, p: string)
  {
    |p| <= |s| && s[..|p|] == p
  }

  predicate EndsWith(s: string, p: string)
  {
    |p| <= |s| && s[|s| - |p|..] == p
  }

  /** Python's `p in s` on strings: `p` occurs somewhere in `s`. */
  predicate Contains(s: string, p: string)
    decreases |s|
  {
    StartsWith(s, p) || (|s| > 0 && Contains(s[1..], p))
  }

  /** `p` occurs in `s` starting at index `i`. */
  predicate OccursAt(s: string, p: string, i: int)
  {
    0 <= i <= |s| - |p| && s[i..i + |p|] == p
  }

  /** `Contains` is exactly "occurs at some index". */
  lemma {:induction false} ContainsAt(s: string, p: string)
    ensures Contains(s, p) <==> exists i :: OccursAt(s, p, i)
  {
    if Contains(s, p) {
      if StartsWith(s, p) {
        assert OccursAt(s, p, 0);
      } else {
        ContainsAt(s[1..], p);
        var i :| OccursAt(s[1..], p, i);
        assert s[i + 1..i + 1 + |p|] == s[1..][i..i + |p|];
        assert OccursAt(s, p, i + 1);
      }
    }
    if exists i :: OccursAt(s, p, i) {
      var i :| OccursAt(s, p, i);
      if i == 0 {
        assert s[..|p|] == p;
      } else {
        assert s[1..][i - 1..i - 1 + |p|] == s[i..i + |p|];
        assert OccursAt(s[1..], p, i - 1);
        ContainsAt(s[1..], p);
      }
    }
  }

  function LowerChar(c: char): char
  {
    if 'A' <= c <= 'Z' then (c as int + 32) as char else c
  }

  /** `str.lower()` restricted to ASCII letters. */
  function Lower(s: string): (r: string)
    ensures |r| == |s|
    ensures forall i :: 0 <= i < |s| ==> r[i] == LowerChar(s[i])
  {
    if s == [] then [] else [LowerChar(s[0])] + Lower(s[1..])
  }

  /** Lower-casing twice changes nothing more than lower-casing once. */
  lemma LowerIdempotent(s: string)
    ensures Lower(Lower(s)) == Lower(s)
  {
    var l := Lower(s);
    forall i | 0 <= i < |s| ensures Lower(l)[i] == l[i] {
      assert Lower(l)[i] == LowerChar(l[i]);
    }
  }

  lemma LowerConcat(a: string, b: string)
    ensures Lower(a + b) == Lower(a) + Lower(b)
  {
    var l, r := Lower(a + b), Lower(a) + Lower(b);
    forall i | 0 <= i < |a + b| ensures l[i] == r[i] {
      if i < |a| {
        assert (a + b)[i] == a[i] && r[i] == Lower(a)[i];
      } else {
        assert (a + b)[i] == b[i - |a|] && r[i] == Lower(b)[i - |a|];
      }
    }
  }

  // Decimal numbers, as Python's str(n) writes them and int(s) reads them
  // (surrounding whitespace, a sign, and ASCII digits with single
  // underscores between them).

  function DigitChar(d: nat): char
    requires d < 10
  {
    ('0' as int + d) as char
  }

  predicate IsDigit(c: char)
  {
    '0' <= c <= '9'
  }

  function NatToString(n: nat): (r: string)
    ensures |r| > 0 && forall i :: 0 <= i < |r| ==> IsDigit(r[i])
  {
    if n < 10 then [DigitChar(n)] else NatToString(n / 10) + [DigitChar(n % 10)]
  }

  function IntToString(i: int): (r: string)
  {
    if i < 0 then "-" + NatToString(-i) else NatToString(i)
  }

  predicate DigitsOrUnderscores(s: string)
  {
    forall i :: 0 <= i < |s| ==> IsDigit(s[i]) || s[i] == '_'
  }

  /** The value of the digits of `s`; underscores are skipped. */
  function DigitsValue(s: string): nat
    requires DigitsOrUnderscores(s)
  {
    if s == [] then 0
    else if s[|s| - 1] == '_' then DigitsValue(s[..|s| - 1])
    else
      assert IsDigit(s[|s| - 1]);
      DigitsValue(s[..|s| - 1]) * 10 + (s[|s| - 1] as int - '0' as int)
  }

  /** What base-10 `int()` takes as the digits of a number: ASCII digits,
      where a single underscore may stand between two digits. */
  predicate Grouped(s: string)
  {
    |s| > 0 && DigitsOrUnderscores(s)
    && forall i :: 0 <= i < |s| && s[i] == '_' ==> 0 < i < |s| - 1 && IsDigit(s[i - 1]) && IsDigit(s[i + 1])
  }

  /** The whitespace `int()` ignores around a number: ASCII blank, tab and
      line and page breaks, and the non-ASCII characters `str.isspace()`
      accepts (the ASCII separators 0x1C-0x1F, which `str.isspace()` also
      accepts, are not skipped). */
  predicate IntSpace(c: char)
  {
    var n := c as int;
    (9 <= n <= 13) || n == 32 || n == 0x85 || n == 0xA0 || n == 0x1680
    || (0x2000 <= n <= 0x200A) || n == 0x2028 || n == 0x2029 || n == 0x202F
    || n == 0x205F || n == 0x3000
  }

  /** `s` without the leading and trailing whitespace `int()` ignores. */
  function StripIntSpace(s: string): (r: string)
    ensures |r| <= |s|
    ensures r == [] || (!IntSpace(r[0]) && !IntSpace(r[|r| - 1]))
  {
    if s != [] && IntSpace(s[0]) then StripIntSpace(s[1..])
    else if s != [] && IntSpace(s[|s| - 1]) then StripIntSpace(s[..|s| - 1])
    else s
  }

  /** Base-10 `int(s)` on a `str`, for ASCII digits only: ignored
      whitespace around an optional sign and grouped digits; `None` is the
      `ValueError` Python raises on anything else, except that a number
      written with non-ASCII decimal digits, which `int()` also accepts, is
      refused here. */
  function ParseInt(s: string): Option<int>
  {
    var t := StripIntSpace(s);
    if |t| > 0 && (t[0] == '-' || t[0] == '+') then
      var ds := t[1..];
      if Grouped(ds) then
        Some(if t[0] == '-' then -(DigitsValue(ds) as int) else DigitsValue(ds) as int)
      else None
    else if Grouped(t) then Some(DigitsValue(t))
    else None
  }

  lemma {:induction false} DigitsOfNat(n: nat)
    ensures DigitsValue(NatToString(n)) == n
  {
    if n >= 10 {
      DigitsOfNat(n / 10);
      var s := NatToString(n / 10) + [DigitChar(n % 10)];
      assert s[..|s| - 1] == NatToString(n / 10);
    }
  }

  /** Text that neither starts nor ends with ignored whitespace is kept
      as it is. */
  lemma StripUnpadded(t: string)
    requires t != [] && !IntSpace(t[0]) && !IntSpace(t[|t| - 1])
    ensures StripIntSpace(t) == t
  {
  }

  lemma GroupedDigits(s: string)
    requires |s| > 0 && forall i :: 0 <= i < |s| ==> IsDigit(s[i])
    ensures Grouped(s)
  {
  }

  /** Reading back what `str(i)` wrote gives `i`. */
  lemma IntRoundTrip(i: int)
    ensures ParseInt(IntToString(i)) == Some(i)
  {
    var s := IntToString(i);
    if i < 0 {
      var ds := NatToString(-i);
      assert s[1..] == ds;
      StripUnpadded(s);
      GroupedDigits(ds);
      DigitsOfNat(-i);
    } else {
      StripUnpadded(s);
      GroupedDigits(s);
      DigitsOfNat(i);
    }
  }

  /** Leading whitespace `int()` ignores is dropped. */
  lemma {:induction false} StripLeading(a: string, r: string)
    requires forall i :: 0 <= i < |a| ==> IntSpace(a[i])
    requires r != [] && !IntSpace(r[0])
    ensures StripIntSpace(a + r) == StripIntSpace(r)
  {
    if a != [] {
      assert (a + r)[0] == a[0];
      assert (a + r)[1..] == a[1..] + r;
      StripLeading(a[1..], r);
    } else {
      assert a + r == r;
    }
  }

  /** Trailing whitespace `int()` ignores is dropped, and nothing of `t`. */
  lemma {:induction false} StripTrailing(t: string, b: string)
    requires forall i :: 0 <= i < |b| ==> IntSpace(b[i])
    requires t != [] && !IntSpace(t[0]) && !IntSpace(t[|t| - 1])
    ensures StripIntSpace(t + b) == t
  {
    var s := t + b;
    if b != [] {
      assert s[0] == t[0] && s[|s| - 1] == b[|b| - 1];
      assert s[..|s| - 1] == t + b[..|b| - 1];
      StripTrailing(t, b[..|b| - 1]);
    } else {
      assert s == t;
      StripUnpadded(t);
    }
  }

  /** Whitespace `int()` ignores around `t`, which neither starts nor ends
      with such whitespace, is dropped and nothing else is. */
  lemma StripPadded(a: string, t: string, b: string)
    requires forall i :: 0 <= i < |a| ==> IntSpace(a[i])
    requires forall i :: 0 <= i < |b| ==> IntSpace(b[i])
    requires t != [] && !IntSpace(t[0]) && !IntSpace(t[|t| - 1])
    ensures StripIntSpace(a + t + b) == t
  {
    assert a + t + b == a + (t + b);
    assert (t + b)[0] == t[0];
    StripLeading(a, t + b);
    StripTrailing(t, b);
  }

  /** `int(s)` reads a number that `str` wrote with whitespace around it. */
  lemma IntRoundTripPadded(a: string, i: int, b: string)
    requires forall k :: 0 <= k < |a| ==> IntSpace(a[k])
    requires forall k :: 0 <= k < |b| ==> IntSpace(b[k])
    ensures ParseInt(a + IntToString(i) + b) == Some(i)
  {
    var s := IntToString(i);
    assert s[0] == '-' || IsDigit(s[0]);
    assert IsDigit(s[|s| - 1]);
    StripPadded(a, s, b);
    StripUnpadded(s);
    IntRoundTrip(i);
  }

  /** Skipping an underscore between two digit groups. */
  lemma {:induction false} DigitsSkipUnderscore(x: string, y: string)
    requires DigitsOrUnderscores(x) && DigitsOrUnderscores(y)
    ensures DigitsValue(x + "_" + y) == DigitsValue(x + y)
  {
    if y == [] {
      assert (x + "_" + y)[..|x + "_" + y| - 1] == x;
      assert x + y == x;
    } else {
      var y' := y[..|y| - 1];
      DigitsSkipUnderscore(x, y');
      assert (x + "_" + y)[..|x + "_" + y| - 1] == x + "_" + y';
      assert (x + y)[..|x + y| - 1] == x + y';
    }
  }

  /** Two digit groups joined by an underscore form a group. */
  lemma GroupedUnderscore(x: string, y: string)
    requires Grouped(x) && Grouped(y)
    ensures Grouped(x + "_" + y)
  {
    var s := x + "_" + y;
    forall i | 0 <= i < |s|
      ensures IsDigit(s[i]) || s[i] == '_'
    {
      if i < |x| {
        assert s[i] == x[i];
      } else if i > |x| {
        assert s[i] == y[i - |x| - 1];
      }
    }
    forall i | 0 <= i < |s| && s[i] == '_'
      ensures 0 < i < |s| - 1 && IsDigit(s[i - 1]) && IsDigit(s[i + 1])
    {
      if i < |x| {
        assert s[i] == x[i] && s[i - 1] == x[i - 1] && s[i + 1] == x[i + 1];
      } else if i > |x| {
        var j := i - |x| - 1;
        assert s[i] == y[j] && s[i - 1] == y[j - 1] && s[i + 1] == y[j + 1];
      } else {
        assert s[i - 1] == x[|x| - 1] && s[i + 1] == y[0];
      }
    }
  }

  /** Two digit groups side by side form a group. */
  lemma GroupedJoin(x: string, y: string)
    requires Grouped(x) && Grouped(y)
    ensures Grouped(x + y)
  {
    var s := x + y;
    forall i | 0 <= i < |s|
      ensures IsDigit(s[i]) || s[i] == '_'
    {
      if i < |x| {
        assert s[i] == x[i];
      } else {
        assert s[i] == y[i - |x|];
      }
    }
    forall i | 0 <= i < |s| && s[i] == '_'
      ensures 0 < i < |s| - 1 && IsDigit(s[i - 1]) && IsDigit(s[i + 1])
    {
      if i < |x| {
        assert s[i] == x[i] && s[i - 1] == x[i - 1] && s[i + 1] == x[i + 1];
      } else {
        var j := i - |x|;
        assert s[i] == y[j] && s[i - 1] == y[j - 1] && s[i + 1] == y[j + 1];
      }
    }
  }

  /** A single underscore between two digit groups is accepted and does not
      change the number read. */
  lemma UnderscoreBetweenDigits(x: string, y: string)
    requires Grouped(x) && Grouped(y)
    ensures ParseInt(x + "_" + y) == ParseInt(x + y) != None
  {
    var s, t := x + "_" + y, x + y;
    assert s[0] == x[0] && t[0] == x[0];
    assert s[|s| - 1] == y[|y| - 1] && t[|t| - 1] == y[|y| - 1];
    StripUnpadded(s);
    StripUnpadded(t);
    GroupedUnderscore(x, y);
    GroupedJoin(x, y);
    DigitsSkipUnderscore(x, y);
  }

  /** `int()` refuses an underscore at either end of the digits or two in
      a row. */
  lemma ParseIntRejectsUnderscores()
    ensures ParseInt("_1") == None && ParseInt("1_") == None && ParseInt("1__0") == None
  {
    StripUnpadded("_1");
    StripUnpadded("1_");
    StripUnpadded("1__0");
    assert "1__0"[1] == '_' && "1__0"[2] == '_';
  }

  /** `int()` refuses a space between sign and digits, and text with no
      digits at all. */
  lemma ParseIntRejectsBlanks()
    ensures ParseInt("- 1") == None && ParseInt("") == None && ParseInt(" ") == None
  {
    StripUnpadded("- 1");
    assert "- 1"[1..] == " 1" && " 1"[0] == ' ';
    assert StripIntSpace(" ") == StripIntSpace("");
  }

  /** When a request may go out, given that the previous one from the same
      sender went out at `last` and `interval` must separate them: the
      current time `now`, or, when `now` is still inside the interval, the
      moment the interval ends (the caller sleeps until then). */
  function NextStart(now: int, last: int, interval: int): (r: int)
    ensures r >= now && r - last >= interval
    ensures r == now || r == last + interval
  {
    if now - last < interval then last + interval else now
  }

  const WATCH_URL_PREFIX: string := "https://www.youtube.com/watch?v="

  /** `f"https://www.youtube.com/watch?v={video_id}"`. */
  function WatchUrl(videoId: string): (r: string)
    ensures StartsWith(r, WATCH_URL_PREFIX) && r[|WATCH_URL_PREFIX|..] == videoId
  {
    WATCH_URL_PREFIX + videoId
  }

  /** `f"videos/{video_id[:2]}/{video_id}.json"`: the key under which a
      video's result is stored. */
  function VideoKey(videoId: string): string
  {
    "videos/" + Prefix(videoId, 2) + "/" + videoId + ".json"
  }

  /** Two different video ids never share a key, so a result can only ever
      replace an earlier result for the same video. */
  lemma VideoKeyInjective(a: string, b: string)
    requires VideoKey(a) == VideoKey(b)
    ensures a == b
  {
    var ka, kb := VideoKey(a), VideoKey(b);
    // The key's length, 13 + |id| + min(|id|, 2), determines |id|.
    assert |ka| == 13 + |a| + |Prefix(a, 2)|;
    assert |kb| == 13 + |b| + |Prefix(b, 2)|;
    assert |a| == |b|;
    var off := 8 + |Prefix(a, 2)|;
    assert ka[off..off + |a|] == a;
    assert kb[off..off + |b|] == b;
  }

  /** The count at the last checkpoint of a ledger saved every `every`
      items: the largest multiple of `every` not above `count`. */
  function LastCheckpoint(count: int, every: int): (c: int)
    requires every > 0
    ensures c % every == 0 && count - every < c <= count
  {
    MultipleMod(count / every, every);
    count - count % every
  }

  /** A multiple of `m` leaves no remainder. */
  lemma MultipleMod(q: int, m: int)
    requires m > 0
    ensures (q * m) % m == 0
  {
    var d, r := (q * m) / m, (q * m) % m;
    assert (q - d) * m == r;
    MulBounds(q - d, m);
  }

  /** A nonzero multiple of `m` is at least `m` away from zero. */
  lemma {:induction false} MulBounds(k: int, m: int)
    requires m > 0
    ensures k >= 1 ==> k * m >= m
    ensures k <= -1 ==> k * m <= -m
    decreases if k < 0 then -k else k
  {
    if k > 1 {
      MulBounds(k - 1, m);
      assert k * m == (k - 1) * m + m;
    } else if k < -1 {
      MulBounds(k + 1, m);
      assert k * m == (k + 1) * m - m;
    }
  }
}

=== FILE: forum_scraper.dfy ===
/** The forum scraper: a ledger of scraped topic ids, a paging generator of
    topic ids a category still has to offer, the scrape of a list of
    categories up to an optional limit with a checkpoint every 10 topics, and
    the file each topic is saved to. The forum's answers (category pages and
    topics) are inputs; the state file and the topic files are fields. */
module ForumScraper {
  import opened Common

  const MAX_PAGES: nat := 100
  const CHECKPOINT_EVERY: int := 10

  datatype Category = Category(id: int, name: string, slug: string)

  /** The ledger kept in the state file. */
  datatype ForumState = ForumState(scrapedTopics: seq<int>, lastCategory: Option<string>, lastPage: int)

  /** What the forum returned for a topic, and the topic `scrape_topic`
      builds from it for a category (the posts and the other fields are
      carried along unread). */
  datatype TopicData = TopicData(id: int, title: string)
  datatype Topic = Topic(id: int, title: string, categoryName: string)

  /** A page of a category's listing: `None` when the request returned
      nothing, otherwise the ids in `topic_list.topics` (empty when the key
      is missing). */
  type Pages = (Category, nat) -> Option<seq<int>>

  // ---- the topic ids of a category ----

  /** The ids of `ts` not in `ledger`, in order. */
  function Unscraped(ts: seq<int>, ledger: seq<int>): seq<int>
  {
    if ts == [] then []
    else Unscraped(ts[..|ts| - 1], ledger) + (if ts[|ts| - 1] in ledger then [] else [ts[|ts| - 1]])
  }

  /** `idx` lists, in increasing order, positions of `ts` that hold `r`'s
      elements one by one: `r` is a subsequence of `ts`. */
  predicate PickedFrom(r: seq<int>, ts: seq<int>, idx: seq<int>)
  {
    && |idx| == |r|
    && (forall i :: 0 <= i < |r| ==> 0 <= idx[i] < |ts| && ts[idx[i]] == r[i])
    && (forall i, j :: 0 <= i < j < |idx| ==> idx[i] < idx[j])
  }

  /** An id is kept exactly when it is on the page and not in the ledger;
      the kept ids keep their order on the page, and each one keeps its
      multiplicity there. */
  lemma {:induction false} UnscrapedSpec(ts: seq<int>, ledger: seq<int>)
    ensures forall x :: x in Unscraped(ts, ledger) <==> x in ts && x !in ledger
    ensures forall x :: multiset(Unscraped(ts, ledger))[x] == if x in ledger then 0 else multiset(ts)[x]
    ensures exists idx :: PickedFrom(Unscraped(ts, ledger), ts, idx)
    ensures |Unscraped(ts, ledger)| <= |ts|
  {
    UnscrapedMembers(ts, ledger);
    UnscrapedCount(ts, ledger);
    var idx := UnscrapedPicked(ts, ledger);
  }

  lemma {:induction false} UnscrapedMembers(ts: seq<int>, ledger: seq<int>)
    ensures forall x :: x in Unscraped(ts, ledger) <==> x in ts && x !in ledger
  {
    if ts != [] {
      var init := ts[..|ts| - 1];
      UnscrapedMembers(init, ledger);
      assert ts == init + [ts[|ts| - 1]];
    }
  }

  lemma {:induction false} UnscrapedCount(ts: seq<int>, ledger: seq<int>)
    ensures forall x :: multiset(Unscraped(ts, ledger))[x] == if x in ledger then 0 else multiset(ts)[x]
    ensures |Unscraped(ts, ledger)| <= |ts|
  {
    if ts != [] {
      var init := ts[..|ts| - 1];
      UnscrapedCount(init, ledger);
      assert ts == init + [ts[|ts| - 1]];
    }
  }

  lemma {:induction false} UnscrapedPicked(ts: seq<int>, ledger: seq<int>) returns (idx: seq<int>)
    ensures PickedFrom(Unscraped(ts, ledger), ts, idx)
  {
    if ts == [] {
      idx := [];
    } else {
      var init := ts[..|ts| - 1];
      var last := ts[|ts| - 1];
      var idx0 := UnscrapedPicked(init, ledger);
      idx := idx0 + (if last in ledger then [] else [|ts| - 1]);
      var r0 := Unscraped(init, ledger);
      var r := Unscraped(ts, ledger);
      assert r == r0 + (if last in ledger then [] else [last]);
      forall i | 0 <= i < |r|
        ensures 0 <= idx[i] < |ts| && ts[idx[i]] == r[i]
      {
        if i < |r0| {
          assert idx[i] == idx0[i] && r[i] == r0[i] && ts[idx0[i]] == init[idx0[i]];
        }
      }
    }
  }

  /** The ids `get_category_topic_ids` yields from page `page` on: each
      page's ids not in the ledger, up to the first page that is missing or
      has no topics, and no further than page `maxPages - 1`. */
  function CategoryIds(pages: Pages, category: Category, page: nat, maxPages: nat, ledger: seq<int>): seq<int>
    decreases maxPages - page
  {
    if maxPages <= page then []
    else match pages(category, page)
      case None => []
      case Some(ts) =>
        if ts == [] then [] else Unscraped(ts, ledger) + CategoryIds(pages, category, page + 1, maxPages, ledger)
  }

  /** Every id yielded is outside the ledger and was listed on a page below
      `maxPages`. */
  lemma CategoryIdsSpec(pages: Pages, category: Category, page: nat, maxPages: nat, ledger: seq<int>)
    ensures forall x :: x in CategoryIds(pages, category, page, maxPages, ledger) ==>
              x !in ledger
              && exists p :: page <= p < maxPages && pages(category, p).Some? && x in pages(category, p).value
  {
    forall x | x in CategoryIds(pages, category, page, maxPages, ledger)
      ensures x !in ledger
      ensures exists p :: page <= p < maxPages && pages(category, p).Some? && x in pages(category, p).value
    {
      var p := CategoryIdPage(pages, category, page, maxPages, ledger, x);
    }
  }

  /** The page an id yielded from page `page` on was listed on. */
  lemma {:induction false} CategoryIdPage(pages: Pages, category: Category, page: nat, maxPages: nat,
                                          ledger: seq<int>, x: int) returns (p: nat)
    requires x in CategoryIds(pages, category, page, maxPages, ledger)
    ensures x !in ledger && page <= p < maxPages && pages(category, p).Some? && x in pages(category, p).value
    decreases maxPages - page
  {
    var ts := pages(category, page).value;
    assert CategoryIds(pages, category, page, maxPages, ledger)
           == Unscraped(ts, ledger) + CategoryIds(pages, category, page + 1, maxPages, ledger);
    if x in Unscraped(ts, ledger) {
      UnscrapedMembers(ts, ledger);
      p := page;
    } else {
      p := CategoryIdPage(pages, category, page + 1, maxPages, ledger, x);
    }
  }

  /** Nothing after a page that is missing or empty is ever requested: the
      ids are the same as if the pages stopped there. */
  lemma {:induction false} CategoryIdsStop(pages: Pages, category: Category, page: nat, stop: nat,
                                           maxPages: nat, ledger: seq<int>)
    requires page <= stop < maxPages
    requires pages(category, stop).None? || pages(category, stop) == Some([])
    ensures CategoryIds(pages, category, page, maxPages, ledger) == CategoryIds(pages, category, page, stop, ledger)
    decreases stop - page
  {
    if page < stop && pages(category, page).Some? && pages(category, page).value != [] {
      CategoryIdsStop(pages, category, page + 1, stop, maxPages, ledger);
    }
  }

  // ---- the files ----

  /** `category_name.lower().replace(" ", "_")`. */
  function CategoryDir(name: string): (r: string)
    ensures |r| == |name|
    ensures forall i :: 0 <= i < |name| ==> r[i] == if name[i] == ' ' then '_' else LowerChar(name[i])
  {
    if name == [] then []
    else [if name[0] == ' ' then '_' else LowerChar(name[0])] + CategoryDir(name[1..])
  }

  /** `data_dir / category_dir / f"{topic.id}.json"`, relative to the data
      directory (an empty directory name adds no component). */
  function TopicPath(topic: Topic): string
  {
    var dir := CategoryDir(topic.categoryName);
    var file := IntToString(topic.id) + ".json";
    if dir == [] then file else dir + "/" + file
  }

  /** The directory has no upper-case letter and no space, and two topics of
      the same category are saved to different files exactly when their ids
      differ. */
  lemma TopicPathSpec(a: Topic, b: Topic)
    ensures forall i :: 0 <= i < |CategoryDir(a.categoryName)| ==>
              CategoryDir(a.categoryName)[i] != ' ' && !('A' <= CategoryDir(a.categoryName)[i] <= 'Z')
    ensures a.categoryName == b.categoryName ==> (TopicPath(a) == TopicPath(b) <==> a.id == b.id)
  {
    if a.categoryName == b.categoryName && TopicPath(a) == TopicPath(b) {
      var dir := CategoryDir(a.categoryName);
      var fa, fb := IntToString(a.id) + ".json", IntToString(b.id) + ".json";
      if dir == [] {
        assert fa == fb;
      } else {
        assert dir + "/" + fa == dir + "/" + fb;
        assert fa == (dir + "/" + fa)[|dir| + 1..];
        assert fb == (dir + "/" + fb)[|dir| + 1..];
      }
      assert IntToString(a.id) == fa[..|fa| - 5] && IntToString(b.id) == fb[..|fb| - 5];
      IntRoundTrip(a.id);
      IntRoundTrip(b.id);
    }
  }

  /** The topic files after saving `topics` in order over `files`: each one
      written at its path, a later one replacing an earlier one there. */
  function Store(files: map<string, Topic>, topics: seq<Topic>): map<string, Topic>
  {
    if topics == [] then files
    else Store(files, topics[..|topics| - 1])[TopicPath(topics[|topics| - 1]) := topics[|topics| - 1]]
  }

  /** The files are the old ones plus one per saved topic's path; a path no
      saved topic has keeps its old contents, and a saved topic no later
      topic shares its path with is what its file holds. */
  lemma StoreSpec(files: map<string, Topic>, topics: seq<Topic>)
    ensures Store(files, topics).Keys == files.Keys + set t | t in topics :: TopicPath(t)
    ensures forall p :: p in files && (forall t :: t in topics ==> TopicPath(t) != p) ==>
              Store(files, topics)[p] == files[p]
    ensures forall i :: 0 <= i < |topics| && (forall j :: i < j < |topics| ==> TopicPath(topics[j]) != TopicPath(topics[i])) ==>
              Store(files, topics)[TopicPath(topics[i])] == topics[i]
  {
    StoreKeys(files, topics);
    StoreKeeps(files, topics);
    forall i | 0 <= i < |topics| && (forall j :: i < j < |topics| ==> TopicPath(topics[j]) != TopicPath(topics[i]))
      ensures Store(files, topics)[TopicPath(topics[i])] == topics[i]
    {
      StoreLast(files, topics, i);
    }
  }

  lemma {:induction false} StoreKeys(files: map<string, Topic>, topics: seq<Topic>)
    ensures Store(files, topics).Keys == files.Keys + set t | t in topics :: TopicPath(t)
  {
    if topics != [] {
      var init := topics[..|topics| - 1];
      var last := topics[|topics| - 1];
      StoreKeys(files, init);
      assert topics == init + [last];
      assert Store(files, topics).Keys == Store(files, init).Keys + {TopicPath(last)};
      assert (set t | t in topics :: TopicPath(t)) == (set t | t in init :: TopicPath(t)) + {TopicPath(last)};
    }
  }

  lemma {:induction false} StoreKeeps(files: map<string, Topic>, topics: seq<Topic>)
    ensures forall p :: p in files && (forall t :: t in topics ==> TopicPath(t) != p) ==>
              p in Store(files, topics) && Store(files, topics)[p] == files[p]
  {
    if topics != [] {
      var init := topics[..|topics| - 1];
      StoreKeeps(files, init);
      assert forall t :: t in init ==> t in topics;
    }
  }

  lemma {:induction false} StoreLast(files: map<string, Topic>, topics: seq<Topic>, i: int)
    requires 0 <= i < |topics|
    requires forall j :: i < j < |topics| ==> TopicPath(topics[j]) != TopicPath(topics[i])
    ensures TopicPath(topics[i]) in Store(files, topics) && Store(files, topics)[TopicPath(topics[i])] == topics[i]
  {
    var init := topics[..|topics| - 1];
    if i < |init| {
      assert TopicPath(topics[|topics| - 1]) != TopicPath(topics[i]);
      assert init[i] == topics[i];
      StoreLast(files, init, i);
    }
  }

  /** Saving `a` then `b` is saving `a + b`. */
  lemma {:induction false} StoreConcat(files: map<string, Topic>, a: seq<Topic>, b: seq<Topic>)
    ensures Store(Store(files, a), b) == Store(files, a + b)
  {
    if b != [] {
      var init := b[..|b| - 1];
      StoreConcat(files, a, init);
      assert (a + b)[..|a + b| - 1] == a + init;
    } else {
      assert a + b == a;
    }
  }

  /** Saving one more topic writes its file. */
  lemma StoreSnoc(files: map<string, Topic>, topics: seq<Topic>, t: Topic)
    ensures Store(files, topics + [t]) == Store(files, topics)[TopicPath(t) := t]
  {
    assert (topics + [t])[..|topics|] == topics;
  }

  /** The topics `scrape_topic` builds for the ids of `ids` the forum
      returns a topic for, in order, all in category `categoryName`. */
  function TopicsOf(ids: seq<int>, categoryName: string, fetch: int -> Option<TopicData>): seq<Topic>
  {
    if ids == [] then []
    else
      var x := ids[|ids| - 1];
      TopicsOf(ids[..|ids| - 1], categoryName, fetch)
      + (if fetch(x).Some? then [Topic(fetch(x).value.id, fetch(x).value.title, categoryName)] else [])
  }

  /** One topic per id `Fetched` keeps, built from what the forum returned
      for it. */
  lemma {:induction false} TopicsOfSpec(ids: seq<int>, categoryName: string, fetch: int -> Option<TopicData>)
    ensures |TopicsOf(ids, categoryName, fetch)| == |Fetched(ids, fetch)|
    ensures forall i :: 0 <= i < |Fetched(ids, fetch)| ==>
              var x := Fetched(ids, fetch)[i];
              fetch(x).Some? && TopicsOf(ids, categoryName, fetch)[i] == Topic(fetch(x).value.id, fetch(x).value.title, categoryName)
  {
    if ids != [] {
      var init := ids[..|ids| - 1];
      TopicsOfSpec(init, categoryName, fetch);
      FetchedSpec(init, fetch);
    }
  }

  /** One more id of a batch: kept, and its topic built, exactly when the
      forum returns a topic for it. */
  lemma BatchStep(batch: seq<int>, j: int, categoryName: string, fetch: int -> Option<TopicData>)
    requires 0 <= j < |batch|
    ensures var x := batch[j];
            && Fetched(batch[..j + 1], fetch) == Fetched(batch[..j], fetch) + (if fetch(x).Some? then [x] else [])
            && TopicsOf(batch[..j + 1], categoryName, fetch)
               == TopicsOf(batch[..j], categoryName, fetch)
                  + (if fetch(x).Some? then [Topic(fetch(x).value.id, fetch(x).value.title, categoryName)] else [])
  {
    assert batch[..j + 1][..j] == batch[..j];
  }

  /** The ids kept by `Fetched` give the same topics as the ids they were
      kept from. */
  lemma {:induction false} TopicsOfFetched(ids: seq<int>, categoryName: string, fetch: int -> Option<TopicData>)
    ensures TopicsOf(Fetched(ids, fetch), categoryName, fetch) == TopicsOf(ids, categoryName, fetch)
  {
    if ids != [] {
      var init := ids[..|ids| - 1];
      var x := ids[|ids| - 1];
      var f := Fetched(init, fetch);
      TopicsOfFetched(init, categoryName, fetch);
      if fetch(x).Some? {
        assert Fetched(ids, fetch) == f + [x];
        assert (f + [x])[..|f|] == f;
        assert TopicsOf(f + [x], categoryName, fetch)
               == TopicsOf(f, categoryName, fetch) + [Topic(fetch(x).value.id, fetch(x).value.title, categoryName)];
      } else {
        assert Fetched(ids, fetch) == f;
      }
    }
  }

  // ---- the checkpoints ----

  /** The state file after appending `added` to the ledger of `start`
      with `total` topics counted before, one at a time, writing the state
      whenever the count reaches a multiple of 10: the ledger as it was at
      the last multiple of 10 passed, or `file` when none was passed. */
  function Checkpoint(start: ForumState, total: int, added: seq<int>, file: Option<ForumState>): Option<ForumState>
  {
    var c := LastCheckpoint(total + |added|, CHECKPOINT_EVERY);
    if total < c then Some(start.(scrapedTopics := start.scrapedTopics + added[..c - total])) else file
  }

  /** Counting one more id writes the state exactly when the count reaches
      a multiple of 10. */
  lemma CheckpointSnoc(start: ForumState, total: int, added: seq<int>, x: int, file: Option<ForumState>)
    ensures Checkpoint(start, total, added + [x], file)
            == if (total + |added| + 1) % CHECKPOINT_EVERY == 0
               then Some(start.(scrapedTopics := start.scrapedTopics + added + [x]))
               else Checkpoint(start, total, added, file)
  {
    var t := total + |added|;
    if (t + 1) % CHECKPOINT_EVERY == 0 {
      assert LastCheckpoint(t + 1, CHECKPOINT_EVERY) == t + 1;
      assert (added + [x])[..t + 1 - total] == added + [x];
      assert start.scrapedTopics + (added + [x]) == start.scrapedTopics + added + [x];
    } else {
      assert LastCheckpoint(t + 1, CHECKPOINT_EVERY) == LastCheckpoint(t, CHECKPOINT_EVERY);
      if total < LastCheckpoint(t, CHECKPOINT_EVERY) {
        assert (added + [x])[..LastCheckpoint(t, CHECKPOINT_EVERY) - total] == added[..LastCheckpoint(t, CHECKPOINT_EVERY) - total];
      }
    }
  }

  /** One more id appended to a ledger `ledger` and its state file `file`,
      both as they stand after `added`: the ledger and state file as they
      stand after `added + [x]`. */
  lemma CountOne(start: ForumState, total: int, added: seq<int>, x: int, file0: Option<ForumState>, count: int,
                 ledger: ForumState, file: Option<ForumState>)
    requires ledger == start.(scrapedTopics := start.scrapedTopics + added)
    requires count == total + |added|
    requires file == Checkpoint(start, total, added, file0)
    ensures ledger.(scrapedTopics := ledger.scrapedTopics + [x]) == start.(scrapedTopics := start.scrapedTopics + (added + [x]))
    ensures (if (count + 1) % CHECKPOINT_EVERY == 0 then Some(ledger.(scrapedTopics := ledger.scrapedTopics + [x])) else file)
            == Checkpoint(start, total, added + [x], file0)
  {
    CheckpointSnoc(start, total, added, x, file0);
    assert start.scrapedTopics + added + [x] == start.scrapedTopics + (added + [x]);
  }

  /** Appending `a` then `b` leaves the state file that appending `a + b`
      leaves. */
  lemma CheckpointConcat(start: ForumState, total: int, a: seq<int>, b: seq<int>, file: Option<ForumState>)
    ensures Checkpoint(start.(scrapedTopics := start.scrapedTopics + a), total + |a|, b, Checkpoint(start, total, a, file))
            == Checkpoint(start, total, a + b, file)
  {
    var c := LastCheckpoint(total + |a| + |b|, CHECKPOINT_EVERY);
    assert |a + b| == |a| + |b|;
    if total + |a| < c {
      assert (a + b)[..c - total] == a + b[..c - total - |a|];
      assert start.scrapedTopics + a + b[..c - total - |a|] == start.scrapedTopics + (a + b)[..c - total];
    } else {
      assert c == LastCheckpoint(total + |a|, CHECKPOINT_EVERY);
      if total < c {
        assert (a + b)[..c - total] == a[..c - total];
      }
    }
  }

  /** Counting from 0, the state file holds the ledger with a start of the
      appended ids whose length is a multiple of 10, fewer than 10 behind,
      and it is written as soon as 10 ids are appended. */
  lemma CheckpointSpec(start: ForumState, added: seq<int>, file: Option<ForumState>)
    ensures |added| < CHECKPOINT_EVERY ==> Checkpoint(start, 0, added, file) == file
    ensures CHECKPOINT_EVERY <= |added| ==>
              exists k :: 0 < k <= |added| < k + CHECKPOINT_EVERY && k % CHECKPOINT_EVERY == 0
                          && Checkpoint(start, 0, added, file) == Some(start.(scrapedTopics := start.scrapedTopics + added[..k]))
  {
    if CHECKPOINT_EVERY <= |added| {
      var k := LastCheckpoint(|added|, CHECKPOINT_EVERY);
      assert CHECKPOINT_EVERY <= k;
      assert 0 < k <= |added| < k + CHECKPOINT_EVERY && k % CHECKPOINT_EVERY == 0
             && Checkpoint(start, 0, added, file) == Some(start.(scrapedTopics := start.scrapedTopics + added[..k]));
    }
  }

  // ---- the scrape of a list of categories ----

  /** Python's truth value of the optional `limit`: neither `None` nor 0. */
  predicate Limited(limit: Option<int>)
  {
    limit.Some? && limit.value != 0
  }

  /** The ids of `batch` for which the forum returned a topic, in order. */
  function Fetched(batch: seq<int>, fetch: int -> Option<TopicData>): seq<int>
  {
    if batch == [] then []
    else Fetched(batch[..|batch| - 1], fetch) + (if fetch(batch[|batch| - 1]).Some? then [batch[|batch| - 1]] else [])
  }

  lemma {:induction false} FetchedSpec(batch: seq<int>, fetch: int -> Option<TopicData>)
    ensures |Fetched(batch, fetch)| <= |batch|
    ensures forall x :: x in Fetched(batch, fetch) <==> x in batch && fetch(x).Some?
  {
    if batch != [] {
      var init := batch[..|batch| - 1];
      FetchedSpec(init, fetch);
      assert batch == init + [batch[|batch| - 1]];
    }
  }

  /** The ids of one category `_scrape_categories` scrapes, given its ids
      and the count so far: the ids cut to what a limit leaves, those for
      which the forum returns a topic. */
  function CategoryBatch(ids: seq<int>, total: int, limit: Option<int>, fetch: int -> Option<TopicData>): seq<int>
  {
    Fetched(if Limited(limit) then Prefix(ids, limit.value - total) else ids, fetch)
  }

  /** A batch holds only ids of the category the forum returns a topic for,
      and no more than a limit leaves. */
  lemma CategoryBatchSpec(ids: seq<int>, total: int, limit: Option<int>, fetch: int -> Option<TopicData>)
    ensures var got := CategoryBatch(ids, total, limit, fetch);
            (forall x :: x in got ==> x in ids && fetch(x).Some?)
            && (Limited(limit) && total < limit.value ==> |got| <= limit.value - total)
  {
    var batch := if Limited(limit) then Prefix(ids, limit.value - total) else ids;
    FetchedSpec(batch, fetch);
  }

  /** What one category adds given the ledger and the count so far. */
  type Batches = (Category, seq<int>, int) -> seq<int>

  /** The batches the forum gives: a category's ids from its pages, cut to
      what the limit leaves, kept where a topic is returned. */
  function BatchesOf(pages: Pages, maxPages: nat, limit: Option<int>, fetch: int -> Option<TopicData>): Batches
  {
    (category: Category, ledger: seq<int>, total: int) =>
      CategoryBatch(CategoryIds(pages, category, 0, maxPages, ledger), total, limit, fetch)
  }

  /** `batches` is the one the forum gives (stated so that it is only used
      where a category's ids are actually listed). */
  ghost predicate GivesBatches(batches: Batches, pages: Pages, maxPages: nat, limit: Option<int>,
                               fetch: int -> Option<TopicData>)
  {
    forall c, l, t {:trigger CategoryIds(pages, c, 0, maxPages, l), batches(c, l, t)} ::
      batches(c, l, t) == CategoryBatch(CategoryIds(pages, c, 0, maxPages, l), t, limit, fetch)
  }

  /** A batch never holds an id of the ledger it was listed against. */
  ghost predicate Unseen(batches: Batches, fetch: int -> Option<TopicData>)
  {
    forall c, l, t, i :: 0 <= i < |batches(c, l, t)| ==> batches(c, l, t)[i] !in l && fetch(batches(c, l, t)[i]).Some?
  }

  /** A batch never holds more than a limit leaves. */
  ghost predicate WithinLimit(batches: Batches, limit: Option<int>)
  {
    forall c, l, t :: Limited(limit) && t < limit.value ==> |batches(c, l, t)| <= limit.value - t
  }

  /** The forum's batches hold only ids outside the ledger that the forum
      returns a topic for, and never more than the limit leaves. */
  lemma BatchesOfSpec(pages: Pages, maxPages: nat, limit: Option<int>, fetch: int -> Option<TopicData>)
    ensures Unseen(BatchesOf(pages, maxPages, limit, fetch), fetch)
    ensures WithinLimit(BatchesOf(pages, maxPages, limit, fetch), limit)
  {
    var b := BatchesOf(pages, maxPages, limit, fetch);
    forall c, l, t
      ensures (forall i :: 0 <= i < |b(c, l, t)| ==> b(c, l, t)[i] !in l && fetch(b(c, l, t)[i]).Some?)
      ensures Limited(limit) && t < limit.value ==> |b(c, l, t)| <= limit.value - t
    {
      var ids := CategoryIds(pages, c, 0, maxPages, l);
      CategoryIdsSpec(pages, c, 0, maxPages, l);
      CategoryBatchSpec(ids, t, limit, fetch);
      forall i | 0 <= i < |b(c, l, t)|
        ensures b(c, l, t)[i] !in l && fetch(b(c, l, t)[i]).Some?
      {
        var x := b(c, l, t)[i];
        assert x in CategoryBatch(ids, t, limit, fetch);
        assert x in ids && fetch(x).Some?;
      }
    }
  }

  /** A limit is set and used up. */
  predicate Exhausted(limit: Option<int>, total: int)
  {
    Limited(limit) && limit.value - total <= 0
  }

  /** The reference definition of the ids `_scrape_categories` appends to
      the ledger for `categories`, given the ledger `ledger` and the count
      `total` so far: each category's batch in turn, until a limit is used
      up. */
  function Appended(batches: Batches, categories: seq<Category>, ledger: seq<int>, total: int,
                    limit: Option<int>): seq<int>
    decreases |categories|
  {
    if categories == [] || Exhausted(limit, total) then []
    else
      var got := batches(categories[0], ledger, total);
      got + Appended(batches, categories[1..], ledger + got, total + |got|, limit)
  }

  /** One category of `Appended`: its batch, then the rest with the ledger
      and the count moved on. */
  lemma AppendedStep(batches: Batches, categories: seq<Category>, ledger: seq<int>, total: int,
                     limit: Option<int>)
    requires categories != [] && !Exhausted(limit, total)
    ensures var got := batches(categories[0], ledger, total);
            Appended(batches, categories, ledger, total, limit)
            == got + Appended(batches, categories[1..], ledger + got, total + |got|, limit)
  {
  }

  /** The loop of `_scrape_categories` read against `Appended`: the ids
      `done` appended for the categories before `ci` are the start of what
      `Appended` gives for all of them. */
  ghost predicate Progress(batches: Batches, categories: seq<Category>, ci: nat, ledger: seq<int>,
                           done: seq<int>, limit: Option<int>)
  {
    ci <= |categories|
    && Appended(batches, categories, ledger, 0, limit)
       == done + Appended(batches, categories[ci..], ledger + done, |done|, limit)
  }

  lemma ProgressStart(batches: Batches, categories: seq<Category>, ledger: seq<int>, limit: Option<int>)
    ensures Progress(batches, categories, 0, ledger, [], limit)
  {
    assert categories[0..] == categories && ledger + [] == ledger;
  }

  /** One more category appends its batch. */
  lemma ProgressAdvance(batches: Batches, categories: seq<Category>, ci: nat, ledger: seq<int>,
                        done: seq<int>, limit: Option<int>)
    requires Progress(batches, categories, ci, ledger, done, limit)
    requires ci < |categories| && !Exhausted(limit, |done|)
    ensures Progress(batches, categories, ci + 1, ledger,
                     done + batches(categories[ci], ledger + done, |done|), limit)
  {
    AppendedStep(batches, categories[ci..], ledger + done, |done|, limit);
    assert categories[ci..][1..] == categories[ci + 1..];
    var got := batches(categories[ci], ledger + done, |done|);
    assert ledger + done + got == ledger + (done + got);
  }

  /** Past the last category, or with the limit used up, nothing more is
      appended. */
  lemma ProgressEnd(batches: Batches, categories: seq<Category>, ci: nat, ledger: seq<int>,
                    done: seq<int>, limit: Option<int>)
    requires Progress(batches, categories, ci, ledger, done, limit)
    requires ci == |categories| || Exhausted(limit, |done|)
    ensures Appended(batches, categories, ledger, 0, limit) == done
  {
  }

  /** The reference definition of the topics `_scrape_categories` saves
      for `categories`, alongside `Appended`: each category's batch as
      topics of that category, until a limit is used up. */
  function Saved(batches: Batches, fetch: int -> Option<TopicData>, categories: seq<Category>, ledger: seq<int>,
                 total: int, limit: Option<int>): seq<Topic>
    decreases |categories|
  {
    if categories == [] || Exhausted(limit, total) then []
    else
      var got := batches(categories[0], ledger, total);
      TopicsOf(got, categories[0].name, fetch)
      + Saved(batches, fetch, categories[1..], ledger + got, total + |got|, limit)
  }

  /** `topics` follow `ids` one for one, each built from what the forum
      returned for its id. */
  predicate Paired(ids: seq<int>, topics: seq<Topic>, fetch: int -> Option<TopicData>)
  {
    && |topics| == |ids|
    && forall i :: 0 <= i < |ids| ==>
         fetch(ids[i]).Some? && topics[i].id == fetch(ids[i]).value.id && topics[i].title == fetch(ids[i]).value.title
  }

  lemma PairedConcat(a: seq<int>, ta: seq<Topic>, b: seq<int>, tb: seq<Topic>, fetch: int -> Option<TopicData>)
    requires Paired(a, ta, fetch) && Paired(b, tb, fetch)
    ensures Paired(a + b, ta + tb, fetch)
  {
    forall i | |a| <= i < |a + b|
      ensures fetch((a + b)[i]).Some? && (ta + tb)[i].id == fetch((a + b)[i]).value.id
              && (ta + tb)[i].title == fetch((a + b)[i]).value.title
    {
      assert (a + b)[i] == b[i - |a|] && (ta + tb)[i] == tb[i - |a|];
    }
  }

  /** The saved topics follow the appended ids one for one: each is built
      from what the forum returned for its id. */
  lemma {:induction false} SavedSpec(batches: Batches, fetch: int -> Option<TopicData>, categories: seq<Category>,
                                     ledger: seq<int>, total: int, limit: Option<int>)
    requires Unseen(batches, fetch)
    ensures Paired(Appended(batches, categories, ledger, total, limit), Saved(batches, fetch, categories, ledger, total, limit), fetch)
    decreases |categories|
  {
    if categories != [] && !Exhausted(limit, total) {
      var got := batches(categories[0], ledger, total);
      var name := categories[0].name;
      assert forall i :: 0 <= i < |got| ==> fetch(got[i]).Some?;
      BatchPaired(got, name, fetch);
      SavedSpec(batches, fetch, categories[1..], ledger + got, total + |got|, limit);
      assert Appended(batches, categories, ledger, total, limit)
             == got + Appended(batches, categories[1..], ledger + got, total + |got|, limit);
      assert Saved(batches, fetch, categories, ledger, total, limit)
             == TopicsOf(got, name, fetch) + Saved(batches, fetch, categories[1..], ledger + got, total + |got|, limit);
      PairedConcat(got, TopicsOf(got, name, fetch),
                   Appended(batches, categories[1..], ledger + got, total + |got|, limit),
                   Saved(batches, fetch, categories[1..], ledger + got, total + |got|, limit), fetch);
    }
  }

  /** A batch the forum returned a topic for throughout gives one topic per
      id. */
  lemma BatchPaired(ids: seq<int>, categoryName: string, fetch: int -> Option<TopicData>)
    requires forall i :: 0 <= i < |ids| ==> fetch(ids[i]).Some?
    ensures Paired(ids, TopicsOf(ids, categoryName, fetch), fetch)
  {
    FetchedAll(ids, fetch);
    TopicsOfSpec(ids, categoryName, fetch);
  }

  /** A batch the forum returned a topic for throughout is kept whole. */
  lemma {:induction false} FetchedAll(ids: seq<int>, fetch: int -> Option<TopicData>)
    requires forall i :: 0 <= i < |ids| ==> fetch(ids[i]).Some?
    ensures Fetched(ids, fetch) == ids
  {
    if ids != [] {
      FetchedAll(ids[..|ids| - 1], fetch);
    }
  }

  /** The loop of `_scrape_categories` read against `Saved`: the topics
      `saved` for the categories before `ci` are the start of what `Saved`
      gives for all of them. */
  ghost predicate SavedProgress(batches: Batches, fetch: int -> Option<TopicData>, categories: seq<Category>, ci: nat,
                                ledger: seq<int>, done: seq<int>, saved: seq<Topic>, limit: Option<int>)
  {
    ci <= |categories|
    && Saved(batches, fetch, categories, ledger, 0, limit)
       == saved + Saved(batches, fetch, categories[ci..], ledger + done, |done|, limit)
  }

  lemma SavedStart(batches: Batches, fetch: int -> Option<TopicData>, categories: seq<Category>, ledger: seq<int>,
                   limit: Option<int>)
    ensures SavedProgress(batches, fetch, categories, 0, ledger, [], [], limit)
  {
    assert categories[0..] == categories && ledger + [] == ledger;
  }

  /** One more category saves its batch's topics. */
  lemma SavedAdvance(batches: Batches, fetch: int -> Option<TopicData>, categories: seq<Category>, ci: nat,
                     ledger: seq<int>, done: seq<int>, saved: seq<Topic>, limit: Option<int>)
    requires SavedProgress(batches, fetch, categories, ci, ledger, done, saved, limit)
    requires ci < |categories| && !Exhausted(limit, |done|)
    ensures var got := batches(categories[ci], ledger + done, |done|);
            SavedProgress(batches, fetch, categories, ci + 1, ledger, done + got,
                          saved + TopicsOf(got, categories[ci].name, fetch), limit)
  {
    assert categories[ci..][1..] == categories[ci + 1..];
    var got := batches(categories[ci], ledger + done, |done|);
    assert ledger + done + got == ledger + (done + got);
  }

  /** Past the last category, or with the limit used up, nothing more is
      saved. */
  lemma SavedEnd(batches: Batches, fetch: int -> Option<TopicData>, categories: seq<Category>, ci: nat,
                 ledger: seq<int>, done: seq<int>, saved: seq<Topic>, limit: Option<int>)
    requires SavedProgress(batches, fetch, categories, ci, ledger, done, saved, limit)
    requires ci == |categories| || Exhausted(limit, |done|)
    ensures Saved(batches, fetch, categories, ledger, 0, limit) == saved
  {
  }

  /** One more category of the loop of `_scrape_categories`, from the
      state `start`, the topic files `files0` and the state file `file0`:
      the loop's account of the ledger, the topics saved, the files and the
      state file moves on by that category's batch. */
  lemma CategoryStep(batches: Batches, fetch: int -> Option<TopicData>, categories: seq<Category>, ci: nat,
                     start: ForumState, files0: map<string, Topic>, file0: Option<ForumState>, done: seq<int>,
                     saved: seq<Topic>, limit: Option<int>)
    requires Progress(batches, categories, ci, start.scrapedTopics, done, limit)
    requires SavedProgress(batches, fetch, categories, ci, start.scrapedTopics, done, saved, limit)
    requires ci < |categories| && !Exhausted(limit, |done|)
    ensures var got := batches(categories[ci], start.scrapedTopics + done, |done|);
            var topics := TopicsOf(got, categories[ci].name, fetch);
            && Progress(batches, categories, ci + 1, start.scrapedTopics, done + got, limit)
            && SavedProgress(batches, fetch, categories, ci + 1, start.scrapedTopics, done + got, saved + topics, limit)
            && Store(Store(files0, saved), topics) == Store(files0, saved + topics)
            && Checkpoint(start.(scrapedTopics := start.scrapedTopics + done), |done|, got, Checkpoint(start, 0, done, file0))
               == Checkpoint(start, 0, done + got, file0)
            && start.(scrapedTopics := start.scrapedTopics + done).(scrapedTopics := start.scrapedTopics + done + got)
               == start.(scrapedTopics := start.scrapedTopics + (done + got))
  {
    var ledger := start.scrapedTopics;
    var got := batches(categories[ci], ledger + done, |done|);
    ProgressAdvance(batches, categories, ci, ledger, done, limit);
    SavedAdvance(batches, fetch, categories, ci, ledger, done, saved, limit);
    StoreConcat(files0, saved, TopicsOf(got, categories[ci].name, fetch));
    CheckpointConcat(start, 0, done, got, file0);
    assert ledger + done + got == ledger + (done + got);
  }

  /** With a limit, the count never passes it. */
  lemma {:induction false} AppendedBound(batches: Batches, categories: seq<Category>, ledger: seq<int>,
                                         total: int, limit: Option<int>)
    requires Limited(limit) && WithinLimit(batches, limit)
    ensures total + |Appended(batches, categories, ledger, total, limit)|
            <= if total <= limit.value then limit.value else total
    decreases |categories|
  {
    if categories != [] && !Exhausted(limit, total) {
      var got := batches(categories[0], ledger, total);
      AppendedBound(batches, categories[1..], ledger + got, total + |got|, limit);
    }
  }

  /** Each appended id was outside the ledger the scrape started from, and
      the forum returned a topic for it. */
  lemma {:induction false} AppendedSpec(batches: Batches, fetch: int -> Option<TopicData>,
                                        categories: seq<Category>, ledger: seq<int>, total: int,
                                        limit: Option<int>, x: int)
    requires Unseen(batches, fetch)
    requires x in Appended(batches, categories, ledger, total, limit)
    ensures x !in ledger && fetch(x).Some?
    decreases |categories|
  {
    if categories != [] && !Exhausted(limit, total) {
      var got := batches(categories[0], ledger, total);
      AppendedStep(batches, categories, ledger, total, limit);
      assert x in got + Appended(batches, categories[1..], ledger + got, total + |got|, limit);
      if x in got {
        var i :| 0 <= i < |got| && got[i] == x;
      } else {
        AppendedSpec(batches, fetch, categories[1..], ledger + got, total + |got|, limit, x);
        assert x !in ledger + got;
      }
    }
  }

  /** What a scrape of `categories` from ledger `ledger` appends: ids not
      in the ledger, each one the forum returned a topic for, and with a
      limit no more ids than the limit (none for a negative one). */
  lemma ScrapedIds(pages: Pages, maxPages: nat, categories: seq<Category>, ledger: seq<int>,
                   limit: Option<int>, fetch: int -> Option<TopicData>)
    ensures var r := Appended(BatchesOf(pages, maxPages, limit, fetch), categories, ledger, 0, limit);
            (forall x :: x in r ==> x !in ledger && fetch(x).Some?)
            && (Limited(limit) ==> |r| <= if 0 <= limit.value then limit.value else 0)
  {
    var b := BatchesOf(pages, maxPages, limit, fetch);
    BatchesOfSpec(pages, maxPages, limit, fetch);
    forall x | x in Appended(b, categories, ledger, 0, limit)
      ensures x !in ledger && fetch(x).Some?
    {
      AppendedSpec(b, fetch, categories, ledger, 0, limit, x);
    }
    if Limited(limit) {
      AppendedBound(b, categories, ledger, 0, limit);
    }
  }

  /** What a scrape of `categories` saves: one topic per appended id,
      built from what the forum returned for it, each with a file at its
      path, and every file there before still there. */
  lemma ScrapedFiles(pages: Pages, maxPages: nat, categories: seq<Category>, ledger: seq<int>,
                     limit: Option<int>, fetch: int -> Option<TopicData>, files: map<string, Topic>)
    ensures var b := BatchesOf(pages, maxPages, limit, fetch);
            var ids := Appended(b, categories, ledger, 0, limit);
            var topics := Saved(b, fetch, categories, ledger, 0, limit);
            && Paired(ids, topics, fetch)
            && (forall i :: 0 <= i < |topics| ==> TopicPath(topics[i]) in Store(files, topics))
            && files.Keys <= Store(files, topics).Keys
  {
    var b := BatchesOf(pages, maxPages, limit, fetch);
    var topics := Saved(b, fetch, categories, ledger, 0, limit);
    BatchesOfSpec(pages, maxPages, limit, fetch);
    SavedSpec(b, fetch, categories, ledger, 0, limit);
    StoreKeys(files, topics);
    forall i | 0 <= i < |topics|
      ensures TopicPath(topics[i]) in Store(files, topics)
    {
      assert topics[i] in topics;
    }
  }

  /** `scrape`'s category filter: with a non-empty list of wanted names,
      the categories whose slug or name is listed, in order. */
  function Selected(all: seq<Category>, wanted: seq<string>): seq<Category>
  {
    if wanted == [] || all == [] then all
    else
      var c := all[|all| - 1];
      Selected(all[..|all| - 1], wanted) + (if c.slug in wanted || c.name in wanted then [c] else [])
  }

  lemma {:induction false} SelectedSpec(all: seq<Category>, wanted: seq<string>)
    ensures wanted == [] ==> Selected(all, wanted) == all
    ensures wanted != [] ==>
              forall c :: c in Selected(all, wanted) <==> c in all && (c.slug in wanted || c.name in wanted)
  {
    if wanted != [] && all != [] {
      var init := all[..|all| - 1];
      SelectedSpec(init, wanted);
      assert all == init + [all[|all| - 1]];
    }
  }

  class DevForumScraper {
    var state: ForumState
    /** The topic files, by path under the data directory. */
    var files: map<string, Topic>
    /** The state file, once written. */
    var stateFile: Option<ForumState>
    /** The number of pages of a category's listing the scraper reads. */
    const maxPages: nat

    /** `__init__` and `_load_state`: the ledger from the state file, or an
        empty one. */
    constructor (saved: Option<ForumState>, files: map<string, Topic>)
      ensures saved.Some? ==> state == saved.value
      ensures saved.None? ==> state == ForumState([], None, 0)
      ensures this.files == files && stateFile == saved
      ensures maxPages == MAX_PAGES
    {
      maxPages := MAX_PAGES;
      state := if saved.Some? then saved.value else ForumState([], None, 0);
      this.files := files;
      stateFile := saved;
    }

    /** `list(get_category_topic_ids(category, maxPages))`: the pages are
        requested in order until one is missing or empty, and the ids not in
        the ledger are kept. Nothing changes. */
    method CategoryTopicIds(category: Category, maxPages: nat, pages: Pages) returns (ids: seq<int>)
      ensures ids == CategoryIds(pages, category, 0, maxPages, state.scrapedTopics)
    {
      ids := [];
      var page: nat := 0;
      while page < maxPages
        invariant page <= maxPages
        invariant CategoryIds(pages, category, 0, maxPages, state.scrapedTopics)
                  == ids + CategoryIds(pages, category, page, maxPages, state.scrapedTopics)
        decreases maxPages - page
      {
        var data := pages(category, page);
        if data.None? || data.value == [] {
          break;
        }
        var unseen := FreshOnPage(data.value);
        ids := ids + unseen;
        page := page + 1;
      }
    }

    /** The inner loop of the generator over one page: the ids not in the
        ledger, in order. */
    method FreshOnPage(ts: seq<int>) returns (unseen: seq<int>)
      ensures unseen == Unscraped(ts, state.scrapedTopics)
    {
      unseen := [];
      for i := 0 to |ts|
        invariant unseen == Unscraped(ts[..i], state.scrapedTopics)
      {
        assert ts[..i + 1][..i] == ts[..i];
        if ts[i] !in state.scrapedTopics {
          unseen := unseen + [ts[i]];
        }
      }
      assert ts[..|ts|] == ts;
    }

    /** One scraped topic: save its file, then append its id to the ledger;
        the state file is written when the count reaches a multiple of 10. */
    method SaveTopic(topicId: int, topic: Topic, total: int)
      modifies this
      ensures files == old(files)[TopicPath(topic) := topic]
      ensures state == old(state).(scrapedTopics := old(state.scrapedTopics) + [topicId])
      ensures stateFile == if (total + 1) % CHECKPOINT_EVERY == 0 then Some(state) else old(stateFile)
    {
      files := files[TopicPath(topic) := topic];
      state := state.(scrapedTopics := state.scrapedTopics + [topicId]);
      if (total + 1) % CHECKPOINT_EVERY == 0 {
        stateFile := Some(state);
      }
    }

    /** The topics of one category's batch of ids: each one the forum
        returns is saved and counted. */
    method ScrapeBatch(batch: seq<int>, categoryName: string, total: int, fetch: int -> Option<TopicData>)
      returns (total': int)
      modifies this
      ensures state == old(state).(scrapedTopics := old(state.scrapedTopics) + Fetched(batch, fetch))
      ensures total' == total + |Fetched(batch, fetch)|
      ensures files == Store(old(files), TopicsOf(batch, categoryName, fetch))
      ensures stateFile == Checkpoint(old(state), total, Fetched(batch, fetch), old(stateFile))
    {
      total' := total;
      for j := 0 to |batch|
        invariant BatchDone(old(state), old(files), old(stateFile), batch[..j], categoryName, total, total', fetch)
      {
        total' := ScrapeOne(batch, j, categoryName, total, total', fetch, old(state), old(files), old(stateFile));
      }
      assert batch[..|batch|] == batch;
    }

    /** The ids `done` of a batch are scraped: from `start`, `files0` and
        `file0`, their topics are saved, the ids the forum returned a topic
        for are appended and counted, and the state file is checkpointed. */
    ghost predicate BatchDone(start: ForumState, files0: map<string, Topic>, file0: Option<ForumState>, done: seq<int>,
                              categoryName: string, total: int, total': int, fetch: int -> Option<TopicData>)
      reads this
    {
      && state == start.(scrapedTopics := start.scrapedTopics + Fetched(done, fetch))
      && total' == total + |Fetched(done, fetch)|
      && files == Store(files0, TopicsOf(done, categoryName, fetch))
      && stateFile == Checkpoint(start, total, Fetched(done, fetch), file0)
    }

    /** One id of a batch: fetch its topic and, when the forum returns one,
        save it and count it. */
    method ScrapeOne(batch: seq<int>, j: int, categoryName: string, total: int, count: int,
                     fetch: int -> Option<TopicData>, ghost start: ForumState, ghost files0: map<string, Topic>,
                     ghost file0: Option<ForumState>) returns (count': int)
      requires 0 <= j < |batch|
      requires BatchDone(start, files0, file0, batch[..j], categoryName, total, count, fetch)
      modifies this
      ensures BatchDone(start, files0, file0, batch[..j + 1], categoryName, total, count', fetch)
    {
      BatchStep(batch, j, categoryName, fetch);
      count' := count;
      var data := fetch(batch[j]);
      if data.Some? {
        var topic := Topic(data.value.id, data.value.title, categoryName);
        CountOne(start, total, Fetched(batch[..j], fetch), batch[j], file0, count, state, stateFile);
        StoreSnoc(files0, TopicsOf(batch[..j], categoryName, fetch), topic);
        SaveTopic(batch[j], topic, count);
        count' := count + 1;
      } else {
        assert TopicsOf(batch[..j + 1], categoryName, fetch) == TopicsOf(batch[..j], categoryName, fetch);
        assert Fetched(batch[..j + 1], fetch) == Fetched(batch[..j], fetch);
      }
    }

    /** One turn of `_scrape_categories`' loop: when a limit is used up,
        stop with nothing changed; otherwise list the category's ids, cut
        them to what the limit leaves and scrape them, appending the
        category's batch to the ledger. */
    method ScrapeCategory(category: Category, limit: Option<int>, total: int, pages: Pages,
                          fetch: int -> Option<TopicData>, ghost batches: Batches)
      returns (stop: bool, total': int)
      requires GivesBatches(batches, pages, maxPages, limit, fetch)
      modifies this
      ensures stop == Exhausted(limit, total)
      ensures stop ==> unchanged(this) && total' == total
      ensures !stop ==>
                var got := batches(category, old(state.scrapedTopics), total);
                && state == old(state).(scrapedTopics := old(state.scrapedTopics) + got) && total' == total + |got|
                && files == Store(old(files), TopicsOf(got, category.name, fetch))
                && stateFile == Checkpoint(old(state), total, got, old(stateFile))
    {
      var ids := CategoryTopicIds(category, maxPages, pages);
      ghost var got := batches(category, state.scrapedTopics, total);
      if Limited(limit) {
        var remaining := limit.value - total;
        if remaining <= 0 {
          return true, total;
        }
        ids := Prefix(ids, remaining);
      }
      stop := false;
      assert got == Fetched(ids, fetch);
      TopicsOfFetched(ids, category.name, fetch);
      total' := ScrapeBatch(ids, category.name, total, fetch);
    }

    /** The loop of `_scrape_categories` over the categories, up to the
        final save. */
    method ScrapeEach(categories: seq<Category>, limit: Option<int>, pages: Pages,
                      fetch: int -> Option<TopicData>, ghost batches: Batches) returns (total: int)
      requires GivesBatches(batches, pages, maxPages, limit, fetch)
      modifies this
      ensures state == old(state).(scrapedTopics := old(state.scrapedTopics)
                                    + Appended(batches, categories, old(state.scrapedTopics), 0, limit))
      ensures total == |Appended(batches, categories, old(state.scrapedTopics), 0, limit)|
      ensures files == Store(old(files), Saved(batches, fetch, categories, old(state.scrapedTopics), 0, limit))
      ensures stateFile == Checkpoint(old(state), 0, Appended(batches, categories, old(state.scrapedTopics), 0, limit),
                                      old(stateFile))
    {
      total := 0;
      ghost var done: seq<int> := [];
      ghost var saved: seq<Topic> := [];
      ProgressStart(batches, categories, state.scrapedTopics, limit);
      SavedStart(batches, fetch, categories, state.scrapedTopics, limit);
      assert state.scrapedTopics + [] == state.scrapedTopics;
      var ci := 0;
      while ci < |categories|
        invariant ci <= |categories|
        invariant EachDone(old(state), old(files), old(stateFile), batches, fetch, categories, ci, done, saved, limit, total)
      {
        var stop, total';
        ghost var done', saved';
        stop, total', done', saved' := ScrapeNext(categories, ci, limit, total, pages, fetch, batches,
                                                  old(state), old(files), old(stateFile), done, saved);
        if stop {
          break;
        }
        total, done, saved := total', done', saved';
        ci := ci + 1;
      }
      ProgressEnd(batches, categories, ci, old(state.scrapedTopics), done, limit);
      SavedEnd(batches, fetch, categories, ci, old(state.scrapedTopics), done, saved, limit);
    }

    /** The categories before `ci` are scraped: from `start`, `files0` and
        `file0`, the ledger has the ids `done` appended, counted by
        `total`, which `Appended` gives for those categories, the topic
        files have the topics `saved`, which `Saved` gives for them, saved
        over them, and the state file is checkpointed. */
    ghost predicate EachDone(start: ForumState, files0: map<string, Topic>, file0: Option<ForumState>, batches: Batches,
                             fetch: int -> Option<TopicData>, categories: seq<Category>, ci: nat, done: seq<int>,
                             saved: seq<Topic>, limit: Option<int>, total: int)
      reads this
    {
      && state == start.(scrapedTopics := start.scrapedTopics + done)
      && total == |done|
      && Progress(batches, categories, ci, start.scrapedTopics, done, limit)
      && SavedProgress(batches, fetch, categories, ci, start.scrapedTopics, done, saved, limit)
      && files == Store(files0, saved)
      && stateFile == Checkpoint(start, 0, done, file0)
    }

    /** One turn of the loop of `_scrape_categories`: when a limit is used
        up, stop with nothing changed; otherwise category `ci` is scraped. */
    method ScrapeNext(categories: seq<Category>, ci: nat, limit: Option<int>, total: int, pages: Pages,
                      fetch: int -> Option<TopicData>, ghost batches: Batches, ghost start: ForumState,
                      ghost files0: map<string, Topic>, ghost file0: Option<ForumState>, ghost done: seq<int>,
                      ghost saved: seq<Topic>)
      returns (stop: bool, total': int, ghost done': seq<int>, ghost saved': seq<Topic>)
      requires GivesBatches(batches, pages, maxPages, limit, fetch)
      requires ci < |categories|
      requires EachDone(start, files0, file0, batches, fetch, categories, ci, done, saved, limit, total)
      modifies this
      ensures stop ==> Exhausted(limit, |done|) && unchanged(this)
      ensures !stop ==> EachDone(start, files0, file0, batches, fetch, categories, ci + 1, done', saved', limit, total')
    {
      ghost var got := batches(categories[ci], start.scrapedTopics + done, total);
      stop, total' := ScrapeCategory(categories[ci], limit, total, pages, fetch, batches);
      done', saved' := done + got, saved + TopicsOf(got, categories[ci].name, fetch);
      if !stop {
        CategoryStep(batches, fetch, categories, ci, start, files0, file0, done, saved, limit);
      }
    }

    /** `_scrape_categories`: nothing at all for an empty list; otherwise
        each category in turn, its ids not yet in the ledger cut to what a
        limit leaves, stopping once a limit is used up, and the state file
        written at the end. Returns the number of topics scraped, which is
        the number of ids appended to the ledger. */
    method ScrapeCategories(categories: seq<Category>, limit: Option<int>, pages: Pages,
                            fetch: int -> Option<TopicData>) returns (total: int)
      modifies this
      ensures categories == [] ==> total == 0 && unchanged(this)
      ensures state == old(state).(scrapedTopics := old(state.scrapedTopics)
                                    + Appended(BatchesOf(pages, maxPages, limit, fetch), categories,
                                               old(state.scrapedTopics), 0, limit))
      ensures total == |Appended(BatchesOf(pages, maxPages, limit, fetch), categories, old(state.scrapedTopics), 0, limit)|
      ensures files == Store(old(files), Saved(BatchesOf(pages, maxPages, limit, fetch), fetch, categories,
                                               old(state.scrapedTopics), 0, limit))
      ensures categories != [] ==> stateFile == Some(state)
    {
      if categories == [] {
        return 0;
      }
      total := ScrapeEach(categories, limit, pages, fetch, BatchesOf(pages, maxPages, limit, fetch));
      stateFile := Some(state);
    }

    /** `scrape`: the categories the forum lists (`listing`), narrowed to
        the wanted slugs or names when any are given, scraped as above. The
        `resume` flag changes nothing. */
    method Scrape(listing: seq<Category>, wanted: seq<string>, limit: Option<int>, resume: bool,
                  pages: Pages, fetch: int -> Option<TopicData>) returns (total: int)
      modifies this
      ensures var cats := Selected(listing, wanted);
              state == old(state).(scrapedTopics := old(state.scrapedTopics)
                                    + Appended(BatchesOf(pages, maxPages, limit, fetch), cats, old(state.scrapedTopics), 0, limit))
              && total == |Appended(BatchesOf(pages, maxPages, limit, fetch), cats, old(state.scrapedTopics), 0, limit)|
              && files == Store(old(files), Saved(BatchesOf(pages, maxPages, limit, fetch), fetch, cats,
                                                  old(state.scrapedTopics), 0, limit))
              && stateFile == if cats == [] then old(stateFile) else Some(state)
    {
      var cats := Selected(listing, wanted);
      total := ScrapeCategories(cats, limit, pages, fetch);
    }
  }
}

=== FILE: queue_jobs.dfy ===
/** The job producer: it expands the list of search queries, runs each
    search, and enqueues one message per qualifying video (non-empty id,
    enough views, not queued before) until the target count is reached. */
module QueueJobs {
  import opened Common

  /** The search queries, in order. */
  const QUERIES: seq<string> := [
    "roblox scripting tutorial", "roblox lua tutorial", "how to script roblox",
    "roblox studio scripting beginner", "learn roblox coding", "roblox programming tutorial",
    "roblox datastore tutorial", "roblox remote event tutorial", "roblox module script tutorial",
    "roblox tween service tutorial", "roblox gui tutorial", "roblox animation script tutorial",
    "roblox pathfinding tutorial", "roblox raycast tutorial", "roblox touched event tutorial",
    "roblox player data save", "roblox inventory system tutorial", "roblox combat system tutorial",
    "roblox round system tutorial", "roblox leaderboard tutorial", "roblox shop system tutorial",
    "roblox npc tutorial", "roblox ai tutorial", "roblox oop tutorial",
    "roblox metatables tutorial", "roblox building tutorial", "roblox studio tutorial",
    "roblox terrain tutorial", "roblox lighting tutorial", "roblox blender tutorial",
    "roblox mesh tutorial", "roblox ui design tutorial", "roblox particle effects tutorial",
    "how to make roblox obby", "how to make roblox simulator", "how to make roblox tycoon",
    "roblox fps game tutorial", "roblox rpg tutorial", "roblox horror game tutorial",
    "roblox fighting game tutorial", "roblox gamepass tutorial", "roblox dev product tutorial",
    "how to make robux", "roblox monetization", "roblox script not working fix",
    "roblox datastore not saving fix", "roblox remote event not working",
    "roblox animation not playing fix", "roblox lag fix optimization", "roblox studio crash fix",
    "roblox filtering enabled explained", "roblox tutorial 2024", "roblox tutorial 2025",
    "roblox scripting 2024", "roblox scripting 2025"
  ]

  /** Command-line defaults: target count, minimum views, results per
      query. */
  const DEFAULT_COUNT: int := 10000
  const DEFAULT_MIN_VIEWS: int := 1000
  const DEFAULT_PER_QUERY: int := 100

  /** How many leading queries get the three variants. */
  const EXPANDED: nat := 20

  // ---- query expansion ----

  /** The three variants appended for one query. */
  function VariantsOf(q: string): seq<string>
  {
    [q + " beginner", q + " advanced", q + " full guide"]
  }

  /** The variants of each query of `qs`, in order. */
  function Variants(qs: seq<string>): seq<string>
  {
    if qs == [] then [] else Variants(qs[..|qs| - 1]) + VariantsOf(qs[|qs| - 1])
  }

  /** Each query's three variants sit together, in the order of the
      queries. */
  lemma {:induction false} VariantsSpec(qs: seq<string>)
    ensures |Variants(qs)| == 3 * |qs|
    ensures forall i :: 0 <= i < |qs| ==> Variants(qs)[3 * i..3 * i + 3] == VariantsOf(qs[i])
  {
    if qs != [] {
      var p := qs[..|qs| - 1];
      VariantsSpec(p);
      forall i | 0 <= i < |qs|
        ensures Variants(qs)[3 * i..3 * i + 3] == VariantsOf(qs[i])
      {
        if i < |p| {
          assert Variants(qs)[3 * i..3 * i + 3] == Variants(p)[3 * i..3 * i + 3];
          assert p[i] == qs[i];
        }
      }
    }
  }

  /** `all_queries`: the queries, followed by the variants of the first 20
      of them when the target count exceeds what the plain queries can
      yield. */
  function Expanded(queries: seq<string>, count: int, perQuery: int): seq<string>
  {
    queries + (if count > |queries| * perQuery then Variants(Prefix(queries, EXPANDED)) else [])
  }

  method ExpandQueries(queries: seq<string>, count: int, perQuery: int) returns (all: seq<string>)
    ensures all == Expanded(queries, count, perQuery)
  {
    all := queries;
    if count > |queries| * perQuery {
      var firsts := Prefix(queries, EXPANDED);
      var i := 0;
      while i < |firsts|
        invariant 0 <= i <= |firsts|
        invariant all == queries + Variants(firsts[..i])
      {
        assert firsts[..i + 1][..i] == firsts[..i];
        all := all + [firsts[i] + " beginner"];
        all := all + [firsts[i] + " advanced"];
        all := all + [firsts[i] + " full guide"];
        i := i + 1;
      }
      assert firsts[..|firsts|] == firsts;
    }
  }

  /** The original queries always come first, unchanged; the variants are
      added exactly when the count calls for them, three per query for the
      first 20. */
  lemma ExpandedSpec(queries: seq<string>, count: int, perQuery: int)
    ensures var all := Expanded(queries, count, perQuery);
            |queries| <= |all| && all[..|queries|] == queries
            && |all| == |queries| + (if count > |queries| * perQuery then 3 * |Prefix(queries, EXPANDED)| else 0)
            && (count > |queries| * perQuery ==>
                  forall i :: 0 <= i < |queries| && i < EXPANDED ==>
                    all[|queries| + 3 * i..|queries| + 3 * i + 3] == VariantsOf(queries[i]))
  {
    var all := Expanded(queries, count, perQuery);
    assert all[..|queries|] == queries;
    if count > |queries| * perQuery {
      var firsts := Prefix(queries, EXPANDED);
      VariantsSpec(firsts);
      forall i | 0 <= i < |queries| && i < EXPANDED
        ensures all[|queries| + 3 * i..|queries| + 3 * i + 3] == VariantsOf(queries[i])
      {
        VariantAt(queries, Variants(firsts), i);
      }
    }
  }

  lemma VariantAt(queries: seq<string>, vs: seq<string>, i: int)
    requires 0 <= i < |queries| && i < EXPANDED && 3 * i + 3 <= |vs|
    requires vs[3 * i..3 * i + 3] == VariantsOf(Prefix(queries, EXPANDED)[i])
    ensures (queries + vs)[|queries| + 3 * i..|queries| + 3 * i + 3] == VariantsOf(queries[i])
  {
    assert (queries + vs)[|queries| + 3 * i..|queries| + 3 * i + 3] == vs[3 * i..3 * i + 3];
  }

  /** With the default count and results per query, the 55 queries are
      searched together with the variants of the first 20: 115 searches. */
  lemma DefaultExpansion()
    ensures |QUERIES| == 55
    ensures |Expanded(QUERIES, DEFAULT_COUNT, DEFAULT_PER_QUERY)| == 115
  {
    ExpandedSpec(QUERIES, DEFAULT_COUNT, DEFAULT_PER_QUERY);
  }

  // ---- search ----

  /** One line of yt-dlp's output: blank, not JSON, JSON that is not an
      object, or a video record with its `id`, `title` and `view_count`
      keys. */
  datatype Line = Blank | NotJson | NotObject
                | Record(id: Field<string>, title: Field<string>, viewCount: Field<int>)

  /** A search result; `None` where the record had no value. */
  datatype Hit = Hit(videoId: Option<string>, title: Option<string>, views: Option<int>, query: string)

  /** `data.get(key)`. */
  function Get<T>(f: Field<T>): Option<T>
  {
    if f.Present? then Some(f.value) else None
  }

  function HitOf(line: Line, query: string): Hit
    requires line.Record?
  {
    Hit(Get(line.id), Get(line.title), GetOr(line.viewCount, 0), query)
  }

  /** The hits of the record lines, in order. */
  function Hits(lines: seq<Line>, query: string): seq<Hit>
  {
    if lines == [] then []
    else Hits(lines[..|lines| - 1], query)
         + (if lines[|lines| - 1].Record? then [HitOf(lines[|lines| - 1], query)] else [])
  }

  /** A line that is JSON but not an object makes `data.get` raise an error
      that the line loop does not catch. */
  predicate Raises(lines: seq<Line>)
  {
    exists i :: 0 <= i < |lines| && lines[i].NotObject?
  }

  /** `search_youtube`: `output` is yt-dlp's output split into non-empty
      lines, `None` when running it failed; any uncaught error gives no
      results. */
  function Search(output: Option<seq<Line>>, query: string): seq<Hit>
  {
    if output.None? || Raises(output.value) then [] else Hits(output.value, query)
  }

  method SearchYouTube(output: Option<seq<Line>>, query: string) returns (videos: seq<Hit>)
    ensures videos == Search(output, query)
  {
    videos := [];
    if output.None? {
      return;
    }
    var lines := output.value;
    var i := 0;
    while i < |lines|
      invariant 0 <= i <= |lines|
      invariant videos == Hits(lines[..i], query)
      invariant forall j :: 0 <= j < i ==> !lines[j].NotObject?
    {
      assert lines[..i + 1][..i] == lines[..i];
      match lines[i] {
        case NotObject =>
          return [];
        case Record(_, _, _) =>
          videos := videos + [HitOf(lines[i], query)];
        case _ =>
      }
      i := i + 1;
    }
    assert lines[..|lines|] == lines;
  }

  /** The hits are exactly the record lines' hits: each carries the query
      it was searched with. */
  lemma {:induction false} HitsSpec(lines: seq<Line>, query: string)
    ensures |Hits(lines, query)| <= |lines|
    ensures forall h :: h in Hits(lines, query) ==>
              h.query == query && exists i :: 0 <= i < |lines| && lines[i].Record? && h == HitOf(lines[i], query)
    ensures forall i :: 0 <= i < |lines| && lines[i].Record? ==> HitOf(lines[i], query) in Hits(lines, query)
  {
    if lines != [] {
      var p := lines[..|lines| - 1];
      HitsSpec(p, query);
      forall i | 0 <= i < |p|
        ensures p[i] == lines[i]
      {
      }
    }
  }

  /** Every result of a search carries its query and comes from a record
      line; a failed run or a non-object line gives no results; otherwise
      every record line gives one. */
  lemma SearchSpec(output: Option<seq<Line>>, query: string)
    ensures forall h :: h in Search(output, query) ==>
              h.query == query
              && exists i :: 0 <= i < |output.value| && output.value[i].Record? && h == HitOf(output.value[i], query)
    ensures output.None? || Raises(output.value) ==> Search(output, query) == []
    ensures output.Some? && !Raises(output.value) ==>
              forall i :: 0 <= i < |output.value| && output.value[i].Record? ==>
                HitOf(output.value[i], query) in Search(output, query)
  {
    if output.Some? {
      HitsSpec(output.value, query);
    }
  }

  // ---- the connection string ----

  const CONNECTION_KEY: string := "STORAGE_CONNECTION"
  const CONFIG_PREFIX: string := "STORAGE_CONNECTION="

  /** The value of the first `STORAGE_CONNECTION=` line of the config
      file. */
  function ConfigSetting(lines: seq<string>): Option<string>
  {
    if lines == [] then None
    else if StartsWith(lines[0], CONFIG_PREFIX) then Some(lines[0][|CONFIG_PREFIX|..])
    else ConfigSetting(lines[1..])
  }

  /** A setting is found exactly when some line starts with the prefix, and
      it is the rest of the first such line. */
  lemma {:induction false} ConfigSettingSpec(lines: seq<string>)
    ensures ConfigSetting(lines).Some? <==> exists i :: 0 <= i < |lines| && StartsWith(lines[i], CONFIG_PREFIX)
    ensures ConfigSetting(lines).Some? ==>
              exists i :: 0 <= i < |lines| && StartsWith(lines[i], CONFIG_PREFIX)
                          && (forall j :: 0 <= j < i ==> !StartsWith(lines[j], CONFIG_PREFIX))
                          && ConfigSetting(lines).value == lines[i][|CONFIG_PREFIX|..]
  {
    if lines != [] && !StartsWith(lines[0], CONFIG_PREFIX) {
      ConfigSettingSpec(lines[1..]);
      if ConfigSetting(lines).Some? {
        var i :| 0 <= i < |lines| - 1 && StartsWith(lines[1..][i], CONFIG_PREFIX)
                 && (forall j :: 0 <= j < i ==> !StartsWith(lines[1..][j], CONFIG_PREFIX))
                 && ConfigSetting(lines[1..]).value == lines[1..][i][|CONFIG_PREFIX|..];
        assert StartsWith(lines[i + 1], CONFIG_PREFIX);
        forall j | 0 <= j < i + 1
          ensures !StartsWith(lines[j], CONFIG_PREFIX)
        {
          if j > 0 {
            assert lines[j] == lines[1..][j - 1];
          }
        }
      }
      if exists i :: 0 <= i < |lines| && StartsWith(lines[i], CONFIG_PREFIX) {
        var i :| 0 <= i < |lines| && StartsWith(lines[i], CONFIG_PREFIX);
        assert lines[1..][i - 1] == lines[i];
      }
    }
  }

  /** Python's truth test on an optional string. */
  predicate Falsy(c: Option<string>)
  {
    c.None? || c.value == ""
  }

  /** The connection string: the argument, else the environment variable,
      else the config file's setting (`config` is `None` when there is no
      such file); `None` when all of them are missing or empty. */
  function ResolveConnection(arg: Option<string>, env: map<string, string>, config: Option<seq<string>>): Option<string>
  {
    var first := if !Falsy(arg) then arg else if CONNECTION_KEY in env then Some(env[CONNECTION_KEY]) else None;
    var c := if Falsy(first) && config.Some? && ConfigSetting(config.value).Some? then ConfigSetting(config.value) else first;
    if Falsy(c) then None else c
  }

  method FindConnection(arg: Option<string>, env: map<string, string>, config: Option<seq<string>>)
    returns (connection: Option<string>)
    ensures connection == ResolveConnection(arg, env, config)
  {
    connection := if !Falsy(arg) then arg else if CONNECTION_KEY in env then Some(env[CONNECTION_KEY]) else None;
    if Falsy(connection) && config.Some? {
      var lines := config.value;
      var i := 0;
      while i < |lines|
        invariant 0 <= i <= |lines|
        invariant ConfigSetting(lines) == ConfigSetting(lines[i..])
      {
        if StartsWith(lines[i], CONFIG_PREFIX) {
          connection := Some(lines[i][|CONFIG_PREFIX|..]);
          break;
        }
        assert lines[i..][1..] == lines[i + 1..];
        i := i + 1;
      }
    }
    if Falsy(connection) {
      connection := None;
    }
  }

  /** A resolved connection string is never empty; a non-empty argument
      wins, then a non-empty environment variable, then the config file. */
  lemma ResolveConnectionSpec(arg: Option<string>, env: map<string, string>, config: Option<seq<string>>)
    ensures var c := ResolveConnection(arg, env, config);
            (c.Some? ==> c.value != "")
            && (!Falsy(arg) ==> c == arg)
            && (Falsy(arg) && CONNECTION_KEY in env && env[CONNECTION_KEY] != "" ==> c == Some(env[CONNECTION_KEY]))
            && (Falsy(arg) && (CONNECTION_KEY !in env || env[CONNECTION_KEY] == "") ==>
                  c == if config.Some? && !Falsy(ConfigSetting(config.value)) then ConfigSetting(config.value) else None)
  {
  }

  // ---- enqueueing ----

  /** A queued message: `{"video_id": ..., "query": ...}`. */
  datatype Queued = Queued(videoId: string, query: string)

  /** `video.get("views", 0) or 0`. */
  function ViewsOrZero(h: Hit): int
  {
    if h.views.Some? then h.views.value else 0
  }

  /** A hit worth queueing, whether or not its id was seen. */
  predicate Qualifies(h: Hit, minViews: int)
  {
    h.videoId.Some? && h.videoId.value != "" && ViewsOrZero(h) >= minViews
  }

  function Ids(r: seq<Queued>): (ids: seq<string>)
    ensures |ids| == |r| && forall i :: 0 <= i < |r| ==> ids[i] == r[i].videoId
  {
    seq(|r|, i requires 0 <= i < |r| => r[i].videoId)
  }

  function IdSet(r: seq<Queued>): set<string>
  {
    set m | m in r :: m.videoId
  }

  /** The messages sent for `hits`, taken in order, given the ids already
      seen and the number already queued: a qualifying hit with an unseen
      id is queued, until `count` messages are out. */
  function Pick(hits: seq<Hit>, count: int, minViews: int, seen: set<string>, queued: int): seq<Queued>
    decreases |hits|
  {
    if hits == [] || queued >= count then []
    else if Qualifies(hits[0], minViews) && hits[0].videoId.value !in seen then
      [Queued(hits[0].videoId.value, hits[0].query)]
      + Pick(hits[1..], count, minViews, seen + {hits[0].videoId.value}, queued + 1)
    else Pick(hits[1..], count, minViews, seen, queued)
  }

  /** All hits of the searches for `queries`, in order; `results` gives
      yt-dlp's output for a query. */
  function Found(queries: seq<string>, results: string -> Option<seq<Line>>): seq<Hit>
  {
    if queries == [] then [] else Search(results(queries[0]), queries[0]) + Found(queries[1..], results)
  }

  lemma {:induction false} PickBound(hits: seq<Hit>, count: int, minViews: int, seen: set<string>, queued: int)
    ensures queued >= count ==> Pick(hits, count, minViews, seen, queued) == []
    ensures queued < count ==> queued + |Pick(hits, count, minViews, seen, queued)| <= count
  {
    if hits != [] && queued < count {
      var h := hits[0];
      if Qualifies(h, minViews) && h.videoId.value !in seen {
        PickBound(hits[1..], count, minViews, seen + {h.videoId.value}, queued + 1);
      } else {
        PickBound(hits[1..], count, minViews, seen, queued);
      }
    }
  }

  lemma {:induction false} PickFresh(hits: seq<Hit>, count: int, minViews: int, seen: set<string>, queued: int)
    ensures var r := Pick(hits, count, minViews, seen, queued);
            NoDup(Ids(r)) && forall i :: 0 <= i < |r| ==> r[i].videoId !in seen
  {
    if hits != [] && queued < count {
      var h := hits[0];
      if Qualifies(h, minViews) && h.videoId.value !in seen {
        var rest := Pick(hits[1..], count, minViews, seen + {h.videoId.value}, queued + 1);
        PickFresh(hits[1..], count, minViews, seen + {h.videoId.value}, queued + 1);
        var r := [Queued(h.videoId.value, h.query)] + rest;
        forall i | 0 <= i < |r|
          ensures r[i].videoId !in seen
        {
          if i > 0 {
            assert r[i] == rest[i - 1];
          }
        }
        forall i, j | 0 <= i < j < |r|
          ensures Ids(r)[i] != Ids(r)[j]
        {
          assert r[j] == rest[j - 1];
          if i > 0 {
            assert r[i] == rest[i - 1];
            assert Ids(rest)[i - 1] != Ids(rest)[j - 1];
          }
        }
      } else {
        PickFresh(hits[1..], count, minViews, seen, queued);
      }
    }
  }

  /** A message sent comes from a qualifying hit, with that hit's query. */
  predicate FromHit(m: Queued, hits: seq<Hit>, minViews: int)
  {
    exists h :: h in hits && Qualifies(h, minViews) && h.videoId.value == m.videoId && h.query == m.query
  }

  lemma {:induction false} PickSound(hits: seq<Hit>, count: int, minViews: int, seen: set<string>, queued: int)
    ensures forall m :: m in Pick(hits, count, minViews, seen, queued) ==> FromHit(m, hits, minViews)
  {
    if hits != [] && queued < count {
      var h := hits[0];
      var seen' := if Qualifies(h, minViews) && h.videoId.value !in seen then seen + {h.videoId.value} else seen;
      var queued' := if Qualifies(h, minViews) && h.videoId.value !in seen then queued + 1 else queued;
      PickSound(hits[1..], count, minViews, seen', queued');
      forall m | m in Pick(hits, count, minViews, seen, queued)
        ensures FromHit(m, hits, minViews)
      {
        if m in Pick(hits[1..], count, minViews, seen', queued') {
          var g :| g in hits[1..] && Qualifies(g, minViews) && g.videoId.value == m.videoId && g.query == m.query;
          assert g in hits;
        } else {
          assert h in hits;
        }
      }
    }
  }

  /** Short of the target count, every qualifying hit's id was either seen
      before or is among the messages sent. */
  lemma {:induction false} PickComplete(hits: seq<Hit>, count: int, minViews: int, seen: set<string>, queued: int)
    ensures var r := Pick(hits, count, minViews, seen, queued);
            queued + |r| < count ==>
              forall h :: h in hits && Qualifies(h, minViews) ==> h.videoId.value in seen || h.videoId.value in Ids(r)
  {
    var r := Pick(hits, count, minViews, seen, queued);
    if hits != [] && queued + |r| < count {
      var h := hits[0];
      if Qualifies(h, minViews) && h.videoId.value !in seen {
        var seen' := seen + {h.videoId.value};
        var rest := Pick(hits[1..], count, minViews, seen', queued + 1);
        PickComplete(hits[1..], count, minViews, seen', queued + 1);
        assert Ids(r) == [h.videoId.value] + Ids(rest);
        forall g | g in hits && Qualifies(g, minViews)
          ensures g.videoId.value in seen || g.videoId.value in Ids(r)
        {
          if g != h {
            assert g in hits[1..];
          }
        }
      } else {
        PickComplete(hits[1..], count, minViews, seen, queued);
        forall g | g in hits && Qualifies(g, minViews)
          ensures g.videoId.value in seen || g.videoId.value in Ids(r)
        {
          if g != h {
            assert g in hits[1..];
          }
        }
      }
    }
  }

  lemma {:induction false} FoundSpec(queries: seq<string>, results: string -> Option<seq<Line>>, h: Hit)
    ensures h in Found(queries, results) <==>
            exists i :: 0 <= i < |queries| && h in Search(results(queries[i]), queries[i])
  {
    if queries != [] {
      FoundSpec(queries[1..], results, h);
      if exists i :: 0 <= i < |queries| && h in Search(results(queries[i]), queries[i]) {
        var i :| 0 <= i < |queries| && h in Search(results(queries[i]), queries[i]);
        if i > 0 {
          assert queries[1..][i - 1] == queries[i];
        }
      }
      if h in Found(queries[1..], results) {
        var i :| 0 <= i < |queries| - 1 && h in Search(results(queries[1..][i]), queries[1..][i]);
        assert queries[1..][i] == queries[i + 1];
      }
    }
  }

  /** One step of `Pick`, for a hit followed by the rest. */
  lemma PickStep(h: Hit, rest: seq<Hit>, count: int, minViews: int, seen: set<string>, queued: int)
    requires queued < count
    ensures Pick([h] + rest, count, minViews, seen, queued)
            == if Qualifies(h, minViews) && h.videoId.value !in seen
               then [Queued(h.videoId.value, h.query)] + Pick(rest, count, minViews, seen + {h.videoId.value}, queued + 1)
               else Pick(rest, count, minViews, seen, queued)
  {
    assert ([h] + rest)[1..] == rest;
  }

  /** The inner loop over one search's videos: each qualifying video whose
      id has not been queued is sent with the search's query, until the
      target count is reached. Whatever hits follow (`rest`), the messages
      sent so far and those `Pick` still sends add up the same. */
  method QueueHits(videos: seq<Hit>, query: string, count: int, minViews: int,
                   sent0: seq<Queued>, seen0: set<string>, ghost rest: seq<Hit>)
    returns (sent: seq<Queued>, seen: set<string>)
    requires seen0 == IdSet(sent0)
    requires forall h :: h in videos ==> h.query == query
    ensures seen == IdSet(sent)
    ensures sent0 + Pick(videos + rest, count, minViews, seen0, |sent0|)
            == sent + Pick(rest, count, minViews, seen, |sent|)
  {
    sent, seen := sent0, seen0;
    var queued := |sent0|;
    var hi := 0;
    while hi < |videos|
      invariant 0 <= hi <= |videos|
      invariant queued == |sent| && seen == IdSet(sent)
      invariant sent0 + Pick(videos + rest, count, minViews, seen0, |sent0|)
                == sent + Pick(videos[hi..] + rest, count, minViews, seen, queued)
    {
      if queued >= count {
        break;
      }
      var video := videos[hi];
      assert video in videos;
      assert videos[hi..] + rest == [video] + (videos[hi + 1..] + rest);
      PickStep(video, videos[hi + 1..] + rest, count, minViews, seen, queued);
      var views := ViewsOrZero(video);
      if video.videoId.Some? && video.videoId.value != "" && video.videoId.value !in seen && views >= minViews {
        var vid := video.videoId.value;
        assert IdSet(sent + [Queued(vid, query)]) == seen + {vid};
        sent := sent + [Queued(vid, query)];
        seen := seen + {vid};
        queued := queued + 1;
      }
      hi := hi + 1;
    }
    if hi == |videos| {
      assert videos[hi..] + rest == rest;
    }
  }

  /** The enqueue loop: for each query in turn, unless the target count is
      reached, search, then queue the search's videos. */
  method Enqueue(queries: seq<string>, results: string -> Option<seq<Line>>, count: int, minViews: int)
    returns (sent: seq<Queued>)
    ensures sent == Pick(Found(queries, results), count, minViews, {}, 0)
  {
    sent := [];
    var seen: set<string> := {};
    var qi := 0;
    while qi < |queries|
      invariant 0 <= qi <= |queries|
      invariant seen == IdSet(sent)
      invariant Pick(Found(queries, results), count, minViews, {}, 0)
                == sent + Pick(Found(queries[qi..], results), count, minViews, seen, |sent|)
    {
      if |sent| >= count {
        break;
      }
      var query := queries[qi];
      var videos := SearchYouTube(results(query), query);
      SearchSpec(results(query), query);
      assert Found(queries[qi..], results) == videos + Found(queries[qi + 1..], results) by {
        assert queries[qi..][1..] == queries[qi + 1..];
      }
      sent, seen := QueueHits(videos, query, count, minViews, sent, seen, Found(queries[qi + 1..], results));
      qi := qi + 1;
    }
  }

  /** What the producer enqueues: at most `count` messages, no video twice,
      each for a non-empty id with at least `minViews` views (a missing view
      count as zero) found by the message's own query; and short of the
      count, every qualifying video found by any query. */
  lemma EnqueueSpec(queries: seq<string>, results: string -> Option<seq<Line>>, count: int, minViews: int)
    ensures var r := Pick(Found(queries, results), count, minViews, {}, 0);
            |r| <= (if count < 0 then 0 else count)
            && NoDup(Ids(r))
            && (forall m :: m in r ==>
                  m.videoId != ""
                  && exists i, h :: 0 <= i < |queries| && h in Search(results(queries[i]), queries[i])
                                    && queries[i] == m.query && h.videoId == Some(m.videoId)
                                    && ViewsOrZero(h) >= minViews)
            && (|r| < count ==>
                  forall i, h :: (0 <= i < |queries| && h in Search(results(queries[i]), queries[i])
                                  && Qualifies(h, minViews)) ==> h.videoId.value in Ids(r))
  {
    var hits := Found(queries, results);
    var r := Pick(hits, count, minViews, {}, 0);
    PickBound(hits, count, minViews, {}, 0);
    PickFresh(hits, count, minViews, {}, 0);
    PickSound(hits, count, minViews, {}, 0);
    PickComplete(hits, count, minViews, {}, 0);
    forall m | m in r
      ensures m.videoId != ""
      ensures exists i, h :: 0 <= i < |queries| && h in Search(results(queries[i]), queries[i])
                             && queries[i] == m.query && h.videoId == Some(m.videoId)
                             && ViewsOrZero(h) >= minViews
    {
      assert FromHit(m, hits, minViews);
      var h :| h in hits && Qualifies(h, minViews) && h.videoId.value == m.videoId && h.query == m.query;
      FoundSpec(queries, results, h);
      var i :| 0 <= i < |queries| && h in Search(results(queries[i]), queries[i]);
      SearchSpec(results(queries[i]), queries[i]);
    }
    forall i, h | 0 <= i < |queries| && h in Search(results(queries[i]), queries[i]) && Qualifies(h, minViews)
                  && |r| < count
      ensures h.videoId.value in Ids(r)
    {
      FoundSpec(queries, results, h);
    }
  }

  /** `main`: without a connection string nothing is sent; otherwise the
      expanded queries are searched and their videos enqueued. `results`
      gives yt-dlp's output for a query with `perQuery` results. */
  method QueueJobs(arg: Option<string>, env: map<string, string>, config: Option<seq<string>>,
                   count: int, minViews: int, perQuery: int, results: string -> Option<seq<Line>>)
    returns (sent: seq<Queued>)
    ensures ResolveConnection(arg, env, config).None? ==> sent == []
    ensures ResolveConnection(arg, env, config).Some? ==>
              sent == Pick(Found(Expanded(QUERIES, count, perQuery), results), count, minViews, {}, 0)
  {
    var connection := FindConnection(arg, env, config);
    if connection.None? {
      return [];
    }
    var all := ExpandQueries(QUERIES, count, perQuery);
    sent := Enqueue(all, results, count, minViews);
  }
}

=== FILE: sorting.dfy ===
/** Python's `sorted(xs, key=k, reverse=True)` (a stable sort by descending
    key), the list-comprehension filter, and `collections.Counter` with its
    `most_common(n)`. */
module Sorting {
  import opened Common

  /** Keys never increase from left to right. */
  predicate SortedDesc<T>(s: seq<T>, key: T -> int)
  {
    forall i, j :: 0 <= i < j < |s| ==> key(s[i]) >= key(s[j])
  }

  /** `[x for x in s if p(x)]`. */
  function Select<T>(s: seq<T>, p: T -> bool): (r: seq<T>)
    ensures |r| <= |s|
  {
    if s == [] then [] else (if p(s[0]) then [s[0]] else []) + Select(s[1..], p)
  }

  /** Membership in the filtered list is exactly membership in the input plus
      the condition. */
  lemma {:induction false} SelectSpec<T>(s: seq<T>, p: T -> bool)
    ensures forall x :: x in Select(s, p) <==> x in s && p(x)
    ensures forall x :: multiset(Select(s, p))[x] == if p(x) then multiset(s)[x] else 0
  {
    if s != [] {
      SelectSpec(s[1..], p);
      assert s == [s[0]] + s[1..];
    }
  }

  /** The elements of `s` whose key is `k`, in order. */
  function WithKey<T>(s: seq<T>, key: T -> int, k: int): seq<T>
  {
    if s == [] then [] else (if key(s[0]) == k then [s[0]] else []) + WithKey(s[1..], key, k)
  }

  lemma {:induction false} WithKeyConcat<T>(a: seq<T>, b: seq<T>, key: T -> int, k: int)
    ensures WithKey(a + b, key, k) == WithKey(a, key, k) + WithKey(b, key, k)
  {
    if a == [] {
      assert a + b == b;
    } else {
      var h := if key(a[0]) == k then [a[0]] else [];
      assert (a + b)[0] == a[0] && (a + b)[1..] == a[1..] + b;
      WithKeyConcat(a[1..], b, key, k);
      calc {
        WithKey(a + b, key, k);
        h + WithKey(a[1..] + b, key, k);
        h + (WithKey(a[1..], key, k) + WithKey(b, key, k));
        (h + WithKey(a[1..], key, k)) + WithKey(b, key, k);
      }
    }
  }

  lemma {:induction false} WithKeyNone<T>(s: seq<T>, key: T -> int, k: int)
    requires forall i :: 0 <= i < |s| ==> key(s[i]) < k
    ensures WithKey(s, key, k) == []
  {
    if s != [] {
      WithKeyNone(s[1..], key, k);
    }
  }

  /** Inserts `x` into `r` just after the last element whose key is at least
      `key(x)`. */
  function Insert<T>(x: T, r: seq<T>, key: T -> int): (res: seq<T>)
    ensures |res| == |r| + 1
  {
    if r == [] then [x]
    else if key(r[0]) >= key(x) then [r[0]] + Insert(x, r[1..], key)
    else [x] + r
  }

  /** `sorted(s, key=key, reverse=True)`: insertion of each element, left to
      right. */
  function SortDesc<T>(s: seq<T>, key: T -> int): (r: seq<T>)
    ensures |r| == |s|
  {
    if s == [] then [] else Insert(s[|s| - 1], SortDesc(s[..|s| - 1], key), key)
  }

  lemma {:induction false} InsertPerm<T>(x: T, r: seq<T>, key: T -> int)
    ensures multiset(Insert(x, r, key)) == multiset(r) + multiset{x}
  {
    if r != [] && key(r[0]) >= key(x) {
      InsertPerm(x, r[1..], key);
      assert r == [r[0]] + r[1..];
    }
  }

  lemma {:induction false} InsertSorted<T>(x: T, r: seq<T>, key: T -> int)
    requires SortedDesc(r, key)
    ensures SortedDesc(Insert(x, r, key), key)
  {
    if r != [] && key(r[0]) >= key(x) {
      var tail := Insert(x, r[1..], key);
      InsertSorted(x, r[1..], key);
      InsertPerm(x, r[1..], key);
      forall j | 0 <= j < |tail|
        ensures key(tail[j]) <= key(r[0])
      {
        assert tail[j] in multiset(r[1..]) + multiset{x};
        if tail[j] != x {
          var m :| 0 <= m < |r[1..]| && r[1..][m] == tail[j];
          assert r[m + 1] == tail[j];
        }
      }
      var res := [r[0]] + tail;
      forall i, j | 0 <= i < j < |res|
        ensures key(res[i]) >= key(res[j])
      {
        assert res[j] == tail[j - 1];
        if i > 0 {
          assert res[i] == tail[i - 1];
        }
      }
    }
  }

  lemma {:induction false} InsertStable<T>(x: T, r: seq<T>, key: T -> int, k: int)
    requires SortedDesc(r, key)
    ensures WithKey(Insert(x, r, key), key, k)
            == WithKey(r, key, k) + (if key(x) == k then [x] else [])
  {
    if r == [] {
      assert WithKey([x], key, k) == (if key(x) == k then [x] else []) + WithKey([], key, k);
    } else if key(r[0]) >= key(x) {
      assert SortedDesc(r[1..], key);
      InsertStable(x, r[1..], key, k);
      InsertStableBehind(x, r, key, k);
    } else {
      InsertStableFront(x, r, key, k);
    }
  }

  /** `x` goes behind the head of `r`: the step of `InsertStable`. */
  lemma InsertStableBehind<T>(x: T, r: seq<T>, key: T -> int, k: int)
    requires r != [] && key(r[0]) >= key(x)
    requires WithKey(Insert(x, r[1..], key), key, k)
             == WithKey(r[1..], key, k) + (if key(x) == k then [x] else [])
    ensures WithKey(Insert(x, r, key), key, k)
            == WithKey(r, key, k) + (if key(x) == k then [x] else [])
  {
    var e := if key(x) == k then [x] else [];
    var h := if key(r[0]) == k then [r[0]] else [];
    var tail := Insert(x, r[1..], key);
    assert ([r[0]] + tail)[0] == r[0] && ([r[0]] + tail)[1..] == tail;
    calc {
      WithKey(Insert(x, r, key), key, k);
      WithKey([r[0]] + tail, key, k);
      h + WithKey(tail, key, k);
      h + (WithKey(r[1..], key, k) + e);
      (h + WithKey(r[1..], key, k)) + e;
    }
  }

  /** `x` goes in front of a sorted `r` whose head has a smaller key: no
      element of `r` shares `x`'s key. */
  lemma InsertStableFront<T>(x: T, r: seq<T>, key: T -> int, k: int)
    requires SortedDesc(r, key) && r != [] && key(r[0]) < key(x)
    ensures WithKey(Insert(x, r, key), key, k)
            == WithKey(r, key, k) + (if key(x) == k then [x] else [])
  {
    assert ([x] + r)[0] == x && ([x] + r)[1..] == r;
    if key(x) == k {
      WithKeyNone(r, key, k);
      assert WithKey([x] + r, key, k) == [x] + WithKey(r, key, k);
    }
  }

  /** The sort orders by descending key, keeps every element (a permutation)
      and is stable: the elements with any one key keep their input order. */
  lemma {:induction false} SortDescSpec<T>(s: seq<T>, key: T -> int)
    ensures SortedDesc(SortDesc(s, key), key)
    ensures multiset(SortDesc(s, key)) == multiset(s)
    ensures forall k :: WithKey(SortDesc(s, key), key, k) == WithKey(s, key, k)
  {
    if s != [] {
      var init, last := s[..|s| - 1], s[|s| - 1];
      SortDescSpec(init, key);
      InsertSorted(last, SortDesc(init, key), key);
      InsertPerm(last, SortDesc(init, key), key);
      assert s == init + [last];
      forall k ensures WithKey(SortDesc(s, key), key, k) == WithKey(s, key, k) {
        InsertStable(last, SortDesc(init, key), key, k);
        WithKeyConcat(init, [last], key, k);
      }
    }
  }

  /** Without duplicates in `a`, a permutation of `a` has none either. */
  lemma PermNoDup<T>(a: seq<T>, b: seq<T>)
    requires multiset(a) == multiset(b) && NoDup(a)
    ensures NoDup(b)
  {
    forall i, j | 0 <= i < j < |b|
      ensures b[i] != b[j]
    {
      if b[i] == b[j] {
        TwiceCounted(b, i, j);
        NoDupCountsOnce(a, b[i]);
      }
    }
  }

  lemma TwiceCounted<T>(b: seq<T>, i: nat, j: nat)
    requires i < j < |b| && b[i] == b[j]
    ensures multiset(b)[b[i]] >= 2
  {
    assert b == b[..i] + [b[i]] + b[i + 1..j] + [b[j]] + b[j + 1..];
  }

  lemma {:induction false} NoDupCountsOnce<T>(a: seq<T>, x: T)
    requires NoDup(a)
    ensures multiset(a)[x] <= 1
  {
    if a != [] {
      assert a == [a[0]] + a[1..];
      NoDupCountsOnce(a[1..], x);
      if a[0] == x {
        assert x !in a[1..];
      }
    }
  }

  // ---- collections.Counter ----

  /** The count of a counter entry, as a sort key. */
  function CountOf<T>(e: (T, nat)): int
  {
    e.1
  }

  /** The keys of a counter, in order. */
  function Keys<T>(t: seq<(T, nat)>): (r: seq<T>)
    ensures |r| == |t| && forall i :: 0 <= i < |t| ==> r[i] == t[i].0
  {
    seq(|t|, i requires 0 <= i < |t| => t[i].0)
  }

  function Total<T>(t: seq<(T, nat)>): nat
  {
    if t == [] then 0 else t[0].1 + Total(t[1..])
  }

  lemma TailKeysNoDup<T>(t: seq<(T, nat)>)
    requires t != [] && NoDup(Keys(t))
    ensures NoDup(Keys(t[1..]))
  {
    forall i, j | 0 <= i < j < |t[1..]| ensures Keys(t[1..])[i] != Keys(t[1..])[j] {
      assert Keys(t)[i + 1] != Keys(t)[j + 1];
    }
  }

  /** `counter[x] += c` on an insertion-ordered counter: a key already there
      keeps its place, a new key goes at the end with count `c`. */
  function Bump<T(==)>(t: seq<(T, nat)>, x: T, c: nat): (r: seq<(T, nat)>)
    ensures |t| <= |r| <= |t| + 1
  {
    if t == [] then [(x, c)]
    else if t[0].0 == x then [(x, t[0].1 + c)] + t[1..]
    else [t[0]] + Bump(t[1..], x, c)
  }

  lemma {:induction false} BumpTotal<T>(t: seq<(T, nat)>, x: T, c: nat)
    ensures Total(Bump(t, x, c)) == Total(t) + c
  {
    if t != [] && t[0].0 != x {
      BumpTotal(t[1..], x, c);
    }
  }

  /** The keys of a non-empty counter: its first key, then the rest's. */
  lemma KeysHead<T>(t: seq<(T, nat)>)
    requires t != []
    ensures Keys(t) == [t[0].0] + Keys(t[1..])
  {
    forall i | 0 <= i < |t| ensures Keys(t)[i] == ([t[0].0] + Keys(t[1..]))[i] {
      if i > 0 {
        assert t[i] == t[1..][i - 1];
      }
    }
  }

  lemma {:induction false} BumpKeys<T>(t: seq<(T, nat)>, x: T, c: nat)
    ensures Keys(Bump(t, x, c)) == Keys(t) + (if x in Keys(t) then [] else [x])
  {
    if t == [] {
      assert Keys([(x, c)]) == [x];
    } else {
      var b := Bump(t, x, c);
      KeysHead(t);
      KeysHead(b);
      if t[0].0 == x {
        assert b[0].0 == x && b[1..] == t[1..];
      } else {
        BumpKeys(t[1..], x, c);
        assert b[0] == t[0] && b[1..] == Bump(t[1..], x, c);
        assert x in Keys(t) <==> x in Keys(t[1..]);
      }
    }
  }

  /** Only `x`'s entry changes, by `c`; a new `x` is appended with count `c`. */
  lemma BumpCounts<T>(t: seq<(T, nat)>, x: T, c: nat)
    requires NoDup(Keys(t))
    ensures forall i :: 0 <= i < |t| ==>
      Bump(t, x, c)[i] == (t[i].0, t[i].1 + if t[i].0 == x then c else 0)
    ensures x !in Keys(t) ==> Bump(t, x, c) == t + [(x, c)]
  {
    BumpEntries(t, x, c);
    if x !in Keys(t) {
      BumpAppends(t, x, c);
    }
  }

  lemma {:induction false} BumpEntries<T>(t: seq<(T, nat)>, x: T, c: nat)
    requires NoDup(Keys(t))
    ensures forall i :: 0 <= i < |t| ==>
      Bump(t, x, c)[i] == (t[i].0, t[i].1 + if t[i].0 == x then c else 0)
  {
    if t != [] {
      var r := Bump(t, x, c);
      if t[0].0 == x {
        assert r == [(x, t[0].1 + c)] + t[1..];
        forall i | 0 <= i < |t| ensures r[i] == (t[i].0, t[i].1 + if t[i].0 == x then c else 0) {
          if i > 0 {
            assert Keys(t)[0] != Keys(t)[i];
          }
        }
      } else {
        TailKeysNoDup(t);
        BumpEntries(t[1..], x, c);
        assert r == [t[0]] + Bump(t[1..], x, c);
        forall i | 0 <= i < |t| ensures r[i] == (t[i].0, t[i].1 + if t[i].0 == x then c else 0) {
          if i > 0 {
            assert r[i] == Bump(t[1..], x, c)[i - 1] && t[i] == t[1..][i - 1];
          }
        }
      }
    }
  }

  lemma {:induction false} BumpAppends<T>(t: seq<(T, nat)>, x: T, c: nat)
    requires x !in Keys(t)
    ensures Bump(t, x, c) == t + [(x, c)]
  {
    if t != [] {
      KeysHead(t);
      BumpAppends(t[1..], x, c);
      assert t == [t[0]] + t[1..];
    }
  }

  lemma BumpNoDup<T>(t: seq<(T, nat)>, x: T, c: nat)
    requires NoDup(Keys(t))
    ensures NoDup(Keys(Bump(t, x, c)))
  {
    BumpKeys(t, x, c);
  }

  /** The count a counter holds for `x` (0 when absent). */
  function CountIn<T(==)>(t: seq<(T, nat)>, x: T): nat
  {
    if t == [] then 0 else (if t[0].0 == x then t[0].1 else 0) + CountIn(t[1..], x)
  }

  /** Adding a positive count keeps every count positive. */
  lemma {:induction false} BumpPositive<T>(t: seq<(T, nat)>, x: T, c: nat)
    requires c > 0 && forall e :: e in t ==> e.1 > 0
    ensures forall e :: e in Bump(t, x, c) ==> e.1 > 0
  {
    if t != [] && t[0].0 != x {
      assert forall e :: e in t[1..] ==> e in t;
      BumpPositive(t[1..], x, c);
    }
  }

  /** The counter after `Bump` holds `c` more for `x` and the same for every
      other key. */
  lemma {:induction false} BumpCountIn<T>(t: seq<(T, nat)>, x: T, c: nat, y: T)
    requires NoDup(Keys(t))
    ensures CountIn(Bump(t, x, c), y) == CountIn(t, y) + if x == y then c else 0
  {
    if t != [] {
      KeysHead(t);
      TailKeysNoDup(t);
      if t[0].0 == x {
        assert CountIn(Bump(t, x, c), y) == (if x == y then t[0].1 + c else 0) + CountIn(t[1..], y);
      } else {
        BumpCountIn(t[1..], x, c, y);
      }
    }
  }

  /** An entry of a counter without repeated keys holds the key's count. */
  lemma {:induction false} EntryCount<T>(t: seq<(T, nat)>, i: nat)
    requires NoDup(Keys(t)) && i < |t|
    ensures CountIn(t, t[i].0) == t[i].1
  {
    KeysHead(t);
    TailKeysNoDup(t);
    if i > 0 {
      EntryCount(t[1..], i - 1);
      assert Keys(t)[0] != Keys(t)[i];
    } else {
      AbsentCount(t[1..], t[0].0);
    }
  }

  lemma {:induction false} AbsentCount<T>(t: seq<(T, nat)>, x: T)
    requires x !in Keys(t)
    ensures CountIn(t, x) == 0
  {
    if t != [] {
      KeysHead(t);
      AbsentCount(t[1..], x);
    }
  }

  lemma {:induction false} PresentCount<T>(t: seq<(T, nat)>, x: T)
    requires CountIn(t, x) > 0
    ensures x in Keys(t)
  {
    KeysHead(t);
    if t[0].0 != x {
      PresentCount(t[1..], x);
    }
  }

  /** `Counter(s)`: each distinct element with its number of occurrences, in
      order of first occurrence. */
  function Tally<T(==)>(s: seq<T>): seq<(T, nat)>
  {
    if s == [] then [] else Bump(Tally(s[..|s| - 1]), s[|s| - 1], 1)
  }

  /** The counter lists every element of `s` once, with its true count, and
      its counts add up to `|s|`. */
  lemma {:induction false} TallySpec<T>(s: seq<T>)
    ensures NoDup(Keys(Tally(s)))
    ensures forall x :: x in Keys(Tally(s)) <==> x in s
    ensures forall x :: CountIn(Tally(s), x) == multiset(s)[x]
    ensures Total(Tally(s)) == |s|
  {
    if s != [] {
      var init, last := s[..|s| - 1], s[|s| - 1];
      TallySpec(init);
      var t := Tally(init);
      BumpTotal(t, last, 1);
      BumpKeys(t, last, 1);
      BumpNoDup(t, last, 1);
      assert s == init + [last];
      assert multiset(s) == multiset(init) + multiset{last};
      forall x ensures CountIn(Tally(s), x) == multiset(s)[x] {
        BumpCountIn(t, last, 1, x);
      }
    }
  }

  /** The keys `k` are listed in order of first occurrence in `s`: wherever
      a key occurs in `s`, every key listed before it has occurred earlier. */
  predicate FirstSeenOrder<T(==)>(k: seq<T>, s: seq<T>)
  {
    forall i, j, q :: 0 <= i < j < |k| && 0 <= q < |s| && s[q] == k[j] ==> k[i] in s[..q]
  }

  /** `Counter` lists its keys in order of first occurrence. */
  lemma {:induction false} TallyOrder<T>(s: seq<T>)
    ensures FirstSeenOrder(Keys(Tally(s)), s)
  {
    if s != [] {
      var init, last := s[..|s| - 1], s[|s| - 1];
      TallyOrder(init);
      TallySpec(init);
      var t := Tally(init);
      BumpKeys(t, last, 1);
      var k, k2 := Keys(t), Keys(Tally(s));
      forall i, j, q | 0 <= i < j < |k2| && 0 <= q < |s| && s[q] == k2[j]
        ensures k2[i] in s[..q]
      {
        if q < |init| {
          assert s[q] == init[q] && s[..q] == init[..q];
        } else {
          assert k2[i] == k[i] && k[i] in init;
          assert s[..q] == init;
        }
      }
    }
  }

  /** The counter's entries hold the true counts. */
  lemma TallyEntries<T>(s: seq<T>)
    ensures forall e :: e in Tally(s) ==> e.0 in s && e.1 == multiset(s)[e.0] && e.1 > 0
  {
    TallySpec(s);
    var t := Tally(s);
    forall e | e in t ensures e.0 in s && e.1 == multiset(s)[e.0] && e.1 > 0 {
      var i :| 0 <= i < |t| && t[i] == e;
      EntryCount(t, i);
      assert Keys(t)[i] == e.0;
    }
  }

  /** `counter.most_common(n)`. For `n >= 1` this is `heapq.nlargest`, i.e.
      the counter's entries stably sorted by descending count and cut to `n`;
      a non-positive `n` gives the empty list. */
  function MostCommon<T(==)>(t: seq<(T, nat)>, n: int): seq<(T, nat)>
  {
    if n <= 0 then [] else Prefix(SortDesc(t, CountOf), n)
  }

  /** At most `n` entries of the counter, no key twice, by descending count;
      and every entry left out counts no more than any entry kept. */
  lemma MostCommonSpec<T>(t: seq<(T, nat)>, n: int)
    requires NoDup(Keys(t))
    ensures |MostCommon(t, n)| <= if n <= 0 then 0 else n
    ensures n > 0 ==> |MostCommon(t, n)| == if n < |t| then n else |t|
    ensures SortedDesc(MostCommon(t, n), CountOf)
    ensures forall e :: e in MostCommon(t, n) ==> e in t
    ensures NoDup(Keys(MostCommon(t, n)))
    ensures forall e, i :: e in t && e.0 !in Keys(MostCommon(t, n)) && 0 <= i < |MostCommon(t, n)|
                           ==> e.1 <= MostCommon(t, n)[i].1
  {
    if n > 0 {
      MostCommonShape(t, n);
      MostCommonTop(t, n);
    }
  }

  lemma MostCommonShape<T>(t: seq<(T, nat)>, n: int)
    requires n > 0 && NoDup(Keys(t))
    ensures SortedDesc(MostCommon(t, n), CountOf)
    ensures forall e :: e in MostCommon(t, n) ==> e in t
    ensures NoDup(Keys(MostCommon(t, n)))
  {
    var sorted := SortDesc(t, CountOf);
    SortedCounter(t);
    var r := MostCommon(t, n);
    assert r == sorted[..|r|];
    PrefixOfSorted(sorted, r);
    forall e | e in r ensures e in t {
      var k :| 0 <= k < |r| && r[k] == e;
      assert r[k] == sorted[k];
      SortDescSpec(t, CountOf);
      assert e in multiset(sorted);
      assert e in multiset(t);
    }
  }

  lemma MostCommonTop<T>(t: seq<(T, nat)>, n: int)
    requires n > 0 && NoDup(Keys(t))
    ensures forall e, i :: e in t && e.0 !in Keys(MostCommon(t, n)) && 0 <= i < |MostCommon(t, n)|
                           ==> e.1 <= MostCommon(t, n)[i].1
  {
    var sorted := SortDesc(t, CountOf);
    SortedCounter(t);
    var r := MostCommon(t, n);
    assert r == sorted[..|r|];
    forall e, i | e in t && e.0 !in Keys(r) && 0 <= i < |r| ensures e.1 <= r[i].1 {
      assert e in sorted;
      PrefixDominates(sorted, r, e, i);
    }
  }

  /** A prefix of a sorted counter is sorted and has distinct keys. */
  lemma PrefixOfSorted<T>(sorted: seq<(T, nat)>, r: seq<(T, nat)>)
    requires SortedDesc(sorted, CountOf) && NoDup(Keys(sorted))
    requires |r| <= |sorted| && r == sorted[..|r|]
    ensures SortedDesc(r, CountOf) && NoDup(Keys(r))
  {
    assert forall i :: 0 <= i < |r| ==> r[i] == sorted[i];
    forall i, j | 0 <= i < j < |r| ensures Keys(r)[i] != Keys(r)[j] {
      assert Keys(sorted)[i] != Keys(sorted)[j];
    }
  }

  /** No entry after a prefix of a sorted counter counts more than an entry
      in the prefix. */
  lemma PrefixDominates<T>(sorted: seq<(T, nat)>, r: seq<(T, nat)>, e: (T, nat), i: nat)
    requires SortedDesc(sorted, CountOf)
    requires |r| <= |sorted| && r == sorted[..|r|]
    requires e in sorted && e.0 !in Keys(r) && i < |r|
    ensures e.1 <= r[i].1
  {
    var p :| 0 <= p < |sorted| && sorted[p] == e;
    forall k | 0 <= k < |r| ensures sorted[k].0 != e.0 {
      assert Keys(r)[k] == sorted[k].0;
    }
    assert r[i] == sorted[i];
    assert CountOf(sorted[i]) >= CountOf(sorted[p]);
  }

  lemma DistinctEntriesDistinctKeys<T>(t: seq<(T, nat)>, a: (T, nat), b: (T, nat))
    requires NoDup(Keys(t)) && a in t && b in t && a != b
    ensures a.0 != b.0
  {
    var p :| 0 <= p < |t| && t[p] == a;
    var q :| 0 <= q < |t| && t[q] == b;
    assert Keys(t)[p] == a.0 && Keys(t)[q] == b.0;
  }

  /** `sorted(s, key=key, reverse=True)[:m]`: sorted, a sub-multiset of
      `s` of exactly `min(m, |s|)` elements for `m >= 0` (all of `s` when it
      fits), and nothing left out ranks above anything kept. */
  lemma SortedPrefixSpec<T>(s: seq<T>, key: T -> int, m: int)
    ensures SortedDesc(Prefix(SortDesc(s, key), m), key)
    ensures forall x :: x in Prefix(SortDesc(s, key), m) ==> x in s
    ensures multiset(Prefix(SortDesc(s, key), m)) <= multiset(s)
    ensures 0 <= m ==> |Prefix(SortDesc(s, key), m)| == if |s| <= m then |s| else m
    ensures |s| <= m ==> multiset(Prefix(SortDesc(s, key), m)) == multiset(s)
    ensures forall x, i :: x in s && x !in Prefix(SortDesc(s, key), m) && 0 <= i < |Prefix(SortDesc(s, key), m)|
                           ==> key(x) <= key(Prefix(SortDesc(s, key), m)[i])
  {
    SortedPrefixMembers(s, key, m);
    SortedPrefixTop(s, key, m);
    var sorted := SortDesc(s, key);
    SortDescSpec(s, key);
    assert |sorted| == |multiset(sorted)| == |s|;
    var r := Prefix(sorted, m);
    assert sorted == r + sorted[|r|..];
    assert multiset(sorted) == multiset(r) + multiset(sorted[|r|..]);
    if |s| <= m {
      assert r == sorted;
    }
  }

  lemma SortedPrefixMembers<T>(s: seq<T>, key: T -> int, m: int)
    ensures SortedDesc(Prefix(SortDesc(s, key), m), key)
    ensures forall x :: x in Prefix(SortDesc(s, key), m) ==> x in s
  {
    var sorted := SortDesc(s, key);
    var r := Prefix(sorted, m);
    SortDescSpec(s, key);
    assert forall i :: 0 <= i < |r| ==> r[i] == sorted[i];
    forall x | x in r ensures x in s {
      assert x in sorted;
      assert x in multiset(sorted);
    }
  }

  lemma SortedPrefixTop<T>(s: seq<T>, key: T -> int, m: int)
    ensures forall x, i :: x in s && x !in Prefix(SortDesc(s, key), m) && 0 <= i < |Prefix(SortDesc(s, key), m)|
                           ==> key(x) <= key(Prefix(SortDesc(s, key), m)[i])
  {
    var sorted := SortDesc(s, key);
    var r := Prefix(sorted, m);
    SortDescSpec(s, key);
    forall x, i | x in s && x !in r && 0 <= i < |r| ensures key(x) <= key(r[i]) {
      assert x in multiset(s);
      var p :| 0 <= p < |sorted| && sorted[p] == x;
      assert forall k :: 0 <= k < |r| ==> r[k] == sorted[k];
      assert p >= |r|;
    }
  }

  /** Sorting a counter keeps its entries and its keys distinct. */
  lemma SortedCounter<T>(t: seq<(T, nat)>)
    requires NoDup(Keys(t))
    ensures SortedDesc(SortDesc(t, CountOf), CountOf)
    ensures forall e :: e in SortDesc(t, CountOf) <==> e in t
    ensures NoDup(Keys(SortDesc(t, CountOf)))
  {
    var sorted := SortDesc(t, CountOf);
    SortDescSpec(t, CountOf);
    forall e ensures e in sorted <==> e in t {
      assert e in sorted <==> e in multiset(sorted);
    }
    assert NoDup(t) by {
      forall i, j | 0 <= i < j < |t| ensures t[i] != t[j] {
        assert Keys(t)[i] != Keys(t)[j];
      }
    }
    PermNoDup(t, sorted);
    forall i, j | 0 <= i < j < |sorted| ensures Keys(sorted)[i] != Keys(sorted)[j] {
      assert sorted[i] in multiset(sorted) && sorted[j] in multiset(sorted);
      DistinctEntriesDistinctKeys(t, sorted[i], sorted[j]);
    }
  }

  /** `Counter(s).most_common(n)`: at most `n` elements of `s`, each with
      its number of occurrences, none twice, by descending count; every
      element left out occurs no more often than any element kept. */
  lemma MostCommonOfSeq<T>(s: seq<T>, n: int)
    ensures |MostCommon(Tally(s), n)| <= if n <= 0 then 0 else n
    ensures SortedDesc(MostCommon(Tally(s), n), CountOf)
    ensures forall e :: e in MostCommon(Tally(s), n) ==> e.0 in s && e.1 == multiset(s)[e.0] && e.1 > 0
    ensures NoDup(Keys(MostCommon(Tally(s), n)))
    ensures forall x, i :: x in s && x !in Keys(MostCommon(Tally(s), n)) && 0 <= i < |MostCommon(Tally(s), n)|
                           ==> multiset(s)[x] <= MostCommon(Tally(s), n)[i].1
  {
    TallySpec(s);
    MostCommonSpec(Tally(s), n);
    MostCommonOfSeqEntries(s, n);
    MostCommonOfSeqTop(s, n);
  }

  lemma MostCommonOfSeqEntries<T>(s: seq<T>, n: int)
    ensures forall e :: e in MostCommon(Tally(s), n) ==> e.0 in s && e.1 == multiset(s)[e.0] && e.1 > 0
  {
    var t := Tally(s);
    TallySpec(s);
    TallyEntries(s);
    MostCommonSpec(t, n);
  }

  lemma MostCommonOfSeqTop<T>(s: seq<T>, n: int)
    ensures forall x, i :: x in s && x !in Keys(MostCommon(Tally(s), n)) && 0 <= i < |MostCommon(Tally(s), n)|
                           ==> multiset(s)[x] <= MostCommon(Tally(s), n)[i].1
  {
    var t := Tally(s);
    TallySpec(s);
    TallyEntries(s);
    MostCommonSpec(t, n);
    var r := MostCommon(t, n);
    forall x, i | x in s && x !in Keys(r) && 0 <= i < |r|
      ensures multiset(s)[x] <= r[i].1
    {
      assert x in Keys(t);
      var m :| 0 <= m < |t| && Keys(t)[m] == x;
      assert t[m] in t;
    }
  }
}

=== FILE: text.dfy ===
/** The regular-expression text filters of the pipeline, written out as
    string functions:
      - `re.sub(r"\s+", " ", s).strip()`  (Collapse)
      - `re.sub(r"\[.*?\]", "", s)`       (RemoveBracketed, drops "[Music]" and the like)
      - `re.sub(r"<[^>]+>", " ", s)`      (StripTags)
    and the transcript cleanup built from them. */
module Text {
  import opened Common

  /** Python's `str.isspace()`, which is also what `\s` matches in a `str`
      pattern. */
  predicate IsSpace(c: char)
  {
    var n := c as int;
    (9 <= n <= 13) || (28 <= n <= 32) || n == 0x85 || n == 0xA0 || n == 0x1680
    || (0x2000 <= n <= 0x200A) || n == 0x2028 || n == 0x2029 || n == 0x202F
    || n == 0x205F || n == 0x3000
  }

  /** The characters of `s` that are not whitespace, in order. */
  function NonSpace(s: string): string
  {
    if s == [] then [] else (if IsSpace(s[0]) then [] else [s[0]]) + NonSpace(s[1..])
  }

  lemma {:induction false} NonSpaceConcat(a: string, b: string)
    ensures NonSpace(a + b) == NonSpace(a) + NonSpace(b)
  {
    if a == [] {
      assert a + b == b;
    } else {
      assert (a + b)[1..] == a[1..] + b;
      NonSpaceConcat(a[1..], b);
    }
  }

  // ---- whitespace collapse ----

  /** `s.lstrip()`: drop leading whitespace. */
  function TrimStart(s: string): (r: string)
    ensures |r| <= |s| && r == s[|s| - |r|..]
    ensures r == [] || !IsSpace(r[0])
  {
    if s != [] && IsSpace(s[0]) then TrimStart(s[1..]) else s
  }

  /** `s.rstrip()`: drop trailing whitespace. */
  function TrimEnd(s: string): (r: string)
    ensures |r| <= |s| && r == s[..|r|]
    ensures r == [] || !IsSpace(r[|r| - 1])
  {
    if s != [] && IsSpace(s[|s| - 1]) then TrimEnd(s[..|s| - 1]) else s
  }

  /** `re.sub(r"\s+", " ", s)`: every maximal run of whitespace becomes one
      blank. */
  function Squash(s: string): string
    decreases |s|
  {
    if s == [] then []
    else if IsSpace(s[0]) then [' '] + Squash(TrimStart(s[1..]))
    else [s[0]] + Squash(s[1..])
  }

  /** `re.sub(r"\s+", " ", s).strip()`. */
  function Collapse(s: string): string
  {
    TrimEnd(TrimStart(Squash(s)))
  }

  /** Positions `i` and `i + 1` of `r` both hold whitespace. */
  predicate DoubleSpaceAt(r: string, i: nat)
    requires i + 1 < |r|
  {
    IsSpace(r[i]) && IsSpace(r[i + 1])
  }

  /** No two whitespace characters are adjacent, and the only whitespace is
      the blank. */
  predicate SingleSpaced(r: string)
  {
    && (forall i :: 0 <= i < |r| - 1 ==> !DoubleSpaceAt(r, i))
    && (forall i :: 0 <= i < |r| ==> IsSpace(r[i]) ==> r[i] == ' ')
  }

  /** The shape `Collapse` promises: single-spaced, and no whitespace at
      either end. */
  predicate Canonical(r: string)
  {
    SingleSpaced(r) && (r == [] || (!IsSpace(r[0]) && !IsSpace(r[|r| - 1])))
  }

  lemma {:induction false} TrimStartKeepsText(s: string)
    ensures NonSpace(TrimStart(s)) == NonSpace(s)
  {
    if s != [] && IsSpace(s[0]) {
      TrimStartKeepsText(s[1..]);
    }
  }

  lemma {:induction false} TrimEndKeepsText(s: string)
    ensures NonSpace(TrimEnd(s)) == NonSpace(s)
  {
    if s != [] && IsSpace(s[|s| - 1]) {
      TrimEndKeepsText(s[..|s| - 1]);
      NonSpaceConcat(s[..|s| - 1], [s[|s| - 1]]);
      assert s[..|s| - 1] + [s[|s| - 1]] == s;
    }
  }

  lemma {:induction false} SquashStartsLike(s: string)
    requires s != []
    ensures Squash(s) != [] && (IsSpace(Squash(s)[0]) <==> IsSpace(s[0]))
  {
  }

  /** Putting one character in front of single-spaced text. */
  lemma ConsSingleSpaced(c: char, r: string)
    requires SingleSpaced(r) && (IsSpace(c) ==> c == ' ')
    requires r != [] ==> !(IsSpace(c) && IsSpace(r[0]))
    ensures SingleSpaced([c] + r)
  {
    var s := [c] + r;
    assert forall i :: 1 <= i < |s| - 1 ==> DoubleSpaceAt(s, i) == DoubleSpaceAt(r, i - 1);
  }

  /** Taking the first character off single-spaced text. */
  lemma TailSingleSpaced(s: string)
    requires s != [] && SingleSpaced(s)
    ensures SingleSpaced(s[1..])
    ensures IsSpace(s[0]) ==> s[0] == ' '
    ensures |s| > 1 ==> !(IsSpace(s[0]) && IsSpace(s[1]))
  {
    SliceSingleSpaced(s, 1, |s|);
    assert s[1..|s|] == s[1..];
    if |s| > 1 {
      assert !DoubleSpaceAt(s, 0);
    }
  }

  lemma {:induction false} SquashSingleSpaced(s: string)
    ensures SingleSpaced(Squash(s))
    decreases |s|
  {
    if s == [] {
    } else if IsSpace(s[0]) {
      var d := TrimStart(s[1..]);
      SquashSingleSpaced(d);
      if d != [] {
        SquashStartsLike(d);
      }
      ConsSingleSpaced(' ', Squash(d));
    } else {
      SquashSingleSpaced(s[1..]);
      if s[1..] != [] {
        SquashStartsLike(s[1..]);
      }
      ConsSingleSpaced(s[0], Squash(s[1..]));
    }
  }

  lemma {:induction false} SquashKeepsText(s: string)
    ensures NonSpace(Squash(s)) == NonSpace(s)
    decreases |s|
  {
    if s == [] {
    } else if IsSpace(s[0]) {
      var d := TrimStart(s[1..]);
      SquashKeepsText(d);
      TrimStartKeepsText(s[1..]);
      NonSpaceConcat([' '], Squash(d));
    } else {
      SquashKeepsText(s[1..]);
      NonSpaceConcat([s[0]], Squash(s[1..]));
    }
  }

  /** `Collapse` yields canonical spacing and keeps every non-whitespace
      character, in order; it keeps exactly the words of `s` (no two are
      merged, none is split) and puts one blank between each two. */
  lemma CollapseSpec(s: string)
    ensures Canonical(Collapse(s))
    ensures NonSpace(Collapse(s)) == NonSpace(s)
    ensures Collapse(s) == JoinSpace(Words(s))
    ensures Words(Collapse(s)) == Words(s)
  {
    CollapseKeepsWords(s);
    SquashSingleSpaced(s);
    SquashKeepsText(s);
    TrimBoth(Squash(s));
  }

  lemma TrimBoth(q: string)
    requires SingleSpaced(q)
    ensures Canonical(TrimEnd(TrimStart(q)))
    ensures NonSpace(TrimEnd(TrimStart(q))) == NonSpace(q)
  {
    TrimStartSpaced(q);
    TrimEndSpaced(TrimStart(q));
  }

  lemma TrimStartSpaced(q: string)
    requires SingleSpaced(q)
    ensures SingleSpaced(TrimStart(q)) && NonSpace(TrimStart(q)) == NonSpace(q)
  {
    var t := TrimStart(q);
    TrimStartKeepsText(q);
    SliceSingleSpaced(q, |q| - |t|, |q|);
    assert q[|q| - |t|..|q|] == t;
  }

  lemma TrimEndSpaced(t: string)
    requires SingleSpaced(t) && (t == [] || !IsSpace(t[0]))
    ensures Canonical(TrimEnd(t)) && NonSpace(TrimEnd(t)) == NonSpace(t)
  {
    var u := TrimEnd(t);
    TrimEndKeepsText(t);
    SliceSingleSpaced(t, 0, |u|);
    assert t[0..|u|] == u;
    if u != [] {
      assert u[0] == t[0];
    }
  }

  lemma SliceSingleSpaced(s: string, lo: nat, hi: nat)
    requires lo <= hi <= |s| && SingleSpaced(s)
    ensures SingleSpaced(s[lo..hi])
  {
    var r := s[lo..hi];
    assert forall i :: 0 <= i < |r| ==> r[i] == s[lo + i];
    assert forall i :: 0 <= i < |r| - 1 ==> DoubleSpaceAt(r, i) == DoubleSpaceAt(s, lo + i);
  }

  lemma {:induction false} SquashFixes(s: string)
    requires SingleSpaced(s)
    ensures Squash(s) == s
    decreases |s|
  {
    if s != [] {
      TailSingleSpaced(s);
      SquashFixes(s[1..]);
      if IsSpace(s[0]) {
        assert s[1..] == [] || !IsSpace(s[1..][0]);
        assert TrimStart(s[1..]) == s[1..];
      }
    }
  }

  /** Text that already has canonical spacing is left as it is; hence
      collapsing twice is collapsing once. */
  lemma CollapseFixes(s: string)
    requires Canonical(s)
    ensures Collapse(s) == s
  {
    SquashFixes(s);
  }

  lemma CollapseIdempotent(s: string)
    ensures Collapse(Collapse(s)) == Collapse(s)
  {
    CollapseSpec(s);
    CollapseFixes(Collapse(s));
  }

  // ---- words ----

  /** The leading run of non-whitespace characters of `s`. */
  function WordAt(s: string): (w: string)
    ensures |w| <= |s| && w == s[..|w|]
    ensures forall i :: 0 <= i < |w| ==> !IsSpace(w[i])
    ensures |w| < |s| ==> IsSpace(s[|w|])
    ensures s != [] && !IsSpace(s[0]) ==> w != []
  {
    if s == [] || IsSpace(s[0]) then [] else [s[0]] + WordAt(s[1..])
  }

  /** `s.split()`: the maximal runs of non-whitespace characters, in order. */
  function Words(s: string): seq<string>
    decreases |s|
  {
    if s == [] then []
    else if IsSpace(s[0]) then Words(s[1..])
    else var w := WordAt(s); [w] + Words(s[|w|..])
  }

  predicate IsWord(w: string)
  {
    w != [] && forall i :: 0 <= i < |w| ==> !IsSpace(w[i])
  }

  /** Every piece `split()` returns is a non-empty run without whitespace. */
  lemma {:induction false} WordsAreWords(s: string)
    ensures forall k :: 0 <= k < |Words(s)| ==> IsWord(Words(s)[k])
    decreases |s|
  {
    if s != [] {
      if IsSpace(s[0]) {
        WordsAreWords(s[1..]);
      } else {
        WordsAreWords(s[|WordAt(s)|..]);
      }
    }
  }

  /** Leading whitespace does not change the words. */
  lemma {:induction false} WordsTrimStart(s: string)
    ensures Words(TrimStart(s)) == Words(s)
    decreases |s|
  {
    if s != [] && IsSpace(s[0]) {
      WordsTrimStart(s[1..]);
    }
  }

  /** Text with no word is whitespace only. */
  lemma WordsNone(s: string)
    ensures Words(s) == [] <==> TrimStart(s) == []
  {
    WordsTrimStart(s);
  }

  /** A word at the front of the text is copied through the substitution. */
  lemma {:induction false} SquashWord(w: string, rest: string)
    requires forall i :: 0 <= i < |w| ==> !IsSpace(w[i])
    ensures Squash(w + rest) == w + Squash(rest)
  {
    if w != [] {
      var s := w + rest;
      assert s[0] == w[0] && s[1..] == w[1..] + rest;
      SquashWord(w[1..], rest);
      assert Squash(s) == [w[0]] + (w[1..] + Squash(rest));
      assert [w[0]] + w[1..] == w;
    } else {
      assert w + rest == rest;
    }
  }

  /** Whitespace only becomes one blank, or nothing when there is none. */
  lemma SquashBlank(s: string)
    requires TrimStart(s) == []
    ensures Squash(s) == [] || Squash(s) == " "
  {
    if s != [] {
      assert TrimStart(s[1..]) == [];
    }
  }

  /** Leading whitespace makes no difference once the result is trimmed. */
  lemma SquashTrimStart(s: string)
    ensures TrimStart(Squash(s)) == TrimStart(Squash(TrimStart(s)))
  {
    if s != [] && IsSpace(s[0]) {
      var t := TrimStart(s[1..]);
      assert TrimStart(s) == t;
      assert Squash(s) == [' '] + Squash(t);
      assert TrimStart(Squash(s)) == TrimStart(Squash(t)) by {
        assert IsSpace(Squash(s)[0]);
        assert Squash(s)[1..] == Squash(t);
      }
    }
  }

  /** Trailing whitespace of `b` is all `rstrip` removes from `a + b` when
      `b` holds more than whitespace. */
  lemma {:induction false} TrimEndAppend(a: string, b: string)
    requires TrimEnd(b) != []
    ensures TrimEnd(a + b) == a + TrimEnd(b)
  {
    if IsSpace(b[|b| - 1]) {
      assert (a + b)[..|a + b| - 1] == a + b[..|b| - 1];
      TrimEndAppend(a, b[..|b| - 1]);
    }
  }

  /** A leading whitespace character changes neither the collapse nor the
      words. */
  lemma CollapseSpaceHead(s: string)
    requires s != [] && IsSpace(s[0])
    ensures Collapse(s) == Collapse(s[1..]) && Words(s) == Words(s[1..])
  {
    SquashTrimStart(s);
    SquashTrimStart(s[1..]);
    assert TrimStart(s) == TrimStart(s[1..]);
  }

  /** A leading word is copied, and is the first of the words. */
  lemma CollapseWordFront(s: string)
    requires s != [] && !IsSpace(s[0])
    ensures var w := WordAt(s);
            Collapse(s) == TrimEnd(w + Squash(s[|w|..])) && Words(s) == [w] + Words(s[|w|..])
  {
    var w := WordAt(s);
    var rest := s[|w|..];
    assert s == w + rest;
    SquashWord(w, rest);
    assert (w + Squash(rest))[0] == s[0];
  }

  /** A word followed by whitespace only is all that is left. */
  lemma CollapseLastWord(w: string, rest: string)
    requires IsWord(w) && TrimStart(rest) == []
    ensures TrimEnd(w + Squash(rest)) == w
  {
    SquashBlank(rest);
    if Squash(rest) == " " {
      assert (w + " ")[..|w|] == w;
      assert TrimEnd(w + " ") == TrimEnd(w);
    } else {
      assert w + Squash(rest) == w;
    }
    assert w[|w| - 1] == w[|w| - 1];
  }

  /** A run of whitespace in front becomes one blank. */
  lemma SquashSpaceHead(rest: string)
    requires rest != [] && IsSpace(rest[0])
    ensures Squash(rest) == " " + Squash(TrimStart(rest))
  {
    assert TrimStart(rest[1..]) == TrimStart(rest);
  }

  /** Text that starts with a word collapses to something non-empty that
      only the right end is trimmed from. */
  lemma CollapseWordStart(t: string)
    requires t != [] && !IsSpace(t[0])
    ensures Collapse(t) == TrimEnd(Squash(t)) != []
  {
    var q := Squash(t);
    SquashStartsLike(t);
    assert TrimStart(q) == q;
    TrimEndKeepsText(q);
    NonSpaceConcat([q[0]], q[1..]);
    assert [q[0]] + q[1..] == q;
  }

  /** Whitespace after a word becomes one blank in front of the rest. */
  lemma SquashAfterWord(w: string, rest: string)
    requires rest != [] && IsSpace(rest[0]) && TrimStart(rest) != []
    ensures w + Squash(rest) == (w + " ") + Squash(TrimStart(rest))
  {
    SquashSpaceHead(rest);
  }

  /** What stands before a collapsed word is left alone by `rstrip`. */
  lemma TrimEndBeforeWord(a: string, t: string)
    requires t != [] && !IsSpace(t[0])
    ensures TrimEnd(a + Squash(t)) == a + Collapse(t)
  {
    CollapseWordStart(t);
    TrimEndAppend(a, Squash(t));
  }

  /** `re.sub(r"\s+", " ", s).strip()` is `" ".join(s.split())`. */
  lemma {:induction false} CollapseWords(s: string)
    ensures Collapse(s) == JoinSpace(Words(s))
    decreases |s|
  {
    if s == [] {
    } else if IsSpace(s[0]) {
      CollapseSpaceHead(s);
      CollapseWords(s[1..]);
    } else {
      var w := WordAt(s);
      var rest := s[|w|..];
      CollapseWordFront(s);
      var t := TrimStart(rest);
      WordsTrimStart(rest);
      if t == [] {
        WordsNone(rest);
        CollapseLastWord(w, rest);
      } else {
        SquashAfterWord(w, rest);
        TrimEndBeforeWord(w + " ", t);
        CollapseWordStart(t);
        CollapseWords(t);
        WordsNone(t);
        var ws := Words(t);
        assert JoinSpace([w] + ws) == w + " " + JoinSpace(ws) by {
          assert ([w] + ws)[1..] == ws;
        }
      }
    }
  }

  /** A word ends no later than the first whitespace character. */
  lemma {:induction false} WordAtStops(s: string, k: nat)
    requires k < |s| && IsSpace(s[k])
    ensures |WordAt(s)| <= k
  {
    if !IsSpace(s[0]) {
      WordAtStops(s[1..], k - 1);
    }
  }

  /** A word reaches at least as far as the leading whitespace-free run. */
  lemma {:induction false} WordAtCovers(s: string, k: nat)
    requires k <= |s| && forall i :: 0 <= i < k ==> !IsSpace(s[i])
    ensures |WordAt(s)| >= k
  {
    if k > 0 {
      WordAtCovers(s[1..], k - 1);
    }
  }

  /** `split()` gives back the words that were joined. */
  lemma {:induction false} WordsOfJoin(ws: seq<string>)
    requires forall k :: 0 <= k < |ws| ==> IsWord(ws[k])
    ensures Words(JoinSpace(ws)) == ws
  {
    if ws != [] {
      var w := ws[0];
      var s := JoinSpace(ws);
      var rest := if |ws| == 1 then "" else " " + JoinSpace(ws[1..]);
      assert s == w + rest;
      var v := WordAt(s);
      if |ws| > 1 {
        assert s[|w|] == ' ';
        WordAtStops(s, |w|);
      }
      WordAtCovers(s, |w|);
      assert v == w;
      assert s[|w|..] == rest;
      if |ws| > 1 {
        WordsOfJoin(ws[1..]);
        assert rest[1..] == JoinSpace(ws[1..]);
      }
    }
  }

  /** Collapsing keeps exactly the words of the text, and puts one blank
      between each two of them. */
  lemma CollapseKeepsWords(s: string)
    ensures Collapse(s) == JoinSpace(Words(s))
    ensures Words(Collapse(s)) == Words(s)
  {
    CollapseWords(s);
    WordsAreWords(s);
    WordsOfJoin(Words(s));
  }

  // ---- removal of bracketed notes such as "[Music]" ----

  /** Where the lazy `.*?\]` of `\[.*?\]` stops when started just after a
      "[": the first "]" of `t`, provided no newline comes before it (`.`
      does not match a newline). */
  function FindClose(t: string): (r: Option<nat>)
    ensures r.Some? ==> r.value < |t| && t[r.value] == ']'
                        && forall k :: 0 <= k < r.value ==> t[k] != '\n'
  {
    if t == [] then None
    else if t[0] == ']' then Some(0)
    else if t[0] == '\n' then None
    else match FindClose(t[1..])
      case Some(k) => Some(k + 1)
      case None => None
  }

  /** `re.sub(r"\[.*?\]", "", s)`. */
  function RemoveBracketed(s: string): string
    decreases |s|
  {
    if s == [] then []
    else if s[0] == '[' then
      match FindClose(s[1..])
      case Some(k) => RemoveBracketed(s[k + 2..])
      case None => ['['] + RemoveBracketed(s[1..])
    else [s[0]] + RemoveBracketed(s[1..])
  }

  /** Every "]" of `t` has a newline somewhere before it. */
  predicate ClosersAfterNewline(t: string)
  {
    forall j :: 0 <= j < |t| && t[j] == ']' ==> exists k :: 0 <= k < j && t[k] == '\n'
  }

  /** Nothing that `\[.*?\]` could match is left: between any "[" and a later
      "]" there is a newline. */
  predicate NoBracketedNote(r: string)
  {
    forall i, j :: 0 <= i < j < |r| && r[i] == '[' && r[j] == ']' ==>
      exists k :: i < k < j && r[k] == '\n'
  }

  lemma {:induction false} NoCloseMeansNewlineFirst(t: string)
    requires FindClose(t) == None
    ensures ClosersAfterNewline(t)
    decreases |t|
  {
    if t != [] && t[0] != '\n' {
      NoCloseMeansNewlineFirst(t[1..]);
      forall j | 0 <= j < |t| && t[j] == ']'
        ensures exists k :: 0 <= k < j && t[k] == '\n'
      {
        assert t[1..][j - 1] == ']';
        var k :| 0 <= k < j - 1 && t[1..][k] == '\n';
        assert t[k + 1] == '\n';
      }
    }
  }

  lemma {:induction false} RemoveBracketedKeepsNewlineFirst(t: string)
    requires ClosersAfterNewline(t)
    ensures ClosersAfterNewline(RemoveBracketed(t))
    decreases |t|
  {
    if t != [] {
      if t[0] == '\n' {
        var r := RemoveBracketed(t);
        assert r[0] == '\n';
      } else {
        assert t[0] != ']';
        assert ClosersAfterNewline(t[1..]) by {
          forall j | 0 <= j < |t[1..]| && t[1..][j] == ']'
            ensures exists k :: 0 <= k < j && t[1..][k] == '\n'
          {
            var k :| 0 <= k < j + 1 && t[k] == '\n';
            assert t[1..][k - 1] == '\n';
          }
        }
        // A "]" of t[1..] with no newline before it would contradict the
        // requirement, so a "[" at the front is never closed.
        assert FindClose(t[1..]).None?;
        RemoveBracketedKeepsNewlineFirst(t[1..]);
        var rest := RemoveBracketed(t[1..]);
        var r := [t[0]] + rest;
        assert RemoveBracketed(t) == r;
        forall j | 0 <= j < |r| && r[j] == ']'
          ensures exists k :: 0 <= k < j && r[k] == '\n'
        {
          assert rest[j - 1] == ']';
          var k :| 0 <= k < j - 1 && rest[k] == '\n';
          assert r[k + 1] == '\n';
        }
      }
    }
  }

  /** A character put in front of text without a bracketed note adds none,
      provided that a "[" is followed by text whose every "]" comes after a
      newline. */
  lemma ConsNoNote(c: char, rest: string)
    requires NoBracketedNote(rest)
    requires c == '[' ==> ClosersAfterNewline(rest)
    ensures NoBracketedNote([c] + rest)
  {
    var r := [c] + rest;
    forall i, j | 0 <= i < j < |r| && r[i] == '[' && r[j] == ']'
      ensures exists k :: i < k < j && r[k] == '\n'
    {
      assert rest[j - 1] == ']';
      if i == 0 {
        var k :| 0 <= k < j - 1 && rest[k] == '\n';
        assert r[k + 1] == '\n';
      } else {
        assert rest[i - 1] == '[';
        var k :| i - 1 < k < j - 1 && rest[k] == '\n';
        assert r[k + 1] == '\n';
      }
    }
  }

  /** After `RemoveBracketed` no bracketed note confined to one line is
      left. */
  lemma {:induction false} RemoveBracketedComplete(s: string)
    ensures NoBracketedNote(RemoveBracketed(s))
    decreases |s|
  {
    if s == [] {
    } else if s[0] == '[' {
      match FindClose(s[1..])
      case Some(k) =>
        RemoveBracketedComplete(s[k + 2..]);
      case None =>
        RemoveBracketedComplete(s[1..]);
        NoCloseMeansNewlineFirst(s[1..]);
        RemoveBracketedKeepsNewlineFirst(s[1..]);
        ConsNoNote('[', RemoveBracketed(s[1..]));
    } else {
      RemoveBracketedComplete(s[1..]);
      ConsNoNote(s[0], RemoveBracketed(s[1..]));
    }
  }

  /** Text without any "[" passes through unchanged. */
  lemma {:induction false} RemoveBracketedNoOpen(s: string)
    requires forall i :: 0 <= i < |s| ==> s[i] != '['
    ensures RemoveBracketed(s) == s
    decreases |s|
  {
    if s != [] {
      RemoveBracketedNoOpen(s[1..]);
    }
  }

  // ---- HTML tag stripping ----

  /** Index of the first ">" of `t`. */
  function FindGt(t: string): (r: Option<nat>)
    ensures r.Some? ==> r.value < |t| && t[r.value] == '>'
                        && forall k :: 0 <= k < r.value ==> t[k] != '>'
    ensures r.None? ==> forall k :: 0 <= k < |t| ==> t[k] != '>'
  {
    if t == [] then None
    else if t[0] == '>' then Some(0)
    else match FindGt(t[1..])
      case Some(k) => Some(k + 1)
      case None => None
  }

  /** `<[^>]+>` matches at index `i` of `s`: a "<", at least one character
      that is not ">", then a ">". */
  predicate TagAt(s: string, i: nat)
  {
    i < |s| && s[i] == '<' && match FindGt(s[i + 1..])
      case Some(k) => k > 0
      case None => false
  }

  /** `re.sub(r"<[^>]+>", " ", s)`: every tag becomes one blank. */
  function StripTags(s: string): (r: string)
    ensures forall i :: 0 <= i < |r| ==> r[i] == ' ' || r[i] in s
    decreases |s|
  {
    if s == [] then []
    else if s[0] == '<' then
      match FindGt(s[1..])
      case Some(k) =>
        if k > 0 then [' '] + StripTags(s[k + 2..]) else ['<'] + StripTags(s[1..])
      case None => ['<'] + StripTags(s[1..])
    else [s[0]] + StripTags(s[1..])
  }

  lemma ShiftTagAt(c: char, b: string, i: nat)
    ensures TagAt([c] + b, i + 1) <==> TagAt(b, i)
  {
    if i < |b| {
      assert ([c] + b)[i + 2..] == b[i + 1..];
    }
  }

  /** The output of `StripTags` does not start with a tag: a "<" it keeps
      is followed by no ">" at all, or directly by one. */
  lemma NoTagAtStart(s: string)
    ensures !TagAt(StripTags(s), 0)
  {
    if s != [] && s[0] == '<' {
      var r := StripTags(s);
      var k := FindGt(s[1..]);
      if k.None? || k.value == 0 {
        var rest := StripTags(s[1..]);
        assert r == ['<'] + rest && r[1..] == rest;
        if k.None? {
          assert forall j :: 0 <= j < |rest| ==> rest[j] != '>';
          assert FindGt(r[1..]) == None;
        } else {
          assert s[1] == '>';
          assert rest[0] == '>';
        }
      }
    }
  }

  /** No tag survives `StripTags`. */
  lemma {:induction false} StripTagsComplete(s: string)
    ensures forall i: nat :: !TagAt(StripTags(s), i)
    decreases |s|
  {
    if s != [] {
      var r := StripTags(s);
      var rest: string;
      var k: Option<nat> := if s[0] == '<' then FindGt(s[1..]) else None;
      if s[0] == '<' && k.Some? && k.value > 0 {
        StripTagsComplete(s[k.value + 2..]);
        rest := StripTags(s[k.value + 2..]);
      } else {
        StripTagsComplete(s[1..]);
        rest := StripTags(s[1..]);
      }
      assert r == [r[0]] + rest;
      NoTagAtStart(s);
      forall i: nat | i > 0 ensures !TagAt(r, i) {
        ShiftTagAt(r[0], rest, i - 1);
      }
    }
  }

  /** Text without "<" passes through unchanged. */
  lemma {:induction false} StripTagsNoOpen(s: string)
    requires forall i :: 0 <= i < |s| ==> s[i] != '<'
    ensures StripTags(s) == s
    decreases |s|
  {
    if s != [] {
      StripTagsNoOpen(s[1..]);
    }
  }

  // ---- the cleanups ----

  /** `" ".join(texts)`. */
  function JoinSpace(texts: seq<string>): string
  {
    if texts == [] then ""
    else if |texts| == 1 then texts[0]
    else texts[0] + " " + JoinSpace(texts[1..])
  }

  /** A transcript's text: the segments joined by blanks, bracketed notes
      removed, whitespace collapsed. */
  function CleanTranscript(texts: seq<string>): (r: string)
    ensures Canonical(r)
    ensures NonSpace(r) == NonSpace(RemoveBracketed(JoinSpace(texts)))
    ensures r == JoinSpace(Words(RemoveBracketed(JoinSpace(texts))))
    ensures Words(r) == Words(RemoveBracketed(JoinSpace(texts)))
  {
    CollapseSpec(RemoveBracketed(JoinSpace(texts)));
    Collapse(RemoveBracketed(JoinSpace(texts)))
  }
}

=== FILE: worker.dfy ===
/** The queue worker: it reads its configuration from the environment, takes
    video jobs from a message queue a page at a time under a visibility
    lease, builds one result record per video, stores it in a blob container
    under the video's key, and deletes the message only once the result is
    stored. A failed message is left leased, so it reappears when its lease
    runs out. */
module Worker {
  import opened Common
  import opened Text
  import opened YouTube

  // ---- configuration ----

  const DEFAULT_QUEUE_NAME: string := "scraper-jobs"
  const DEFAULT_RESULTS_CONTAINER: string := "scraper-results"
  const DEFAULT_WORKER_ID: string := "worker-0"
  const DEFAULT_BATCH_SIZE: string := "32"

  datatype Config = Config(connection: string, queueName: string, resultsContainer: string,
                           workerId: string, batchSize: int)

  /** Why the worker refuses to start: no storage connection string, or a
      batch size that is not a decimal integer. */
  datatype ConfigError = MissingConnection | BadBatchSize

  datatype Setup = Started(config: Config) | Refused(error: ConfigError)

  /** `os.environ.get(name, default)`. */
  function EnvOr(env: map<string, string>, name: string, default: string): string
  {
    if name in env then env[name] else default
  }

  /** The constructor's reading of the environment. */
  function Configure(env: map<string, string>): Setup
  {
    if "STORAGE_CONNECTION" !in env || env["STORAGE_CONNECTION"] == "" then Refused(MissingConnection)
    else
      match ParseInt(EnvOr(env, "BATCH_SIZE", DEFAULT_BATCH_SIZE))
      case None => Refused(BadBatchSize)
      case Some(n) =>
        Started(Config(env["STORAGE_CONNECTION"], EnvOr(env, "QUEUE_NAME", DEFAULT_QUEUE_NAME),
                       EnvOr(env, "RESULTS_CONTAINER", DEFAULT_RESULTS_CONTAINER),
                       EnvOr(env, "WORKER_ID", DEFAULT_WORKER_ID), n))
  }

  /** The worker starts exactly when a non-empty connection string is set and
      the batch size reads as a number; each setting is the environment's
      value when present and its default otherwise. */
  lemma ConfigureSpec(env: map<string, string>)
    ensures Configure(env) == Refused(MissingConnection)
            <==> "STORAGE_CONNECTION" !in env || env["STORAGE_CONNECTION"] == ""
    ensures Configure(env).Started? <==>
            "STORAGE_CONNECTION" in env && env["STORAGE_CONNECTION"] != ""
            && ("BATCH_SIZE" in env ==> ParseInt(env["BATCH_SIZE"]).Some?)
    ensures Configure(env).Started? ==>
              var c := Configure(env).config;
              c.connection == env["STORAGE_CONNECTION"] && c.connection != ""
              && ("QUEUE_NAME" in env ==> c.queueName == env["QUEUE_NAME"])
              && ("QUEUE_NAME" !in env ==> c.queueName == "scraper-jobs")
              && ("RESULTS_CONTAINER" in env ==> c.resultsContainer == env["RESULTS_CONTAINER"])
              && ("RESULTS_CONTAINER" !in env ==> c.resultsContainer == "scraper-results")
              && ("WORKER_ID" in env ==> c.workerId == env["WORKER_ID"])
              && ("WORKER_ID" !in env ==> c.workerId == "worker-0")
              && ("BATCH_SIZE" !in env ==> c.batchSize == 32)
  {
    IntRoundTrip(32);
    assert IntToString(32) == DEFAULT_BATCH_SIZE;
  }

  /** A batch size written as `str(n)` is read back as `n`. */
  lemma ConfigureBatchSize(env: map<string, string>, n: int)
    requires "STORAGE_CONNECTION" in env && env["STORAGE_CONNECTION"] != ""
    requires "BATCH_SIZE" in env && env["BATCH_SIZE"] == IntToString(n)
    ensures Configure(env).Started? && Configure(env).config.batchSize == n
  {
    IntRoundTrip(n);
  }

  // ---- one job ----

  /** A queue message's body as `json.loads` sees it: not JSON at all, JSON
      that is not an object, or an object with its `video_id` and `query`
      keys. */
  datatype Content = NotJson | NotObject | Job(videoId: Field<string>, query: Field<string>)

  /** The record stored for a video; a field that yt-dlp reported as null is
      kept as `None`. */
  datatype WorkerResult = WorkerResult(videoId: string, title: Option<string>, channel: Option<string>,
                                       views: Option<int>, duration: Option<string>,
                                       uploadDate: Option<string>, description: string, url: string,
                                       query: Option<string>, transcript: string, transcriptLength: nat,
                                       error: string, workerId: string, processedAt: string)

  /** How many characters of a transcript failure's message are kept. */
  const ERROR_LENGTH: nat := 200

  /** `process_job` for a job whose `video_id` is a string: `metadata` is
      what yt-dlp reported (`None` when it failed), `fetch` what the
      transcript service returned and `processedAt` the clock's reading. */
  function ProcessJob(videoId: string, query: Field<string>, metadata: Option<VideoEntry>,
                      fetch: TranscriptFetch, workerId: string, processedAt: string): WorkerResult
  {
    var te := TranscriptAndError(fetch, ERROR_LENGTH);
    match metadata
    case None =>
      WorkerResult(videoId, Some(""), Some(""), Some(0), Some(""), Some(""), "", WatchUrl(videoId),
                   GetOr(query, ""), te.0, |te.0|, te.1, workerId, processedAt)
    case Some(m) =>
      WorkerResult(videoId, GetOr(m.title, ""), ChannelOf(m), GetOr(m.viewCount, 0),
                   GetOr(m.durationString, ""), GetOr(m.uploadDate, ""),
                   Prefix(StrOr(m.description, ""), DESCRIPTION_LENGTH), WatchUrl(videoId),
                   GetOr(query, ""), te.0, |te.0|, te.1, workerId, processedAt)
  }

  /** The record names its video and links to its watch page; the stored
      transcript length is the transcript's length; the description is at
      most 500 characters, cut from the reported one; a failed yt-dlp call
      gives empty strings and zero views; a transcript is only non-empty when
      the service returned one, and then there is no error. */
  lemma ProcessJobSpec(videoId: string, query: Field<string>, metadata: Option<VideoEntry>,
                       fetch: TranscriptFetch, workerId: string, processedAt: string)
    ensures var r := ProcessJob(videoId, query, metadata, fetch, workerId, processedAt);
            r.videoId == videoId
            && StartsWith(r.url, WATCH_URL_PREFIX) && r.url[|WATCH_URL_PREFIX|..] == videoId
            && r.transcriptLength == |r.transcript|
            && (r.transcript, r.error) == TranscriptAndError(fetch, ERROR_LENGTH)
            && (r.transcript != "" ==> fetch.Fetched? && r.error == "")
            && (fetch.FetchError? ==>
                  |r.error| <= ERROR_LENGTH && StartsWith(fetch.message, r.error)
                  && |r.error| == (if |fetch.message| <= ERROR_LENGTH then |fetch.message| else ERROR_LENGTH))
            && |r.description| <= DESCRIPTION_LENGTH
            && r.query == GetOr(query, "") && r.workerId == workerId && r.processedAt == processedAt
            && (metadata.None? ==>
                  r.title == Some("") && r.channel == Some("") && r.views == Some(0)
                  && r.duration == Some("") && r.uploadDate == Some("") && r.description == "")
            && (metadata.Some? ==>
                  var m := metadata.value;
                  r.title == GetOr(m.title, "") && r.channel == ChannelOf(m)
                  && r.views == GetOr(m.viewCount, 0)
                  && StartsWith(StrOr(m.description, ""), r.description)
                  && |r.description| == (if |StrOr(m.description, "")| <= DESCRIPTION_LENGTH
                                         then |StrOr(m.description, "")| else DESCRIPTION_LENGTH)
                  && (|StrOr(m.description, "")| <= DESCRIPTION_LENGTH ==> r.description == StrOr(m.description, "")))
  {
    TranscriptAndErrorSpec(fetch, ERROR_LENGTH);
  }

  /** Everything outside the worker that it consults, as functions of the
      video id or of the clock (in milliseconds): yt-dlp, the transcript
      service, whether the queue service's receive, the blob upload or the
      message deletion fails at that moment, and the ISO text of the time. */
  datatype Services = Services(metadata: string -> Option<VideoEntry>,
                               transcripts: string -> TranscriptFetch,
                               receiveFails: int -> bool, uploadFails: int -> bool,
                               deleteFails: int -> bool, clock: int -> string)

  /** What handling one message does: the result stored and the key it is
      stored under, whether the message is deleted, and how much the
      processed and error counters grow. */
  datatype Effect = Effect(stored: Option<(string, WorkerResult)>, deleted: bool,
                           processedBy: nat, errorsBy: nat)

  predicate HasVideoId(content: Content)
  {
    content.Job? && content.videoId.Present?
  }

  /** The record built for a job message with a video id, at time `now`. */
  function JobResult(content: Content, workerId: string, env: Services, now: int): WorkerResult
    requires HasVideoId(content)
  {
    var id := content.videoId.value;
    ProcessJob(id, content.query, env.metadata(id), env.transcripts(id), workerId, env.clock(now))
  }

  /** One pass of the loop body for a message, with a log line that cannot
      fail. A body that is not a JSON object, a missing `video_id` (a
      `KeyError`) and a null one (which cannot be sliced for the key) all
      end in the error branch, as do a failed upload and a failed deletion;
      the message is deleted only after its result was stored. */
  function Handle(content: Content, workerId: string, env: Services, now: int): Effect
  {
    if !HasVideoId(content) then Effect(None, false, 0, 1)
    else
      var r := JobResult(content, workerId, env, now);
      if env.uploadFails(now) then Effect(None, false, 0, 1)
      else if env.deleteFails(now) then Effect(Some((VideoKey(r.videoId), r)), false, 0, 1)
      else Effect(Some((VideoKey(r.videoId), r)), true, 1, 0)
  }

  /** Every message moves exactly one counter; it is deleted exactly when it
      counts as processed; a deleted message's result is stored under its
      video's key; only a job with a video id stores anything. */
  lemma HandleSpec(content: Content, workerId: string, env: Services, now: int)
    ensures var e := Handle(content, workerId, env, now);
            e.processedBy + e.errorsBy == 1
            && (e.deleted <==> e.processedBy == 1)
            && (e.deleted ==> e.stored.Some?)
            && (e.stored.Some? ==>
                  HasVideoId(content) && e.stored.value.1 == JobResult(content, workerId, env, now)
                  && e.stored.value.1.videoId == content.videoId.value
                  && e.stored.value.0 == VideoKey(content.videoId.value))
            && (!HasVideoId(content) ==> e == Effect(None, false, 0, 1))
  {
    if HasVideoId(content) {
      ProcessJobSpec(content.videoId.value, content.query, env.metadata(content.videoId.value),
                     env.transcripts(content.videoId.value), workerId, env.clock(now));
    }
  }

  /** What `HandleSpec` guarantees of an effect on a message with body
      `content`. */
  predicate Sound(content: Content, e: Effect)
  {
    e.processedBy + e.errorsBy == 1
    && (e.deleted <==> e.processedBy == 1)
    && (e.deleted ==> e.stored.Some?)
    && (e.stored.Some? ==>
          HasVideoId(content) && e.stored.value.1.videoId == content.videoId.value
          && e.stored.value.0 == VideoKey(content.videoId.value))
  }

  lemma HandleSound(content: Content, workerId: string, env: Services, now: int)
    ensures Sound(content, Handle(content, workerId, env, now))
  {
    HandleSpec(content, workerId, env, now);
  }

  /** The success log line formats the view count with a thousands
      separator, which Python refuses for `None`; it is only printed when
      the transcript is non-empty. */
  predicate LogLineRaises(r: WorkerResult)
  {
    r.transcript != "" && r.views.None?
  }

  /** The loop body as written: the log line comes after the deletion and
      the `processed` increment, inside the same `try`, so when it raises the
      message also counts as an error. */
  function HandleAsWritten(content: Content, workerId: string, env: Services, now: int): Effect
  {
    var e := Handle(content, workerId, env, now);
    if e.deleted && LogLineRaises(JobResult(content, workerId, env, now)) then e.(errorsBy := 1) else e
  }

  /** The two bodies differ exactly on a completed job whose log line
      raises. */
  lemma HandleAsWrittenDiffers(content: Content, workerId: string, env: Services, now: int)
    ensures HandleAsWritten(content, workerId, env, now) != Handle(content, workerId, env, now)
            <==> Handle(content, workerId, env, now).deleted
                 && LogLineRaises(JobResult(content, workerId, env, now))
  {
  }

  const SAMPLE_ENTRY: VideoEntry :=
    VideoEntry(Present("abc"), Present("t"), Present("c"), Absent, Absent, Absent, Absent, Null)

  const SAMPLE_FETCH: TranscriptFetch := Fetched([Segment("h", 0.0, 1.0)])

  const SAMPLE_JOB: Content := Job(Present("abc"), Absent)

  /** Services that all answer: yt-dlp reports `SAMPLE_ENTRY`, whose
      `view_count` is null, and the transcript service returns `fetch`. */
  function SampleServices(fetch: TranscriptFetch): Services
  {
    Services(_ => Some(SAMPLE_ENTRY), _ => fetch, _ => false, _ => false, _ => false, _ => "")
  }

  lemma SampleCleaned()
    ensures NonSpace(RemoveBracketed(JoinSpace(["h"]))) == "h"
  {
    assert JoinSpace(["h"]) == "h";
    assert RemoveBracketed("h") == ['h'] + RemoveBracketed("");
    assert !IsSpace('h');
    assert NonSpace("h") == ['h'] + NonSpace("");
  }

  /** The transcript "h" survives the cleanup. */
  lemma SampleTranscriptNonEmpty()
    ensures TranscriptAndError(SAMPLE_FETCH, ERROR_LENGTH).0 != ""
  {
    var texts := Texts(SAMPLE_FETCH.segments);
    assert texts == ["h"] by {
      assert |texts| == 1 && texts[0] == "h";
    }
    SampleCleaned();
    var t := CleanTranscript(texts);
    assert NonSpace(t) == "h";
    assert TranscriptAndError(SAMPLE_FETCH, ERROR_LENGTH).0 == t;
  }

  /** A video whose `view_count` is null and whose transcript is not empty:
      the message is deleted and counted once as processed and once more as
      an error. */
  lemma LogLineDoubleCounts(fetch: TranscriptFetch)
    requires TranscriptAndError(fetch, ERROR_LENGTH).0 != ""
    ensures var e := HandleAsWritten(SAMPLE_JOB, "worker-0", SampleServices(fetch), 0);
            e.deleted && e.processedBy == 1 && e.errorsBy == 1
  {
    var env := SampleServices(fetch);
    assert env.metadata("abc") == Some(SAMPLE_ENTRY) && env.transcripts("abc") == fetch;
    assert !env.uploadFails(0) && !env.deleteFails(0);
    var r := JobResult(SAMPLE_JOB, "worker-0", env, 0);
    ProcessJobSpec("abc", Absent, Some(SAMPLE_ENTRY), fetch, "worker-0", env.clock(0));
    assert LogLineRaises(r);
  }

  /** One such transcript: the single segment "h". */
  lemma LogLineDoubleCountsSample()
    ensures var e := HandleAsWritten(SAMPLE_JOB, "worker-0", SampleServices(SAMPLE_FETCH), 0);
            e.deleted && e.processedBy == 1 && e.errorsBy == 1
  {
    SampleTranscriptNonEmpty();
    LogLineDoubleCounts(SAMPLE_FETCH);
  }

  // ---- the queue and the loop ----

  /** The lease taken on received messages, in seconds. */
  const VISIBILITY_TIMEOUT: int := 300
  /** The same lease on the millisecond clock. */
  const LEASE: int := VISIBILITY_TIMEOUT * 1000
  /** The Queue service returns between 1 and 32 messages per request. */
  const MAX_PER_RECEIVE: int := 32
  /** Pauses, in milliseconds: after each message, after a pass that
      completed no job, after a queue error. */
  const MESSAGE_PAUSE: int := 500
  const EMPTY_PAUSE: int := 10000
  const ERROR_PAUSE: int := 5000

  /** A queued message: its body and the time from which it can be
      received again. */
  datatype Message = Message(content: Content, visibleAt: int)

  predicate Visible(m: Message, now: int)
  {
    m.visibleAt <= now
  }

  /** `q` is `q0` with the messages of `page` leased until `until`. */
  predicate LeasedFrom(q: map<string, Message>, q0: map<string, Message>, page: seq<string>, until: int)
  {
    q.Keys == q0.Keys
    && forall id :: id in q ==> q[id] == if id in page then q0[id].(visibleAt := until) else q0[id]
  }

  /** The messages a receive request hands out: up to `max` distinct
      visible ones, and every visible one when fewer than `max` are
      visible. Which ones the service picks is not specified. */
  method PickVisible(q: map<string, Message>, now: int, max: int) returns (page: seq<string>)
    ensures NoDup(page) && |page| <= if max < 0 then 0 else max
    ensures forall id :: id in page ==> id in q && Visible(q[id], now)
    ensures |page| < max ==> forall id :: id in q && Visible(q[id], now) ==> id in page
  {
    page := [];
    var left := set id | id in q && Visible(q[id], now);
    while |page| < max && left != {}
      invariant NoDup(page) && |page| <= if max < 0 then 0 else max
      invariant forall id :: id in page ==> id in q && Visible(q[id], now)
      invariant forall id :: id in left <==> id in q && Visible(q[id], now) && id !in page
      decreases |left|
    {
      var id :| id in left;
      NoDupSnoc(page, id);
      page := page + [id];
      left := left - {id};
    }
  }

  /** A message whose job is done: a job with a video id whose result is in
      the blob store under the video's key. */
  predicate Stored(content: Content, blobs: map<string, WorkerResult>)
  {
    HasVideoId(content)
    && VideoKey(content.videoId.value) in blobs
    && blobs[VideoKey(content.videoId.value)].videoId == content.videoId.value
  }

  /** Storing a result under its own video's key never undoes another
      video's stored result. */
  lemma StoredKept(content: Content, blobs: map<string, WorkerResult>, r: WorkerResult)
    requires Stored(content, blobs)
    ensures Stored(content, blobs[VideoKey(r.videoId) := r])
  {
    if VideoKey(r.videoId) == VideoKey(content.videoId.value) {
      VideoKeyInjective(r.videoId, content.videoId.value);
    }
  }

  /** Milliseconds left before the termination signal (zero once it is
      due). */
  function Left(now: int, stopTime: int): nat
  {
    if now < stopTime then stopTime - now else 0
  }

  /** The worker's mutable state as a value. */
  datatype Snapshot = Snapshot(queue: map<string, Message>, blobs: map<string, WorkerResult>,
                               processed: nat, errors: nat, now: int)

  /** The state after the effect `e` of handling message `id`. */
  function Apply(s: Snapshot, id: string, e: Effect): Snapshot
  {
    s.(queue := if e.deleted then s.queue - {id} else s.queue,
       blobs := if e.stored.Some? then s.blobs[e.stored.value.0 := e.stored.value.1] else s.blobs,
       processed := s.processed + e.processedBy,
       errors := s.errors + e.errorsBy)
  }

  /** What the loop keeps, measured from the state `s0` it started in, with
      `handledAt` the times at which it took up a message: messages only
      leave the queue and keep their bodies; each one that left was a
      completed job whose result is stored; `processed` grew by the number
      that left and the two counters together by the number handled, all
      before the signal; no blob disappeared. */
  ghost predicate Progressed(s: Snapshot, s0: Snapshot, handledAt: seq<int>, stopTime: int)
  {
    s.queue.Keys <= s0.queue.Keys
    && (forall id :: id in s.queue ==> s.queue[id].content == s0.queue[id].content)
    && s.processed == s0.processed + |s0.queue.Keys - s.queue.Keys|
    && s.processed + s.errors == s0.processed + s0.errors + |handledAt|
    && (forall id :: id in s0.queue && id !in s.queue ==> Stored(s0.queue[id].content, s.blobs))
    && s0.blobs.Keys <= s.blobs.Keys
    && (forall t :: t in handledAt ==> s0.now <= t < stopTime)
    && s0.now <= s.now
  }

  /** Taking one more key out of `kept` adds one to the number taken out
      of `all`. */
  lemma RemovedOneMore(all: set<string>, kept: set<string>, id: string)
    requires kept <= all && id in kept
    ensures |all - (kept - {id})| == |all - kept| + 1
  {
    assert all - (kept - {id}) == (all - kept) + {id};
  }

  /** Results of messages that already left the queue stay stored when the
      effect of one more message is applied. */
  lemma StoredStep(s: Snapshot, s0: Snapshot, id: string, e: Effect)
    requires forall i :: i in s0.queue && i !in s.queue ==> Stored(s0.queue[i].content, s.blobs)
    requires s.queue.Keys <= s0.queue.Keys
    requires forall i :: i in s.queue ==> s.queue[i].content == s0.queue[i].content
    requires id in s.queue && Sound(s.queue[id].content, e)
    ensures var s' := Apply(s, id, e);
            forall i :: i in s0.queue && i !in s'.queue ==> Stored(s0.queue[i].content, s'.blobs)
  {
    var s' := Apply(s, id, e);
    forall i | i in s0.queue && i !in s'.queue
      ensures Stored(s0.queue[i].content, s'.blobs)
    {
      if i !in s.queue && e.stored.Some? {
        StoredKept(s0.queue[i].content, s.blobs, e.stored.value.1);
      }
    }
  }

  /** Handling one queued message before the signal keeps `Progressed`. */
  lemma ProgressedApply(s: Snapshot, s0: Snapshot, handledAt: seq<int>, stopTime: int, id: string, e: Effect)
    requires Progressed(s, s0, handledAt, stopTime) && id in s.queue && s.now < stopTime
    requires Sound(s.queue[id].content, e)
    ensures Progressed(Apply(s, id, e).(now := s.now + MESSAGE_PAUSE), s0, handledAt + [s.now], stopTime)
  {
    CountsStep(s, s0, |handledAt|, id, e);
    StoredStep(s, s0, id, e);
  }

  /** The queue and counter parts of `ProgressedApply`: one handled message
      adds one to the two counters together, and to `processed` exactly
      when it left the queue. */
  lemma CountsStep(s: Snapshot, s0: Snapshot, handled: nat, id: string, e: Effect)
    requires s.queue.Keys <= s0.queue.Keys
    requires s.processed == s0.processed + |s0.queue.Keys - s.queue.Keys|
    requires s.processed + s.errors == s0.processed + s0.errors + handled
    requires id in s.queue && Sound(s.queue[id].content, e)
    ensures var s' := Apply(s, id, e);
            && s'.queue.Keys <= s0.queue.Keys
            && s'.processed == s0.processed + |s0.queue.Keys - s'.queue.Keys|
            && s'.processed + s'.errors == s0.processed + s0.errors + handled + 1
  {
    var s' := Apply(s, id, e);
    if e.deleted {
      assert s'.queue.Keys == s.queue.Keys - {id};
      RemovedOneMore(s0.queue.Keys, s.queue.Keys, id);
    } else {
      assert s'.queue == s.queue;
    }
  }

  /** `ProgressedApply` for a snapshot given field by field. */
  lemma ProgressedNext(s: Snapshot, s0: Snapshot, handledAt: seq<int>, stopTime: int, id: string, e: Effect,
                       next: Snapshot)
    requires Progressed(s, s0, handledAt, stopTime) && id in s.queue && s.now < stopTime
    requires Sound(s.queue[id].content, e)
    requires next.queue == (if e.deleted then s.queue - {id} else s.queue)
    requires next.blobs == (if e.stored.Some? then s.blobs[e.stored.value.0 := e.stored.value.1] else s.blobs)
    requires next.processed == s.processed + e.processedBy && next.errors == s.errors + e.errorsBy
    requires next.now == s.now + MESSAGE_PAUSE
    ensures Progressed(next, s0, handledAt + [s.now], stopTime)
  {
    ProgressedApply(s, s0, handledAt, stopTime, id, e);
    assert next == Apply(s, id, e).(now := s.now + MESSAGE_PAUSE);
  }

  /** Leasing messages keeps `Progressed`. */
  lemma ProgressedLease(s: Snapshot, s0: Snapshot, handledAt: seq<int>, stopTime: int,
                  q: map<string, Message>, page: seq<string>, until: int)
    requires Progressed(s, s0, handledAt, stopTime) && LeasedFrom(q, s.queue, page, until)
    ensures Progressed(s.(queue := q), s0, handledAt, stopTime)
  {
    assert q.Keys == s.queue.Keys;
  }

  class QueueWorker {
    const workerId: string
    const batchSize: int
    var running: bool
    var processed: nat
    var errors: nat
    /** The clock, in milliseconds. */
    var now: int
    /** The job queue, by message id. */
    var queue: map<string, Message>
    /** The results container, by blob name. */
    var blobs: map<string, WorkerResult>

    /** A worker for a configuration `Configure` accepted, attached to a
        queue and a container. */
    constructor(config: Config, queue: map<string, Message>, blobs: map<string, WorkerResult>, now: int)
      ensures workerId == config.workerId && batchSize == config.batchSize
      ensures running && processed == 0 && errors == 0
      ensures this.queue == queue && this.blobs == blobs && this.now == now
    {
      workerId := config.workerId;
      batchSize := config.batchSize;
      running := true;
      processed := 0;
      errors := 0;
      this.now := now;
      this.queue := queue;
      this.blobs := blobs;
    }

    function Snap(): Snapshot
      reads this
    {
      Snapshot(queue, blobs, processed, errors, now)
    }

    /** The signal handler: the loop is asked to stop. */
    method Shutdown()
      modifies this
      ensures !running && Snap() == old(Snap())
    {
      running := false;
    }

    /** Reading `self.running` when the termination signal arrives at
        `stopTime`: by then the handler has run if the signal is due. */
    method NoteSignal(stopTime: int)
      modifies this
      ensures running == (old(running) && now < stopTime)
      ensures Snap() == old(Snap())
    {
      if now >= stopTime {
        Shutdown();
      }
    }

    /** One page of `receive_messages`: up to `batchSize` distinct visible
        messages, each leased for the visibility timeout; a page shorter
        than `batchSize` leaves nothing visible behind, so an empty page
        means the queue has nothing to offer. A failing request, or a page
        size outside what the service accepts, is a queue error. */
    method Receive(env: Services) returns (ok: bool, page: seq<string>)
      modifies this
      ensures ok == (!env.receiveFails(now) && 1 <= batchSize <= MAX_PER_RECEIVE)
      ensures !ok ==> page == [] && queue == old(queue)
      ensures ok ==> NoDup(page) && |page| <= batchSize
      ensures ok ==> forall id :: id in page ==> id in old(queue) && Visible(old(queue)[id], now)
      ensures ok && |page| < batchSize ==>
                forall id :: id in old(queue) && Visible(old(queue)[id], now) ==> id in page
      ensures ok ==> LeasedFrom(queue, old(queue), page, now + LEASE)
      ensures running == old(running) && processed == old(processed) && errors == old(errors)
      ensures now == old(now) && blobs == old(blobs)
    {
      page := [];
      ok := !env.receiveFails(now) && 1 <= batchSize <= MAX_PER_RECEIVE;
      if !ok {
        return;
      }
      page := PickVisible(queue, now, batchSize);
      queue := map id | id in queue :: if id in page then queue[id].(visibleAt := now + LEASE) else queue[id];
    }

    /** `upload_result`: the record replaces whatever was stored under its
        video's key. */
    method UploadResult(result: WorkerResult)
      modifies this
      ensures blobs == old(blobs)[VideoKey(result.videoId) := result]
      ensures running == old(running) && processed == old(processed) && errors == old(errors)
      ensures now == old(now) && queue == old(queue)
    {
      blobs := blobs[VideoKey(result.videoId) := result];
    }

    /** The loop body for message `id`, before the pause: the state changes
        `Handle` describes. A failed message stays in the queue with its
        lease untouched. */
    method HandleMessage(id: string, env: Services) returns (success: bool)
      requires id in queue
      modifies this
      ensures var e := Handle(old(queue)[id].content, workerId, env, old(now));
              && success == e.deleted
              && queue == (if e.deleted then old(queue) - {id} else old(queue))
              && blobs == (if e.stored.Some? then old(blobs)[e.stored.value.0 := e.stored.value.1] else old(blobs))
              && processed == old(processed) + e.processedBy
              && errors == old(errors) + e.errorsBy
      ensures now == old(now)
      ensures !success ==> queue == old(queue)
      ensures running == old(running)
    {
      var content := queue[id].content;
      if !HasVideoId(content) {
        errors := errors + 1;
        return false;
      }
      var result := JobResult(content, workerId, env, now);
      if env.uploadFails(now) {
        errors := errors + 1;
        return false;
      }
      UploadResult(result);
      if env.deleteFails(now) {
        errors := errors + 1;
        return false;
      }
      queue := queue - {id};
      processed := processed + 1;
      success := true;
    }

    /** The loop body for one message, the pause included, keeps
        `Progressed`. */
    method Step(id: string, env: Services, stopTime: int, ghost s0: Snapshot, ghost handledAt: seq<int>)
      returns (success: bool)
      requires id in queue && now < stopTime
      requires Progressed(Snap(), s0, handledAt, stopTime)
      modifies this
      ensures Progressed(Snap(), s0, handledAt + [old(now)], stopTime)
      ensures queue == (if success then old(queue) - {id} else old(queue))
      ensures processed == old(processed) + (if success then 1 else 0)
      ensures running == old(running) && now == old(now) + MESSAGE_PAUSE
    {
      ghost var s := Snap();
      ghost var e := Handle(queue[id].content, workerId, env, now);
      HandleSound(queue[id].content, workerId, env, now);
      success := HandleMessage(id, env);
      now := now + MESSAGE_PAUSE;
      ProgressedNext(s, s0, handledAt, stopTime, id, e, Snap());
    }

    /** Fetching the next page, as far as the loop needs it: the page's
        messages are distinct and all still queued, and `Progressed` holds on. */
    method NextPage(env: Services, stopTime: int, ghost s0: Snapshot, ghost handledAt: seq<int>)
      returns (ok: bool, page: seq<string>)
      requires Progressed(Snap(), s0, handledAt, stopTime)
      modifies this
      ensures Progressed(Snap(), s0, handledAt, stopTime)
      ensures NoDup(page) && forall id :: id in page ==> id in queue
      ensures queue.Keys == old(queue).Keys
      ensures running == old(running) && now == old(now) && processed == old(processed)
    {
      ghost var s := Snap();
      ok, page := Receive(env);
      if ok {
        ProgressedLease(s, s0, handledAt, stopTime, queue, page, now + LEASE);
        assert Snap() == s.(queue := queue);
      }
    }

    /** The `for` statement's step to the next message: the current page's
        next one, or the first of a freshly fetched page when the current
        one is used up. `Got` is false when the fetch failed or brought an
        empty page. */
    method NextMessage(page: seq<string>, k: nat, env: Services, stopTime: int, ghost s0: Snapshot,
                       ghost handledAt: seq<int>)
      returns (queueError: bool, got: bool, page': seq<string>, k': nat)
      requires k <= |page| && NoDup(page) && forall j :: k <= j < |page| ==> page[j] in queue
      requires Progressed(Snap(), s0, handledAt, stopTime)
      modifies this
      ensures Progressed(Snap(), s0, handledAt, stopTime)
      ensures got ==> !queueError && k' < |page'| && NoDup(page')
                      && forall j :: k' <= j < |page'| ==> page'[j] in queue
      ensures !got ==> page' == page && k' == k
      ensures queue.Keys == old(queue).Keys
      ensures running == old(running) && now == old(now) && processed == old(processed)
    {
      queueError, got, page', k' := false, true, page, k;
      if k == |page| {
        var ok, next := NextPage(env, stopTime, s0, handledAt);
        if !ok {
          return true, false, page, k;
        }
        if next == [] {
          return false, false, page, k;
        }
        page', k' := next, 0;
      }
    }

    /** The loop body for the next message: step to it, notice the
        signal, handle it and pause. `stop` says the pass ended (failed or
        empty fetch, or the signal) before a message was taken up. */
    method Advance(page: seq<string>, k: nat, env: Services, stopTime: int, ghost s0: Snapshot,
                   ghost handledAt: seq<int>)
      returns (stop: bool, queueError: bool, success: bool, page': seq<string>, k': nat,
               ghost handledAt': seq<int>)
      requires k <= |page| && NoDup(page) && forall j :: k <= j < |page| ==> page[j] in queue
      requires Progressed(Snap(), s0, handledAt, stopTime)
      requires running
      modifies this
      ensures k' <= |page'| && NoDup(page') && forall j :: k' <= j < |page'| ==> page'[j] in queue
      ensures Progressed(Snap(), s0, handledAt', stopTime)
      ensures stop ==> now == old(now) && !success && (!running ==> now >= stopTime)
      ensures !stop ==> running && old(now) < stopTime && now == old(now) + MESSAGE_PAUSE
      ensures processed == old(processed) + (if success then 1 else 0)
    {
      var got;
      success := false;
      handledAt' := handledAt;
      queueError, got, page', k' := NextMessage(page, k, env, stopTime, s0, handledAt);
      if !got {
        return true, queueError, false, page', k', handledAt';
      }
      NoteSignal(stopTime);
      if !running {
        return true, false, false, page', k', handledAt';
      }
      var id := page'[k'];
      var t := now;
      success := Step(id, env, stopTime, s0, handledAt);
      forall j | k' < j < |page'|
        ensures page'[j] in queue
      {
        assert page'[j] != id;
      }
      handledAt' := handledAt + [t];
      stop, k' := false, k' + 1;
    }

    /** One pass of `for message in messages`: the next page is fetched
        when the current one is used up, an empty page ends the pass, a
        failed fetch ends it with a queue error, and a noticed signal ends
        it before the next message. Returns how many jobs were completed,
        which is how far `processed` rose; the clock has moved on if any
        was. */
    method Drain(stopTime: int, env: Services, ghost s0: Snapshot, ghost handled: seq<int>)
      returns (queueError: bool, batchCount: nat, ghost handledAt: seq<int>)
      requires running && now < stopTime
      requires Progressed(Snap(), s0, handled, stopTime)
      modifies this
      ensures Progressed(Snap(), s0, handledAt, stopTime)
      ensures old(now) <= now && (batchCount > 0 ==> old(now) < now)
      ensures batchCount == processed - old(processed)
      ensures !running ==> now >= stopTime
    {
      handledAt := handled;
      queueError, batchCount := false, 0;
      var page: seq<string> := [];
      var k: nat := 0;
      while true
        invariant k <= |page| && NoDup(page) && forall j :: k <= j < |page| ==> page[j] in queue
        invariant Progressed(Snap(), s0, handledAt, stopTime)
        invariant running
        invariant old(now) <= now && (batchCount > 0 ==> old(now) < now)
        invariant batchCount == processed - old(processed)
        decreases Left(now, stopTime)
      {
        var stop, success;
        stop, queueError, success, page, k, handledAt := Advance(page, k, env, stopTime, s0, handledAt);
        if stop {
          break;
        }
        if success {
          batchCount := batchCount + 1;
        }
      }
    }

    /** One pass of `while self.running`: drain the messages, then pause
        before polling again: `ERROR_PAUSE` after a queue error,
        `EMPTY_PAUSE` when no job was completed, none otherwise. `Drained`
        is the clock when the messages ran out. */
    method Pass(stopTime: int, env: Services, ghost s0: Snapshot, ghost handled: seq<int>)
      returns (queueError: bool, ghost drained: int, ghost handledAt: seq<int>)
      requires running && now < stopTime
      requires Progressed(Snap(), s0, handled, stopTime)
      modifies this
      ensures Progressed(Snap(), s0, handledAt, stopTime)
      ensures old(now) <= drained && (processed > old(processed) ==> old(now) < drained)
      ensures processed >= old(processed)
      ensures now == drained + (if queueError then ERROR_PAUSE
                                else if processed == old(processed) then EMPTY_PAUSE
                                else 0)
      ensures !running ==> drained >= stopTime
    {
      var batchCount;
      queueError, batchCount, handledAt := Drain(stopTime, env, s0, handled);
      drained := now;
      if queueError {
        now := now + ERROR_PAUSE;
      } else if batchCount == 0 {
        now := now + EMPTY_PAUSE;
      }
    }

    /** `run`, from its start until the termination signal, due at
        `stopTime`, has been noticed. Returns the times at which a message
        was taken up. */
    method Run(stopTime: int, env: Services) returns (ghost handledAt: seq<int>)
      modifies this
      ensures !running && (old(running) ==> now >= stopTime)
      ensures forall t :: t in handledAt ==> old(now) <= t < stopTime
      ensures processed + errors == old(processed) + old(errors) + |handledAt|
      ensures queue.Keys <= old(queue).Keys
      ensures forall id :: id in queue ==> queue[id].content == old(queue)[id].content
      ensures processed == old(processed) + |old(queue).Keys - queue.Keys|
      ensures forall id :: id in old(queue) && id !in queue ==> Stored(old(queue)[id].content, blobs)
      ensures old(blobs).Keys <= blobs.Keys
    {
      handledAt := [];
      ghost var s0, r0 := Snap(), running;
      assert s0.queue.Keys - queue.Keys == {};
      NoteSignal(stopTime);
      while running
        invariant Progressed(Snap(), s0, handledAt, stopTime)
        invariant running ==> now < stopTime
        invariant r0 && !running ==> now >= stopTime
        decreases Left(now, stopTime)
      {
        var queueError;
        ghost var drained;
        queueError, drained, handledAt := Pass(stopTime, env, s0, handledAt);
        NoteSignal(stopTime);
      }
    }
  }
}

=== FILE: youtube.dfy ===
/** The simple YouTube tutorial scraper: a yt-dlp search filtered by views,
    sorted and cut; the transcript of a video; the record built for a video;
    the scrape over several queries that processes each video id once and
    keeps only videos with a transcript; and the exported analysis of the
    scraped videos. yt-dlp's output and the transcript service are inputs. */
module YouTube {
  import opened Common
  import opened Text
  import opened Sorting

  // ---- search ----

  /** One line of yt-dlp's `--dump-json` output, as `dict.get` sees it. */
  datatype VideoEntry = VideoEntry(id: Field<string>, title: Field<string>, channel: Field<string>,
                                   uploader: Field<string>, durationString: Field<string>,
                                   uploadDate: Field<string>, description: Field<string>,
                                   viewCount: Field<int>)

  /** A line of output: empty, not JSON, JSON that is not an object (whose
      `.get` raises), or an object. */
  datatype Line = Blank | NotJson | NotObject | Object(entry: VideoEntry)

  /** Running yt-dlp: the subprocess timeout (its length is the caller's:
      60 seconds here, 120 in the bulk scraper and the job queuer), any other
      failure, or the lines it printed. */
  datatype SearchOutcome = TimedOut | Failed | Output(lines: seq<Line>)

  /** `f"ytsearch{max_results * 2}:{query}"`. */
  function SearchTarget(query: string, maxResults: int): string
  {
    "ytsearch" + IntToString(2 * maxResults) + ":" + query
  }

  /** The target asks for twice `maxResults` candidates: the count reads back
      as `2 * maxResults` and holds no ':', so the first ':' ends it. */
  lemma SearchTargetCount(query: string, maxResults: int)
    ensures exists count :: SearchTarget(query, maxResults) == "ytsearch" + count + ":" + query
                            && ':' !in count && ParseInt(count) == Some(2 * maxResults)
  {
    var count := IntToString(2 * maxResults);
    IntRoundTrip(2 * maxResults);
    if 2 * maxResults < 0 {
      assert count == "-" + NatToString(-2 * maxResults);
      assert forall i :: 1 <= i < |count| ==> count[i] == NatToString(-2 * maxResults)[i - 1];
    }
    assert forall i :: 0 <= i < |count| ==> count[i] != ':';
  }

  /** `data.get("view_count", 0)` for a video whose count is not null. */
  function ViewsOf(e: VideoEntry): int
  {
    match e.viewCount
    case Present(v) => v
    case _ => 0
  }

  /** A line on which the loop raises outside its `JSONDecodeError` handler:
      `.get` on a non-object, or `None >= min_views` on a null count. */
  predicate Aborts(l: Line)
  {
    l.NotObject? || (l.Object? && l.entry.viewCount.Null?)
  }

  predicate AbortsIn(lines: seq<Line>)
  {
    exists i :: 0 <= i < |lines| && Aborts(lines[i])
  }

  /** The objects with at least `minViews` views, in output order. */
  function Kept(lines: seq<Line>, minViews: int): (r: seq<VideoEntry>)
    ensures |r| <= |lines|
  {
    if lines == [] then []
    else
      var last := lines[|lines| - 1];
      Kept(lines[..|lines| - 1], minViews)
        + if last.Object? && ViewsOf(last.entry) >= minViews then [last.entry] else []
  }

  lemma {:induction false} KeptSpec(lines: seq<Line>, minViews: int)
    ensures forall e :: e in Kept(lines, minViews) <==> Object(e) in lines && ViewsOf(e) >= minViews
  {
    if lines != [] {
      var init := lines[..|lines| - 1];
      KeptSpec(init, minViews);
      assert lines == init + [lines[|lines| - 1]];
    }
  }

  /** One more line of the output: kept when it is an object with enough
      views; the loop aborts from here exactly when it aborts on that line or
      did before. */
  lemma KeptStep(lines: seq<Line>, i: nat, minViews: int)
    requires i < |lines|
    ensures Kept(lines[..i + 1], minViews) == Kept(lines[..i], minViews)
      + if lines[i].Object? && ViewsOf(lines[i].entry) >= minViews then [lines[i].entry] else []
    ensures AbortsIn(lines[..i + 1]) <==> AbortsIn(lines[..i]) || Aborts(lines[i])
  {
    assert lines[..i + 1][..i] == lines[..i];
    assert lines[..i + 1][i] == lines[i];
    assert forall k :: 0 <= k < i ==> lines[..i + 1][k] == lines[..i][k];
  }

  /** `search_videos`: nothing when yt-dlp fails or a line aborts the loop;
      otherwise the kept objects, stably sorted by descending views and cut
      to `maxResults`. */
  function SearchResult(outcome: SearchOutcome, maxResults: int, minViews: int): seq<VideoEntry>
  {
    if !outcome.Output? || AbortsIn(outcome.lines) then []
    else Prefix(SortDesc(Kept(outcome.lines, minViews), ViewsOf), maxResults)
  }

  /** Exactly `min(maxResults, |kept|)` of the kept videos, each printed by
      yt-dlp with a non-null count of at least `minViews`, by descending
      views; all of them when they fit; none left out has more views than
      one returned; nothing at all on a timeout, a failure or an aborting
      line. */
  lemma SearchResultSpec(outcome: SearchOutcome, maxResults: int, minViews: int)
    ensures !outcome.Output? ==> SearchResult(outcome, maxResults, minViews) == []
    ensures outcome.Output? && AbortsIn(outcome.lines) ==> SearchResult(outcome, maxResults, minViews) == []
    ensures 0 <= maxResults ==> |SearchResult(outcome, maxResults, minViews)| <= maxResults
    ensures forall e :: e in SearchResult(outcome, maxResults, minViews) ==>
      outcome.Output? && Object(e) in outcome.lines && !e.viewCount.Null? && ViewsOf(e) >= minViews
    ensures SortedDesc(SearchResult(outcome, maxResults, minViews), ViewsOf)
    ensures outcome.Output? && !AbortsIn(outcome.lines) ==>
      multiset(SearchResult(outcome, maxResults, minViews)) <= multiset(Kept(outcome.lines, minViews))
    ensures outcome.Output? && !AbortsIn(outcome.lines) && 0 <= maxResults ==>
      |SearchResult(outcome, maxResults, minViews)|
      == if |Kept(outcome.lines, minViews)| <= maxResults then |Kept(outcome.lines, minViews)| else maxResults
    ensures outcome.Output? && !AbortsIn(outcome.lines) && |Kept(outcome.lines, minViews)| <= maxResults ==>
      multiset(SearchResult(outcome, maxResults, minViews)) == multiset(Kept(outcome.lines, minViews))
    ensures forall e, i :: outcome.Output? && !AbortsIn(outcome.lines) && e in Kept(outcome.lines, minViews)
                           && e !in SearchResult(outcome, maxResults, minViews)
                           && 0 <= i < |SearchResult(outcome, maxResults, minViews)| ==>
      ViewsOf(e) <= ViewsOf(SearchResult(outcome, maxResults, minViews)[i])
  {
    if outcome.Output? && !AbortsIn(outcome.lines) {
      var kept := Kept(outcome.lines, minViews);
      SortedPrefixSpec(kept, ViewsOf, maxResults);
      KeptSpec(outcome.lines, minViews);
      forall e | e in SearchResult(outcome, maxResults, minViews) ensures !e.viewCount.Null? {
        var i :| 0 <= i < |outcome.lines| && outcome.lines[i] == Object(e);
        assert !Aborts(outcome.lines[i]);
      }
    }
  }

  // ---- transcript ----

  datatype Segment = Segment(text: string, start: real, duration: real)

  /** What the transcript service returns for a video id. */
  datatype TranscriptFetch = Fetched(segments: seq<Segment>)
                           | TranscriptsDisabled | NoTranscriptFound | FetchError(message: string)

  function Texts(segments: seq<Segment>): (r: seq<string>)
    ensures |r| == |segments| && forall i :: 0 <= i < |segments| ==> r[i] == segments[i].text
  {
    seq(|segments|, i requires 0 <= i < |segments| => segments[i].text)
  }

  /** `get_transcript`: the segment texts joined by blanks, bracketed notes
      removed, whitespace collapsed, and the segments themselves; "" and no
      segments when the service has nothing. */
  function TranscriptOf(fetch: TranscriptFetch): (r: (string, seq<Segment>))
    ensures Canonical(r.0)
    ensures fetch.Fetched? ==> r.1 == fetch.segments
                               && NonSpace(r.0) == NonSpace(RemoveBracketed(JoinSpace(Texts(fetch.segments))))
    ensures !fetch.Fetched? ==> r.0 == "" && r.1 == []
  {
    if fetch.Fetched? then (CleanTranscript(Texts(fetch.segments)), fetch.segments) else ("", [])
  }

  /** The `(text, error)` pair that the bulk scraper's and the queue
      worker's `get_transcript` return: the cleaned text and no error; "" and
      "no_transcript" when the video has no transcript; "" and the first
      `errorLength` characters of the message of any other failure. */
  function TranscriptAndError(fetch: TranscriptFetch, errorLength: nat): (string, string)
  {
    match fetch
    case Fetched(_) => (TranscriptOf(fetch).0, "")
    case FetchError(m) => ("", Prefix(m, errorLength))
    case _ => ("", "no_transcript")
  }

  lemma TranscriptAndErrorSpec(fetch: TranscriptFetch, errorLength: nat)
    ensures var r := TranscriptAndError(fetch, errorLength);
            Canonical(r.0)
            && (fetch.Fetched? ==> r.1 == "" && r.0 == TranscriptOf(fetch).0)
            && ((fetch.TranscriptsDisabled? || fetch.NoTranscriptFound?) ==> r == ("", "no_transcript"))
            && (fetch.FetchError? ==>
                  r.0 == "" && |r.1| <= errorLength && StartsWith(fetch.message, r.1)
                  && |r.1| == (if |fetch.message| <= errorLength then |fetch.message| else errorLength)
                  && (|fetch.message| <= errorLength ==> r.1 == fetch.message))
  {
  }

  // ---- one video ----

  /** A scraped video; a null channel, duration or upload date in yt-dlp's
      output is kept as `None`. */
  datatype YouTubeVideo = YouTubeVideo(id: string, title: string, channel: Option<string>, views: int,
                                       duration: Option<string>, uploadDate: Option<string>,
                                       description: string, url: string,
                                       transcript: string, segments: seq<Segment>)

  /** `scrape_video`: no id gives nothing; a null title raises when its first
      50 characters are printed; otherwise the video record. */
  datatype Scraped = NoId | TitleNull | Video(video: YouTubeVideo)

  const DESCRIPTION_LENGTH: nat := 500

  /** `video_data.get("channel", video_data.get("uploader", ""))`. */
  function ChannelOf(e: VideoEntry): Option<string>
  {
    if e.channel.Absent? then GetOr(e.uploader, "") else GetOr(e.channel, "")
  }

  function ScrapeVideo(e: VideoEntry, fetch: string -> TranscriptFetch): Scraped
  {
    var id := StrOr(e.id, "");
    if id == "" then NoId
    else if e.title.Null? then TitleNull
    else
      var (transcript, segments) := TranscriptOf(fetch(id));
      var description := Prefix(StrOr(e.description, ""), DESCRIPTION_LENGTH);
      Video(YouTubeVideo(id, GetOr(e.title, "").value, ChannelOf(e), ViewsOf(e),
                         GetOr(e.durationString, ""), GetOr(e.uploadDate, ""),
                         description, WatchUrl(id), transcript, segments))
  }

  /** A video exactly when the id is a non-empty string and the title is not
      null; its id is that id, its url the watch url of the id, its
      description the first 500 characters of the description ("" when
      missing or null), its views the view count (0 when missing), its
      channel the uploader when the channel is missing, and its transcript
      the cleaned transcript of the id. */
  lemma ScrapeVideoSpec(e: VideoEntry, fetch: string -> TranscriptFetch)
    ensures ScrapeVideo(e, fetch).NoId? <==> StrOr(e.id, "") == ""
    ensures ScrapeVideo(e, fetch).TitleNull? <==> StrOr(e.id, "") != "" && e.title.Null?
    ensures ScrapeVideo(e, fetch).Video? ==>
      var v := ScrapeVideo(e, fetch).video;
      e.id == Present(v.id) && v.id != ""
      && StartsWith(v.url, WATCH_URL_PREFIX) && v.url[|WATCH_URL_PREFIX|..] == v.id
      && |v.description| <= DESCRIPTION_LENGTH
      && StartsWith(StrOr(e.description, ""), v.description)
      && |v.description| == (if |StrOr(e.description, "")| <= DESCRIPTION_LENGTH
                             then |StrOr(e.description, "")| else DESCRIPTION_LENGTH)
      && (|StrOr(e.description, "")| <= DESCRIPTION_LENGTH ==> v.description == StrOr(e.description, ""))
      && v.views == ViewsOf(e)
      && (e.channel.Absent? ==> v.channel == GetOr(e.uploader, ""))
      && (e.title.Absent? ==> v.title == "")
      && (v.transcript, v.segments) == TranscriptOf(fetch(v.id))
      && Canonical(v.transcript)
  {
  }

  /** `search_videos`: runs yt-dlp on the search target (its outcome is
      `search(target)`), keeps the objects with enough views line by line,
      then sorts and cuts. */
  method SearchVideos(query: string, maxResults: int, minViews: int, search: string -> SearchOutcome)
    returns (r: seq<VideoEntry>)
    ensures r == SearchResult(search(SearchTarget(query, maxResults)), maxResults, minViews)
  {
    var outcome := search(SearchTarget(query, maxResults));
    if !outcome.Output? {
      return [];
    }
    var lines := outcome.lines;
    var videos: seq<VideoEntry> := [];
    for i := 0 to |lines|
      invariant videos == Kept(lines[..i], minViews)
      invariant !AbortsIn(lines[..i])
    {
      KeptStep(lines, i, minViews);
      if Aborts(lines[i]) {
        return [];
      }
      if lines[i].Object? && ViewsOf(lines[i].entry) >= minViews {
        videos := videos + [lines[i].entry];
      }
    }
    assert lines[..|lines|] == lines;
    r := Prefix(SortDesc(videos, ViewsOf), maxResults);
  }

  // ---- the scrape loop ----

  /** `video_data.get("id", "")`, the key of the seen set; `None` is a JSON
      null. */
  function IdKey(e: VideoEntry): Option<string>
  {
    GetOr(e.id, "")
  }

  /** The candidates of every query, in order: the search results of the
      first query, then those of the rest. */
  function Candidates(queries: seq<string>, maxPerQuery: int, minViews: int,
                      search: string -> SearchOutcome): seq<VideoEntry>
  {
    if queries == [] then []
    else SearchResult(search(SearchTarget(queries[0], maxPerQuery)), maxPerQuery, minViews)
         + Candidates(queries[1..], maxPerQuery, minViews, search)
  }

  /** Where a run of the scrape loop ends: the videos kept, the keys added to
      the seen set in order, and whether `scrape_video` raised. */
  datatype Progress = Progress(videos: seq<YouTubeVideo>, processed: seq<Option<string>>, crashed: bool)

  /** `a` followed by `b`. */
  function Then(a: Progress, b: Progress): Progress
  {
    Progress(a.videos + b.videos, a.processed + b.processed, b.crashed)
  }

  /** The inner loop of `scrape` over `cands` with seen set `seen`: a seen key
      is skipped; otherwise it is marked seen, the video is scraped, and kept
      when its transcript is non-empty; a null title ends the run. */
  function Run(cands: seq<VideoEntry>, seen: set<Option<string>>, fetch: string -> TranscriptFetch): Progress
    decreases |cands|
  {
    if cands == [] then Progress([], [], false)
    else
      var k := IdKey(cands[0]);
      if k in seen then Run(cands[1..], seen, fetch)
      else
        match ScrapeVideo(cands[0], fetch)
        case TitleNull => Progress([], [k], true)
        case NoId => Then(Progress([], [k], false), Run(cands[1..], seen + {k}, fetch))
        case Video(v) =>
          Then(Progress(if v.transcript != "" then [v] else [], [k], false), Run(cands[1..], seen + {k}, fetch))
  }

  function Ids(videos: seq<YouTubeVideo>): (r: seq<string>)
    ensures |r| == |videos| && forall i :: 0 <= i < |videos| ==> r[i] == videos[i].id
  {
    seq(|videos|, i requires 0 <= i < |videos| => videos[i].id)
  }

  /** Candidate `i` is the first one with its key, and that key was not seen
      before the run. */
  predicate FirstFresh(cands: seq<VideoEntry>, seen: set<Option<string>>, i: int)
  {
    0 <= i < |cands| && IdKey(cands[i]) !in seen
    && forall j :: 0 <= j < i ==> IdKey(cands[j]) != IdKey(cands[i])
  }

  lemma FirstFreshShift(cands: seq<VideoEntry>, seen: set<Option<string>>, k: Option<string>, i: int)
    requires cands != [] && k == IdKey(cands[0])
    requires FirstFresh(cands[1..], seen + {k}, i) || (k in seen && FirstFresh(cands[1..], seen, i))
    ensures FirstFresh(cands, seen, i + 1)
  {
    assert cands[i + 1] == cands[1..][i];
    forall j | 0 <= j < i + 1 ensures IdKey(cands[j]) != IdKey(cands[i + 1]) {
      if j > 0 {
        assert cands[j] == cands[1..][j - 1];
      }
    }
  }

  /** No key is processed twice, and none that was already seen; every
      video returned was processed under its own id. */
  lemma {:induction false} RunDistinct(cands: seq<VideoEntry>, seen: set<Option<string>>,
                                       fetch: string -> TranscriptFetch)
    ensures NoDup(Run(cands, seen, fetch).processed)
    ensures forall k :: k in Run(cands, seen, fetch).processed ==> k !in seen
    ensures forall v :: v in Run(cands, seen, fetch).videos ==> Some(v.id) in Run(cands, seen, fetch).processed
    decreases |cands|
  {
    if cands != [] {
      var k := IdKey(cands[0]);
      if k in seen {
        RunDistinct(cands[1..], seen, fetch);
      } else {
        RunDistinct(cands[1..], seen + {k}, fetch);
        var rest := Run(cands[1..], seen + {k}, fetch);
        var r := Run(cands, seen, fetch);
        if !ScrapeVideo(cands[0], fetch).TitleNull? {
          assert r.processed == [k] + rest.processed;
          ConsNoDup(k, rest.processed);
        }
      }
    }
  }

  lemma ConsNoDup<T>(x: T, s: seq<T>)
    requires NoDup(s) && x !in s
    ensures NoDup([x] + s)
  {
    forall i, j | 0 <= i < j < |[x] + s| ensures ([x] + s)[i] != ([x] + s)[j] {
      assert ([x] + s)[j] == s[j - 1];
    }
  }

  /** No video id is returned twice, and none that was already seen. */
  lemma {:induction false} RunIdsDistinct(cands: seq<VideoEntry>, seen: set<Option<string>>,
                                          fetch: string -> TranscriptFetch)
    ensures NoDup(Ids(Run(cands, seen, fetch).videos))
    ensures forall v :: v in Run(cands, seen, fetch).videos ==> Some(v.id) !in seen
    decreases |cands|
  {
    if cands != [] {
      var k := IdKey(cands[0]);
      if k in seen {
        RunIdsDistinct(cands[1..], seen, fetch);
      } else {
        RunIdsDistinct(cands[1..], seen + {k}, fetch);
        var rest := Run(cands[1..], seen + {k}, fetch);
        var r := Run(cands, seen, fetch);
        match ScrapeVideo(cands[0], fetch) {
          case TitleNull =>
            assert r.videos == [];
          case NoId =>
            assert r.videos == [] + rest.videos;
          case Video(v) =>
            assert k == Some(v.id);
            if v.transcript != "" {
              assert r.videos == [v] + rest.videos;
              KeptFirstDistinct(v, rest.videos, seen);
            } else {
              assert r.videos == [] + rest.videos;
            }
        }
      }
    }
  }

  /** A video with a fresh id in front of distinct videos that avoid it
      and the seen ids keeps them distinct and unseen. */
  lemma KeptFirstDistinct(v: YouTubeVideo, rest: seq<YouTubeVideo>, seen: set<Option<string>>)
    requires Some(v.id) !in seen
    requires NoDup(Ids(rest)) && forall w :: w in rest ==> Some(w.id) !in seen + {Some(v.id)}
    ensures NoDup(Ids([v] + rest)) && forall w :: w in [v] + rest ==> Some(w.id) !in seen
  {
    assert Ids([v] + rest) == [v.id] + Ids(rest);
    ConsNoDup(v.id, Ids(rest));
  }

  /** Every video returned has a transcript, and is the record of the first
      candidate with its id. */
  lemma {:induction false} RunSound(cands: seq<VideoEntry>, seen: set<Option<string>>,
                                    fetch: string -> TranscriptFetch)
    ensures forall v :: v in Run(cands, seen, fetch).videos ==>
      v.transcript != "" && exists i :: FirstFresh(cands, seen, i) && ScrapeVideo(cands[i], fetch) == Video(v)
    decreases |cands|
  {
    if cands != [] {
      var k := IdKey(cands[0]);
      var r := Run(cands, seen, fetch);
      if k in seen {
        RunSound(cands[1..], seen, fetch);
        forall v | v in r.videos
          ensures exists i :: FirstFresh(cands, seen, i) && ScrapeVideo(cands[i], fetch) == Video(v)
        {
          var i :| FirstFresh(cands[1..], seen, i) && ScrapeVideo(cands[1..][i], fetch) == Video(v);
          FirstFreshShift(cands, seen, k, i);
          assert cands[i + 1] == cands[1..][i];
        }
      } else {
        RunSound(cands[1..], seen + {k}, fetch);
        var rest := Run(cands[1..], seen + {k}, fetch);
        if !ScrapeVideo(cands[0], fetch).TitleNull? {
          assert FirstFresh(cands, seen, 0);
          assert forall v :: v in r.videos ==> v in rest.videos || ScrapeVideo(cands[0], fetch) == Video(v);
          forall v | v in rest.videos
            ensures exists i :: FirstFresh(cands, seen, i) && ScrapeVideo(cands[i], fetch) == Video(v)
          {
            var i :| FirstFresh(cands[1..], seen + {k}, i) && ScrapeVideo(cands[1..][i], fetch) == Video(v);
            FirstFreshShift(cands, seen, k, i);
            assert cands[i + 1] == cands[1..][i];
          }
        }
      }
    }
  }

  /** A run that did not raise marked every unseen key as seen, whether or
      not its video had a transcript, and kept the video of every first
      candidate of an id that has a transcript. */
  lemma {:induction false} RunComplete(cands: seq<VideoEntry>, seen: set<Option<string>>,
                                       fetch: string -> TranscriptFetch)
    ensures !Run(cands, seen, fetch).crashed ==>
      forall i :: 0 <= i < |cands| && IdKey(cands[i]) !in seen ==> IdKey(cands[i]) in Run(cands, seen, fetch).processed
    ensures !Run(cands, seen, fetch).crashed ==>
      forall i :: FirstFresh(cands, seen, i) && ScrapeVideo(cands[i], fetch).Video?
                  && ScrapeVideo(cands[i], fetch).video.transcript != ""
                  ==> ScrapeVideo(cands[i], fetch).video in Run(cands, seen, fetch).videos
    decreases |cands|
  {
    if cands != [] {
      var k := IdKey(cands[0]);
      var r := Run(cands, seen, fetch);
      var seen' := if k in seen then seen else seen + {k};
      RunComplete(cands[1..], seen', fetch);
      var rest := Run(cands[1..], seen', fetch);
      if !r.crashed {
        assert !rest.crashed;
        assert forall x :: x in rest.processed ==> x in r.processed;
        assert forall v :: v in rest.videos ==> v in r.videos;
        forall i | 0 < i < |cands| && IdKey(cands[i]) !in seen ensures IdKey(cands[i]) in r.processed {
          assert cands[i] == cands[1..][i - 1];
        }
        forall i | FirstFresh(cands, seen, i) && i > 0
          ensures FirstFresh(cands[1..], seen', i - 1)
        {
          assert cands[i] == cands[1..][i - 1];
          forall j | 0 <= j < i - 1 ensures IdKey(cands[1..][j]) != IdKey(cands[1..][i - 1]) {
            assert cands[1..][j] == cands[j + 1];
          }
        }
      }
    }
  }

  /** A run raises exactly when the first candidate of some unseen id has a
      null title. */
  lemma {:induction false} RunCrash(cands: seq<VideoEntry>, seen: set<Option<string>>,
                                    fetch: string -> TranscriptFetch)
    ensures Run(cands, seen, fetch).crashed <==>
      exists i :: FirstFresh(cands, seen, i) && ScrapeVideo(cands[i], fetch).TitleNull?
    decreases |cands|
  {
    if cands != [] {
      var k := IdKey(cands[0]);
      var seen' := if k in seen then seen else seen + {k};
      RunCrash(cands[1..], seen', fetch);
      if Run(cands, seen, fetch).crashed && !(k !in seen && ScrapeVideo(cands[0], fetch).TitleNull?) {
        var i :| FirstFresh(cands[1..], seen', i) && ScrapeVideo(cands[1..][i], fetch).TitleNull?;
        FirstFreshShift(cands, seen, k, i);
        assert cands[i + 1] == cands[1..][i];
      }
      if exists i :: FirstFresh(cands, seen, i) && ScrapeVideo(cands[i], fetch).TitleNull? {
        var i :| FirstFresh(cands, seen, i) && ScrapeVideo(cands[i], fetch).TitleNull?;
        if i > 0 && !(k !in seen && ScrapeVideo(cands[0], fetch).TitleNull?) {
          assert cands[i] == cands[1..][i - 1];
          forall j | 0 <= j < i - 1 ensures IdKey(cands[1..][j]) != IdKey(cands[1..][i - 1]) {
            assert cands[1..][j] == cands[j + 1];
          }
          assert FirstFresh(cands[1..], seen', i - 1);
        }
      }
    }
  }

  // One step of the loop: the state so far followed by the run over `cands`
  // equals the state one candidate further followed by the run over the rest.

  /** A seen key is skipped. */
  lemma RunSkip(videos: seq<YouTubeVideo>, processed: seq<Option<string>>, cands: seq<VideoEntry>,
                seen: set<Option<string>>, fetch: string -> TranscriptFetch)
    requires cands != [] && IdKey(cands[0]) in seen
    ensures Then(Progress(videos, processed, false), Run(cands, seen, fetch))
            == Then(Progress(videos, processed, false), Run(cands[1..], seen, fetch))
  {
  }

  /** A null title ends the run with the videos kept so far. */
  lemma RunStop(videos: seq<YouTubeVideo>, processed: seq<Option<string>>, cands: seq<VideoEntry>,
                seen: set<Option<string>>, fetch: string -> TranscriptFetch)
    requires cands != [] && IdKey(cands[0]) !in seen && ScrapeVideo(cands[0], fetch).TitleNull?
    ensures Then(Progress(videos, processed, false), Run(cands, seen, fetch))
            == Progress(videos, processed + [IdKey(cands[0])], true)
  {
    assert videos + [] == videos;
  }

  /** A fresh key is marked seen; the video is kept when it has a
      transcript. */
  lemma RunStep(videos: seq<YouTubeVideo>, processed: seq<Option<string>>, cands: seq<VideoEntry>,
                seen: set<Option<string>>, fetch: string -> TranscriptFetch, kept: seq<YouTubeVideo>)
    requires cands != [] && IdKey(cands[0]) !in seen && !ScrapeVideo(cands[0], fetch).TitleNull?
    requires kept == match ScrapeVideo(cands[0], fetch)
                     case Video(v) => if v.transcript != "" then [v] else []
                     case _ => []
    ensures Then(Progress(videos, processed, false), Run(cands, seen, fetch))
            == Then(Progress(videos + kept, processed + [IdKey(cands[0])], false),
                    Run(cands[1..], seen + {IdKey(cands[0])}, fetch))
  {
    var k := IdKey(cands[0]);
    var rest := Run(cands[1..], seen + {k}, fetch);
    assert Run(cands, seen, fetch) == Then(Progress(kept, [k], false), rest);
    assert videos + (kept + rest.videos) == (videos + kept) + rest.videos;
    assert processed + ([k] + rest.processed) == (processed + [k]) + rest.processed;
    assert Then(Progress(videos, processed, false), Run(cands, seen, fetch))
        == Progress((videos + kept) + rest.videos, (processed + [k]) + rest.processed, rest.crashed);
  }

  // ---- saved files ----

  /** `<category>/<id>.json` under the data directory, for the default
      category "tutorials". */
  function SavePath(id: string): string
  {
    "tutorials/" + id + ".json"
  }

  lemma SavePathInjective(a: string, b: string)
    requires SavePath(a) == SavePath(b)
    ensures a == b
  {
    assert |a| == |b|;
    assert SavePath(a)[10..10 + |a|] == a;
    assert SavePath(b)[10..10 + |b|] == b;
  }

  /** The files after saving `videos` in order. */
  function SaveAll(files: map<string, YouTubeVideo>, videos: seq<YouTubeVideo>): map<string, YouTubeVideo>
  {
    if videos == [] then files
    else
      var last := videos[|videos| - 1];
      SaveAll(files, videos[..|videos| - 1])[SavePath(last.id) := last]
  }

  lemma SaveAllSnoc(files: map<string, YouTubeVideo>, videos: seq<YouTubeVideo>, v: YouTubeVideo)
    ensures SaveAll(files, videos + [v]) == SaveAll(files, videos)[SavePath(v.id) := v]
  {
    assert (videos + [v])[..|videos|] == videos;
  }

  /** After saving videos with distinct ids, each is stored under its own
      path, and every other file is as before. */
  lemma {:induction false} SaveAllSpec(files: map<string, YouTubeVideo>, videos: seq<YouTubeVideo>)
    requires NoDup(Ids(videos))
    ensures forall v :: v in videos ==> SavePath(v.id) in SaveAll(files, videos) && SaveAll(files, videos)[SavePath(v.id)] == v
    ensures forall p :: (forall v :: v in videos ==> p != SavePath(v.id)) ==>
      (p in SaveAll(files, videos) <==> p in files) && (p in files ==> SaveAll(files, videos)[p] == files[p])
  {
    if videos != [] {
      var init, last := videos[..|videos| - 1], videos[|videos| - 1];
      LastPathFresh(videos);
      SaveAllSpec(files, init);
      assert videos == init + [last];
      SaveStep(SaveAll(files, init), files, init, last);
    }
  }

  /** In videos with distinct ids, the ones before the last are distinct
      too, and none is saved at the last one's path. */
  lemma LastPathFresh(videos: seq<YouTubeVideo>)
    requires videos != [] && NoDup(Ids(videos))
    ensures NoDup(Ids(videos[..|videos| - 1]))
    ensures forall v :: v in videos[..|videos| - 1] ==> SavePath(v.id) != SavePath(videos[|videos| - 1].id)
  {
    var init, last := videos[..|videos| - 1], videos[|videos| - 1];
    assert forall i :: 0 <= i < |init| ==> Ids(init)[i] == Ids(videos)[i];
    forall v | v in init ensures SavePath(v.id) != SavePath(last.id) {
      var i :| 0 <= i < |init| && init[i] == v;
      assert Ids(videos)[i] != Ids(videos)[|videos| - 1];
      if SavePath(v.id) == SavePath(last.id) {
        SavePathInjective(v.id, last.id);
      }
    }
  }

  /** Saving one more video, at a path none of the earlier ones uses, keeps
      every earlier video and every untouched file. */
  lemma SaveStep(m: map<string, YouTubeVideo>, files: map<string, YouTubeVideo>, init: seq<YouTubeVideo>,
                 last: YouTubeVideo)
    requires forall v :: v in init ==> SavePath(v.id) in m && m[SavePath(v.id)] == v
    requires forall p :: (forall v :: v in init ==> p != SavePath(v.id)) ==>
      (p in m <==> p in files) && (p in files ==> m[p] == files[p])
    requires forall v :: v in init ==> SavePath(v.id) != SavePath(last.id)
    ensures forall v :: v in init + [last] ==>
      SavePath(v.id) in m[SavePath(last.id) := last] && m[SavePath(last.id) := last][SavePath(v.id)] == v
    ensures forall p :: (forall v :: v in init + [last] ==> p != SavePath(v.id)) ==>
      (p in m[SavePath(last.id) := last] <==> p in files) && (p in files ==> m[SavePath(last.id) := last][p] == files[p])
  {
    var m' := m[SavePath(last.id) := last];
    forall v | v in init + [last]
      ensures SavePath(v.id) in m' && m'[SavePath(v.id)] == v
    {
      if v != last {
        assert v in init;
      }
    }
    forall p | forall v :: v in init + [last] ==> p != SavePath(v.id)
      ensures (p in m' <==> p in files) && (p in files ==> m'[p] == files[p])
    {
      assert last in init + [last];
      forall v | v in init ensures p != SavePath(v.id) {
        assert v in init + [last];
      }
    }
  }

  /** After a scrape, every video returned has a transcript, no two share an
      id, and each is the content of the file saved under its id. */
  lemma ScrapeSaved(files: map<string, YouTubeVideo>, cands: seq<VideoEntry>, fetch: string -> TranscriptFetch)
    ensures NoDup(Ids(Run(cands, {}, fetch).videos))
    ensures forall v :: v in Run(cands, {}, fetch).videos ==>
      v.transcript != "" && SavePath(v.id) in SaveAll(files, Run(cands, {}, fetch).videos)
      && SaveAll(files, Run(cands, {}, fetch).videos)[SavePath(v.id)] == v
  {
    RunIdsDistinct(cands, {}, fetch);
    RunSound(cands, {}, fetch);
    SaveAllSpec(files, Run(cands, {}, fetch).videos);
  }

  class YouTubeScraper {
    /** The JSON files under the data directory, by path. */
    var files: map<string, YouTubeVideo>

    constructor (existing: map<string, YouTubeVideo>)
      ensures files == existing
    {
      files := existing;
    }

    /** `save_video`: writes the video to its path, replacing any file
        there. */
    method SaveVideo(video: YouTubeVideo) returns (path: string)
      modifies this
      ensures path == SavePath(video.id)
      ensures files == old(files)[path := video]
    {
      path := SavePath(video.id);
      files := files[path := video];
    }

    /** One search result of the inner loop of `scrape`, the head of the
        candidates `rest` still to go: a seen id is skipped; otherwise it is
        marked seen and scraped, and the video is saved and kept when it has
        a transcript. `crashed` is the exception a null title raises, with
        the run's final state reached. */
    method ScrapeOne(entry: VideoEntry, ghost rest: seq<VideoEntry>, fetch: string -> TranscriptFetch,
                     ghost base: map<string, YouTubeVideo>, videos0: seq<YouTubeVideo>,
                     seen0: set<Option<string>>, ghost processed0: seq<Option<string>>, ghost target: Progress)
      returns (crashed: bool, videos: seq<YouTubeVideo>, seen: set<Option<string>>,
               ghost processed: seq<Option<string>>)
      requires rest != [] && rest[0] == entry
      requires Then(Progress(videos0, processed0, false), Run(rest, seen0, fetch)) == target
      requires files == SaveAll(base, videos0)
      modifies this
      ensures !crashed ==> Then(Progress(videos, processed, false), Run(rest[1..], seen, fetch)) == target
      ensures crashed ==> target == Progress(videos, processed, true)
      ensures files == SaveAll(base, videos)
    {
      videos, seen, processed, crashed := videos0, seen0, processed0, false;
      var key := IdKey(entry);
      if key in seen {
        RunSkip(videos, processed, rest, seen, fetch);
        return;
      }
      var scraped := ScrapeVideo(entry, fetch);
      if scraped.TitleNull? {
        RunStop(videos, processed, rest, seen, fetch);
        return true, videos, seen, processed + [key];
      }
      if scraped.Video? && scraped.video.transcript != "" {
        var _ := SaveVideo(scraped.video);
        SaveAllSnoc(base, videos, scraped.video);
        RunStep(videos, processed, rest, seen, fetch, [scraped.video]);
        videos := videos + [scraped.video];
      } else {
        RunStep(videos, processed, rest, seen, fetch, []);
        assert videos + [] == videos;
      }
      seen := seen + {key};
      processed := processed + [key];
    }

    /** The inner loop of `scrape` over one query's results, followed in
        the run by the candidates of the later queries. */
    method ScrapeResults(results: seq<VideoEntry>, ghost later: seq<VideoEntry>,
                         fetch: string -> TranscriptFetch, ghost base: map<string, YouTubeVideo>,
                         videos0: seq<YouTubeVideo>, seen0: set<Option<string>>,
                         ghost processed0: seq<Option<string>>, ghost target: Progress)
      returns (crashed: bool, videos: seq<YouTubeVideo>, seen: set<Option<string>>,
               ghost processed: seq<Option<string>>)
      requires Then(Progress(videos0, processed0, false), Run(results + later, seen0, fetch)) == target
      requires files == SaveAll(base, videos0)
      modifies this
      ensures !crashed ==> Then(Progress(videos, processed, false), Run(later, seen, fetch)) == target
      ensures crashed ==> target == Progress(videos, processed, true)
      ensures files == SaveAll(base, videos)
    {
      videos, seen, processed := videos0, seen0, processed0;
      assert results[0..] == results;
      for j := 0 to |results|
        invariant Then(Progress(videos, processed, false), Run(results[j..] + later, seen, fetch)) == target
        invariant files == SaveAll(base, videos)
      {
        ghost var rest := results[j..] + later;
        assert rest[0] == results[j] && rest[1..] == results[j + 1..] + later;
        crashed, videos, seen, processed := ScrapeOne(results[j], rest, fetch, base, videos, seen, processed, target);
        if crashed {
          return;
        }
      }
      assert results[|results|..] + later == later;
      crashed := false;
    }

    /** `scrape`: for each query in order, each search result whose id is
        not yet seen is marked seen and scraped, and saved and kept when it
        has a transcript. `None` is the exception a null title raises; the
        files saved before it stay. */
    method Scrape(queries: seq<string>, maxPerQuery: int, minViews: int,
                  search: string -> SearchOutcome, fetch: string -> TranscriptFetch)
      returns (r: Option<seq<YouTubeVideo>>)
      modifies this
      ensures r.None? <==> Run(Candidates(queries, maxPerQuery, minViews, search), {}, fetch).crashed
      ensures r.Some? ==> r.value == Run(Candidates(queries, maxPerQuery, minViews, search), {}, fetch).videos
      ensures files == SaveAll(old(files), Run(Candidates(queries, maxPerQuery, minViews, search), {}, fetch).videos)
    {
      ghost var all := Candidates(queries, maxPerQuery, minViews, search);
      ghost var target := Run(all, {}, fetch);
      assert Then(Progress([], [], false), target) == target;
      var videos: seq<YouTubeVideo> := [];
      var seen: set<Option<string>> := {};
      ghost var processed: seq<Option<string>> := [];
      for q := 0 to |queries|
        invariant Then(Progress(videos, processed, false),
                       Run(Candidates(queries[q..], maxPerQuery, minViews, search), seen, fetch))
                  == target
        invariant files == SaveAll(old(files), videos)
      {
        var results := SearchVideos(queries[q], maxPerQuery, minViews, search);
        ghost var later := Candidates(queries[q + 1..], maxPerQuery, minViews, search);
        assert queries[q..][1..] == queries[q + 1..];
        assert Candidates(queries[q..], maxPerQuery, minViews, search) == results + later;
        var crashed;
        crashed, videos, seen, processed :=
          ScrapeResults(results, later, fetch, old(files), videos, seen, processed, target);
        if crashed {
          return None;
        }
      }
      assert queries[|queries|..] == [];
      assert target.videos == videos + Run([], seen, fetch).videos;
      r := Some(videos);
    }

    /** `export_analysis`: the number of videos, their total views, the 30
        terms most often found in the lower-cased transcripts, and one row
        per video by descending views. Writing the file is not modelled. */
    method ExportAnalysis(videos: seq<YouTubeVideo>) returns (a: Analysis)
      ensures a.totalVideos == |videos|
      ensures a.totalViews == SumViews(videos)
      ensures a.topKeywords == MostCommon(KeywordCounts(videos, EXPORT_TERMS), TOP_KEYWORDS)
      ensures a.videos == Rows(SortDesc(videos, VideoViews))
      ensures |a.topKeywords| <= TOP_KEYWORDS
      ensures SortedDesc(a.videos, RowViews) && SumRowViews(a.videos) == a.totalViews
    {
      var counts: seq<(string, nat)> := [];
      for i := 0 to |videos|
        invariant counts == KeywordCounts(videos[..i], EXPORT_TERMS)
      {
        var text := Lower(videos[i].transcript);
        ghost var start := counts;
        for j := 0 to |EXPORT_TERMS|
          invariant counts == CountTerms(start, text, EXPORT_TERMS[..j])
        {
          assert EXPORT_TERMS[..j + 1][..j] == EXPORT_TERMS[..j];
          var c := CountOcc(text, EXPORT_TERMS[j]);
          if c > 0 {
            counts := Bump(counts, EXPORT_TERMS[j], c);
          }
        }
        assert EXPORT_TERMS[..|EXPORT_TERMS|] == EXPORT_TERMS;
        assert videos[..i + 1][..i] == videos[..i];
      }
      assert videos[..|videos|] == videos;
      TopKeywordsSpec(videos, EXPORT_TERMS, TOP_KEYWORDS);
      ExportRowsSpec(videos);
      a := Analysis(|videos|, SumViews(videos), MostCommon(counts, TOP_KEYWORDS), Rows(SortDesc(videos, VideoViews)));
    }
  }

  // ---- the exported analysis ----

  /** The terms counted in transcripts. */
  const EXPORT_TERMS: seq<string> := [
    "script", "local script", "module script", "server script",
    "remote event", "remote function", "bindable",
    "datastore", "data store", "save data",
    "tween", "animation", "animate",
    "gui", "screen gui", "surface gui", "billboard",
    "part", "mesh", "union", "model",
    "player", "character", "humanoid", "tool",
    "workspace", "replicated storage", "server storage",
    "raycast", "collision", "physics",
    "touched", "click", "input",
    "loop", "while", "for loop", "function",
    "table", "array", "dictionary",
    "pathfinding", "ai", "npc",
    "chat", "filter",
    "gamepass", "dev product", "robux", "monetize",
    "obby", "simulator", "tycoon", "fps", "rpg"
  ]

  const TOP_KEYWORDS: nat := 30
  const PREVIEW_LENGTH: nat := 500

  /** `s.count(p)`: the number of non-overlapping occurrences of `p`, taken
      from the left; `len(s) + 1` for the empty `p`. */
  function CountOcc(s: string, p: string): nat
    decreases |s|
  {
    if p == [] then |s| + 1
    else if |s| < |p| then 0
    else if s[..|p|] == p then 1 + CountOcc(s[|p|..], p)
    else CountOcc(s[1..], p)
  }

  lemma MulDistributes(a: int, b: int, c: int)
    ensures a * (b + c) == a * b + a * c
  {
  }

  lemma MulDistributesRight(a: int, b: int, c: int)
    ensures (b + c) * a == b * a + c * a
  {
  }

  lemma MulPositive(a: int, b: int)
    requires a > 0 && b > 0
    ensures a * b > 0
  {
  }

  lemma MulFactorsPositive(a: nat, b: nat)
    ensures a * b > 0 ==> a > 0 && b > 0
  {
    if a == 0 || b == 0 {
      assert a * b == 0;
    }
  }

  lemma {:induction false} ContainsFits(s: string, p: string)
    requires Contains(s, p)
    ensures |p| <= |s|
    decreases |s|
  {
    if !StartsWith(s, p) {
      ContainsFits(s[1..], p);
    }
  }

  /** A non-empty term is counted exactly when it occurs. */
  lemma {:induction false} CountOccContains(s: string, p: string)
    requires p != []
    ensures CountOcc(s, p) > 0 <==> Contains(s, p)
    decreases |s|
  {
    if |s| >= |p| && s[..|p|] != p {
      CountOccContains(s[1..], p);
    } else if |s| < |p| && Contains(s, p) {
      ContainsFits(s, p);
    }
  }

  /** Occurrences counted do not overlap: together they fit in `s`. */
  lemma {:induction false} CountOccFits(s: string, p: string)
    requires p != []
    ensures CountOcc(s, p) * |p| <= |s|
    decreases |s|
  {
    if |s| >= |p| {
      if s[..|p|] == p {
        var c := CountOcc(s[|p|..], p);
        CountOccFits(s[|p|..], p);
        assert CountOcc(s, p) == 1 + c;
        MulDistributesRight(|p|, 1, c);
        assert CountOcc(s, p) * |p| == |p| + c * |p|;
      } else {
        CountOccFits(s[1..], p);
        assert CountOcc(s, p) == CountOcc(s[1..], p);
      }
    }
  }

  /** The inner loop: each term in order, with its count in `text` added
      when positive. */
  function CountTerms(t: seq<(string, nat)>, text: string, terms: seq<string>): seq<(string, nat)>
  {
    if terms == [] then t
    else
      var before := CountTerms(t, text, terms[..|terms| - 1]);
      var term := terms[|terms| - 1];
      var c := CountOcc(text, term);
      if c > 0 then Bump(before, term, c) else before
  }

  /** The counter after every video's lower-cased transcript, in order. */
  function KeywordCounts(videos: seq<YouTubeVideo>, terms: seq<string>): seq<(string, nat)>
  {
    if videos == [] then []
    else CountTerms(KeywordCounts(videos[..|videos| - 1], terms), Lower(videos[|videos| - 1].transcript), terms)
  }

  /** The occurrences of `term` over all lower-cased transcripts. */
  function Occurrences(videos: seq<YouTubeVideo>, term: string): nat
  {
    if videos == [] then 0
    else Occurrences(videos[..|videos| - 1], term) + CountOcc(Lower(videos[|videos| - 1].transcript), term)
  }

  /** A term occurs somewhere when some transcript contains it. */
  lemma {:induction false} OccurrencesSpec(videos: seq<YouTubeVideo>, term: string)
    requires term != []
    ensures Occurrences(videos, term) > 0 <==> exists v :: v in videos && Contains(Lower(v.transcript), term)
  {
    if videos != [] {
      var init, last := videos[..|videos| - 1], videos[|videos| - 1];
      OccurrencesSpec(init, term);
      CountOccContains(Lower(last.transcript), term);
      assert videos == init + [last];
      assert forall v :: v in videos <==> v in init || v == last;
      assert Occurrences(videos, term) == Occurrences(init, term) + CountOcc(Lower(last.transcript), term);
    }
  }

  /** The inner loop adds each term's count in `text`, once per listing. */
  lemma {:induction false} CountTermsSpec(t: seq<(string, nat)>, text: string, terms: seq<string>)
    requires NoDup(Keys(t)) && forall e :: e in t ==> e.1 > 0
    ensures NoDup(Keys(CountTerms(t, text, terms)))
    ensures forall e :: e in CountTerms(t, text, terms) ==> e.1 > 0
    ensures forall x :: CountIn(CountTerms(t, text, terms), x) == CountIn(t, x) + multiset(terms)[x] * CountOcc(text, x)
  {
    if terms != [] {
      var init, term := terms[..|terms| - 1], terms[|terms| - 1];
      CountTermsSpec(t, text, init);
      var before := CountTerms(t, text, init);
      var c := CountOcc(text, term);
      assert terms == init + [term];
      if c > 0 {
        BumpNoDup(before, term, c);
        BumpPositive(before, term, c);
      }
      forall x ensures CountIn(CountTerms(t, text, terms), x) == CountIn(t, x) + multiset(terms)[x] * CountOcc(text, x) {
        CountTermsStep(t, text, init, term, x);
      }
    }
  }

  lemma CountTermsStep(t: seq<(string, nat)>, text: string, init: seq<string>, term: string, x: string)
    requires NoDup(Keys(CountTerms(t, text, init)))
    requires CountIn(CountTerms(t, text, init), x) == CountIn(t, x) + multiset(init)[x] * CountOcc(text, x)
    ensures CountIn(CountTerms(t, text, init + [term]), x)
            == CountIn(t, x) + multiset(init + [term])[x] * CountOcc(text, x)
  {
    var terms := init + [term];
    assert terms[..|terms| - 1] == init;
    var before := CountTerms(t, text, init);
    var c := CountOcc(text, term);
    var m := multiset(init)[x];
    var d := if x == term then 1 else 0;
    assert multiset(terms)[x] == m + d;
    MulDistributesRight(CountOcc(text, x), m, d);
    if c > 0 {
      BumpCountIn(before, term, c, x);
    }
  }

  /** Every term's count is its number of listings times its occurrences
      over all transcripts; no term is listed twice in the counter, and every
      listed count is positive. */
  lemma {:induction false} KeywordCountsSpec(videos: seq<YouTubeVideo>, terms: seq<string>)
    ensures NoDup(Keys(KeywordCounts(videos, terms)))
    ensures forall e :: e in KeywordCounts(videos, terms) ==> e.1 > 0
    ensures forall x :: CountIn(KeywordCounts(videos, terms), x) == multiset(terms)[x] * Occurrences(videos, x)
  {
    if videos != [] {
      var init := videos[..|videos| - 1];
      var text := Lower(videos[|videos| - 1].transcript);
      KeywordCountsSpec(init, terms);
      CountTermsSpec(KeywordCounts(init, terms), text, terms);
      forall x ensures CountIn(KeywordCounts(videos, terms), x) == multiset(terms)[x] * Occurrences(videos, x) {
        MulDistributes(multiset(terms)[x], Occurrences(init, x), CountOcc(text, x));
      }
    }
  }

  /** The counter holds exactly the terms that occur, each with its total. */
  lemma KeywordCountsEntries(videos: seq<YouTubeVideo>, terms: seq<string>)
    ensures forall e :: e in KeywordCounts(videos, terms) ==>
      e.0 in terms && Occurrences(videos, e.0) > 0 && e.1 == multiset(terms)[e.0] * Occurrences(videos, e.0)
    ensures forall x :: x in terms && Occurrences(videos, x) > 0 ==> x in Keys(KeywordCounts(videos, terms))
  {
    var t := KeywordCounts(videos, terms);
    KeywordCountsSpec(videos, terms);
    forall e | e in t
      ensures e.0 in terms && Occurrences(videos, e.0) > 0 && e.1 == multiset(terms)[e.0] * Occurrences(videos, e.0)
    {
      var i :| 0 <= i < |t| && t[i] == e;
      EntryCount(t, i);
      assert e.1 == CountIn(t, e.0) == multiset(terms)[e.0] * Occurrences(videos, e.0);
      MulFactorsPositive(multiset(terms)[e.0], Occurrences(videos, e.0));
    }
    forall x | x in terms && Occurrences(videos, x) > 0 ensures x in Keys(t) {
      MulPositive(multiset(terms)[x], Occurrences(videos, x));
      PresentCount(t, x);
    }
  }

  /** `keyword_counts.most_common(n)`: at most `n` terms that occur, each
      with its total, none twice, by descending count; no term left out
      counts more than one kept. */
  lemma TopKeywordsSpec(videos: seq<YouTubeVideo>, terms: seq<string>, n: int)
    ensures |MostCommon(KeywordCounts(videos, terms), n)| <= if n <= 0 then 0 else n
    ensures SortedDesc(MostCommon(KeywordCounts(videos, terms), n), CountOf)
    ensures NoDup(Keys(MostCommon(KeywordCounts(videos, terms), n)))
    ensures forall e :: e in MostCommon(KeywordCounts(videos, terms), n) ==>
      e.0 in terms && Occurrences(videos, e.0) > 0 && e.1 == multiset(terms)[e.0] * Occurrences(videos, e.0)
    ensures forall x, i :: x in terms && x !in Keys(MostCommon(KeywordCounts(videos, terms), n))
                           && 0 <= i < |MostCommon(KeywordCounts(videos, terms), n)| ==>
      multiset(terms)[x] * Occurrences(videos, x) <= MostCommon(KeywordCounts(videos, terms), n)[i].1
  {
    var t := KeywordCounts(videos, terms);
    KeywordCountsSpec(videos, terms);
    KeywordCountsEntries(videos, terms);
    MostCommonSpec(t, n);
    TopKeywordsDominate(videos, terms, n);
  }

  lemma TopKeywordsDominate(videos: seq<YouTubeVideo>, terms: seq<string>, n: int)
    ensures forall x, i :: x in terms && x !in Keys(MostCommon(KeywordCounts(videos, terms), n))
                           && 0 <= i < |MostCommon(KeywordCounts(videos, terms), n)| ==>
      multiset(terms)[x] * Occurrences(videos, x) <= MostCommon(KeywordCounts(videos, terms), n)[i].1
  {
    var t := KeywordCounts(videos, terms);
    KeywordCountsSpec(videos, terms);
    MostCommonSpec(t, n);
    var r := MostCommon(t, n);
    forall x, i | x in terms && x !in Keys(r) && 0 <= i < |r|
      ensures multiset(terms)[x] * Occurrences(videos, x) <= r[i].1
    {
      assert CountIn(t, x) == multiset(terms)[x] * Occurrences(videos, x);
      if CountIn(t, x) > 0 {
        PresentCount(t, x);
        var m :| 0 <= m < |t| && Keys(t)[m] == x;
        EntryCount(t, m);
        assert t[m] in t;
      }
    }
  }

  /** One row of the exported video list. */
  datatype Row = Row(title: string, channel: Option<string>, views: int, url: string, transcriptPreview: string)

  function RowOf(v: YouTubeVideo): Row
  {
    Row(v.title, v.channel, v.views, v.url, if v.transcript != "" then Prefix(v.transcript, PREVIEW_LENGTH) else "")
  }

  /** The preview is the first 500 characters of the transcript. */
  lemma RowOfSpec(v: YouTubeVideo)
    ensures |RowOf(v).transcriptPreview| <= PREVIEW_LENGTH
    ensures StartsWith(v.transcript, RowOf(v).transcriptPreview)
    ensures |RowOf(v).transcriptPreview| == if |v.transcript| <= PREVIEW_LENGTH then |v.transcript| else PREVIEW_LENGTH
    ensures |v.transcript| <= PREVIEW_LENGTH ==> RowOf(v).transcriptPreview == v.transcript
  {
  }

  function Rows(videos: seq<YouTubeVideo>): (r: seq<Row>)
    ensures |r| == |videos| && forall i :: 0 <= i < |videos| ==> r[i] == RowOf(videos[i])
  {
    seq(|videos|, i requires 0 <= i < |videos| => RowOf(videos[i]))
  }

  function VideoViews(v: YouTubeVideo): int
  {
    v.views
  }

  function RowViews(r: Row): int
  {
    r.views
  }

  /** `sum(v.views for v in videos)`. */
  function SumViews(videos: seq<YouTubeVideo>): int
  {
    if videos == [] then 0 else videos[0].views + SumViews(videos[1..])
  }

  function SumRowViews(rows: seq<Row>): int
  {
    if rows == [] then 0 else rows[0].views + SumRowViews(rows[1..])
  }

  lemma {:induction false} SumViewsSnoc(s: seq<YouTubeVideo>, x: YouTubeVideo)
    ensures SumViews(s + [x]) == SumViews(s) + x.views
  {
    if s != [] {
      assert (s + [x])[1..] == s[1..] + [x];
      SumViewsSnoc(s[1..], x);
    }
  }

  lemma {:induction false} SumViewsInsert(x: YouTubeVideo, r: seq<YouTubeVideo>)
    ensures SumViews(Insert(x, r, VideoViews)) == x.views + SumViews(r)
  {
    if r != [] && VideoViews(r[0]) >= VideoViews(x) {
      SumViewsInsert(x, r[1..]);
      assert Insert(x, r, VideoViews)[1..] == Insert(x, r[1..], VideoViews);
    } else if r != [] {
      assert Insert(x, r, VideoViews)[1..] == r;
    }
  }

  /** Sorting keeps the total views. */
  lemma {:induction false} SumViewsSorted(s: seq<YouTubeVideo>)
    ensures SumViews(SortDesc(s, VideoViews)) == SumViews(s)
  {
    if s != [] {
      var init, last := s[..|s| - 1], s[|s| - 1];
      SumViewsSorted(init);
      SumViewsInsert(last, SortDesc(init, VideoViews));
      SumViewsSnoc(init, last);
      assert s == init + [last];
    }
  }

  lemma {:induction false} SumRowsOf(s: seq<YouTubeVideo>)
    ensures SumRowViews(Rows(s)) == SumViews(s)
  {
    if s != [] {
      SumRowsOf(s[1..]);
      assert Rows(s)[1..] == Rows(s[1..]);
    }
  }

  /** The exported rows: one per video, by descending views (ties in input
      order), with a row for every video and a video for every row; their
      views add up to the exported total. */
  lemma ExportRowsSpec(videos: seq<YouTubeVideo>)
    ensures |Rows(SortDesc(videos, VideoViews))| == |videos|
    ensures SortedDesc(Rows(SortDesc(videos, VideoViews)), RowViews)
    ensures forall v :: v in videos ==> RowOf(v) in Rows(SortDesc(videos, VideoViews))
    ensures forall row :: row in Rows(SortDesc(videos, VideoViews)) ==> exists v :: v in videos && row == RowOf(v)
    ensures SumRowViews(Rows(SortDesc(videos, VideoViews))) == SumViews(videos)
  {
    var sorted := SortDesc(videos, VideoViews);
    SortDescSpec(videos, VideoViews);
    SumViewsSorted(videos);
    SumRowsOf(sorted);
    RowsSorted(sorted);
    RowsOfPermutation(videos, sorted);
  }

  /** Rows of videos ordered by views are ordered by views. */
  lemma RowsSorted(sorted: seq<YouTubeVideo>)
    requires SortedDesc(sorted, VideoViews)
    ensures SortedDesc(Rows(sorted), RowViews)
  {
    var rows := Rows(sorted);
    forall i, j | 0 <= i < j < |rows| ensures RowViews(rows[i]) >= RowViews(rows[j]) {
      assert VideoViews(sorted[i]) >= VideoViews(sorted[j]);
    }
  }

  /** The rows of a permutation of `videos` are the rows of `videos`. */
  lemma RowsOfPermutation(videos: seq<YouTubeVideo>, sorted: seq<YouTubeVideo>)
    requires multiset(sorted) == multiset(videos)
    ensures forall v :: v in videos ==> RowOf(v) in Rows(sorted)
    ensures forall row :: row in Rows(sorted) ==> exists v :: v in videos && row == RowOf(v)
  {
    var rows := Rows(sorted);
    forall v | v in videos ensures RowOf(v) in rows {
      assert v in multiset(videos);
      var i :| 0 <= i < |sorted| && sorted[i] == v;
      assert rows[i] == RowOf(v);
    }
    forall row | row in rows ensures exists v :: v in videos && row == RowOf(v) {
      var i :| 0 <= i < |rows| && rows[i] == row;
      assert sorted[i] in multiset(sorted);
      assert sorted[i] in videos;
    }
  }

  /** What `export_analysis` writes. */
  datatype Analysis = Analysis(totalVideos: nat, totalViews: int, topKeywords: seq<(string, nat)>, videos: seq<Row>)
}
